=== FILE: README.md ===
# collab, modelled in Dafny

This project models the core of the `collab` package, a Twisted/XMPP system for distributed Monte Carlo
credit-portfolio simulations. Nodes talk over XMPP publish-subscribe (XEP-0060). A defaults manager
checks and relays start and stop requests. Simulators run each job in chunks and publish results. A
distributions manager sums those results into per-run histograms and stops a run once enough trials
are counted. A system manager offers ad-hoc command wizards (XEP-0050) through a service-discovery
menu (XEP-0030).

The model is functional. Every entity is an immutable datatype and every operation a pure function
from the old state and the inputs to the new state plus the effects it produces. Specifically:

- Each asynchronous publish, subscribe or node creation is an explicit outcome input
  (`Succeeded` or `Failed(reason)`). A handler returns the publishes it attempts as a list of effects.
- XML is an abstract element tree (`Xml.Element`). Every reader returns a `Result`, so each parse
  error of the source has its own case.
- A Python dictionary's iteration order is an explicit `order` sequence, tied to the keys by
  `Collections.IsOrder`. A property that holds for every iteration order is proved for every `order`.
- Python integers are Dafny `int`. Floats are exact decimals written in plain notation
  (`NumberText.Decimal`). The text codecs `int()`/`str()` and `float()`/`str()` are modelled with
  their round trips.
- Where the source is wrong (see "## Findings"), the member takes a `Rule`. `AsWritten` is the
  behaviour of the code as it stands and `Corrected` is the evidently intended one. Both are proved.

One Dafny module models each source file:

| module | file | what it models |
|---|---|---|
| `Collab` | `__init__.py` | `service_name`, `SERVICES`, `COLLAB_COMPONENTS` |
| `Simulation` | `simulation.py` | `Parameters`, `Distributions` and `combine`, `Progress`, `Logger`, their XML forms and the `get*` helpers |
| `Portfolios` | `portfolio.py` | `Asset`, `Issuer`, `Factor`, `Portfolio`: clamping, XML forms, derived views and maps |
| `Nodes` | `nodes.py` | input subscription, output and error channels, publishing routes, `suspendAll`/`reloadAll` |
| `CollabNode` | `collabNode.py` | `itemsReceived`, the load check, `broadcastStop`/`broadcastLogs`, `_errback` |
| `DistributionsManager` | `distributionsManager.py` | cumulative histograms, the stop condition, stop emission and cleanup |
| `Simulator` | `correlatedDefaultsSimulator.py` | the per-run task map, the chunk and broadcast schedule, stopping |
| `DefaultsManager` | `correlatedDefaultsManager.py` | the start/stop relay and its checks |
| `StateManager` | `stateManager.py` | state changers, the state history, affiliations, node naming |
| `PageManager` | `pageManager.py` | the page index state machine |
| `Commands` | `command.py` | `Actions`, `Note`, `Command` and their XML forms |
| `CommandSystem` | `xmppCommandSystem.py` | chain-of-responsibility dispatch and the handlers' processing |
| `MenuSystem` | `xmppMenuSystem.py` | the service-discovery node tree |
| `Wizards` | `wizards.py` | wiring wizards into the menu and the handler chain, `makeHosts` |
| `SystemManager` | `collabSystemManager.py` | discovery lookups, `connectionMade`, `handleRequest` |
| `PubSubRequest` | `pubsubRequestWithAffiliations.py` | affiliation and subscription parsers and renderers |
| `Pages` | `pages.py` | the publisher and subscriber option filters |

The support modules are:

- `Wrappers`: `Option`, `Result`, `Outcome` and `Rule`.
- `Xml`: the element tree.
- `NumberText`: numbers as text.
- `Collections`: iteration orders and map helpers.

## Model

| member | source | states |
|---|---|---|
| Collab.ServiceNameSpec | src/python/collab/collab/__init__.py:62-63 | `service_name` is the name's characters with every whitespace character dropped, each lower-cased; the result has no whitespace |
| Collab.SplitJoin | src/python/collab/collab/__init__.py:63 | joining the words of `str.split()` gives the string without its whitespace |
| Collab.ServiceNameIdempotent | src/python/collab/collab/__init__.py:62-63 | applying `service_name` to a service name changes nothing |
| Collab.ServicesKeys | src/python/collab/collab/__init__.py:66 | SERVICES has a key exactly for every non-empty twistd plugin name of INFO |
| Collab.ServicesLastWins | src/python/collab/collab/__init__.py:66 | a plugin named by a row and by no later row maps to that row's service name |
| Collab.Components | src/python/collab/collab/__init__.py:68 | COLLAB_COMPONENTS has one "name: role" line per INFO row, in the rows' order |
| NumberText.ParseShowInt | src/python/collab/collab/simulation.py:56-73 | `int(str(n))` gives `n` back for every integer |
| NumberText.ParseInt | src/python/collab/collab/simulation.py:73 | `int(s)` succeeds only on text that has something left after stripping whitespace |
| NumberText.ParseIntAccepts | src/python/collab/collab/simulation.py:73 | every text of whitespace, an optional sign with optional whitespace after it, at least one digit and whitespace is read as the signed value of its digits |
| NumberText.ParseIntShape | src/python/collab/collab/simulation.py:73 | conversely, every text `int()` reads has that shape, and its value is the signed value of its digits |
| NumberText.ParsePaddedShowInt | src/python/collab/collab/simulation.py:73 | `int(str(n))` gives `n` back with any whitespace around the text |
| NumberText.IntErrorPlain | src/python/collab/collab/simulation.py:161-166 | for a short text of plain characters the `ValueError` reads "invalid literal for int() with base 10: '<text>'" |
| NumberText.ParseShowDecimal | src/python/collab/collab/portfolio.py:43-62 | `float(str(x))` gives `x` back for every decimal written in plain notation |
| Simulation.ParseCommandText | src/python/collab/collab/simulation.py:27 | every command of the closed set `cmds` is recognised as itself |
| Simulation.ParseCommand | src/python/collab/collab/simulation.py:27-38 | a text is accepted as a command only when it is one; a rejected text is no command |
| Simulation.NewParameters | src/python/collab/collab/simulation.py:37-44 | the constructor fails with "Invalid command X" exactly for a command outside `cmds`; otherwise keeps the fields, takes the absolute run count and the given timestamp or the clock's |
| Simulation.DefaultParameters | src/python/collab/collab/simulation.py:19-37 | `Parameters()` is the constructor with run id '0', no output, 1000000 runs, 'info' and the clock's time |
| Simulation.SetCommand | src/python/collab/collab/simulation.py:46-49 | `setCommand` fails with "Invalid command X" exactly for an unknown command and otherwise changes only the command |
| Simulation.ParametersFromElement | src/python/collab/collab/simulation.py:61-82 | fails with "Cannot find parameters" exactly when no simulation element with a parameters child is found; then raises `ValueError` with `int()`'s message exactly when number_runs is present and not an integer; then fails with "Invalid command X" exactly when the command, 'info' when absent, is outside `cmds`; otherwise reads run id, output and command, the absolute run count (1000000 when absent) and the timestamp text |
| Simulation.ParametersRoundTrip | src/python/collab/collab/simulation.py:51-82 | writing parameters with `toElement` and reading them with `fromElement` gives the same parameters |
| Simulation.WrittenFields | src/python/collab/collab/simulation.py:51-59 | each of the five fields written reads back as its text |
| Simulation.Combine | src/python/collab/collab/simulation.py:105-110 | the loop over the delta's points leaves the named histogram holding the pointwise sum, whatever the iteration order |
| Simulation.CombinedSpec | src/python/collab/collab/simulation.py:105-110 | after `combine(n, delta)` histogram n counts old plus delta at every point, n is present, and every other histogram is unchanged |
| Simulation.CombineCommutes | src/python/collab/collab/simulation.py:105-110 | combining two deltas into one name gives the same distributions in either order |
| Simulation.CombineAssociates | src/python/collab/collab/simulation.py:105-110 | combining two deltas one after the other equals combining their sum once |
| Simulation.CombinedTwice | src/python/collab/collab/simulation.py:105-110 | two combines into one name update that name only, to the old histogram plus both deltas |
| Simulation.ReadDatum | src/python/collab/collab/simulation.py:160-166 | a datum reads exactly when both attributes are present and integers; otherwise, point before value, a missing attribute fails with 'Bad data structure: ' and the key's `repr()`, a non-integer with 'Bad data: ' and `int()`'s message |
| Simulation.MissingPointMessage | src/python/collab/collab/simulation.py:163-164 | a data element without a point fails with "Bad data structure: 'point'" |
| Simulation.NonIntegerPointMessage | src/python/collab/collab/simulation.py:165-166 | a data element with point 'x' fails with "Bad data: invalid literal for int() with base 10: 'x'" |
| Simulation.BadStructurePlain | src/python/collab/collab/simulation.py:163-164 | for a key of plain characters the message quotes the key: "Bad data structure: '<key>'" |
| Simulation.ReadData | src/python/collab/collab/simulation.py:157-166 | the data loop fails exactly when some data child is bad, with the error of the first bad one, and otherwise adds each value at its point |
| Simulation.ReadHistograms | src/python/collab/collab/simulation.py:148-166 | the histogram loop fails exactly when some histogram is unnamed or has bad data |
| Simulation.ReadHistogramsSpec | src/python/collab/collab/simulation.py:148-166 | a successful loop yields the named histograms, same-named ones merged, each point's count the sum of its data values |
| Simulation.DistributionsFromElement | src/python/collab/collab/simulation.py:130-168 | reading fails with "No distributions found" without a distributions element and only with distribution errors; success is exactly when every histogram child is well formed |
| Simulation.DistributionsRoundTrip | src/python/collab/collab/simulation.py:112-168 | distributions without an unnamed histogram, written in any iteration order, read back unchanged |
| Simulation.ProgressFromElement | src/python/collab/collab/simulation.py:194-206 | reading fails with "No progress" exactly when no progress element is found; otherwise the run count is `int()` of the runs text, or 0 when that text is missing or not an integer |
| Simulation.ProgressRoundTrip | src/python/collab/collab/simulation.py:189-206 | writing progress and reading it back gives the same run count |
| Simulation.AddLog | src/python/collab/collab/simulation.py:226-227 | `addLog` appends the message to its severity's list, adds the severity, and leaves every other severity alone |
| Simulation.AddLogsSpec | src/python/collab/collab/simulation.py:226-230 | logging a list of entries appends, per severity, that severity's messages in order; a severity is present exactly when it was present or logged |
| Simulation.LoggerFromElement | src/python/collab/collab/simulation.py:239-250 | reading fails with "Not a log" exactly without a logger element; each child with content logs its first child under its name, childless ones are skipped |
| Simulation.LoggerRoundTrip | src/python/collab/collab/simulation.py:232-250 | a logger whose severities each hold messages that are not empty text is written and read back unchanged |
| Simulation.GetParameters | src/python/collab/collab/simulation.py:253-257 | `getParameters` returns the parsed parameters, or logs the parse error under 'error' and returns none; a `ValueError` propagates |
| Simulation.GetDistributions | src/python/collab/collab/simulation.py:259-263 | `getDistributions` returns the distributions, or logs the parse error under 'error' and returns none |
| Simulation.GetProgress | src/python/collab/collab/simulation.py:265-269 | `getProgress` returns the progress, or logs "No progress" under 'error' and returns none |
| Simulation.GetWrittenParameters | src/python/collab/collab/simulation.py:51-82 | `getParameters` on written parameters returns them and logs nothing |
| Simulation.GetWrittenDistributions | src/python/collab/collab/simulation.py:112-168 | `getDistributions` on written distributions returns them and logs nothing |
| Simulation.GetWrittenProgress | src/python/collab/collab/simulation.py:189-206 | `getProgress` on a written progress returns it and logs nothing |
| Portfolios.Clamp | src/python/collab/collab/portfolio.py:33-38 | `max(min(x, 1.0), 0.0)` lies in [0, 1], keeps a value already there, and sends values above 1 to 1 and below 0 to 0 |
| Portfolios.ClampIdempotent | src/python/collab/collab/portfolio.py:119-121 | clamping a clamped value changes nothing |
| Portfolios.NewFactor | src/python/collab/collab/portfolio.py:119-121 | a factor keeps its name and holds its weight clamped into [0, 1] |
| Portfolios.NewAsset | src/python/collab/collab/portfolio.py:33-38 | an asset keeps name, notional and issuer, and holds dp and recovery clamped into [0, 1] |
| Portfolios.DefaultAsset | src/python/collab/collab/portfolio.py:18-33 | `Asset(name)` has dp and recovery 1.0 and no issuer |
| Portfolios.FactorCompare | src/python/collab/collab/portfolio.py:123-131 | factors compare equal exactly when their names are equal, and otherwise in the names' order |
| Portfolios.FactorCompareSwap | src/python/collab/collab/portfolio.py:123-131 | comparison is antisymmetric and does not look at the weight |
| Portfolios.ReadFloat | src/python/collab/collab/portfolio.py:56-62 | `float(text)` succeeds exactly on number text and raises `ValueError` otherwise |
| Portfolios.FactorFromElement | src/python/collab/collab/portfolio.py:140-149 | reading fails with 'no name' exactly when the name is missing, otherwise with 'no weighting' or a bad number; a read factor's weight is in [0, 1] |
| Portfolios.ReadFactors | src/python/collab/collab/portfolio.py:102-104 | the factor loop succeeds with one factor per child, each as read alone, or fails with the error of some child |
| Portfolios.IssuerFromElement | src/python/collab/collab/portfolio.py:93-106 | reading fails with 'no name' exactly when the name is missing, otherwise with 'no factors' or a factor error |
| Portfolios.OptionalIssuer | src/python/collab/collab/portfolio.py:63-65 | an asset's issuer comes from its first issuer child, and is absent without one |
| Portfolios.AssetFromElement | src/python/collab/collab/portfolio.py:50-67 | reading fails with 'No asset name' exactly when the name is missing; the numbers default and are clamped; issuer errors propagate |
| Portfolios.ReadAssets | src/python/collab/collab/portfolio.py:233-235 | the asset loop succeeds with one asset per child, each as read alone, or fails with the error of some child |
| Portfolios.PortfolioFromElement | src/python/collab/collab/portfolio.py:221-237 | reading fails with 'Not a portfolio' exactly when no portfolio element is found anywhere; otherwise 'no name', 'no assets' or an asset error |
| Portfolios.GetPortfolio | src/python/collab/collab/portfolio.py:240-244 | `getPortfolio` returns the portfolio, or logs a portfolio error under 'error' and returns none; a `ValueError` propagates |
| Portfolios.FactorRoundTrip | src/python/collab/collab/portfolio.py:134-149 | a factor with weight in [0, 1] is written and read back unchanged |
| Portfolios.ReadWrittenFactors | src/python/collab/collab/portfolio.py:89-104 | a written list of factors reads back as the same list |
| Portfolios.IssuerRoundTrip | src/python/collab/collab/portfolio.py:85-106 | an issuer of valid factors is written and read back unchanged |
| Portfolios.AssetRoundTrip | src/python/collab/collab/portfolio.py:40-67 | a valid asset, with or without an issuer, is written and read back unchanged |
| Portfolios.ReadWrittenAssets | src/python/collab/collab/portfolio.py:217-235 | a written list of valid assets reads back as the same list |
| Portfolios.PortfolioRoundTrip | src/python/collab/collab/portfolio.py:213-237 | a valid portfolio is written and read back unchanged |
| Portfolios.GetWrittenPortfolio | src/python/collab/collab/portfolio.py:240-244 | `getPortfolio` on a written portfolio returns it and logs nothing |
| Portfolios.WithIssuerMembers | src/python/collab/collab/portfolio.py:171 | the assets kept are exactly those that have an issuer |
| Portfolios.IssuersSpec | src/python/collab/collab/portfolio.py:170-171 | `issuers()` holds an issuer exactly when some asset has it |
| Portfolios.AllFactorsSpec | src/python/collab/collab/portfolio.py:188-194 | `all_factors()` holds a factor exactly when some asset's issuer lists it |
| Portfolios.FirstPerNameSpec | src/python/collab/collab/portfolio.py:176-186 | the `factors()` loop keeps no name twice, nothing already seen, and each kept factor is the first of its name |
| Portfolios.FirstPerNameCovers | src/python/collab/collab/portfolio.py:176-186 | the loop keeps a factor of every name that occurs and was not seen before |
| Portfolios.FactorsSpec | src/python/collab/collab/portfolio.py:176-186 | `factors()` holds one factor per name, the first of that name over all issuers' factors, and covers every name of `all_factors()` |
| Portfolios.IndicesSpec | src/python/collab/collab/portfolio.py:168-197 | a `dict` built from `enumerate` has a key exactly for each listed name, mapped to a position holding that name |
| Portfolios.IssuerIndicesSpec | src/python/collab/collab/portfolio.py:170-174 | `issuer_indices()` numbers the distinct issuers in the set's iteration order: a name is indexed exactly when some asset has an issuer of that name, at a position below the number of distinct issuers that holds such an issuer |
| Portfolios.FactorIndicesSpec | src/python/collab/collab/portfolio.py:196-197 | each factor of `factors()` is indexed by its own position |
| Portfolios.AssetMapsKeys | src/python/collab/collab/portfolio.py:199-205 | `defaultProbabilities()` and `asset_issuer_map()` have a key exactly for each asset name that has an issuer |
| Portfolios.AssetMapsValues | src/python/collab/collab/portfolio.py:199-205 | a name maps to the dp and issuer of the last asset with that name and an issuer |
| Portfolios.IssuerAssetMapSpec | src/python/collab/collab/portfolio.py:207-210 | `issuer_asset_map()` has a key for each issuer name with assets, mapped to that issuer's assets in order |
| Nodes.PublishersMembers | src/python/collab/collab/nodes.py:103-158 | a node is selected exactly when the JID is its publisher and its name contains 'error' (error channels) or does not (output channels) |
| Nodes.PublishersAppend | src/python/collab/collab/nodes.py:103-158 | the selection keeps the affiliations' iteration order |
| Nodes.ChannelsPartition | src/python/collab/collab/nodes.py:96-160 | both channel lists start with 'log'; past it the output and error channels are disjoint and together are exactly the publisher nodes |
| Nodes.RouteSpec | src/python/collab/collab/nodes.py:121-183 | the cooperative loop handles the channels in order, each once; it fails exactly when one of the publications fails, and then stops there |
| Nodes.RouteNeverPublishesLog | src/python/collab/collab/nodes.py:123-174 | the 'log' channel is written locally and never published |
| Nodes.OnOutput | src/python/collab/collab/nodes.py:116-137 | a failed affiliation lookup publishes nothing and fails with its error; 'log' is never published |
| Nodes.OnError | src/python/collab/collab/nodes.py:165-186 | a failed affiliation lookup publishes nothing and fails with its error; 'log' is never published |
| Nodes.OutputAndErrorLogFirst | src/python/collab/collab/nodes.py:100-174 | output and error both write the local log first |
| Nodes.AddInput | src/python/collab/collab/nodes.py:36-56 | a subscription is requested exactly when the subscriptions were read and the channel is not among them; its outcome is the call's |
| Nodes.RemoveInput | src/python/collab/collab/nodes.py:58-77 | an unsubscription is requested exactly when the subscriptions were read and the channel is among them; its outcome is the call's |
| Nodes.AddInputIdempotent | src/python/collab/collab/nodes.py:36-56 | after a successful `addInput` the channel is subscribed to, and a second `addInput` requests nothing |
| Nodes.RemoveInputIdempotent | src/python/collab/collab/nodes.py:58-77 | after a successful `removeInput` the channel is not subscribed to, and a second `removeInput` requests nothing |
| Nodes.AddThenRemove | src/python/collab/collab/nodes.py:36-77 | adding then removing a channel not subscribed to, both succeeding, restores the subscriptions |
| Nodes.NeverOverloaded | src/python/collab/collab/nodes.py:199-203 | `NonTrippingLoadBalancer.overloaded` is false whatever the environment |
| Nodes.PruneSpec | src/python/collab/collab/nodes.py:210-247 | on channels without repeats every attempt is made, and the result is the starting set minus the channels whose attempt failed |
| Nodes.SuspendAll | src/python/collab/collab/nodes.py:205-228 | a failed read of the inputs is the call's failure; what is returned is a subset of the inputs |
| Nodes.SuspendAllSpec | src/python/collab/collab/nodes.py:205-228 | for inputs without repeats, `suspendAll` returns the inputs minus those whose removal failed |
| Nodes.SuspendAllRepeatedFailure | src/python/collab/collab/nodes.py:211-218 | an input listed twice whose removal fails twice makes the second `ret.remove` raise `KeyError`, failing the call with `str(KeyError('a'))`, the text `'a'` |
| Nodes.ReloadAll | src/python/collab/collab/nodes.py:230-248 | `reloadAll` returns the given set minus the channels whose `addInput` failed |
| CollabNode.BroadcastStop | src/python/collab/collab/collabNode.py:177-186 | `broadcastStop` publishes the parameters relabelled 'stop' to the output node |
| CollabNode.BroadcastLogs | src/python/collab/collab/collabNode.py:188-197 | `broadcastLogs` publishes the logs to the error node under the parameters relabelled 'info', default parameters when none are given |
| CollabNode.Errback | src/python/collab/collab/collabNode.py:199-207 | `_errback` adds exactly the failure's text under 'error', to the given log or a fresh one, changes no other severity, and broadcasts the result |
| CollabNode.ErrbackOf | src/python/collab/collab/collabNode.py:56 | an item's Deferred publishes an error log exactly when it fails |
| CollabNode.ItemsReceived | src/python/collab/collab/collabNode.py:50-61 | the batch reaches at most every item, and all of them when it succeeds |
| CollabNode.ItemsReceivedAppend | src/python/collab/collab/collabNode.py:50-61 | a batch is its first part then the rest from the state the first part left; only a reply that does not fire or fails to be a Deferred cuts it short, never a failing item |
| CollabNode.ItemsReceivedOne | src/python/collab/collab/collabNode.py:52-57 | one item reaches `onGotItem` once; a failed Deferred broadcasts exactly one error log and the batch still succeeds |
| CollabNode.ItemsReceivedSkip | src/python/collab/collab/collabNode.py:52-57 | an item that does nothing and succeeds leaves the rest of the batch unchanged |
| CollabNode.ItemsReceivedAll | src/python/collab/collab/collabNode.py:50-61 | when every reply is a Deferred that fires, every item reaches `onGotItem` in order and the batch succeeds |
| CollabNode.CheckLoading | src/python/collab/collab/collabNode.py:140-175 | `_checkLoading`: no change when the balancer agrees with the state; on a new overload it suspends and records the returned inputs, or reports the failure unchanged; when the overload clears it reloads and empties the inputs, or restores them and reports the failure |
| CollabNode.CheckLoadingKeepsInvariant | src/python/collab/collab/collabNode.py:140-175 | a node that is not overloaded never holds unhooked inputs |
| CollabNode.NonTrippingIsInert | src/python/collab/collab/collabNode.py:140-175 | with the balancer that never trips, a node that is not overloaded does nothing |
| CollabNode.SuspendThenReload | src/python/collab/collab/collabNode.py:147-173 | unhooking then hooking back in, both succeeding, reloads exactly the suspended inputs and ends back at the initial state |
| DistributionsManager.CheckStopCondition | src/python/collab/collab/distributionsManager.py:105-111 | the run's count grows by the trials reported, no other run's count changes, and the run is done exactly when its count reaches the number of runs asked for |
| DistributionsManager.FailureLogs | src/python/collab/collab/distributionsManager.py:89-100 | a broadcast publishes an error log exactly when it fails |
| DistributionsManager.HandleDistribution | src/python/collab/collab/distributionsManager.py:77-103 | the histogram is combined into the run's cumulative histograms, the run's count grows by the trials reported, and no other run is touched |
| DistributionsManager.HandleDistributionSends | src/python/collab/collab/distributionsManager.py:84-101 | results and a stop go out together exactly when the count reaches its target and the run is not marked stopped; the run ends marked exactly when it was or both went out well; progress goes out every time |
| DistributionsManager.StopSentOnce | src/python/collab/collab/distributionsManager.py:28-86 | once results and stop went out, later histograms for the run never send them again |
| DistributionsManager.RetryAfterFailedStop | src/python/collab/collab/distributionsManager.py:89-95 | when the results or the stop failed, the run is unmarked and the next histogram sends them again |
| DistributionsManager.OnGotStoppedSimulation | src/python/collab/collab/distributionsManager.py:65-75 | a stopped run is forgotten in histograms, counts and stopped runs, and no other run changes |
| DistributionsManager.StopUnknownRun | src/python/collab/collab/distributionsManager.py:65-75 | stopping a run the manager does not know changes nothing |
| DistributionsManager.StoppedRunStartsOver | src/python/collab/collab/distributionsManager.py:23-109 | after a stop, the run's next histogram is counted from zero and merged into empty histograms |
| DistributionsManager.HandleAllMerges | src/python/collab/collab/distributionsManager.py:58-61 | every histogram of a message is combined into its run, in order, even after the run was stopped |
| DistributionsManager.HandleAllCounts | src/python/collab/collab/distributionsManager.py:58-109 | a message counts its trials once per histogram it carries |
| DistributionsManager.CombineAllSpec | src/python/collab/collab/distributionsManager.py:58-79 | combining distinct named histograms adds each into the histogram of its name and leaves the others alone |
| DistributionsManager.HandleAllMergesMessage | src/python/collab/collab/distributionsManager.py:58-61 | whatever the dictionary's iteration order, each cumulative histogram gains exactly the message's histogram of the same name |
| DistributionsManager.HandleAllOtherRuns | src/python/collab/collab/distributionsManager.py:58-61 | a message leaves every other run's histograms, count and stop mark as they were |
| DistributionsManager.OnGotDistribution | src/python/collab/collab/distributionsManager.py:47-63 | without both histograms and progress the log goes out and nothing is merged; the Deferred always ends well |
| DistributionsManager.Dispatch | src/python/collab/collab/distributionsManager.py:35-45 | an item without parameters is passed over, a malformed field raises, 'stop' forgets the run, 'results' handles the histograms |
| DistributionsManager.OnGotItemOnlyRaises | src/python/collab/collab/distributionsManager.py:35-45 | the corrected `onGotItem` ends a batch only on the parser's `ValueError`; every other item gives a Deferred that fires |
| DistributionsManager.InfoItemAbortsBatch | src/python/collab/collab/distributionsManager.py:35-45 | as written, an 'info' or 'start' item makes `onGotItem` return `None`, so the batch fails there and the items after it are never handled |
| DistributionsManager.InfoItemSkipped | src/python/collab/collab/distributionsManager.py:35-45 | corrected, such an item is passed over and the rest of the batch is handled as if it were not there |
| DistributionsManager.InfoItemIgnored | src/python/collab/collab/distributionsManager.py:35-45 | corrected, such an item changes nothing, publishes nothing and fires at once |
| Simulator.RangeSpec | src/python/collab/collab/correlatedDefaultsSimulator.py:68 | `xrange(0, max_runs, chunk)` runs ceil(max_runs / chunk) times, chunk i starting at count i * chunk |
| Simulator.ChunkTrials | src/python/collab/collab/correlatedDefaultsSimulator.py:70 | `copula(chunk/10, 10, ...)` runs at most `chunk` trials, fewer by under ten, exactly `chunk` when ten divides it |
| Simulator.BroadcastTest | src/python/collab/collab/correlatedDefaultsSimulator.py:77 | the broadcast test raises `ZeroDivisionError` exactly on a zero frequency once the count is positive |
| Simulator.CorrectedBroadcasts | src/python/collab/collab/correlatedDefaultsSimulator.py:77 | corrected, chunks i+1 .. n each broadcast when their number is a multiple of the frequency in chunks |
| Simulator.CorrectedScheduleReportsAll | src/python/collab/collab/correlatedDefaultsSimulator.py:68-88 | corrected, the broadcasts report exactly `max_runs` trials and the last chunk is followed by one |
| Simulator.CorrectedScheduleExample | src/python/collab/collab/correlatedDefaultsSimulator.py:68-88 | corrected, 1000 trials in chunks of 100 with frequency 200 give five broadcasts |
| Simulator.AsWrittenBroadcasts | src/python/collab/collab/correlatedDefaultsSimulator.py:77 | as written, chunk 0 never broadcasts and the others broadcast at multiples of the frequency |
| Simulator.AsWrittenScheduleLosesTrials | src/python/collab/collab/correlatedDefaultsSimulator.py:68-88 | as written, the broadcasts report `max_runs - broadcast_freq` trials though `max_runs` were simulated |
| Simulator.AsWrittenFirst | src/python/collab/collab/correlatedDefaultsSimulator.py:77 | as written, the first broadcast comes after one chunk more than the frequency it reports |
| Simulator.AsWrittenLast | src/python/collab/collab/correlatedDefaultsSimulator.py:68-88 | as written, the last chunk is followed by a broadcast only when the frequency is one chunk |
| Simulator.AsWrittenScheduleExample | src/python/collab/collab/correlatedDefaultsSimulator.py:68-88 | as written, 1000 trials in chunks of 100 with frequency 200 give four broadcasts, the first after three chunks and none after the last |
| Simulator.ResultsBroadcast | src/python/collab/collab/correlatedDefaultsSimulator.py:78-125 | a results broadcast carries the defaults as the single histogram 'defaults', progress `broadcast_freq`, relabelled 'results' |
| Simulator.Report | src/python/collab/collab/correlatedDefaultsSimulator.py:69-75 | a chunk that raises adds its error to the logger and broadcasts the whole log; one that does not publishes nothing |
| Simulator.Loop | src/python/collab/collab/correlatedDefaultsSimulator.py:68-88 | the chunk loop runs at most the chunks remaining |
| Simulator.StartJob | src/python/collab/collab/correlatedDefaultsSimulator.py:53-65 | a bad portfolio publishes only its log and runs no chunk; a failing simulator factory publishes one error log and runs no chunk |
| Simulator.RunChunkSpec | src/python/collab/collab/correlatedDefaultsSimulator.py:69-88 | a chunk sends results exactly when its test says so; what it sends plus what it carries equals what it was given plus what it simulated |
| Simulator.LoopSchedule | src/python/collab/collab/correlatedDefaultsSimulator.py:68-88 | how many results a task sends depends only on the schedule, not on what was simulated or which broadcasts failed |
| Simulator.LoopConserves | src/python/collab/collab/correlatedDefaultsSimulator.py:67-88 | no simulated default is lost or sent twice: sent plus still pending equals what the run's task began with plus what its chunks simulated |
| Simulator.LoopRunsAll | src/python/collab/collab/correlatedDefaultsSimulator.py:68-88 | with a non-zero frequency every chunk runs and the run's task ends well |
| Simulator.LoopPublishes | src/python/collab/collab/correlatedDefaultsSimulator.py:73-87 | everything a task publishes is its run's results reporting `broadcast_freq` trials, or its run's log |
| Simulator.LastBroadcastFlushes | src/python/collab/collab/correlatedDefaultsSimulator.py:77-88 | when the last chunk is followed by a broadcast nothing simulated is left unsent |
| Simulator.CorrectedTaskSendsAll | src/python/collab/collab/correlatedDefaultsSimulator.py:23-88 | corrected, a task with the default settings sends everything it simulates, in `max_runs / broadcast_freq` broadcasts |
| Simulator.OnGotStoppedSimulation | src/python/collab/collab/correlatedDefaultsSimulator.py:91-113 | a run with a task has it removed and a stop goes out; a run without one is left alone and nothing is published |
| Simulator.OnGotItem | src/python/collab/collab/correlatedDefaultsSimulator.py:37-51 | an item without parameters changes nothing; a malformed field raises the parser's `ValueError` |
| Simulator.OnGotItemParsed | src/python/collab/collab/correlatedDefaultsSimulator.py:37-51 | an item carrying parameters is handled by their command |
| Simulator.StartRegisters | src/python/collab/collab/correlatedDefaultsSimulator.py:44-46 | a start adds a task under its run unless one is there, which it keeps, and publishes nothing |
| Simulator.StartTwice | src/python/collab/collab/correlatedDefaultsSimulator.py:44-46 | a second start for a run changes nothing |
| Simulator.StopUnknownRun | src/python/collab/collab/correlatedDefaultsSimulator.py:93-94 | stopping a run without a task does nothing at all |
| Simulator.StartStopStart | src/python/collab/collab/correlatedDefaultsSimulator.py:44-113 | a run started then stopped sends one stop and can be started again |
| Simulator.OthersChangeNothing | src/python/collab/collab/correlatedDefaultsSimulator.py:37-51 | items that are neither a start nor a stop never change the run tasks or publish |
| DefaultsManager.GetRunId | src/python/collab/collab/correlatedDefaultsManager.py:12-19 | `getRunId` returns the item's id attribute and logs nothing; without one it logs 'Cannot parse run ID' with the item's text under 'error' and gives `None` |
| DefaultsManager.OnGotItem | src/python/collab/collab/correlatedDefaultsManager.py:35-64 | at most one broadcast; a start goes out only under the item's id, relabelled 'start', with the portfolio its element carries; logs go out only when they hold an error; only the code as written leaves a Deferred unfired |
| DefaultsManager.OnStart | src/python/collab/collab/correlatedDefaultsManager.py:52-62 | a start publishes the start or the logs, under the run id `getRunId` gave, and raises exactly when it publishes nothing |
| DefaultsManager.NoPortfolioLogged | src/python/collab/collab/correlatedDefaultsManager.py:56-58 | a portfolio that cannot be read always leaves an error in the log, so the logs go out instead of a start |
| DefaultsManager.StartParametersRead | src/python/collab/collab/correlatedDefaultsManager.py:66-74 | the parameters in a `broadcastStart` payload read back, relabelled 'start' |
| DefaultsManager.StartPortfolioRead | src/python/collab/collab/correlatedDefaultsManager.py:66-74 | the portfolio in a `broadcastStart` payload reads back unchanged |
| DefaultsManager.StartReachesSimulator | src/python/collab/collab/correlatedDefaultsManager.py:66-74 | a published start is read by the simulator as a start of the same run with the same portfolio |
| DefaultsManager.StartForwarded | src/python/collab/collab/correlatedDefaultsManager.py:52-62 | a start with an id and a valid portfolio is sent on under that id with that portfolio |
| DefaultsManager.StartWithoutIdLogged | src/python/collab/collab/correlatedDefaultsManager.py:12-58 | a start without an id is not sent on; the error naming the item goes out under run id 'None' |
| DefaultsManager.StopForwarded | src/python/collab/collab/correlatedDefaultsManager.py:49-50 | a stop is broadcast as it was read |
| DefaultsManager.EmptyItemRaises | src/python/collab/collab/correlatedDefaultsManager.py:43-44 | an item without a child element raises before anything is published |
| DefaultsManager.OtherCommandReply | src/python/collab/collab/correlatedDefaultsManager.py:41-64 | as written, an 'info' or 'results' item gets a Deferred that never fires; corrected, one that has already succeeded |
| DefaultsManager.InfoItemStallsBatch | src/python/collab/collab/correlatedDefaultsManager.py:41-64 | as written, such an item stalls its batch: nothing after it is handled and the batch never ends |
| DefaultsManager.InfoItemPassedOver | src/python/collab/collab/correlatedDefaultsManager.py:41-64 | corrected, such an item is passed over and the batch carries on as if it were not there |
| StateManager.AllPresentSpec | src/python/collab/collab/stateManager.py:46-50 | the loop over required fields succeeds exactly when each has a value |
| StateManager.IsValidSpec | src/python/collab/collab/stateManager.py:46-50 | `isValid` holds exactly when every required field has a value |
| StateManager.Add | src/python/collab/collab/stateManager.py:55-59 | a required field takes the new value; any other field is ignored; no other value changes |
| StateManager.Reset | src/python/collab/collab/stateManager.py:61-62 | `reset` drops every value, so the changer is valid only with nothing required |
| StateManager.AddKeepsOnlyRequired | src/python/collab/collab/stateManager.py:55-59 | only required fields are ever stored |
| StateManager.AddKeepsValid | src/python/collab/collab/stateManager.py:55-59 | adding a value never makes a valid changer invalid |
| StateManager.AddAllSpec | src/python/collab/collab/stateManager.py:399-400 | whatever order the head's fields come in, the changer ends up with its old values overridden by the head's required fields |
| StateManager.AddAllOther | src/python/collab/collab/stateManager.py:399-400 | only the fields that are fed matter to the result |
| StateManager.Merge | src/python/collab/collab/stateManager.py:351-356 | `merge` overrides the merged data with the state's fields, keeps the rest, and appends a snapshot of the result |
| StateManager.ResetManager | src/python/collab/collab/stateManager.py:386-388 | `reset` drops the history, the merged data and the collected values |
| StateManager.Head | src/python/collab/collab/stateManager.py:390-393 | `head` is the latest snapshot; with none it raises 'No more data history' |
| StateManager.PushThenHead | src/python/collab/collab/stateManager.py:390-396 | after a push the head is the merged data, holding every pushed field's value |
| StateManager.Penultimate | src/python/collab/collab/stateManager.py:407-412 | with fewer than two snapshots it raises 'No penultimate data history' and changes nothing; otherwise it returns the one before last |
| StateManager.PushPushPenultimate | src/python/collab/collab/stateManager.py:395-412 | going back after two pushes returns the state after the first and restores the history from before both |
| StateManager.Commit | src/python/collab/collab/stateManager.py:398-405 | without history `commit` raises and changes nothing; it calls the commit of a valid changer only, which then returns a Deferred, raises or returns `None`, and otherwise fails with 'Cannot commit with invalid data' |
| StateManager.CommitInAnyOrder | src/python/collab/collab/stateManager.py:398-400 | the changer `commit` leaves does not depend on the order the head's fields are fed in |
| StateManager.CommitSpec | src/python/collab/collab/stateManager.py:398-405 | a commit reaches the changer exactly when there is a snapshot and every required field was held before or is supplied by it |
| StateManager.SetAllSpec | src/python/collab/collab/stateManager.py:103-124 | each listed jid outside the specials is set to the affiliation; every other entry is kept |
| StateManager.GrantsSpec | src/python/collab/collab/stateManager.py:122-127 | an owner is a listed admin or the requested administrator; every other grantee is a listed publisher; the specials are never granted unless the administrator is requested |
| StateManager.ManageAffiliations | src/python/collab/collab/stateManager.py:96-134 | at most two non-empty requests; a failed read of the current affiliations sends nothing and fails; the first request sets every current affiliate other than the sender and the admin to 'none', and is sent exactly when there is one; a failed reset ends it before any grant; otherwise the last request is the grants, sent exactly when there are any, and its outcome is the result |
| StateManager.ResetMap | src/python/collab/collab/stateManager.py:99-112 | the reset request names every current affiliate outside the kept JIDs, each with 'none' |
| StateManager.SpecialsKept | src/python/collab/collab/stateManager.py:100-127 | the sender is never reset, and is granted something only as the requested administrator |
| StateManager.MakeNodeFrom | src/python/collab/collab/stateManager.py:174-194 | giving up reports 'Cannot create node X after N tries, quitting' |
| StateManager.ConflictsThenCreated | src/python/collab/collab/stateManager.py:174-194 | after n conflicts a success returns the suggestion with n-1 appended (the suggestion itself when n is 0), after n+1 requests |
| StateManager.AllConflicts | src/python/collab/collab/stateManager.py:174-192 | conflicts on every try give up after `max_tries` requests |
| StateManager.AsWrittenRetriesForever | src/python/collab/collab/stateManager.py:175-188 | as written, a service that keeps answering with an error other than 'conflict' is asked again and again under the same name |
| StateManager.AsWrittenForbiddenExample | src/python/collab/collab/stateManager.py:175-188 | as written, one allowed try and a 'forbidden' answer never ends |
| StateManager.CorrectedEnds | src/python/collab/collab/stateManager.py:174-192 | corrected, a non-'conflict' error is passed on and only a 'conflict' retries, so the loop always ends within `max_tries` requests |
| Commands.AddAction | src/python/collab/collab/command.py:62-65 | `add` fails with 'Invalid action added X' exactly for an action outside next, prev and complete; otherwise it inserts into the set and keeps the default |
| Commands.RemoveAction | src/python/collab/collab/command.py:67-69 | `remove` takes the action out of the set, ignoring an absent one |
| Commands.SetDefault | src/python/collab/collab/command.py:71-73 | `setDefault` fails exactly for an invalid action; otherwise the action is added and becomes the default |
| Commands.AddThenRemove | src/python/collab/collab/command.py:62-69 | removing an action just added, that was not there before, restores the actions |
| Commands.AddValidSpec | src/python/collab/collab/command.py:88-92 | the child loop adds exactly the children whose names are valid actions, and silently drops the rest |
| Commands.ActionsFromElement | src/python/collab/collab/command.py:84-93 | reading fails exactly on an invalid 'execute' attribute; what it reads holds only valid actions and a default among them |
| Commands.ReadActionNames | src/python/collab/collab/command.py:80-92 | the written action children read back as exactly the set written |
| Commands.ActionsRoundTrip | src/python/collab/collab/command.py:75-93 | valid actions written and read back are the same, whatever order the set is iterated in |
| Commands.NewNote | src/python/collab/collab/command.py:99-106 | a note is made exactly for the types info, warn and error; any other fails with 'Invalid note type X' |
| Commands.NoteFromElement | src/python/collab/collab/command.py:115-126 | reading fails exactly without a type attribute; an unknown type reads as 'warn'; the content is the first child, or empty text |
| Commands.NoteRoundTrip | src/python/collab/collab/command.py:108-126 | a note of a valid type written and read back is the same |
| Commands.NewCommand | src/python/collab/collab/command.py:139-165 | a command is made exactly when one of status and action is given, each from its allowed list; the session id defaults to node and time |
| Commands.ReadChildren | src/python/collab/collab/command.py:218-224 | reading the children never changes node, status, action or session id |
| Commands.CommandFromElement | src/python/collab/collab/command.py:198-226 | reading fails with 'Cannot create Command without a node' exactly without a node attribute; a read command carries that node |
| Commands.ReadNotes | src/python/collab/collab/command.py:193-222 | written notes read back appended in order |
| Commands.ReadWrittenChildren | src/python/collab/collab/command.py:187-224 | the written actions, form and notes read back into the command |
| Commands.CommandRoundTrip | src/python/collab/collab/command.py:176-226 | a valid command written and read back is the same |
| Commands.CopyCommandElement | src/python/collab/collab/command.py:31-37 | the copy is a bare command element carrying exactly the original's session id and node, when present |
| Commands.CopyIdempotent | src/python/collab/collab/command.py:31-37 | copying a copy changes nothing |
| Commands.GetCommandElement | src/python/collab/collab/command.py:13-23 | what is found is a command element in the ad-hoc commands namespace |
| Commands.CommandElementOf | src/python/collab/collab/command.py:13-23 | a set iq holding a command element yields that element |
| PageManager.Reset | src/python/collab/collab/pageManager.py:41-42 | `reset` goes back to the first page and keeps the pages; the manager is then ready only without pages |
| PageManager.AddPage | src/python/collab/collab/pageManager.py:44-45 | `add_page` adds one page at the end and leaves the index; the manager is no longer ready |
| PageManager.ToResponse | src/python/collab/collab/pageManager.py:49-78 | the response swaps sender and receiver, keeps the id and carries the given type |
| PageManager.NextPage | src/python/collab/collab/pageManager.py:72-87 | fails with 'No pages loaded' exactly without pages and 'No more pages loaded' exactly at the end; raises before answering exactly for an index beyond the pages at either end; otherwise shows the page at the index, a negative index counting from the end as Python's `pages[index]` does, and moves on once it rendered |
| PageManager.PrevPage | src/python/collab/collab/pageManager.py:55-70 | fails with 'No more pages in history' exactly at index 0 or below, then 'No pages loaded' without pages; raises before answering exactly for an index past the pages; otherwise moves back one and shows a rendered page |
| PageManager.CancelPage | src/python/collab/collab/pageManager.py:47-53 | `cancel_page` always resets; it answers when the iq holds a readable command and otherwise raises, with no command or with the command reader's message |
| PageManager.CancelResponse | src/python/collab/collab/pageManager.py:49-53 | the cancel response holds the request's command with status 'canceled', its node and session id kept |
| PageManager.WalkForward | src/python/collab/collab/pageManager.py:72-90 | k rendered nexts move the index k on, stopping at the end; the manager is ready exactly when the end is reached |
| PageManager.ReadyAfterAllPages | src/python/collab/collab/pageManager.py:41-90 | from a reset, the manager is ready exactly after as many nexts as pages |
| PageManager.PrevUndoesNext | src/python/collab/collab/pageManager.py:55-87 | `prev_page` after a `next_page` returns to the index before it and shows again the page that was on screen |
| PageManager.AsWrittenPrevShowsUnvisited | src/python/collab/collab/pageManager.py:62-63 | as written, `prev_page` from index 1 of three pages shows `pages[-1]`, the last page, not yet shown |
| PageManager.CorrectedPrevShowsVisited | src/python/collab/collab/pageManager.py:55-70 | corrected, `prev_page` only ever shows a page already shown |
| PageManager.PrevRulesAgree | src/python/collab/collab/pageManager.py:55-70 | the correction changes `prev_page` only from index 1 |
| CommandSystem.Dispatch | src/python/collab/collab/xmppCommandSystem.py:41-121 | an iq is handled by a link that can process it, and no earlier link can |
| CommandSystem.DispatchNone | src/python/collab/collab/xmppCommandSystem.py:41-121 | an iq goes unhandled exactly when no link of the chain can process it |
| CommandSystem.DispatchFirst | src/python/collab/collab/xmppCommandSystem.py:41-48 | the handling link is the first one that can process the iq |
| CommandSystem.Process | src/python/collab/collab/xmppCommandSystem.py:53-96 | cancel resets both managers; the page manager stays valid; only a cancel can raise out of `_process`, its exception escaping the reset handler |
| CommandSystem.MakeNextIq | src/python/collab/collab/xmppCommandSystem.py:143-221 | cancel resets the pages and answers or raises; prev and next keep the pages valid and never raise; a shown next page is the one at the index, counted from the end when negative, and the index moves on by one; prev moves back by one |
| CommandSystem.BadCancelRaises | src/python/collab/collab/xmppCommandSystem.py:65-71 | a cancel whose command cannot be read raises with the reader's message, after both managers are reset |
| CommandSystem.CancelAnswers | src/python/collab/collab/pageManager.py:47-53 | a cancel with pages and a readable command answers with that command, status 'canceled' |
| CommandSystem.PassThroughDelegates | src/python/collab/collab/xmppCommandSystem.py:107-121 | a pass-through link never handles an iq and hands every one to its successor |
| CommandSystem.StartNodeExclusive | src/python/collab/collab/xmppCommandSystem.py:173-212 | the start handler takes only iqs without a session id and the node handler only iqs with one, so never both |
| CommandSystem.ActionHandlersExclusive | src/python/collab/collab/xmppCommandSystem.py:129-183 | a cancel iq is never taken by the prev or node handler, and a prev iq never by the node handler |
| CommandSystem.ParseIq | src/python/collab/collab/xmppCommandSystem.py:136-215 | a node step without a collab form raises 'No Collab forms'; prev raises exactly without two snapshots; only prev changes the history |
| CommandSystem.ManageState | src/python/collab/collab/xmppCommandSystem.py:139-218 | cancel resets the state manager; start keeps it; prev and node push the state and go on with the merged head, which holds the pushed values |
| CommandSystem.ErrorCommand | src/python/collab/collab/xmppCommandSystem.py:58-62 | the error response's command keeps only node and session id, adds the error status, and holds one error note with the message |
| CommandSystem.ResetWith | src/python/collab/collab/xmppCommandSystem.py:55-63 | `reset(e)` resets both managers and answers with the error command |
| CommandSystem.AppendToFirstElement | src/python/collab/collab/xmppCommandSystem.py:86-88 | a note can be added exactly when the response has an element child, and the response keeps its number of children |
| CommandSystem.AppendToFirstElementSpec | src/python/collab/collab/xmppCommandSystem.py:86-88 | the note goes at the end of the first element child's children; every other child is kept in its place |
| CommandSystem.CommitStep | src/python/collab/collab/xmppCommandSystem.py:72-93 | before the last page the response goes out as it is and nothing changes; after it, a missing history or a changer commit that raises fails and leaves both managers as they are; otherwise both managers reset, a changer returning `None` fails on `addCallback`, and a successful commit answers with the response |
| CommandSystem.ParseFailureResets | src/python/collab/collab/xmppCommandSystem.py:55-69 | when parsing raises, both managers reset and the request's command comes back with the error status and one error note; no page is shown |
| CommandSystem.StepBeforeLastPage | src/python/collab/collab/xmppCommandSystem.py:65-75 | a node step before the last page pushes the form's values and shows the next page rendered from the merged state, committing nothing |
| CommandSystem.LastPageCommits | src/python/collab/collab/xmppCommandSystem.py:72-93 | a node step showing the last page commits the merged state and both managers start over, unless the changer's commit raises: then the pages stay past the end and the history is kept |
| CommandSystem.RaisingCommitKeepsManagers | src/python/collab/collab/xmppCommandSystem.py:76-78 | a changer commit that raises at once fails the step with its message before the resets, so the page manager stays ready and the state history is kept |
| CommandSystem.AsWrittenErrorUnreadable | src/python/collab/collab/xmppCommandSystem.py:58-62 | as written, the error command's status 'complete' is one the `Command` reader rejects |
| CommandSystem.CorrectedErrorReadable | src/python/collab/collab/xmppCommandSystem.py:58-62 | corrected, the error command reads back with status 'completed', the request's node and the one error note |
| CommandSystem.StanzaErrorNoted | src/python/collab/collab/xmppCommandSystem.py:83-89 | a commit failing with a `StanzaError` answers with the response, its command given one error note |
| CommandSystem.AsWrittenNoteLosesReason | src/python/collab/collab/xmppCommandSystem.py:84-88 | as written, the note holds what `trap` returns, the exception class, so commits failing for different reasons answer alike |
| CommandSystem.CorrectedNoteKeepsReason | src/python/collab/collab/xmppCommandSystem.py:83-89 | corrected, commits failing for different reasons give different notes |
| MenuSystem.MakeEntry | src/python/collab/collab/xmppMenuSystem.py:37-56 | a node's info and item carry its identifier and name; every node supports disco#info and disco#items, and ad-hoc commands exactly when it is a command node |
| MenuSystem.NewMenu | src/python/collab/collab/xmppMenuSystem.py:18-24 | a new menu holds only its top node, which has no parent |
| MenuSystem.AddSubMenu | src/python/collab/collab/xmppMenuSystem.py:26-34 | a present identifier or an absent parent raises a `KeyError`; otherwise exactly one node is added under the named parent, or under the top when none is named, and the other nodes are kept |
| MenuSystem.ChildItems | src/python/collab/collab/xmppMenuSystem.py:58-60 | asking for the children of an absent parent raises a `KeyError` naming it |
| MenuSystem.ChildrenInMembers | src/python/collab/collab/xmppMenuSystem.py:62-67 | an item is listed exactly when some node, in the iteration order, has that item and the given parent |
| MenuSystem.ChildItemsSpec | src/python/collab/collab/xmppMenuSystem.py:58-67 | a node's item is listed under a parent exactly when that parent is its parent |
| MenuSystem.ChildItemsOnlyChildren | src/python/collab/collab/xmppMenuSystem.py:62-67 | every listed item belongs to a child of the parent |
| MenuSystem.Size | src/python/collab/collab/xmppMenuSystem.py:71-72 | the size counts every node, so a menu is never empty |
| MenuSystem.Lookup | src/python/collab/collab/xmppMenuSystem.py:74-81 | a node's entry is found exactly when the node is present |
| MenuSystem.Delete | src/python/collab/collab/xmppMenuSystem.py:83-85 | deleting removes that node only and ignores an absent one |
| MenuSystem.AddThenDelete | src/python/collab/collab/xmppMenuSystem.py:26-85 | adding a node grows the menu by one, and deleting it again restores the menu |
| Wizards.HandlersFor | src/python/collab/collab/wizards.py:103-118 | a wizard's handlers for its node come in the order start, cancel, prev (only with prev), node |
| Wizards.AddCommand | src/python/collab/collab/wizards.py:87-118 | a wizard fails exactly when its command node cannot be added; otherwise the node sits under the sub-menu with the ad-hoc command feature, and its handlers follow the chain |
| Wizards.AddCommandsWiring | src/python/collab/collab/wizards.py:373-376 | the wizards' handlers follow the chain in the wizards' order, each wizard linking after the previous wizard's node handler |
| Wizards.AddCommandsKeeps | src/python/collab/collab/wizards.py:373-376 | adding wizards keeps the menu's nodes and its top |
| Wizards.AddCommandsNodes | src/python/collab/collab/wizards.py:363-376 | every added wizard's command node is in the menu |
| Wizards.CommandNodeIdInjective | src/python/collab/collab/wizards.py:92 | command nodes of different names under one sub-menu have different identifiers |
| Wizards.NotInNodeIds | src/python/collab/collab/wizards.py:92 | an identifier no wizard produces is not among the wizards' node identifiers |
| Wizards.InNodeIds | src/python/collab/collab/wizards.py:92 | every wizard's node identifier is among the wizards' node identifiers |
| Wizards.AddCommandsSucceed | src/python/collab/collab/wizards.py:363-376 | wizards with distinct names and new node identifiers under a present sub-menu all succeed, and the menu gains exactly their command nodes |
| Wizards.OtherNodeIgnores | src/python/collab/collab/xmppCommandSystem.py:129-212 | a handler never takes an iq whose command names another node |
| Wizards.NoSessionStarts | src/python/collab/collab/wizards.py:103-118 | an iq for the node without a session id is taken by the wizard's start handler |
| Wizards.CancelWithoutSessionStarts | src/python/collab/collab/wizards.py:103-118 | a cancel without a session id goes to the start handler, which comes before cancel |
| Wizards.SessionCancelCancels | src/python/collab/collab/wizards.py:103-118 | within a session a cancel goes to the cancel handler |
| Wizards.SessionStepsNode | src/python/collab/collab/wizards.py:103-118 | within a session an iq that neither cancels nor goes back goes to the node handler |
| Wizards.NoPrevFallsThrough | src/python/collab/collab/wizards.py:108-113 | a wizard without prev has no handler for a prev iq within a session |
| Wizards.MakeHosts | src/python/collab/collab/wizards.py:19-34 | a reply without 'hosts' gives no names; otherwise the names are those of the entries under 'hosts' |
| Wizards.HostNamesAppend | src/python/collab/collab/wizards.py:27-32 | the names of two entry lists in turn are the names of each, concatenated |
| Wizards.HostNamesAll | src/python/collab/collab/wizards.py:27-32 | when every entry names a host, the names are exactly those hosts, in order |
| Wizards.HostNamesFromEntries | src/python/collab/collab/wizards.py:27-32 | a name is listed exactly when some entry names it; entries without a host are skipped |
| SystemManager.NewSystemManager | src/python/collab/collab/collabSystemManager.py:23-33 | a new manager is named 'Collab System Manager' unless given a name; its menu holds only the top node 'collabManager', named after the manager, and its chain only the pass-through handler |
| SystemManager.GetDiscoInfo | src/python/collab/collab/collabSystemManager.py:72-101 | another entity gets nothing; the root query gets the top's info, and raises the `KeyError` of the top's name exactly when the top entry was deleted; a node's query gets its info exactly when the node is in the menu |
| SystemManager.GetDiscoItems | src/python/collab/collab/collabSystemManager.py:104-130 | another entity and an unknown node get no items; the root query gets the top's children and a node's query that node's children |
| SystemManager.RootItemsAreTopChildren | src/python/collab/collab/collabSystemManager.py:121-123 | the root query lists a node's item exactly when the node sits directly under the top |
| SystemManager.CommandNodeInfo | src/python/collab/collab/collabSystemManager.py:94-99 | a command node a wizard added is reported with the ad-hoc commands feature |
| SystemManager.ConnectedChain | src/python/collab/collab/collabSystemManager.py:41-70 | once connected, the chain is the handler it started with, then every wizard's handlers, sub-menu by sub-menu, each wizard after the one before |
| SystemManager.FreshConnects | src/python/collab/collab/collabSystemManager.py:23-70 | a newly built manager connects without a clash of identifiers, and its chain gains four handlers for each of the two wizards with prev and three for each of the four without |
| SystemManager.SubSystemStep | src/python/collab/collab/wizards.py:363-376 | a sub-menu whose identifiers are new is added with exactly its own node and its wizards' command nodes, under the top |
| SystemManager.WizardIds | src/python/collab/collab/collabSystemManager.py:51-70 | the six command nodes are comms_channels_Add, comms_channels_Delete, comms_channels_Configure channel, calcs_nodes_Add, calcs_nodes_Remove and collabs_nodes_Add |
| SystemManager.HandleRequest | src/python/collab/collab/collabSystemManager.py:133-136 | a request is handled by the first link of the chain that can process it; when no link can, `addCallback` on the missing Deferred raises `AttributeError` |
| PubSubRequest.ParseAffiliationsForJid | src/python/collab/collab/pubsubRequestWithAffiliations.py:38-56 | parsing an entity's affiliations fails only with one of the three BadRequest texts: missing node, repeated node, missing affiliation |
| PubSubRequest.ReadAffiliations | src/python/collab/collab/pubsubRequestWithAffiliations.py:40-56 | reading the children fails only with one of the three BadRequest texts |
| PubSubRequest.ReadAffiliationsOk | src/python/collab/collab/pubsubRequestWithAffiliations.py:40-56 | parsing succeeds exactly when every publish-subscribe affiliation child has a node and an affiliation and no node repeats |
| PubSubRequest.ReadAffiliationsContents | src/python/collab/collab/pubsubRequestWithAffiliations.py:40-56 | a successful parse binds each affiliation child's node to its affiliation and holds nothing else; other children are ignored |
| PubSubRequest.AffiliationElements | src/python/collab/collab/pubsubRequestWithAffiliations.py:60-63 | one affiliation child per pair, in the map's iteration order |
| PubSubRequest.RenderAffiliationsForJid | src/python/collab/collab/pubsubRequestWithAffiliations.py:58-63 | rendering keeps the verb element and its children and adds one affiliation child, with node and affiliation, per pair |
| PubSubRequest.RenderAffiliations | src/python/collab/collab/pubsubRequestWithAffiliations.py:66-71 | an owner's list adds one affiliation child, with jid and affiliation, per pair |
| PubSubRequest.RenderedAccepted | src/python/collab/collab/pubsubRequestWithAffiliations.py:38-63 | the rendered children of a map are affiliation children naming each node with its affiliation, in the iteration order |
| PubSubRequest.AffiliationsRoundTrip | src/python/collab/collab/pubsubRequestWithAffiliations.py:38-63 | rendering an entity's affiliations into an empty publish-subscribe verb element and parsing them back gives the same map |
| PubSubRequest.ParsedMap | src/python/collab/collab/pubsubRequestWithAffiliations.py:40-56 | parsing the children rendered for a map gives that map |
| PubSubRequest.ParsedKey | src/python/collab/collab/pubsubRequestWithAffiliations.py:40-56 | a node is in the parsed map exactly when it is in the rendered map, with the same affiliation |
| PubSubRequest.UserHost | src/python/collab/collab/pubsubRequestWithAffiliations.py:79-107 | the bare address is the part of the address before the first '/', holding no '/' |
| PubSubRequest.Missing | src/python/collab/collab/pubsubRequestWithAffiliations.py:78-114 | a subscription child raises exactly when an attribute its list needs is missing, checking node (an entity's own list only), then jid, then subscription |
| PubSubRequest.SubscriptionOf | src/python/collab/collab/pubsubRequestWithAffiliations.py:88-121 | a subscription names a node exactly in an entity's own list, holds a bare subscriber, and has an identifier exactly when the child has 'subid' |
| PubSubRequest.ParseSubscriptions | src/python/collab/collab/pubsubRequestWithAffiliations.py:73-122 | a node's list holds subscriptions without a node, and an entity's list subscriptions each with one |
| PubSubRequest.ReadSubscriptions | src/python/collab/collab/pubsubRequestWithAffiliations.py:75-122 | reading the children keeps what was read before |
| PubSubRequest.CountedCons | src/python/collab/collab/pubsubRequestWithAffiliations.py:75-94 | the subscriptions of a list are those of its first child, when it is a subscription child, and those of the rest |
| PubSubRequest.ReadSubscriptionsOk | src/python/collab/collab/pubsubRequestWithAffiliations.py:73-122 | parsing succeeds exactly when every subscription child is complete, and then holds the subscription of each such child and nothing else |
| PubSubRequest.ReadSubscriptionsError | src/python/collab/collab/pubsubRequestWithAffiliations.py:73-122 | a failed parse reports the BadRequest of the first incomplete subscription child |
| Pages.Exclude | src/python/collab/collab/pages.py:361-362 | filtering offers no excluded entity and never more than the candidates |
| Pages.ExcludeMembers | src/python/collab/collab/pages.py:361-362 | an entity is offered exactly when it is a candidate and not excluded |
| Pages.ExcludeKeepsRest | src/python/collab/collab/pages.py:361-362 | when no candidate is excluded, every candidate is offered in order |
| Pages.PublisherOptions | src/python/collab/collab/pages.py:315-316 | no administrator is offered as a publisher |
| Pages.SubscriberOptions | src/python/collab/collab/pages.py:361-362 | no administrator and no chosen publisher is offered as a subscriber |
| Pages.SubscribersExcludeChosen | src/python/collab/collab/pages.py:315-362 | from one candidate list, the subscribers offered are exactly the publishers offered that were not chosen |

## Left out

- I/O: the XMPP stream, the pubsub service, XML-RPC and logging are not modelled. Each request the source sends is reduced to what it asks for, and its outcome is an input. `log.msg` calls are not modelled.
- Twisted's Deferreds and `task.Cooperator`: `coiterate` is modelled as running the steps in order, with an explicit outcome per step. Interleaving between concurrent jobs and the exact point at which a cancelled task stops are not modelled, because the scheduler is library code.
- The copula kernel (`copulas.py`, `scipyUtils.py`): numpy/scipy floating-point numerics with random draws. What each chunk adds to the defaults histogram, or the exception it raises, is an input. The simulator factory is a map keyed by name.
- Floating point: floats are exact decimals in plain notation. Python 2's 12-digit `str(float)`, exponent notation, infinities and NaN are not modelled. Clamping is done on these decimals.
- Timestamps are abstract text. The formatting of `datetime.now()` and `strptime` are not modelled.
- Simulation.ParametersFromElement: the timestamp is kept as text. The `ValueError` that `strptime` raises on text not in the form '%Y-%m-%d %H:%M:%S.%f' is not modelled. `str()` of a datetime whose microsecond is 0 has no fraction, so the source's own round trip can fail there; ParametersRoundTrip and GetWrittenParameters hold only because timestamps are text.
- NumberText.ParseInt: characters are taken as bytes of Python 2 byte strings. Unicode digits and whitespace, which `int()` on a unicode string also accepts, are not modelled, and `repr()` in the error text escapes a character above U+00FF by its low byte.
- Twisted's domish elements are an abstract element tree. Text nodes, default namespaces and serialisation details beyond what the readers use are not modelled. The text of an item's `toXml()` is an input.
- `str()` of a Twisted `Failure` is modelled as the failure's message. The text of Python's own `AttributeError` messages is a named constant; a `KeyError`'s text is the `repr()` of its key.
- `stateManager.manageSubscriptions` and the commits of the concrete state changers (`RegisterMachineStateChanger` … `ClientRegisterStateChanger`): each changer is modelled through `StateChangerBase`, and how its own `commit()` ends is an input (`StateManager.ChangerCommit`). It returns a Deferred with an outcome, raises at once, as the `float()`, `int()` and `jid.JID` conversions of form text in the load-balancer, LHP-portfolio and client-register changers can, or returns `None`, as `StateChangerBase` and `NullStateChanger` do. Which form text makes a conversion raise is not modelled.
- Data forms are kept as elements. Only the values a form yields are modelled, as a map from field to value.
- StateManager.MakeNodeFrom: the naming loop takes a `fuel` bound on the number of requests followed. A result of `StillTrying` means the loop was still running when the fuel ran out. That is how the unbounded retry of the code as written is stated.
- The wizard factories of `wizards.py` (`AddMachineWizardFactory` … `ClientUnregisterWizardFactory`) only build pages and state changers. A wizard is modelled by its name and by whether it has a prev handler.
- `getPublishers`, `getAllUsers`, `getComponents` and `getPSNodes` in `wizards.py` are disco requests, so they are not modelled.
- `pages.py` beyond the publisher and subscriber option filters: the pages only render forms.
- SystemManager.FreshConnects: proved for one iteration order of each of the three wizard dictionaries. `ConnectedChain` and `SubSystemStep` hold for every order.
- `nodes.py` `ApiNode`, `PSInputNode.inputChannels`, `canProcessInputSchema` and `outputSchema`: the schema methods return constants, and `inputChannels` is the subscription read that `AddInput`, `RemoveInput` and `SuspendAll` take as an input.
- `collabNode.py` `getDiscoInfo`, `getDiscoItems`, `handleCommand` and `connectionInitialized`: these are fixed discovery answers and stream set-up.
- `command.py` `copyCommand` and `hasCommand`: with immutable values a copy is the value itself, and `hasCommand` is `GetCommandElement(iq).Some?`.
- `pubsubRequestWithAffiliations.py`:
  - `_render_subscriptions` is left out, because it uses wokkel's `Subscription.toElement`, which is not part of this model.
  - The patching of wokkel's verb maps (lines 22-33) is left out.
  - `internJID` is not validated; the bare address is taken as the text before the first '/'.
- PubSubRequest.ReadSubscriptions: the subscriptions are a set of values, so two identical subscription children count once. wokkel's `Subscription` defines no equality, so the source's `set()` keeps one object per child.
- `proxy.py` refers to names it never defines, so it is not part of this model.
- Bootstrapping: the twistd plugins, the `inodes` package and the service scripts are not modelled.

## Findings

| source | as written | input that shows it | evidently intended | confidence | as-written member | corrected member |
|---|---|---|---|---|---|---|
| src/python/collab/collab/distributionsManager.py:35-45 | `onGotItem` returns `None` for an 'info' or 'start' item, and `itemsReceived` then calls `addErrback` on `None` | an 'info' item first in a batch: the `AttributeError` ends the batch and the items after it are never handled | such an item is passed over and the batch carries on | not executed | DistributionsManager.InfoItemAbortsBatch | DistributionsManager.InfoItemSkipped |
| src/python/collab/collab/correlatedDefaultsSimulator.py:68-88 | a broadcast is made after the chunk at count `c` when `c > 0 and c % freq == 0` | 1000 trials in chunks of 100 with a broadcast every 200: 4 broadcasts reporting 800 trials; the trials after the last broadcast are never sent | one broadcast after every `freq` trials, the last right after the last chunk: 5 broadcasts reporting all 1000 | not executed | Simulator.AsWrittenScheduleLosesTrials | Simulator.CorrectedScheduleReportsAll |
| src/python/collab/collab/correlatedDefaultsManager.py:41-64 | an 'info' or 'results' item returns a Deferred that never fires | an 'info' item first in a batch: the batch's Deferred never fires and the items after it are never handled | such an item is passed over and the batch carries on | not executed | DefaultsManager.InfoItemStallsBatch | DefaultsManager.InfoItemPassedOver |
| src/python/collab/collab/stateManager.py:174-192 | a stanza error other than 'conflict' retries with the same name and the same try counter | `max_tries` 1 and a 'forbidden' reply to every request: the loop never ends | a stanza error other than 'conflict' is passed to the caller like any other failure, and only a 'conflict' leads to another try, so the loop ends within `max_tries` requests | not executed | StateManager.AsWrittenRetriesForever | StateManager.CorrectedEnds |
| src/python/collab/collab/xmppCommandSystem.py:55-63 | the error response's command gets status 'complete' | any request whose parsing raises: the response's command is rejected by `Command.fromElement` with "Invalid status complete" | status 'completed', one of the statuses section 6 of XEP-0050 allows | not executed | CommandSystem.AsWrittenErrorUnreadable | CommandSystem.CorrectedErrorReadable |
| src/python/collab/collab/xmppCommandSystem.py:83-89 | the note added for a failed commit holds what `err.trap` returns, the exception class | two commits failing with `StanzaError`s of different messages: the two answers are identical | the note holds the failure's message | not executed | CommandSystem.AsWrittenNoteLosesReason | CommandSystem.CorrectedNoteKeepsReason |
| src/python/collab/collab/pageManager.py:55-70 | `prev_page` lowers the index and then shows `pages[index - 1]` | three pages with index 1: the index becomes 0 and `pages[-1]`, the last page, is shown, which has not been shown yet | going back shows a page already shown, never past the first | not executed | PageManager.AsWrittenPrevShowsUnvisited | PageManager.CorrectedPrevShowsVisited |

The `Corrected` rule is the one the rest of the model relies on for these properties. Each `AsWritten` member above is a lemma about the same function with the code's own rule.

=== FILE: collab.dfy ===
/** Package-wide constants of collab and the naming of its services
    (`collab/__init__.py`). */
module Collab {
  import opened NumberText

  const CollabHost := "collab.coshx"
  const AdminJid := "simon@" + CollabHost

  const CollabNs := "http://coshx.co.uk/protocols/collab/0.1"
  const PubsubNs := "http://jabber.org/protocol/pubsub"
  const CommandNs := "http://jabber.org/protocol/commands"

  const LoggerEl := "logger"
  const ErrorEl := "error"
  const IdEl := "id"
  const DefaultsEl := "defaults"

  const PubsubNode := "pubsub." + CollabHost

  const DefaultBroadcastFreq := 1000
  const DefaultNumberRuns := 1000000
  const DefaultMaxRuns := 5000000
  const DefaultLoadBalancerFreq := 5

  /** One row of the INFO table: the port, role and twistd plugin of a component. */
  datatype ServiceInfo = ServiceInfo(port: int, role: string, twistd: string)

  /** The INFO table (its commented-out rows omitted), listed in one
      possible iteration order of the dictionary. */
  const Info: seq<(string, ServiceInfo)> := [
    ("xmpp server", ServiceInfo(10001, "xmpp", "")),
    ("Collab Manager", ServiceInfo(10002, "admin", "collab_system_manager")),
    ("Portfolio manager", ServiceInfo(10003, "input", "collab_portfolios_manager")),
    ("Distribution manager", ServiceInfo(10004, "output", "collab_distributions_manager")),
    ("Proxy VaR", ServiceInfo(10005, "manager", "collab_proxy_var")),
    ("Simulation manager 001", ServiceInfo(10006, "worker", "collab_simulations_manager"))
  ]

  predicate NoSpace(s: string)
  {
    forall i :: 0 <= i < |s| ==> !IsSpace(s[i])
  }

  /** Python 2 `str.lower()` on one character: ASCII letters only. */
  function Lower(c: char): (r: char)
    ensures IsSpace(r) <==> IsSpace(c)
  {
    if 'A' <= c <= 'Z' then (c as int + 32) as char else c
  }

  function LowerAll(s: string): (r: string)
    ensures |r| == |s|
    ensures forall i :: 0 <= i < |s| ==> r[i] == Lower(s[i])
  {
    if s == [] then [] else [Lower(s[0])] + LowerAll(s[1..])
  }

  /** The characters of `s` that are not whitespace, in order. */
  function RemoveSpaces(s: string): (r: string)
    ensures NoSpace(r)
  {
    if s == [] then []
    else (if IsSpace(s[0]) then [] else [s[0]]) + RemoveSpaces(s[1..])
  }

  /** `s` without its leading whitespace. */
  function DropSpaces(s: string): (r: string)
    ensures |r| <= |s| && r == s[|s| - |r|..]
    ensures r != [] ==> !IsSpace(r[0])
  {
    if s != [] && IsSpace(s[0]) then DropSpaces(s[1..]) else s
  }

  /** The length of the leading run of non-whitespace characters. */
  function WordLength(s: string): (n: nat)
    ensures n <= |s|
    ensures forall i :: 0 <= i < n ==> !IsSpace(s[i])
    ensures n < |s| ==> IsSpace(s[n])
  {
    if s == [] || IsSpace(s[0]) then 0 else 1 + WordLength(s[1..])
  }

  /** Python `str.split()` with no separator: the maximal runs of
      non-whitespace characters, in order. */
  function Split(s: string): (ws: seq<string>)
    decreases |s|
    ensures forall i :: 0 <= i < |ws| ==> ws[i] != [] && NoSpace(ws[i])
  {
    var t := DropSpaces(s);
    if t == [] then []
    else
      var n := WordLength(t);
      [t[..n]] + Split(t[n..])
  }

  function Join(ws: seq<string>): string
  {
    if ws == [] then "" else ws[0] + Join(ws[1..])
  }

  function LowerEach(ws: seq<string>): (r: seq<string>)
    ensures |r| == |ws|
    ensures forall i :: 0 <= i < |ws| ==> r[i] == LowerAll(ws[i])
  {
    if ws == [] then [] else [LowerAll(ws[0])] + LowerEach(ws[1..])
  }

  /** `service_name`: the lower-cased words of a component name run together. */
  function ServiceName(name: string): string
  {
    Join(LowerEach(Split(name)))
  }

  /** `service_name` lower-cases the name's characters and drops its
      whitespace, keeping the order of what remains; so its result has no
      whitespace. */
  lemma ServiceNameSpec(name: string)
    ensures ServiceName(name) == LowerAll(RemoveSpaces(name))
    ensures NoSpace(ServiceName(name))
  {
    SplitJoin(name);
    JoinLowerEach(Split(name));
  }

  lemma {:induction false} LowerAllAppend(a: string, b: string)
    ensures LowerAll(a + b) == LowerAll(a) + LowerAll(b)
  {
  }

  lemma {:induction false} RemoveSpacesAppend(a: string, b: string)
    ensures RemoveSpaces(a + b) == RemoveSpaces(a) + RemoveSpaces(b)
  {
    if a == [] {
      assert a + b == b;
    } else {
      assert (a + b)[1..] == a[1..] + b;
      RemoveSpacesAppend(a[1..], b);
    }
  }

  lemma {:induction false} RemoveSpacesOfNoSpace(s: string)
    requires NoSpace(s)
    ensures RemoveSpaces(s) == s
  {
    if s != [] {
      RemoveSpacesOfNoSpace(s[1..]);
    }
  }

  lemma {:induction false} RemoveSpacesDrop(s: string)
    ensures RemoveSpaces(DropSpaces(s)) == RemoveSpaces(s)
  {
    if s != [] && IsSpace(s[0]) {
      RemoveSpacesDrop(s[1..]);
    }
  }

  /** Joining the words of `s` gives `s` with its whitespace removed. */
  lemma {:induction false} SplitJoin(s: string)
    decreases |s|
    ensures Join(Split(s)) == RemoveSpaces(s)
  {
    var t := DropSpaces(s);
    RemoveSpacesDrop(s);
    if t != [] {
      var n := WordLength(t);
      assert t == t[..n] + t[n..];
      RemoveSpacesAppend(t[..n], t[n..]);
      RemoveSpacesOfNoSpace(t[..n]);
      SplitJoin(t[n..]);
      assert Split(s) == [t[..n]] + Split(t[n..]);
    }
  }

  lemma {:induction false} JoinLowerEach(ws: seq<string>)
    ensures Join(LowerEach(ws)) == LowerAll(Join(ws))
  {
    if ws != [] {
      JoinLowerEach(ws[1..]);
      LowerAllAppend(ws[0], Join(ws[1..]));
    }
  }

  /** `service_name` is idempotent. */
  lemma ServiceNameIdempotent(name: string)
    ensures ServiceName(ServiceName(name)) == ServiceName(name)
  {
    var r := ServiceName(name);
    ServiceNameSpec(name);
    ServiceNameSpec(r);
    RemoveSpacesOfNoSpace(r);
    assert LowerAll(r) == r;
  }

  /** Plugin name to component name for the rows with a plugin; when two
      rows share a plugin the later one wins, as in a dictionary built from
      a generator. */
  function Plugins(info: seq<(string, ServiceInfo)>): map<string, string>
  {
    if info == [] then map[]
    else
      var r := Plugins(info[..|info| - 1]);
      var last := info[|info| - 1];
      if last.1.twistd != "" then r[last.1.twistd := last.0] else r
  }

  /** SERVICES: twistd plugin name to service name. */
  function Services(info: seq<(string, ServiceInfo)>): map<string, string>
  {
    var p := Plugins(info);
    map k | k in p :: ServiceName(p[k])
  }

  /** The keys of SERVICES are exactly the non-empty plugin names. */
  lemma {:induction false} ServicesKeys(info: seq<(string, ServiceInfo)>, k: string)
    ensures k in Services(info) <==> k != "" && exists i :: 0 <= i < |info| && info[i].1.twistd == k
  {
    PluginsKeys(info, k);
  }

  lemma {:induction false} PluginsKeys(info: seq<(string, ServiceInfo)>, k: string)
    ensures k in Plugins(info) <==> k != "" && exists i :: 0 <= i < |info| && info[i].1.twistd == k
  {
    if info != [] {
      var front := info[..|info| - 1];
      var last := info[|info| - 1];
      PluginsKeys(front, k);
      if k in Plugins(info) {
        if last.1.twistd != k {
          var i :| 0 <= i < |front| && front[i].1.twistd == k;
          assert info[i] == front[i];
        }
      } else if k != "" {
        forall i | 0 <= i < |info|
          ensures info[i].1.twistd != k
        {
          if i < |front| {
            assert info[i] == front[i];
          }
        }
      }
    }
  }

  /** Each plugin maps to the service name of the last row carrying it. */
  lemma ServicesLastWins(info: seq<(string, ServiceInfo)>, i: nat)
    requires i < |info| && info[i].1.twistd != ""
    requires forall j :: i < j < |info| ==> info[j].1.twistd != info[i].1.twistd
    ensures info[i].1.twistd in Services(info)
    ensures Services(info)[info[i].1.twistd] == ServiceName(info[i].0)
  {
    PluginsLastWins(info, i);
  }

  lemma {:induction false} PluginsLastWins(info: seq<(string, ServiceInfo)>, i: nat)
    requires i < |info| && info[i].1.twistd != ""
    requires forall j :: i < j < |info| ==> info[j].1.twistd != info[i].1.twistd
    ensures info[i].1.twistd in Plugins(info)
    ensures Plugins(info)[info[i].1.twistd] == info[i].0
  {
    var front := info[..|info| - 1];
    if i < |info| - 1 {
      assert front[i] == info[i];
      PluginsLastWins(front, i);
    }
  }

  /** COLLAB_COMPONENTS: one "name: role" line per row. */
  function Components(info: seq<(string, ServiceInfo)>): (r: seq<string>)
    ensures |r| == |info|
    ensures forall i :: 0 <= i < |info| ==> r[i] == info[i].0 + ": " + info[i].1.role
  {
    if info == [] then [] else [info[0].0 + ": " + info[0].1.role] + Components(info[1..])
  }
}

=== FILE: collab_node.dfy ===
/** The base of every collab pubsub client (`collabNode.py`): what it
    publishes, how it runs a batch of received items, its load check
    and its error path. A publication stands for the element the
    source builds with the `toElement` methods of the records it carries;
    whether the output or error node delivers it is an outcome input. */
module CollabNode {
  import opened Wrappers
  import opened Collab
  import opened Simulation
  import Portfolios
  import Nodes

  /** What a node hands to its output node (the first four) or to its
      error node (`LogsOut`). The parameters are already relabelled with
      the command the broadcast sets. */
  datatype Publication =
    | ResultsOut(params: Parameters, distributions: Distributions, progress: Option<Progress>)
    | StopOut(params: Parameters)
    | InfoOut(params: Parameters, runs: Progress)
    | StartOut(params: Parameters, portfolio: Portfolios.Portfolio)
    | LogsOut(params: Parameters, logs: Logger)

  /** Publications for the error node are the log broadcasts. */
  predicate ToErrorNode(p: Publication)
  {
    p.LogsOut?
  }

  // ---------------------------------------------------------------- broadcasts

  /** `broadcastStop`: the parameters relabelled 'stop', to the output node. */
  function BroadcastStop(p: Parameters): (r: Publication)
    ensures r.StopOut? && !ToErrorNode(r)
    ensures r.params.cmd == Stop && r.params == p.(cmd := Stop)
  {
    StopOut(p.(cmd := Stop))
  }

  /** `broadcastLogs`: the log under the given parameters, or default
      ones stamped `now`, relabelled 'info', to the error node. */
  function BroadcastLogs(logs: Logger, params: Option<Parameters>, now: Timestamp): (r: Publication)
    ensures ToErrorNode(r) && r.logs == logs && r.params.cmd == Info
    ensures params.Some? ==> r.params == params.value.(cmd := Info)
    ensures params.None? ==> r.params == DefaultParameters(now)
  {
    var p := if params.Some? then params.value else DefaultParameters(now);
    LogsOut(p.(cmd := Info), logs)
  }

  /** `_errback`: the failure's text is added under 'error' to the given
      log (a fresh one when none is given), and the log is broadcast; a
      failure of that broadcast is swallowed, so `_errback` always ends
      well. The log is returned because the source adds to the caller's
      logger in place. */
  function Errback(reason: string, logs: Option<Logger>, params: Option<Parameters>, now: Timestamp): (r: (Logger, Publication))
    ensures var base := if logs.Some? then logs.value else EmptyLogger;
            Messages(r.0, ErrorEl) == Messages(base, ErrorEl) + [Xml.Text(reason)]
    ensures forall s :: s != ErrorEl && logs.Some? ==> Messages(r.0, s) == Messages(logs.value, s)
    ensures r.1 == BroadcastLogs(r.0, params, now)
  {
    var logged := LogError(if logs.Some? then logs.value else EmptyLogger, reason);
    (logged, BroadcastLogs(logged, params, now))
  }

  // ---------------------------------------------------------------- received items

  /** How `onGotItem` returned for one item: with a Deferred that fired
      with the outcome, with a Deferred that never fires, with `None`
      (which has no `addErrback`), or by raising. */
  datatype Reply = Fired(outcome: Outcome) | Unfired | ReturnedNone | Raised(reason: string)

  /** The reply ends the batch with a failure: `d.addErrback` on `None`,
      or the exception, escapes the cooperative loop. */
  predicate Aborts(r: Reply)
  {
    r.ReturnedNone? || r.Raised?
  }

  /** The reply keeps the batch going: only a Deferred that fires lets
      the cooperative loop move to the next item. */
  predicate Continues(r: Reply)
  {
    r.Fired?
  }

  /** The text of the `AttributeError` raised for a `None` reply. */
  const NoneHasNoErrback := "'NoneType' object has no attribute 'addErrback'"

  /** One item handled by a node: the node's next state, what it
      published and how `onGotItem` returned. */
  datatype Step<S> = Step(state: S, pubs: seq<Publication>, reply: Reply)

  /** A batch handled: the node's state, its publications, how many items
      reached `onGotItem`, and how the batch's Deferred ended (`None`:
      it never fires, the loop waiting on an item's Deferred for ever). */
  datatype Batch<S> = Batch(state: S, pubs: seq<Publication>, handled: nat, outcome: Option<Outcome>)

  /** `itemsReceived`: `onGotItem` (`step`) on each item in order. A
      failed Deferred goes to `_errback` (one log broadcast, default
      parameters) and the batch carries on; an aborting reply ends the
      batch with a failure and an unfired one stalls it. */
  function ItemsReceived<S, I>(s: S, items: seq<I>, step: (S, I) -> Step<S>, now: Timestamp): (r: Batch<S>)
    ensures r.handled <= |items|
    ensures r.outcome == Some(Succeeded) ==> r.handled == |items|
  {
    if items == [] then Batch(s, [], 0, Some(Succeeded))
    else
      var st := step(s, items[0]);
      match st.reply
      case Unfired => Batch(st.state, st.pubs, 1, None)
      case ReturnedNone => Batch(st.state, st.pubs, 1, Some(Failed(NoneHasNoErrback)))
      case Raised(e) => Batch(st.state, st.pubs, 1, Some(Failed(e)))
      case Fired(o) =>
        var rest := ItemsReceived(st.state, items[1..], step, now);
        Batch(rest.state, st.pubs + ErrbackOf(o, now) + rest.pubs, 1 + rest.handled, rest.outcome)
  }

  /** What `d.addErrback(self._errback)` publishes for an item's outcome. */
  function ErrbackOf(o: Outcome, now: Timestamp): (r: seq<Publication>)
    ensures o.Succeeded? <==> r == []
  {
    if o.Succeeded? then [] else [Errback(o.reason, None, None, now).1]
  }

  /** A batch is its first part then the rest, started from the state the
      first part left, unless the first part was cut short: a failing item
      never stops the ones after it, only a reply that does not fire does. */
  lemma {:induction false} ItemsReceivedAppend<S, I>(s: S, a: seq<I>, b: seq<I>, step: (S, I) -> Step<S>, now: Timestamp)
    ensures var ra := ItemsReceived(s, a, step, now);
            ra.outcome != Some(Succeeded) ==> ItemsReceived(s, a + b, step, now) == ra
    ensures var ra := ItemsReceived(s, a, step, now);
            var rb := ItemsReceived(ra.state, b, step, now);
            ra.outcome == Some(Succeeded) ==>
              ItemsReceived(s, a + b, step, now) == Batch(rb.state, ra.pubs + rb.pubs, |a| + rb.handled, rb.outcome)
  {
    if a == [] {
      assert a + b == b;
    } else {
      assert (a + b)[0] == a[0];
      assert (a + b)[1..] == a[1..] + b;
      var st := step(s, a[0]);
      if st.reply.Fired? {
        ItemsReceivedAppend(st.state, a[1..], b, step, now);
        var ra := ItemsReceived(s, a, step, now);
        var rest := ItemsReceived(st.state, a[1..], step, now);
        if ra.outcome == Some(Succeeded) {
          var rb := ItemsReceived(ra.state, b, step, now);
          assert st.pubs + ErrbackOf(st.reply.outcome, now) + (rest.pubs + rb.pubs)
              == (st.pubs + ErrbackOf(st.reply.outcome, now) + rest.pubs) + rb.pubs;
        }
      }
    }
  }

  /** One item: `onGotItem` is called once; when its Deferred fails,
      exactly one log is broadcast after what the item published, and the
      batch still succeeds; it fails exactly when the reply aborts and never
      ends exactly when the reply never fires. */
  lemma ItemsReceivedOne<S, I>(s: S, x: I, step: (S, I) -> Step<S>, now: Timestamp)
    ensures var st := step(s, x);
            var r := ItemsReceived(s, [x], step, now);
            r.handled == 1 && r.state == st.state
            && (r.outcome == Some(Succeeded) <==> Continues(st.reply))
            && (r.outcome.None? <==> st.reply.Unfired?)
            && (st.reply == Fired(Succeeded) ==> r.pubs == st.pubs)
            && (st.reply.Fired? && st.reply.outcome.Failed? ==>
                  r.pubs == st.pubs + [BroadcastLogs(LogError(EmptyLogger, st.reply.outcome.reason), None, now)])
  {
    assert [x][1..] == [];
  }

  /** An item that changes nothing, publishes nothing and fires at once
      leaves the rest of the batch as if it had not been there. */
  lemma ItemsReceivedSkip<S, I>(s: S, x: I, rest: seq<I>, step: (S, I) -> Step<S>, now: Timestamp)
    requires step(s, x) == Step(s, [], Fired(Succeeded))
    ensures var b := ItemsReceived(s, rest, step, now);
            ItemsReceived(s, [x] + rest, step, now) == b.(handled := b.handled + 1)
  {
    assert ([x] + rest)[0] == x;
    assert ([x] + rest)[1..] == rest;
  }

  /** Every item of a batch whose replies always fire reaches `onGotItem`,
      and the batch succeeds. */
  lemma {:induction false} ItemsReceivedAll<S, I>(s: S, items: seq<I>, step: (S, I) -> Step<S>, now: Timestamp)
    requires forall t: S, x: I :: x in items ==> Continues(step(t, x).reply)
    ensures ItemsReceived(s, items, step, now).handled == |items|
    ensures ItemsReceived(s, items, step, now).outcome == Some(Succeeded)
  {
    if items != [] {
      assert items[0] in items;
      assert forall x :: x in items[1..] ==> x in items;
      ItemsReceivedAll(step(s, items[0]).state, items[1..], step, now);
    }
  }

  // ---------------------------------------------------------------- load check

  /** Whether the node has unhooked its inputs, and which it unhooked. */
  datatype LoadState = LoadState(overloaded: bool, inputs: set<string>)

  const InitialLoad := LoadState(false, {})

  /** What `_checkLoading` asks of the load balancer. */
  datatype LoadAction = NoAction | SuspendAll | ReloadAll(channels: set<string>)

  /** `_checkLoading`: `busy` is the balancer's verdict, `suspended` how
      `suspendAll` ended (with the channels it unhooked) and `reloaded`
      how `reloadAll` ended; the set `reloadAll` returns is discarded. A
      failure goes to `_errback`. */
  function CheckLoading(s: LoadState, busy: bool, suspended: Result<set<string>, string>, reloaded: Outcome, now: Timestamp)
    : (r: (LoadState, LoadAction, seq<Publication>))
    ensures !s.overloaded && !busy ==> r == (s, NoAction, [])
    ensures s.overloaded && busy ==> r == (s, NoAction, [])
    ensures !s.overloaded && busy ==> r.1 == SuspendAll
    ensures !s.overloaded && busy && suspended.Ok? ==> r.0 == LoadState(true, suspended.value) && r.2 == []
    ensures !s.overloaded && busy && suspended.Err? ==> r.0 == s && r.2 == [Errback(suspended.error, None, None, now).1]
    ensures s.overloaded && !busy ==> r.1 == ReloadAll(s.inputs)
    ensures s.overloaded && !busy && reloaded.Succeeded? ==> r.0 == InitialLoad && r.2 == []
    ensures s.overloaded && !busy && reloaded.Failed? ==> r.0 == s && r.2 == [Errback(reloaded.reason, None, None, now).1]
  {
    if !s.overloaded then
      if !busy then (s, NoAction, [])
      else match suspended
        case Ok(chs) => (LoadState(true, chs), SuspendAll, [])
        case Err(e) => (s, SuspendAll, [Errback(e, None, None, now).1])
    else
      if busy then (s, NoAction, [])
      else
        var during := LoadState(false, {});
        match reloaded
        case Succeeded => (during, ReloadAll(s.inputs), [])
        case Failed(e) => (LoadState(true, s.inputs), ReloadAll(s.inputs), [Errback(e, None, None, now).1])
  }

  /** A node that is not overloaded holds no unhooked inputs: true at the
      start and kept by every load check. */
  predicate LoadInvariant(s: LoadState)
  {
    !s.overloaded ==> s.inputs == {}
  }

  lemma CheckLoadingKeepsInvariant(s: LoadState, busy: bool, suspended: Result<set<string>, string>, reloaded: Outcome, now: Timestamp)
    requires LoadInvariant(s)
    ensures LoadInvariant(CheckLoading(s, busy, suspended, reloaded, now).0)
  {
  }

  /** With the balancer that never trips, a node that is not overloaded
      never changes and never asks the balancer for anything. */
  lemma NonTrippingIsInert<E>(s: LoadState, env: E, suspended: Result<set<string>, string>, reloaded: Outcome, now: Timestamp)
    requires !s.overloaded
    ensures CheckLoading(s, Nodes.NeverOverloaded(env), suspended, reloaded, now) == (s, NoAction, [])
  {
  }

  /** Unhooking then hooking back in, both succeeding, asks to reload
      exactly the channels unhooked and returns the node to its start. */
  lemma SuspendThenReload(chs: set<string>, now: Timestamp, o: Outcome)
    ensures var first := CheckLoading(InitialLoad, true, Ok(chs), o, now);
            var second := CheckLoading(first.0, false, Err(""), Succeeded, now);
            first.1 == SuspendAll && second.1 == ReloadAll(chs) && second.0 == InitialLoad
  {
  }
}

=== FILE: collab_system_manager.dfy ===
/** The system manager's service discovery and request routing
    (`collabSystemManager.py`): its menu answers disco#info and
    disco#items, and its command chain, built from the wizards when the
    stream connects, handles command iqs. */
module SystemManager {
  import opened Wrappers
  import opened Xml
  import opened MenuSystem
  import opened CommandSystem
  import opened Wizards
  import opened Collections
  import opened NumberText

  const TopNode := "collabManager"
  const DefaultName := "Collab System Manager"

  datatype SystemManager = SystemManager(jid: string, name: string, menu: Menu, chain: seq<Link>)

  /** The constructor: a menu holding only the top node, named after the
      manager, and a chain holding only the pass-through handler. */
  function NewSystemManager(jid: string, name: Option<string>): (r: SystemManager)
    ensures r.name == (if name.Some? && name.value != "" then name.value else DefaultName)
    ensures r.menu.top == TopNode && r.menu.menus.Keys == {TopNode} && WellFormed(r.menu)
    ensures r.menu.menus[TopNode].item.name == r.name
    ensures r.chain == [PassThrough]
  {
    var n := if name.Some? && name.value != "" then name.value else DefaultName;
    SystemManager(jid, n, NewMenu(jid, TopNode, "component", "generic", n), [PassThrough])
  }

  /** `getDiscoInfo`: nothing for another entity; the top's info for the
      empty node; a known node's info; nothing for an unknown node, whose
      `KeyError` is caught. The root query has no such guard: once the top
      entry is deleted it raises the `KeyError` of the top's name. */
  function GetDiscoInfo(m: SystemManager, target: string, node: string): (r: Result<Option<Info>, string>)
    ensures target != m.jid ==> r == Ok(None)
    ensures target == m.jid && node == "" && m.menu.top in m.menu.menus ==> r == Ok(Some(m.menu.menus[m.menu.top].info))
    ensures r.Err? <==> target == m.jid && node == "" && m.menu.top !in m.menu.menus
    ensures r.Err? ==> r.error == Repr(m.menu.top)
    ensures target == m.jid && node != "" ==> r.Ok? && (r.value.Some? <==> node in m.menu.menus)
    ensures target == m.jid && node != "" && r.Ok? && r.value.Some? ==> r.value.value == m.menu.menus[node].info
  {
    if target != m.jid then Ok(None)
    else if node == "" then
      match Lookup(m.menu, m.menu.top)
      case None => Err(Repr(m.menu.top))
      case Some(e) => Ok(Some(e.info))
    else
      match Lookup(m.menu, node)
      case None => Ok(None)
      case Some(e) => Ok(Some(e.info))
  }

  /** `getDiscoItems`: none for another entity or an unknown node; the
      top's children for the empty node (`order` is the menu's iteration
      order). Only a menu that lost its top makes the root query raise. */
  function GetDiscoItems(m: SystemManager, target: string, node: string, order: seq<string>): (r: Result<seq<Item>, string>)
    ensures target != m.jid ==> r == Ok([])
    ensures target == m.jid && node != "" && node !in m.menu.menus ==> r == Ok([])
    ensures target == m.jid && node == "" ==> r == ChildItems(m.menu, m.menu.top, order)
    ensures target == m.jid && node != "" && node in m.menu.menus ==> r == ChildItems(m.menu, node, order)
    ensures r.Err? ==> target == m.jid && node == "" && m.menu.top !in m.menu.menus
  {
    if target != m.jid then Ok([])
    else if node == "" then ChildItems(m.menu, m.menu.top, order)
    else match ChildItems(m.menu, node, order)
      case Err(_) => Ok([])
      case Ok(items) => Ok(items)
  }

  /** The root query lists exactly the nodes directly under the top. */
  lemma RootItemsAreTopChildren(m: SystemManager, order: seq<string>, k: string)
    requires WellFormed(m.menu) && IsOrder(order, m.menu.menus.Keys) && k in m.menu.menus
    ensures var r := GetDiscoItems(m, m.jid, "", order);
            r.Ok? && (m.menu.menus[k].item in r.value <==> m.menu.menus[k].parent == Some(m.menu.top))
  {
    ChildItemsSpec(m.menu, m.menu.top, order, k);
  }

  /** A command node added by a wizard is reported with the ad-hoc
      commands feature. */
  lemma CommandNodeInfo(m: SystemManager, jid: string, subTop: string, w: WizardSpec)
    requires AddCommand(m.menu, m.chain, jid, subTop, w).Ok?
    ensures var (menu, chain) := AddCommand(m.menu, m.chain, jid, subTop, w).value;
            var info := GetDiscoInfo(m.(menu := menu, chain := chain), m.jid, CommandNodeId(subTop, w.name));
            CommandNodeId(subTop, w.name) != "" ==> info.Ok? && info.value.Some? && Collab.CommandNs in info.value.value.features
  {
  }

  /** `connectionMade`: the three sub-menus and their wizards, each
      chained after the last node handler of the one before. The `cmds`
      sequences give each dictionary in its iteration order. */
  function ConnectionMade(m: SystemManager, comms: seq<WizardSpec>, calcs: seq<WizardSpec>, collabs: seq<WizardSpec>): (r: Result<SystemManager, string>)
  {
    match MakeSubSystemCommands(m.menu, m.chain, m.jid, "Communication Channels", "comms_channels", comms)
    case Err(e) => Err(e)
    case Ok((m1, c1)) =>
      match MakeSubSystemCommands(m1, c1, m.jid, "Calculation Nodes", "calcs_nodes", calcs)
      case Err(e) => Err(e)
      case Ok((m2, c2)) =>
        match MakeSubSystemCommands(m2, c2, m.jid, "Collab Nodes", "collabs_nodes", collabs)
        case Err(e) => Err(e)
        case Ok((m3, c3)) => Ok(m.(menu := m3, chain := c3))
  }

  /** The wizards `connectionMade` installs, with and without going back. */
  const CommsWizards := [WizardSpec("Add", true), WizardSpec("Delete", false), WizardSpec("Configure channel", true)]
  const CalcsWizards := [WizardSpec("Add", false), WizardSpec("Remove", false)]
  const CollabsWizards := [WizardSpec("Add", false)]

  /** Once connected, the chain is the pass-through handler followed by
      each wizard's handlers, sub-menu by sub-menu. */
  lemma ConnectedChain(m: SystemManager, comms: seq<WizardSpec>, calcs: seq<WizardSpec>, collabs: seq<WizardSpec>)
    requires ConnectionMade(m, comms, calcs, collabs).Ok?
    ensures ConnectionMade(m, comms, calcs, collabs).value.chain
            == m.chain + Wiring("comms_channels", comms) + Wiring("calcs_nodes", calcs) + Wiring("collabs_nodes", collabs)
  {
    var r1 := MakeSubSystemCommands(m.menu, m.chain, m.jid, "Communication Channels", "comms_channels", comms).value;
    var m1 := AddSubMenu(m.menu, m.jid, "comms_channels", m.menu.top, Automation, CommandList, "Communication Channels").value;
    AddCommandsWiring(m1, m.chain, m.jid, "comms_channels", comms);
    var r2 := MakeSubSystemCommands(r1.0, r1.1, m.jid, "Calculation Nodes", "calcs_nodes", calcs).value;
    var m2 := AddSubMenu(r1.0, m.jid, "calcs_nodes", r1.0.top, Automation, CommandList, "Calculation Nodes").value;
    AddCommandsWiring(m2, r1.1, m.jid, "calcs_nodes", calcs);
    var m3 := AddSubMenu(r2.0, m.jid, "collabs_nodes", r2.0.top, Automation, CommandList, "Collab Nodes").value;
    AddCommandsWiring(m3, r2.1, m.jid, "collabs_nodes", collabs);
  }

  /** A freshly built manager connects: the three sub-menus and six
      command nodes have distinct identifiers, and the chain gains each
      wizard's handlers. */
  lemma FreshConnects(jid: string, name: Option<string>)
    ensures var r := ConnectionMade(NewSystemManager(jid, name), CommsWizards, CalcsWizards, CollabsWizards);
            r.Ok? && |r.value.chain| == 1 + 4 + 3 + 4 + 3 + 3 + 3
  {
    var m := NewSystemManager(jid, name);
    var r1 := CommsStep(m.menu, m.chain, jid);
    var r2 := CalcsStep(r1.0, r1.1, jid);
    var r3 := CollabsStep(r2.0, r2.1, jid);
    ConnectedChain(m, CommsWizards, CalcsWizards, CollabsWizards);
  }

  const CommsKeys := {TopNode, "comms_channels", "comms_channels_Add", "comms_channels_Delete", "comms_channels_Configure channel"}
  const CalcsKeys := CommsKeys + {"calcs_nodes", "calcs_nodes_Add", "calcs_nodes_Remove"}

  lemma CommsStep(menu: Menu, chain: seq<Link>, jid: string) returns (r: (Menu, seq<Link>))
    requires menu.top == TopNode && menu.menus.Keys == {TopNode}
    ensures MakeSubSystemCommands(menu, chain, jid, "Communication Channels", "comms_channels", CommsWizards) == Ok(r)
    ensures r.0.top == TopNode && r.0.menus.Keys == CommsKeys
  {
    WizardIds();
    DistinctNames();
    r := SubSystemStep(menu, chain, jid, "Communication Channels", "comms_channels", CommsWizards);
  }

  lemma CalcsStep(menu: Menu, chain: seq<Link>, jid: string) returns (r: (Menu, seq<Link>))
    requires menu.top == TopNode && menu.menus.Keys == CommsKeys
    ensures MakeSubSystemCommands(menu, chain, jid, "Calculation Nodes", "calcs_nodes", CalcsWizards) == Ok(r)
    ensures r.0.top == TopNode && r.0.menus.Keys == CalcsKeys
  {
    WizardIds();
    DistinctNames();
    r := SubSystemStep(menu, chain, jid, "Calculation Nodes", "calcs_nodes", CalcsWizards);
  }

  lemma CollabsStep(menu: Menu, chain: seq<Link>, jid: string) returns (r: (Menu, seq<Link>))
    requires menu.top == TopNode && menu.menus.Keys == CalcsKeys
    ensures MakeSubSystemCommands(menu, chain, jid, "Collab Nodes", "collabs_nodes", CollabsWizards) == Ok(r)
  {
    WizardIds();
    r := SubSystemStep(menu, chain, jid, "Collab Nodes", "collabs_nodes", CollabsWizards);
  }

  lemma DistinctNames()
    ensures forall i, j :: 0 <= i < j < |CommsWizards| ==> CommsWizards[i].name != CommsWizards[j].name
    ensures forall i, j :: 0 <= i < j < |CalcsWizards| ==> CalcsWizards[i].name != CalcsWizards[j].name
  {
  }

  lemma WizardIds()
    ensures NodeIds("comms_channels", CommsWizards)
            == {"comms_channels_Add", "comms_channels_Delete", "comms_channels_Configure channel"}
    ensures NodeIds("calcs_nodes", CalcsWizards) == {"calcs_nodes_Add", "calcs_nodes_Remove"}
    ensures NodeIds("collabs_nodes", CollabsWizards) == {"collabs_nodes_Add"}
  {
    assert CommandNodeId("comms_channels", "Add") == "comms_channels_Add";
    assert CommandNodeId("comms_channels", "Delete") == "comms_channels_Delete";
    assert CommandNodeId("comms_channels", "Configure channel") == "comms_channels_Configure channel";
    assert CommandNodeId("calcs_nodes", "Add") == "calcs_nodes_Add";
    assert CommandNodeId("calcs_nodes", "Remove") == "calcs_nodes_Remove";
    assert CommandNodeId("collabs_nodes", "Add") == "collabs_nodes_Add";
    assert CommsWizards[1..] == [WizardSpec("Delete", false), WizardSpec("Configure channel", true)];
    assert CommsWizards[1..][1..] == [WizardSpec("Configure channel", true)];
    assert CalcsWizards[1..] == [WizardSpec("Remove", false)];
  }

  /** One sub-menu of `connectionMade`, when its identifiers are new. */
  lemma SubSystemStep(menu: Menu, chain: seq<Link>, jid: string, name: string, subTop: string, cmds: seq<WizardSpec>)
      returns (r: (Menu, seq<Link>))
    requires menu.top in menu.menus && subTop != "" && subTop !in menu.menus
    requires NodeIds(subTop, cmds) !! menu.menus.Keys && subTop !in NodeIds(subTop, cmds)
    requires forall i, j :: 0 <= i < j < |cmds| ==> cmds[i].name != cmds[j].name
    ensures MakeSubSystemCommands(menu, chain, jid, name, subTop, cmds) == Ok(r)
    ensures r.0.menus.Keys == menu.menus.Keys + {subTop} + NodeIds(subTop, cmds) && r.0.top == menu.top
  {
    var m := AddSubMenu(menu, jid, subTop, menu.top, Automation, CommandList, name).value;
    forall i | 0 <= i < |cmds| ensures CommandNodeId(subTop, cmds[i].name) !in m.menus {
      InNodeIds(subTop, cmds, i);
    }
    AddCommandsSucceed(m, chain, jid, subTop, cmds);
    r := AddCommands(m, chain, jid, subTop, cmds).value;
  }

  /** `handleRequest`: the iq goes down the chain, to the position of the
      link that handles it. When no link can process it `process_iq`
      returns `None`, and adding the send callback to it raises. */
  function HandleRequest(m: SystemManager, iq: Element): (r: Result<nat, string>)
    ensures r.Ok? ==> r.value < |m.chain| && CanProcess(m.chain[r.value], iq)
    ensures r.Ok? ==> forall j :: 0 <= j < r.value ==> !CanProcess(m.chain[j], iq)
    ensures r.Err? <==> forall j :: 0 <= j < |m.chain| ==> !CanProcess(m.chain[j], iq)
    ensures r.Err? ==> r.error == NoneAddCallback
  {
    DispatchNone(m.chain, iq);
    match Dispatch(m.chain, iq)
    case None => Err(NoneAddCallback)
    case Some(i) => Ok(i)
  }
}

=== FILE: collections.dfy ===
/** Small facts about sequences, sets and strings used across the model. */
module Collections {

  predicate Distinct<T(==)>(xs: seq<T>)
  {
    forall i, j :: 0 <= i < j < |xs| ==> xs[i] != xs[j]
  }

  /** `xs` lists the elements of `s`, each once: one iteration order of `s`. */
  ghost predicate IsOrder<T(!new)>(xs: seq<T>, s: set<T>)
  {
    Distinct(xs) && forall x :: x in xs <==> x in s
  }

  /** The members of an iteration order are the set's members, without repeats. */
  lemma OrderMembers<T(!new)>(xs: seq<T>, s: set<T>)
    requires IsOrder(xs, s)
    ensures Distinct(xs)
    ensures forall i :: 0 <= i < |xs| ==> xs[i] in s
  {
  }

  /** An iteration order is as long as the set is large. */
  lemma {:induction false} OrderLength<T(!new)>(xs: seq<T>, s: set<T>)
    requires IsOrder(xs, s)
    decreases |xs|
    ensures |xs| == |s|
  {
    if xs != [] {
      DistinctRest(xs, xs[0]);
      forall x ensures x in xs[1..] <==> x in s - {xs[0]} {
        DistinctRest(xs, x);
      }
      OrderLength(xs[1..], s - {xs[0]});
    }
  }

  /** `sub` occurs in `s` as a contiguous substring (Python `sub in s`). */
  predicate IsSubstring(sub: string, s: string)
  {
    (|sub| <= |s| && s[..|sub|] == sub) || (s != [] && IsSubstring(sub, s[1..]))
  }

  /** In a list without repeats, an element is the head or in the tail,
      never both, and the tail has no repeats either. */
  lemma DistinctRest<T>(xs: seq<T>, x: T)
    requires xs != [] && Distinct(xs)
    ensures x in xs <==> x == xs[0] || x in xs[1..]
    ensures x in xs[1..] ==> x != xs[0]
    ensures Distinct(xs[1..])
  {
    if x in xs[1..] {
      var k :| 0 <= k < |xs[1..]| && xs[1..][k] == x;
      assert xs[k + 1] == x;
    }
  }

  /** Two maps with the same keys and the same value at each key are equal. */
  lemma SameMap<K, V>(a: map<K, V>, b: map<K, V>)
    requires forall k :: k in a <==> k in b
    requires forall k :: k in a ==> a[k] == b[k]
    ensures a == b
  {
  }

  /** Python `dict(pairs)`: each key of the pairs, bound to the value of
      the last pair carrying it. */
  function DictOf<K, V>(ps: seq<(K, V)>): map<K, V>
  {
    if ps == [] then map[]
    else
      var last := ps[|ps| - 1];
      DictOf(ps[..|ps| - 1])[last.0 := last.1]
  }

  /** The keys of `dict(pairs)` are exactly the keys of the pairs. */
  lemma {:induction false} DictOfKeys<K, V>(ps: seq<(K, V)>, k: K)
    ensures k in DictOf(ps) <==> exists i :: 0 <= i < |ps| && ps[i].0 == k
  {
    if ps != [] {
      var front := ps[..|ps| - 1];
      DictOfKeys(front, k);
      if k in DictOf(front) {
        var i :| 0 <= i < |front| && front[i].0 == k;
        assert ps[i] == front[i];
      }
      if exists i :: 0 <= i < |ps| && ps[i].0 == k {
        var i :| 0 <= i < |ps| && ps[i].0 == k;
        if i < |front| {
          assert front[i] == ps[i];
        }
      }
    }
  }

  /** A key is bound to the value of the last pair that carries it. */
  lemma {:induction false} DictOfLast<K, V>(ps: seq<(K, V)>, i: nat)
    requires i < |ps|
    requires forall j :: i < j < |ps| ==> ps[j].0 != ps[i].0
    ensures ps[i].0 in DictOf(ps) && DictOf(ps)[ps[i].0] == ps[i].1
  {
    if i < |ps| - 1 {
      var front := ps[..|ps| - 1];
      assert front[i] == ps[i];
      DictOfLast(front, i);
    }
  }

  /** Python's `<` on strings: lexicographic order of the characters. */
  predicate LexLess(a: string, b: string)
  {
    b != [] && (a == [] || a[0] < b[0] || (a[0] == b[0] && LexLess(a[1..], b[1..])))
  }

  /** Of two strings, exactly one is less, or they are equal. */
  lemma {:induction false} LexTrichotomy(a: string, b: string)
    ensures LexLess(a, b) || a == b || LexLess(b, a)
    ensures !(LexLess(a, b) && LexLess(b, a))
    ensures LexLess(a, b) ==> a != b
  {
    if a != [] && b != [] && a[0] == b[0] {
      LexTrichotomy(a[1..], b[1..]);
      if a[1..] == b[1..] {
        assert a == [a[0]] + a[1..] && b == [b[0]] + b[1..];
      }
    }
  }
}

=== FILE: command.dfy ===
/** The `<command/>` element of section 6 of XEP-0050 (Ad-Hoc Commands)
    as `command.py` reads and writes it: the actions a reply offers, the
    notes it carries, and the command itself. */
module Commands {
  import opened Wrappers
  import opened Xml
  import opened Collab
  import opened Collections

  const XDataNs := "jabber:x:data"

  datatype CommandError =
    | InvalidAction(reason: string)
    | InvalidNoteType(reason: string)
    | InvalidCommand(reason: string)
    | InvalidStatus(reason: string)
    | InvalidCommandAction(reason: string)

  /** Python truthiness of an optional string: present and not empty. */
  predicate Truthy(o: Option<string>)
  {
    o.Some? && o.value != ""
  }

  // ---------------------------------------------------------------- actions

  /** The actions a reply may offer. */
  const AllActions: set<string> := {"next", "prev", "complete"}

  /** `Actions`: the offered actions and the default one. */
  datatype Actions = Actions(actions: set<string>, default: Option<string>)

  const NoActions := Actions({}, None)

  /** `add`: set insertion, for the three offerable actions only. */
  function AddAction(a: Actions, action: string): (r: Result<Actions, CommandError>)
    ensures r.Err? <==> action !in AllActions
    ensures r.Err? ==> r.error == InvalidAction("Invalid action added " + action)
    ensures r.Ok? ==> r.value.actions == a.actions + {action} && r.value.default == a.default
  {
    if action !in AllActions then Err(InvalidAction("Invalid action added " + action))
    else Ok(a.(actions := a.actions + {action}))
  }

  /** `remove`: set removal; an absent action is ignored. */
  function RemoveAction(a: Actions, action: string): (r: Actions)
    ensures r.actions == a.actions - {action} && r.default == a.default
    ensures action !in a.actions ==> r == a
  {
    if action in a.actions then a.(actions := a.actions - {action}) else a
  }

  /** `setDefault`: the action is added and becomes the default. */
  function SetDefault(a: Actions, action: string): (r: Result<Actions, CommandError>)
    ensures r.Err? <==> action !in AllActions
    ensures r.Ok? ==> r.value == Actions(a.actions + {action}, Some(action))
  {
    match AddAction(a, action)
    case Err(e) => Err(e)
    case Ok(b) => Ok(b.(default := Some(action)))
  }

  /** Removing an action just added, that was not there before, undoes the addition. */
  lemma AddThenRemove(a: Actions, action: string)
    requires action in AllActions && action !in a.actions
    ensures RemoveAction(AddAction(a, action).value, action) == a
  {
  }

  /** Actions that `fromElement` can give back. */
  predicate ValidActions(a: Actions)
  {
    a.actions <= AllActions && (a.default.Some? ==> a.default.value in a.actions)
  }

  /** An element with a name and nothing else. */
  function Empty(name: string): Element
  {
    Element("", name, map[], [])
  }

  function EmptyElements(names: seq<string>): (r: seq<Element>)
    ensures |r| == |names|
    ensures forall i :: 0 <= i < |names| ==> r[i] == Empty(names[i])
  {
    if names == [] then [] else [Empty(names[0])] + EmptyElements(names[1..])
  }

  /** `Actions.toElement`, the actions written in the iteration order `order`. */
  function ActionsToElement(a: Actions, order: seq<string>): Element
  {
    var attrs := if Truthy(a.default) then map["execute" := a.default.value] else map[];
    Element("", "actions", attrs, Wrap(EmptyElements(order)))
  }

  /** The child names that are offerable actions, added in turn. */
  function AddValid(a: Actions, cs: seq<Element>): (r: Actions)
    decreases |cs|
    ensures r.default == a.default
  {
    if cs == [] then a
    else AddValid(if cs[0].name in AllActions then a.(actions := a.actions + {cs[0].name}) else a, cs[1..])
  }

  lemma {:induction false} AddValidSpec(a: Actions, cs: seq<Element>, x: string)
    decreases |cs|
    ensures x in AddValid(a, cs).actions <==> x in a.actions || (x in AllActions && exists i :: 0 <= i < |cs| && cs[i].name == x)
  {
    if cs != [] {
      var a1 := if cs[0].name in AllActions then a.(actions := a.actions + {cs[0].name}) else a;
      AddValidSpec(a1, cs[1..], x);
      if exists i :: 0 <= i < |cs| && cs[i].name == x {
        var i :| 0 <= i < |cs| && cs[i].name == x;
        if i > 0 {
          assert cs[1..][i - 1].name == x;
        }
      }
      if exists i :: 0 <= i < |cs[1..]| && cs[1..][i].name == x {
        var i :| 0 <= i < |cs[1..]| && cs[1..][i].name == x;
        assert cs[i + 1].name == x;
      }
    }
  }

  /** `Actions.fromElement`: an invalid 'execute' raises; child elements
      that are not offerable actions are dropped. */
  function ActionsFromElement(e: Element): (r: Result<Actions, CommandError>)
    ensures r.Err? <==> "execute" in e.attrs && e.attrs["execute"] !in AllActions
    ensures r.Ok? ==> ValidActions(r.value)
  {
    var start := if "execute" in e.attrs then SetDefault(NoActions, e.attrs["execute"]) else Ok(NoActions);
    match start
    case Err(x) => Err(x)
    case Ok(a) =>
      var r := AddValid(a, Elements(e));
      assert r.actions <= AllActions && (r.default.Some? ==> r.default.value in r.actions) by {
        forall x | x in r.actions ensures x in AllActions { AddValidSpec(a, Elements(e), x); }
        if r.default.Some? { AddValidSpec(a, Elements(e), r.default.value); }
      }
      Ok(r)
  }

  /** The default, when there is one, is the action the reader starts from. */
  function StartOf(a: Actions): Actions
  {
    if a.default.Some? then Actions({a.default.value}, a.default) else NoActions
  }

  /** Reading the written action elements collects exactly the set written. */
  lemma ReadActionNames(a: Actions, order: seq<string>)
    requires ValidActions(a) && IsOrder(order, a.actions)
    ensures AddValid(StartOf(a), EmptyElements(order)).actions == a.actions
  {
    var r := AddValid(StartOf(a), EmptyElements(order));
    forall x ensures x in r.actions <==> x in a.actions {
      AddValidSpec(StartOf(a), EmptyElements(order), x);
      if x in a.actions {
        var i :| 0 <= i < |order| && order[i] == x;
        assert EmptyElements(order)[i].name == x;
      }
    }
  }

  /** Valid actions written out read back the same, whatever order the
      set was written in. */
  lemma ActionsRoundTrip(a: Actions, order: seq<string>)
    requires ValidActions(a) && IsOrder(order, a.actions)
    ensures ActionsFromElement(ActionsToElement(a, order)) == Ok(a)
  {
    var e := ActionsToElement(a, order);
    ElementsOfWrapped(EmptyElements(order));
    assert Elements(e) == EmptyElements(order);
    assert a.default.Some? ==> a.default.value != "";
    assert ("execute" in e.attrs) == a.default.Some?;
    if a.default.Some? {
      assert NoActions.actions + {a.default.value} == {a.default.value};
      assert SetDefault(NoActions, e.attrs["execute"]) == Ok(StartOf(a));
    }
    ReadActionNames(a, order);
  }

  // ---------------------------------------------------------------- notes

  const NoteTypes: seq<string> := ["info", "warn", "error"]

  /** `Note`: a note's content (the first child node of its element) and type. */
  datatype Note = Note(content: Node, noteType: string)

  /** The `Note` constructor: the type must be info, warn or error. */
  function NewNote(content: Node, noteType: string): (r: Result<Note, CommandError>)
    ensures r.Ok? <==> noteType in NoteTypes
    ensures r.Ok? ==> r.value == Note(content, noteType)
    ensures r.Err? ==> r.error == InvalidNoteType("Invalid note type " + noteType)
  {
    if noteType in NoteTypes then Ok(Note(content, noteType))
    else Err(InvalidNoteType("Invalid note type " + noteType))
  }

  /** `Note.toElement`. */
  function NoteToElement(n: Note): Element
  {
    Element("", "note", map["type" := n.noteType], [n.content])
  }

  /** `Note.fromElement`: the type must be present; an unknown type
      reads as 'warn'; without children the content is empty text. */
  function NoteFromElement(e: Element): (r: Result<Note, CommandError>)
    ensures r.Err? <==> "type" !in e.attrs
    ensures r.Err? ==> r.error == InvalidNoteType("Cannot create Note without a type")
    ensures r.Ok? ==> r.value.noteType in NoteTypes
    ensures r.Ok? ==> (r.value.noteType == e.attrs["type"] <==> e.attrs["type"] in NoteTypes)
    ensures r.Ok? && e.attrs["type"] !in NoteTypes ==> r.value.noteType == "warn"
    ensures r.Ok? ==> r.value.content == (if e.children == [] then Text("") else e.children[0])
  {
    if "type" !in e.attrs then Err(InvalidNoteType("Cannot create Note without a type"))
    else
      var t := if e.attrs["type"] in NoteTypes then e.attrs["type"] else "warn";
      var content := if e.children == [] then Text("") else e.children[0];
      NewNote(content, t)
  }

  /** A note of a valid type written out reads back the same. */
  lemma NoteRoundTrip(n: Note)
    requires n.noteType in NoteTypes
    ensures NoteFromElement(NoteToElement(n)) == Ok(n)
  {
  }

  // ---------------------------------------------------------------- commands

  const AllowedStatus: seq<string> := ["executing", "completed", "canceled"]
  const AllowedAction: seq<string> := ["execute", "cancel", "prev", "next", "complete"]

  /** `Command`: the data form is kept as its element. */
  datatype Command = Command(node: string, status: Option<string>, sessionid: string, action: Option<string>,
                             actions: Option<Actions>, form: Option<Element>, notes: seq<Note>)

  /** The `Command` constructor: exactly one of status and action, each
      from its allowed list; without a session id one is made from the
      node and the clock reading `now`. */
  function NewCommand(node: string, status: Option<string>, sessionid: Option<string>, action: Option<string>,
                      now: string): (r: Result<Command, CommandError>)
    ensures r.Ok? <==> (Truthy(status) != Truthy(action))
                       && (Truthy(status) ==> status.value in AllowedStatus)
                       && (Truthy(action) ==> action.value in AllowedAction)
    ensures r.Err? && Truthy(status) == Truthy(action) ==> r.error.InvalidCommand?
    ensures r.Ok? ==> r.value.node == node && r.value.status == status && r.value.action == action
                      && r.value.actions.None? && r.value.form.None? && r.value.notes == []
    ensures r.Ok? ==> r.value.sessionid == (if Truthy(sessionid) then sessionid.value else node + ":" + now)
  {
    if Truthy(status) && Truthy(action) then Err(InvalidCommand("Cannot have a command with both status and action"))
    else if !Truthy(status) && !Truthy(action) then Err(InvalidCommand("Cannot have a command without a status or action"))
    else if Truthy(status) && status.value !in AllowedStatus then Err(InvalidStatus("Invalid status " + status.value))
    else if Truthy(action) && action.value !in AllowedAction then Err(InvalidCommandAction("Invalid action " + action.value))
    else
      var sid := if Truthy(sessionid) then sessionid.value else node + ":" + now;
      Ok(Command(node, status, sid, action, None, None, []))
  }

  /** The attributes `Command.toElement` writes: node and session id
      always, status and action when set. */
  function CommandAttrs(c: Command): map<string, string>
  {
    var base := map["node" := c.node, "sessionid" := c.sessionid];
    var withStatus := if Truthy(c.status) then base["status" := c.status.value] else base;
    if Truthy(c.action) then withStatus["action" := c.action.value] else withStatus
  }

  function NoteElements(notes: seq<Note>): (r: seq<Element>)
    ensures |r| == |notes|
    ensures forall i :: 0 <= i < |notes| ==> r[i] == NoteToElement(notes[i])
  {
    if notes == [] then [] else [NoteToElement(notes[0])] + NoteElements(notes[1..])
  }

  /** The children `Command.toElement` writes: the actions, the form,
      then the notes in order. */
  function CommandChildren(c: Command, order: seq<string>): seq<Element>
  {
    (if c.actions.Some? then [ActionsToElement(c.actions.value, order)] else [])
    + (if c.form.Some? then [c.form.value] else [])
    + NoteElements(c.notes)
  }

  /** `Command.toElement`, the actions written in the order `order`. */
  function CommandToElement(c: Command, order: seq<string>): Element
  {
    Element(CommandNs, "command", CommandAttrs(c), Wrap(CommandChildren(c, order)))
  }

  /** Whether a child element is a data form. */
  predicate IsForm(e: Element)
  {
    e.uri == XDataNs && e.name == "x"
  }

  /** The children of a command element read in turn: the last actions
      and the last form win, notes are appended, anything else is ignored. */
  function ReadChildren(c: Command, cs: seq<Element>): (r: Result<Command, CommandError>)
    decreases |cs|
    ensures r.Ok? ==> r.value.node == c.node && r.value.status == c.status && r.value.action == c.action
                      && r.value.sessionid == c.sessionid
  {
    if cs == [] then Ok(c)
    else
      var e := cs[0];
      if e.name == "actions" then
        match ActionsFromElement(e)
        case Err(x) => Err(x)
        case Ok(a) => ReadChildren(c.(actions := Some(a)), cs[1..])
      else if e.name == "note" then
        match NoteFromElement(e)
        case Err(x) => Err(x)
        case Ok(n) => ReadChildren(c.(notes := c.notes + [n]), cs[1..])
      else if IsForm(e) then ReadChildren(c.(form := Some(e)), cs[1..])
      else ReadChildren(c, cs[1..])
  }

  /** An attribute's value, when the element has it. */
  function Attr(e: Element, name: string): Option<string>
  {
    if name in e.attrs then Some(e.attrs[name]) else None
  }

  /** `Command.fromElement`: a node attribute is required; the other
      attributes go through the constructor, then the children are read. */
  function CommandFromElement(e: Element, now: string): (r: Result<Command, CommandError>)
    ensures "node" !in e.attrs ==> r == Err(InvalidCommand("Cannot create Command without a node"))
    ensures r.Ok? ==> "node" in e.attrs && r.value.node == e.attrs["node"]
  {
    if "node" !in e.attrs then Err(InvalidCommand("Cannot create Command without a node"))
    else
      match NewCommand(e.attrs["node"], Attr(e, "status"), Attr(e, "sessionid"), Attr(e, "action"), now)
      case Err(x) => Err(x)
      case Ok(c) => ReadChildren(c, Elements(e))
  }

  /** A command that reading its element gives back: one of status and
      action, allowed and the other absent, a session id, valid actions,
      a data form if any, and notes of valid types. */
  predicate ValidCommand(c: Command)
  {
    && (c.status.None? || c.action.None?)
    && (c.status.Some? ==> c.status.value in AllowedStatus)
    && (c.action.Some? ==> c.action.value in AllowedAction)
    && (c.status.Some? || c.action.Some?)
    && c.sessionid != ""
    && (c.actions.Some? ==> ValidActions(c.actions.value))
    && (c.form.Some? ==> IsForm(c.form.value))
    && forall i :: 0 <= i < |c.notes| ==> c.notes[i].noteType in NoteTypes
  }

  /** Reading a written note appends it. */
  lemma ReadNoteStep(c: Command, n: Note, rest: seq<Element>)
    requires n.noteType in NoteTypes
    ensures ReadChildren(c, [NoteToElement(n)] + rest) == ReadChildren(c.(notes := c.notes + [n]), rest)
  {
    NoteRoundTrip(n);
    assert ([NoteToElement(n)] + rest)[1..] == rest;
  }

  /** Reading written actions sets them. */
  lemma ReadActionsStep(c: Command, a: Actions, order: seq<string>, rest: seq<Element>)
    requires ValidActions(a) && IsOrder(order, a.actions)
    ensures ReadChildren(c, [ActionsToElement(a, order)] + rest) == ReadChildren(c.(actions := Some(a)), rest)
  {
    ActionsRoundTrip(a, order);
    assert ([ActionsToElement(a, order)] + rest)[1..] == rest;
  }

  /** Reading a data form sets it. */
  lemma ReadFormStep(c: Command, f: Element, rest: seq<Element>)
    requires IsForm(f)
    ensures ReadChildren(c, [f] + rest) == ReadChildren(c.(form := Some(f)), rest)
  {
    assert ([f] + rest)[1..] == rest;
  }

  lemma NoteElementsCons(notes: seq<Note>)
    requires notes != []
    ensures NoteElements(notes) == [NoteToElement(notes[0])] + NoteElements(notes[1..])
  {
  }

  lemma AppendCons<T>(xs: seq<T>, ys: seq<T>)
    requires ys != []
    ensures xs + [ys[0]] + ys[1..] == xs + ys
  {
  }

  /** Reading written notes appends them in order. */
  lemma {:induction false} ReadNotes(c: Command, notes: seq<Note>)
    requires forall i :: 0 <= i < |notes| ==> notes[i].noteType in NoteTypes
    decreases |notes|
    ensures ReadChildren(c, NoteElements(notes)) == Ok(c.(notes := c.notes + notes))
  {
    if notes != [] {
      var n := notes[0];
      var c1 := c.(notes := c.notes + [n]);
      NoteElementsCons(notes);
      ReadNoteStep(c, n, NoteElements(notes[1..]));
      ReadNotes(c1, notes[1..]);
      AppendCons(c.notes, notes);
      assert c1.(notes := c1.notes + notes[1..]) == c.(notes := c.notes + notes);
    } else {
      assert c.notes + notes == c.notes;
    }
  }

  /** The form and notes of a command, as written. */
  function FormAndNotes(c: Command): seq<Element>
  {
    (if c.form.Some? then [c.form.value] else []) + NoteElements(c.notes)
  }

  /** Reading a written form and notes restores them. */
  lemma ReadFormAndNotes(c: Command)
    requires ValidCommand(c)
    ensures ReadChildren(c.(form := None, notes := []), FormAndNotes(c)) == Ok(c)
  {
    var withForm := c.(notes := []);
    ReadNotes(withForm, c.notes);
    assert withForm.(notes := withForm.notes + c.notes) == c;
    if c.form.Some? {
      ReadFormStep(c.(form := None, notes := []), c.form.value, NoteElements(c.notes));
    } else {
      assert FormAndNotes(c) == NoteElements(c.notes);
    }
  }

  /** Written actions, then the form and notes, read back into a command
      whose actions, form and notes were cleared. */
  lemma ReadActionsFirst(c: Command, a: Actions, order: seq<string>)
    requires ValidCommand(c) && c.actions == Some(a) && IsOrder(order, a.actions)
    ensures ReadChildren(c.(actions := None, form := None, notes := []), [ActionsToElement(a, order)] + FormAndNotes(c)) == Ok(c)
  {
    ReadFormAndNotes(c);
    ReadActionsStep(c.(actions := None, form := None, notes := []), a, order, FormAndNotes(c));
    assert c.(actions := None, form := None, notes := []).(actions := Some(a)) == c.(form := None, notes := []);
  }

  /** Reading the children of a written command restores its actions,
      form and notes. */
  lemma ReadWrittenChildren(c: Command, order: seq<string>)
    requires ValidCommand(c)
    requires c.actions.Some? ==> IsOrder(order, c.actions.value.actions)
    ensures ReadChildren(c.(actions := None, form := None, notes := []), CommandChildren(c, order)) == Ok(c)
  {
    if c.actions.Some? {
      ReadActionsFirst(c, c.actions.value, order);
      assert CommandChildren(c, order) == [ActionsToElement(c.actions.value, order)] + FormAndNotes(c);
    } else {
      ReadFormAndNotes(c);
      assert CommandChildren(c, order) == FormAndNotes(c);
      assert c.(actions := None, form := None, notes := []) == c.(form := None, notes := []);
    }
  }

  /** The attributes of a written command rebuild it, children aside. */
  lemma WrittenAttrsRead(c: Command, children: seq<Node>, now: string)
    requires ValidCommand(c)
    ensures var e := Element(CommandNs, "command", CommandAttrs(c), children);
            NewCommand(c.node, Attr(e, "status"), Attr(e, "sessionid"), Attr(e, "action"), now)
            == Ok(c.(actions := None, form := None, notes := []))
  {
    var e := Element(CommandNs, "command", CommandAttrs(c), children);
    assert c.status.Some? ==> c.status.value != "";
    assert c.action.Some? ==> c.action.value != "";
    assert Attr(e, "status") == c.status;
    assert Attr(e, "action") == c.action;
    assert Attr(e, "sessionid") == Some(c.sessionid);
  }

  /** A valid command written out reads back the same. */
  lemma CommandRoundTrip(c: Command, order: seq<string>, now: string)
    requires ValidCommand(c)
    requires c.actions.Some? ==> IsOrder(order, c.actions.value.actions)
    ensures CommandFromElement(CommandToElement(c, order), now) == Ok(c)
  {
    var e := CommandToElement(c, order);
    ElementsOfWrapped(CommandChildren(c, order));
    assert Elements(e) == CommandChildren(c, order);
    assert e.attrs["node"] == c.node;
    WrittenAttrsRead(c, e.children, now);
    ReadWrittenChildren(c, order);
  }

  // ---------------------------------------------------------------- finding the command

  /** `copyCommandElement`: a bare command element carrying only the
      session id and node of the given one, each when present. */
  function CopyCommandElement(e: Element): (r: Element)
    ensures r.uri == CommandNs && r.name == "command" && r.children == []
    ensures r.attrs.Keys == e.attrs.Keys * {"sessionid", "node"}
    ensures forall k :: k in r.attrs ==> r.attrs[k] == e.attrs[k]
  {
    var sid := if "sessionid" in e.attrs then map["sessionid" := e.attrs["sessionid"]] else map[];
    var node := if "node" in e.attrs then sid["node" := e.attrs["node"]] else sid;
    Element(CommandNs, "command", node, [])
  }

  /** Copying a copy changes nothing. */
  lemma CopyIdempotent(e: Element)
    ensures CopyCommandElement(CopyCommandElement(e)) == CopyCommandElement(e)
  {
    SameMap(CopyCommandElement(CopyCommandElement(e)).attrs, CopyCommandElement(e).attrs);
  }

  /** The command elements of an iq: XPath `/iq[@type="set"]/command[@xmlns=...]`. */
  function CommandElements(iq: Element): seq<Element>
  {
    if iq.name == "iq" && "type" in iq.attrs && iq.attrs["type"] == "set"
    then CommandsIn(Elements(iq))
    else []
  }

  function CommandsIn(cs: seq<Element>): (r: seq<Element>)
    ensures forall i :: 0 <= i < |r| ==> r[i].name == "command" && r[i].uri == CommandNs
  {
    if cs == [] then []
    else (if cs[0].name == "command" && cs[0].uri == CommandNs then [cs[0]] else []) + CommandsIn(cs[1..])
  }

  /** `getCommandElement`: the first command element of a set iq. */
  function GetCommandElement(iq: Element): (r: Option<Element>)
    ensures r.Some? ==> r.value.name == "command" && r.value.uri == CommandNs
  {
    var cs := CommandElements(iq);
    if cs == [] then None else Some(cs[0])
  }

  /** `getCommand`: the first command element of a set iq, parsed. */
  function GetCommand(iq: Element, now: string): Option<Result<Command, CommandError>>
  {
    match GetCommandElement(iq)
    case None => None
    case Some(e) => Some(CommandFromElement(e, now))
  }

  /** A set iq holding one command element yields that element. */
  lemma CommandElementOf(attrs: map<string, string>, c: Element)
    requires "type" in attrs && attrs["type"] == "set"
    requires c.name == "command" && c.uri == CommandNs
    ensures GetCommandElement(Element("", "iq", attrs, [Elem(c)])) == Some(c)
  {
    assert Elements(Element("", "iq", attrs, [Elem(c)])) == [c];
  }
}

=== FILE: correlated_defaults_manager.dfy ===
/** The correlated-defaults manager (`correlatedDefaultsManager.py`), the
    entry point of the modelling sub-system. It keeps no state: an item
    is either a stop, forwarded as it is, or a start, whose run id and
    portfolio are checked before the run goes on to the simulators. */
module DefaultsManager {
  import opened Wrappers
  import opened Xml
  import opened Collab
  import opened Simulation
  import opened CollabNode
  import Portfolios
  import Simulator

  /** Python's `str(None)`: the run id a start without an id attribute
      is written out with. */
  const NoRunId := "None"

  /** What `Parameters.fromElement(None)` raises for an item without a
      child element: the `//simulation/parameters` query reads the name of
      the element it is given (twisted's xpath matcher compares it with
      'simulation' first), and `None` has no `name`. */
  const NoChildElement := "'NoneType' object has no attribute 'name'"

  /** The message logged for an item without an id attribute. */
  function RunIdMessage(xml: string): string
  {
    "Cannot parse run ID: " + xml
  }

  /** One item arriving: the item element, its serialised text (domish
      `toXml`), the clock reading, and how the item's publication ends. */
  datatype Arrival = Arrival(item: Element, xml: string, now: Timestamp, sent: Outcome)

  /** `getRunId`: the item's id attribute; without one an error naming the
      item is logged and the run id is Python's `None`. */
  function GetRunId(item: Element, xml: string, logs: Logger): (r: (string, Logger))
    ensures IdEl in item.attrs ==> r == (item.attrs[IdEl], logs)
    ensures IdEl !in item.attrs ==>
              r.0 == NoRunId && HasSeverity(r.1, ErrorEl)
              && Messages(r.1, ErrorEl) == Messages(logs, ErrorEl) + [Text(RunIdMessage(xml))]
              && forall s :: s != ErrorEl ==> Messages(r.1, s) == Messages(logs, s)
  {
    if IdEl in item.attrs then (item.attrs[IdEl], logs)
    else (NoRunId, LogError(logs, RunIdMessage(xml)))
  }

  /** A simulation element with the given parameter fields and one more
      child after its parameters element. */
  function WithChild(fields: seq<Element>, c: Element): Element
  {
    var e := SimulationElement(fields);
    e.(children := e.children + [Elem(c)])
  }

  /** `broadcastStart`'s payload: the parameters element, relabelled
      'start', with the portfolio element added after the parameters. */
  function StartElement(p: Parameters, pf: Portfolios.Portfolio): Element
  {
    WithChild(ParameterFields(p.(cmd := Start)), Portfolios.PortfolioElement(pf))
  }

  /** `onGotItem`. An item whose parameters cannot be read as a number
      raises; one without parameters is not for this node; a stop is
      broadcast; a start is broadcast with its portfolio unless reading the
      run id or the portfolio logged an error, in which case the logs are
      broadcast instead. Any other command returns a Deferred that is
      never fired (`rule` AsWritten) or, corrected, one already fired. */
  function OnGotItem(rule: Rule, a: Arrival): (r: Step<()>)
    ensures |r.pubs| <= 1
    ensures r.reply.Unfired? ==> rule.AsWritten?
    ensures r.pubs != [] && r.pubs[0].StartOut? ==>
              && IdEl in a.item.attrs && r.pubs[0].params.runId == a.item.attrs[IdEl]
              && r.pubs[0].params.cmd == Start
              && Portfolios.ValidPortfolio(r.pubs[0].portfolio)
              && FirstChildElement(a.item).Some?
              && Portfolios.PortfolioFromElement(FirstChildElement(a.item).value) == Ok(r.pubs[0].portfolio)
    ensures r.pubs != [] && r.pubs[0].LogsOut? ==> HasSeverity(r.pubs[0].logs, ErrorEl)
  {
    match FirstChildElement(a.item)
    case None => Step((), [], Raised(NoChildElement))
    case Some(el) =>
      match GetParameters(el, EmptyLogger, a.now)
      case Err(e) => Step((), [], Raised(e.text))
      case Ok((params, logs)) =>
        if params.None? then Step((), [], Fired(Succeeded))
        else
          var p := params.value;
          match p.cmd
          case Stop => Step((), [BroadcastStop(p)], Fired(a.sent))
          case Start => OnStart(p, a, el, logs)
          case _ => Step((), [], if rule.AsWritten? then Unfired else Fired(Succeeded))
  }

  /** The start branch of `onGotItem`, for parameters `p` read from `el`. */
  function OnStart(p: Parameters, a: Arrival, el: Element, logs: Logger): (r: Step<()>)
    ensures |r.pubs| <= 1 && r.state == ()
    ensures r.pubs == [] <==> r.reply.Raised?
    ensures r.pubs != [] ==> r.reply == Fired(a.sent) && (r.pubs[0].StartOut? || r.pubs[0].LogsOut?)
    ensures r.pubs != [] ==> r.pubs[0].params.runId == GetRunId(a.item, a.xml, logs).0
    ensures r.pubs != [] && r.pubs[0].StartOut? ==>
              && IdEl in a.item.attrs && r.pubs[0].params.cmd == Start
              && Portfolios.PortfolioFromElement(el) == Ok(r.pubs[0].portfolio)
              && Portfolios.ValidPortfolio(r.pubs[0].portfolio)
    ensures r.pubs != [] && r.pubs[0].LogsOut? ==> HasSeverity(r.pubs[0].logs, ErrorEl)
  {
    var (run, l1) := GetRunId(a.item, a.xml, logs);
    var p1 := p.(runId := run);
    match Portfolios.GetPortfolio(el, l1)
    case Err(e) => Step((), [], Raised(e.text))
    case Ok((pf, l2)) =>
      if HasSeverity(l2, ErrorEl) || pf.None? then
        Step((), [BroadcastLogs(l2, Some(p1), a.now)], Fired(a.sent))
      else
        Step((), [StartOut(p1.(cmd := Start), pf.value)], Fired(a.sent))
  }

  /** A missing portfolio is always logged as an error, so the `pf.None?`
      test in `OnStart` adds nothing to `logs.hasSeverity(ERROR_EL)`. */
  lemma NoPortfolioLogged(el: Element, logs: Logger)
    requires Portfolios.GetPortfolio(el, logs).Ok? && Portfolios.GetPortfolio(el, logs).value.0.None?
    ensures HasSeverity(Portfolios.GetPortfolio(el, logs).value.1, ErrorEl)
  {
  }

  // ---------------------------------------------------------------- what reaches the simulators

  lemma WithChildElements(fields: seq<Element>, c: Element)
    ensures Elements(WithChild(fields, c)) == Elements(SimulationElement(fields)) + [c]
  {
    var pe := Element(CollabNs, "parameters", map[], Wrap(fields));
    var ns := [Elem(pe), Elem(c)];
    assert WithChild(fields, c).children == ns;
    assert ns[1..] == [Elem(c)];
    assert ElementsOf(ns) == [pe, c];
    assert Elements(SimulationElement(fields)) == [pe] by {
      assert SimulationElement(fields).children == [Elem(pe)];
    }
  }

  /** Two simulation elements with the same single parameters child read
      the same field values. */
  lemma SameFields(x: Element, y: Element, pe: Element, name: string)
    requires IsA(x, CollabNs, "simulation") && IsA(y, CollabNs, "simulation")
    requires Named(Elements(x), "parameters") == [pe] && Named(Elements(y), "parameters") == [pe]
    ensures Field(x, name) == Field(y, name)
  {
    ReachGrandchild(x, "parameters", name, pe);
    ReachGrandchild(y, "parameters", name, pe);
  }

  /** Parameters are read from the first simulation element with a
      parameters child; two such elements with the same fields read alike. */
  lemma SameParameters(x: Element, y: Element, now: Timestamp)
    requires FindFirst(x, CollabNs, "simulation", Some("parameters")) == Some(x)
    requires FindFirst(y, CollabNs, "simulation", Some("parameters")) == Some(y)
    requires Field(x, "run_id") == Field(y, "run_id") && Field(x, "output") == Field(y, "output")
    requires Field(x, "number_runs") == Field(y, "number_runs") && Field(x, "command") == Field(y, "command")
    requires Field(x, "timestamp") == Field(y, "timestamp")
    ensures ParametersFromElement(x, now) == ParametersFromElement(y, now)
  {
  }

  /** A child after the parameters element that is not itself one does
      not change the parameters read. */
  lemma WithChildParameters(fields: seq<Element>, c: Element, now: Timestamp)
    requires c.name != "parameters"
    ensures ParametersFromElement(WithChild(fields, c), now) == ParametersFromElement(SimulationElement(fields), now)
  {
    var pe := Element(CollabNs, "parameters", map[], Wrap(fields));
    var root := WithChild(fields, c);
    var plain := SimulationElement(fields);
    WithChildElements(fields, c);
    assert Elements(plain) == [pe] by {
      assert plain.children == [Elem(pe)];
    }
    assert Elements(root) == [pe, c];
    NamedOnly(Elements(root), "parameters", 0);
    NamedOnly(Elements(plain), "parameters", 0);
    forall name: string
      ensures Field(root, name) == Field(plain, name)
    {
      SameFields(root, plain, pe, name);
    }
    SameParameters(root, plain, now);
  }

  /** The parameters written into a start payload read back, relabelled
      'start'. */
  lemma StartParametersRead(p: Parameters, pf: Portfolios.Portfolio, now: Timestamp)
    ensures ParametersFromElement(StartElement(p, pf), now) == Ok(p.(cmd := Start))
  {
    WithChildParameters(ParameterFields(p.(cmd := Start)), Portfolios.PortfolioElement(pf), now);
    ParametersRoundTrip(p.(cmd := Start), now);
  }

  /** An element whose children are all character data. */
  predicate TextOnly(e: Element)
  {
    forall k :: 0 <= k < |e.children| ==> e.children[k].Text?
  }

  /** When the parameter fields hold only text and none has the name
      searched for, the search finds the child added after them. */
  lemma WithChildFound(fields: seq<Element>, c: Element, name: string)
    requires IsA(c, CollabNs, name) && name != "simulation" && name != "parameters"
    requires forall j :: 0 <= j < |fields| ==> fields[j].name != name && TextOnly(fields[j])
    ensures FindFirst(WithChild(fields, c), CollabNs, name, None) == Some(c)
  {
    var pe := Element(CollabNs, "parameters", map[], Wrap(fields));
    var root := WithChild(fields, c);
    forall j | 0 <= j < |pe.children|
      ensures FindFirst(pe.children[j].el, CollabNs, name, None).None?
    {
      assert pe.children[j] == Elem(fields[j]);
      FindFirstFromNone(fields[j], 0, CollabNs, name, None);
    }
    FindFirstFromNone(pe, 0, CollabNs, name, None);
    assert FindFirst(pe, CollabNs, name, None).None?;
    assert root.children == [Elem(pe), Elem(c)];
    assert FindFirstFrom(root, 2, CollabNs, name, None).None?;
    assert FindFirstFrom(root, 1, CollabNs, name, None) == Some(c);
    assert FindFirstFrom(root, 0, CollabNs, name, None) == Some(c);
  }

  /** A portfolio added after text-only parameter fields is the one read. */
  lemma WithChildPortfolio(fields: seq<Element>, c: Element)
    requires IsA(c, CollabNs, "portfolio")
    requires forall j :: 0 <= j < |fields| ==> fields[j].name != "portfolio" && TextOnly(fields[j])
    ensures Portfolios.PortfolioFromElement(WithChild(fields, c)) == Portfolios.PortfolioFromElement(c)
  {
    WithChildFound(fields, c, "portfolio");
    assert FindFirst(c, CollabNs, "portfolio", None) == Some(c);
  }

  /** Every parameter field is text only, and none is a portfolio. */
  lemma ParameterFieldsText(p: Parameters)
    ensures forall j :: 0 <= j < |ParameterFields(p)| ==> ParameterFields(p)[j].name != "portfolio" && TextOnly(ParameterFields(p)[j])
  {
  }

  /** The portfolio written into a start payload reads back. */
  lemma StartPortfolioRead(p: Parameters, pf: Portfolios.Portfolio)
    requires Portfolios.ValidPortfolio(pf)
    ensures Portfolios.PortfolioFromElement(StartElement(p, pf)) == Ok(pf)
  {
    ParameterFieldsText(p.(cmd := Start));
    WithChildPortfolio(ParameterFields(p.(cmd := Start)), Portfolios.PortfolioElement(pf));
    Portfolios.PortfolioRoundTrip(pf);
  }

  /** The simulators read a published start as the same run: they
      register its parameters and find its portfolio. */
  lemma StartReachesSimulator(s: Simulator.SimState, p: Parameters, pf: Portfolios.Portfolio, now: Timestamp, sent: Outcome)
    requires Portfolios.ValidPortfolio(pf)
    ensures Simulator.OnGotItem(s, Simulator.Arrival(StartElement(p, pf), now, sent)) == Simulator.Handle(s, p.(cmd := Start), sent)
    ensures Portfolios.GetPortfolio(StartElement(p, pf), EmptyLogger) == Ok((Some(pf), EmptyLogger))
  {
    StartParametersRead(p, pf, now);
    StartPortfolioRead(p, pf);
  }

  // ---------------------------------------------------------------- items a client sends

  /** A pubsub item with an id attribute (when `id` is given) and the
      element `el` as its only child. */
  function ItemOf(id: Option<string>, el: Element): Element
  {
    Element(PubsubNs, "item", if id.Some? then map[IdEl := id.value] else map[], [Elem(el)])
  }

  /** A start carrying an id and a valid portfolio is sent on under that
      id, with the portfolio it carried. */
  lemma StartForwarded(rule: Rule, id: string, p: Parameters, pf: Portfolios.Portfolio, xml: string, now: Timestamp, sent: Outcome)
    requires Portfolios.ValidPortfolio(pf)
    ensures var q := p.(cmd := Start);
            OnGotItem(rule, Arrival(ItemOf(Some(id), StartElement(p, pf)), xml, now, sent))
            == Step((), [StartOut(q.(runId := id), pf)], Fired(sent))
  {
    var el := StartElement(p, pf);
    assert Elements(ItemOf(Some(id), el)) == [el];
    StartParametersRead(p, pf, now);
    StartPortfolioRead(p, pf);
  }

  /** A start without an id is not sent on: the error naming the item is
      broadcast under run id "None" instead. */
  lemma StartWithoutIdLogged(rule: Rule, p: Parameters, pf: Portfolios.Portfolio, xml: string, now: Timestamp, sent: Outcome)
    requires Portfolios.ValidPortfolio(pf)
    ensures var r := OnGotItem(rule, Arrival(ItemOf(None, StartElement(p, pf)), xml, now, sent));
            && r.reply == Fired(sent) && |r.pubs| == 1 && r.pubs[0].LogsOut?
            && r.pubs[0].params == p.(runId := NoRunId, cmd := Info)
            && Messages(r.pubs[0].logs, ErrorEl) == [Text(RunIdMessage(xml))]
  {
    var el := StartElement(p, pf);
    assert Elements(ItemOf(None, el)) == [el];
    StartParametersRead(p, pf, now);
    StartPortfolioRead(p, pf);
  }

  /** A stop is broadcast as it was read. */
  lemma StopForwarded(rule: Rule, id: Option<string>, p: Parameters, xml: string, now: Timestamp, sent: Outcome)
    requires p.cmd == Stop
    ensures OnGotItem(rule, Arrival(ItemOf(id, ParametersToElement(p)), xml, now, sent))
            == Step((), [StopOut(p)], Fired(sent))
  {
    assert Elements(ItemOf(id, ParametersToElement(p))) == [ParametersToElement(p)];
    ParametersRoundTrip(p, now);
  }

  /** An item without a child element raises before anything is published. */
  lemma EmptyItemRaises(rule: Rule, item: Element, xml: string, now: Timestamp, sent: Outcome)
    requires Elements(item) == []
    ensures OnGotItem(rule, Arrival(item, xml, now, sent)) == Step((), [], Raised(NoChildElement))
  {
  }

  // ---------------------------------------------------------------- info and results items

  /** The step a batch applies to each arrival. */
  function AsWrittenStep(u: (), a: Arrival): Step<()>
  {
    OnGotItem(AsWritten, a)
  }

  function CorrectedStep(u: (), a: Arrival): Step<()>
  {
    OnGotItem(Corrected, a)
  }

  /** An info or results item is answered with a Deferred that never
      fires as written, and with an empty success when corrected. */
  lemma OtherCommandReply(rule: Rule, id: Option<string>, p: Parameters, xml: string, now: Timestamp, sent: Outcome)
    requires p.cmd == Info || p.cmd == Results
    ensures OnGotItem(rule, Arrival(ItemOf(id, ParametersToElement(p)), xml, now, sent))
            == Step((), [], if rule.AsWritten? then Unfired else Fired(Succeeded))
  {
    assert Elements(ItemOf(id, ParametersToElement(p))) == [ParametersToElement(p)];
    ParametersRoundTrip(p, now);
  }

  /** As written, an info or results item stalls the batch it arrives in:
      nothing after it is handled and the batch's Deferred never fires. */
  lemma InfoItemStallsBatch(id: Option<string>, p: Parameters, xml: string, sent: Outcome, rest: seq<Arrival>, now: Timestamp)
    requires p.cmd == Info || p.cmd == Results
    ensures ItemsReceived((), [Arrival(ItemOf(id, ParametersToElement(p)), xml, now, sent)] + rest, AsWrittenStep, now)
            == Batch((), [], 1, None)
  {
    var a := Arrival(ItemOf(id, ParametersToElement(p)), xml, now, sent);
    OtherCommandReply(AsWritten, id, p, xml, now, sent);
    assert ([a] + rest)[0] == a;
  }

  /** Corrected, the item is passed over and the batch carries on. */
  lemma InfoItemPassedOver(id: Option<string>, p: Parameters, xml: string, sent: Outcome, rest: seq<Arrival>, now: Timestamp)
    requires p.cmd == Info || p.cmd == Results
    ensures var b := ItemsReceived((), rest, CorrectedStep, now);
            ItemsReceived((), [Arrival(ItemOf(id, ParametersToElement(p)), xml, now, sent)] + rest, CorrectedStep, now)
            == b.(handled := b.handled + 1)
  {
    var a := Arrival(ItemOf(id, ParametersToElement(p)), xml, now, sent);
    OtherCommandReply(Corrected, id, p, xml, now, sent);
    ItemsReceivedSkip((), a, rest, CorrectedStep, now);
  }
}

=== FILE: correlated_defaults_simulator.dfy ===
/** The simulator node (`correlatedDefaultsSimulator.py`): one task per
    run it is asked to start, the chunked simulation each task runs, with
    its partial results broadcasts, and the stop that cancels a run. The
    copula kernel is not part of this model: what each chunk adds to the
    defaults histogram, and the exception it raises if any, are inputs. */
module Simulator {
  import opened Wrappers
  import opened Xml
  import opened Collab
  import opened Simulation
  import opened CollabNode
  import Portfolios

  // ---------------------------------------------------------------- arithmetic

  /** Division is unique: a quotient and remainder in range are `/` and `%`. */
  lemma DivUnique(a: int, d: int, q: int, r: int)
    requires d > 0 && 0 <= r < d && a == q * d + r
    ensures a / d == q && a % d == r
  {
    var q0, r0 := a / d, a % d;
    var k := q0 - q;
    Distribute(q0, q, d);
    assert k * d == r - r0;
    if k > 0 {
      AtLeastOnce(k, d);
    } else if k < 0 {
      AtLeastOnce(-k, d);
      Distribute(0, k, d);
    }
  }

  lemma Distribute(x: int, y: int, d: int)
    ensures (x - y) * d == x * d - y * d
  {
  }

  lemma AtLeastOnce(k: int, d: int)
    requires k > 0 && d > 0
    ensures k * d >= d
  {
    Distribute(k, 1, d);
    assert (k - 1) * d >= 0;
  }

  /** Scaling both sides of a remainder by `c` scales the remainder. */
  lemma ModScale(a: nat, c: nat, g: nat)
    requires c > 0 && g > 0
    ensures (a * c) % (g * c) == (a % g) * c
  {
    var q, r := a / g, a % g;
    assert a * c == q * (g * c) + r * c;
    assert r * c < g * c;
    DivUnique(a * c, g * c, q, r * c);
  }

  /** Counting one further: the next multiple of `g` adds one to the quotient. */
  lemma DivSucc(i: nat, g: nat)
    requires g > 0
    ensures (i + 1) / g == i / g + (if (i + 1) % g == 0 then 1 else 0)
  {
    var q, r := i / g, i % g;
    if r + 1 == g {
      DivUnique(i + 1, g, q + 1, 0);
    } else {
      DivUnique(i + 1, g, q, r + 1);
    }
  }

  // ---------------------------------------------------------------- the chunk schedule

  /** `xrange(start, stop, step)` for a positive step. */
  function Range(start: int, stop: int, step: nat): seq<int>
    requires step > 0
    decreases stop - start
  {
    if start >= stop then [] else [start] + Range(start + step, stop, step)
  }

  /** How many chunks a task runs, `ceil(maxRuns / chunk)` for a positive
      `maxRuns`. */
  function NumChunks(maxRuns: int, chunk: nat): nat
    requires chunk > 0
  {
    if maxRuns <= 0 then 0 else (maxRuns + chunk - 1) / chunk
  }

  /** One chunk fewer is left once the first chunk of a range has run. */
  lemma NumChunksStep(d: int, step: nat)
    requires step > 0 && d > 0
    ensures NumChunks(d, step) == NumChunks(d - step, step) + 1
  {
    if d <= step {
      DivUnique(d + step - 1, step, 1, d - 1);
    } else {
      DivUnique(d + step - 1, step, (d - 1) / step + 1, (d - 1) % step);
      DivUnique(d - 1, step, (d - 1) / step, (d - 1) % step);
    }
  }

  /** The range holds `NumChunks` counts. */
  lemma {:induction false} RangeLength(start: int, stop: int, step: nat)
    requires step > 0
    decreases stop - start
    ensures |Range(start, stop, step)| == NumChunks(stop - start, step)
  {
    if start < stop {
      RangeLength(start + step, stop, step);
      NumChunksStep(stop - start, step);
    }
  }

  /** Count number `i` of the range is `start + i * step`. */
  lemma {:induction false} RangeElements(start: int, stop: int, step: nat)
    requires step > 0
    decreases stop - start
    ensures forall i :: 0 <= i < |Range(start, stop, step)| ==> Range(start, stop, step)[i] == start + i * step
  {
    if start < stop {
      RangeElements(start + step, stop, step);
      var rest := Range(start + step, stop, step);
      forall i | 1 <= i < |Range(start, stop, step)|
        ensures Range(start, stop, step)[i] == start + i * step
      {
        assert Range(start, stop, step)[i] == rest[i - 1];
        assert (start + step) + (i - 1) * step == start + i * step;
      }
    }
  }

  /** The chunk loop `for count in xrange(0, max_runs, chunk)` runs
      `NumChunks` times, chunk number `i` starting at count `i * chunk`. */
  lemma RangeSpec(start: int, stop: int, step: nat)
    requires step > 0
    ensures |Range(start, stop, step)| == NumChunks(stop - start, step)
    ensures forall i :: 0 <= i < |Range(start, stop, step)| ==> Range(start, stop, step)[i] == start + i * step
  {
    RangeLength(start, stop, step);
    RangeElements(start, stop, step);
  }

  /** Trials one copula call runs: `copula(chunk/10, 10, defaults)`, with
      integer division. */
  function ChunkTrials(chunk: nat): (r: nat)
    ensures r <= chunk && chunk - r < 10
    ensures chunk % 10 == 0 ==> r == chunk
  {
    (chunk / 10) * 10
  }

  /** Whether a results broadcast follows chunk number `i`, started at
      count `i * chunk`; `None` when the test raises `ZeroDivisionError`.
      As written the test is `count > 0 and count % freq == 0`; corrected,
      it asks whether the trials done, `count + chunk`, are a multiple of
      the frequency. */
  function BroadcastTest(rule: Rule, i: nat, chunk: nat, freq: int): (r: Option<bool>)
    ensures r.None? <==> freq == 0 && (rule.Corrected? || i * chunk > 0)
  {
    var count := i * chunk;
    match rule
    case AsWritten => if count <= 0 then Some(false) else if freq == 0 then None else Some(count % freq == 0)
    case Corrected => if freq == 0 then None else Some((count + chunk) % freq == 0)
  }

  /** The broadcasts after chunks `i` to `n - 1`, up to the first test
      that raises. */
  function Broadcasts(rule: Rule, i: nat, n: nat, chunk: nat, freq: int): nat
    decreases n - i
  {
    if i >= n then 0
    else match BroadcastTest(rule, i, chunk, freq)
      case None => 0
      case Some(b) => (if b then 1 else 0) + Broadcasts(rule, i + 1, n, chunk, freq)
  }

  /** With the corrected test, a frequency that is a multiple `g` of the
      chunk gives one broadcast per `g` chunks: after chunk `i`, they have
      counted the multiples of `g` in `i + 1 .. n`. */
  lemma {:induction false} CorrectedBroadcasts(i: nat, n: nat, chunk: nat, g: nat)
    requires chunk > 0 && g > 0 && i <= n
    decreases n - i
    ensures Broadcasts(Corrected, i, n, chunk, g * chunk) == n / g - i / g
  {
    if i < n {
      CorrectedBroadcasts(i + 1, n, chunk, g);
      assert i * chunk + chunk == (i + 1) * chunk;
      ModScale(i + 1, chunk, g);
      DivSucc(i, g);
    }
  }

  /** With a chunk that divides the frequency and a frequency that divides
      `maxRuns`, the corrected schedule reports every trial of every chunk:
      `maxRuns / freq` broadcasts, each reporting `freq` trials, the last
      right after the last chunk. */
  lemma CorrectedScheduleReportsAll(maxRuns: nat, chunk: nat, freq: nat)
    requires chunk > 0 && freq > 0 && freq % chunk == 0 && maxRuns % freq == 0
    ensures Broadcasts(Corrected, 0, NumChunks(maxRuns, chunk), chunk, freq) * freq == maxRuns
    ensures NumChunks(maxRuns, chunk) * chunk == maxRuns
    ensures maxRuns > 0 ==> BroadcastTest(Corrected, NumChunks(maxRuns, chunk) - 1, chunk, freq) == Some(true)
  {
    var g, k := Factors(maxRuns, chunk, freq);
    var n := NumChunks(maxRuns, chunk);
    CorrectedBroadcasts(0, n, chunk, g);
    DivUnique(n, g, k, 0);
    if maxRuns > 0 {
      assert n >= 1 by { AtLeastOnce(k, g); }
      Distribute(n, 1, chunk);
      assert (n - 1) * chunk + chunk == maxRuns;
      DivUnique(maxRuns, freq, k, 0);
    }
  }

  /** With the test as written and a frequency that is a multiple `g` of
      the chunk, the broadcasts after chunks `i` (from 1) to `n - 1` are
      the multiples of `g` among them: chunk 0 never broadcasts. */
  lemma {:induction false} AsWrittenBroadcasts(i: nat, n: nat, chunk: nat, g: nat)
    requires chunk > 0 && g > 0 && 1 <= i <= n
    decreases n - i
    ensures Broadcasts(AsWritten, i, n, chunk, g * chunk) == (n - 1) / g - (i - 1) / g
  {
    if i < n {
      AsWrittenBroadcasts(i + 1, n, chunk, g);
      assert i * chunk >= chunk by { AtLeastOnce(i, chunk); }
      ModScale(i, chunk, g);
      DivSucc(i - 1, g);
    }
  }

  /** A chunk that divides the frequency, `g` times, and a frequency that
      divides `max_runs`, `k` times, make `k * g` chunks. */
  lemma Factors(maxRuns: nat, chunk: nat, freq: nat) returns (g: nat, k: nat)
    requires chunk > 0 && freq > 0 && freq % chunk == 0 && maxRuns % freq == 0
    ensures g > 0 && freq == g * chunk && maxRuns == k * freq
    ensures NumChunks(maxRuns, chunk) == k * g && NumChunks(maxRuns, chunk) * chunk == maxRuns
  {
    g := freq / chunk;
    k := maxRuns / freq;
    DivUnique(freq, chunk, g, 0);
    DivUnique(maxRuns, freq, k, 0);
    assert maxRuns == (k * g) * chunk;
    if maxRuns > 0 {
      DivUnique(maxRuns + chunk - 1, chunk, k * g, chunk - 1);
    }
  }

  /** As written, with a chunk that divides the frequency and a frequency
      that divides `max_runs`, one broadcast's worth of trials is never
      reported: the broadcasts report `max_runs - freq` trials of the
      `max_runs` simulated. */
  lemma AsWrittenScheduleLosesTrials(maxRuns: nat, chunk: nat, freq: nat)
    requires chunk > 0 && freq > 0 && freq % chunk == 0 && maxRuns % freq == 0 && maxRuns > 0
    ensures Broadcasts(AsWritten, 0, NumChunks(maxRuns, chunk), chunk, freq) * freq == maxRuns - freq
    ensures NumChunks(maxRuns, chunk) * chunk == maxRuns
  {
    var g, k := Factors(maxRuns, chunk, freq);
    var n := NumChunks(maxRuns, chunk);
    assert k >= 1;
    assert n >= 1 by { AtLeastOnce(k, g); }
    AsWrittenBroadcasts(1, n, chunk, g);
    DivUnique(n - 1, g, k - 1, g - 1);
    Distribute(k, 1, freq);
  }

  /** As written, the first chunk never broadcasts, so the first
      broadcast, after chunk `freq / chunk`, carries one chunk more than
      it reports. */
  lemma AsWrittenFirst(chunk: nat, freq: nat)
    requires chunk > 0 && freq > 0 && freq % chunk == 0
    ensures BroadcastTest(AsWritten, 0, chunk, freq) == Some(false)
    ensures BroadcastTest(AsWritten, freq / chunk, chunk, freq) == Some(true)
  {
    var g := freq / chunk;
    DivUnique(freq, chunk, g, 0);
    DivUnique(g * chunk, freq, 1, 0);
  }

  /** As written, the last chunk is sent only when the frequency is a
      single chunk. */
  lemma AsWrittenLast(maxRuns: nat, chunk: nat, freq: nat)
    requires chunk > 0 && freq > 0 && freq % chunk == 0 && maxRuns % freq == 0
    requires NumChunks(maxRuns, chunk) > 1
    ensures BroadcastTest(AsWritten, NumChunks(maxRuns, chunk) - 1, chunk, freq) == Some(freq == chunk)
  {
    var g, k := Factors(maxRuns, chunk, freq);
    var n := NumChunks(maxRuns, chunk);
    var last := (n - 1) * chunk;
    Distribute(n, 1, chunk);
    assert last == maxRuns - chunk;
    if freq == chunk {
      DivUnique(last, freq, n - 1, 0);
    } else {
      assert chunk < freq by { AtLeastOnce(g, chunk); }
      assert k >= 1;
      Distribute(k, 1, freq);
      DivUnique(last, freq, k - 1, freq - chunk);
    }
  }

  /** The run of 1000 trials in chunks of 100 with a broadcast every 200:
      as written, four broadcasts report 800 trials; the first carries
      the three chunks at counts 0, 100 and 200. */
  lemma AsWrittenScheduleExample()
    ensures NumChunks(1000, 100) == 10 && ChunkTrials(100) == 100
    ensures Broadcasts(AsWritten, 0, 10, 100, 200) == 4
    ensures BroadcastTest(AsWritten, 1, 100, 200) == Some(false) && BroadcastTest(AsWritten, 2, 100, 200) == Some(true)
    ensures BroadcastTest(AsWritten, 9, 100, 200) == Some(false)
  {
    AsWrittenScheduleLosesTrials(1000, 100, 200);
    AsWrittenFirst(100, 200);
    AsWrittenLast(1000, 100, 200);
  }

  /** The corrected test on the same run: five broadcasts reporting all
      1000 trials, two chunks each. */
  lemma CorrectedScheduleExample()
    ensures Broadcasts(Corrected, 0, NumChunks(1000, 100), 100, 200) == 5
  {
    CorrectedScheduleReportsAll(1000, 100, 200);
  }

  // ---------------------------------------------------------------- a run's task

  /** What one copula call did: the defaults it added into the running
      histogram (before raising, if it raised) and the text of the
      exception it raised. */
  datatype ChunkRun = ChunkRun(added: Histogram, raised: Option<string>)

  /** A task's settings: `broadcast_freq`, `max_runs` and the chunk size. */
  datatype Config = Config(broadcastFreq: int, maxRuns: int, chunk: nat)

  /** The settings a node starts with. */
  const DefaultConfig := Config(DefaultBroadcastFreq, DefaultMaxRuns, 100)

  /** What a task meets as it runs: the clock, how the log broadcast for a
      missing portfolio ends, whether the 'sparse' simulator can be built,
      what each chunk does and how each results broadcast ends (both by
      chunk number). */
  datatype JobEnv = JobEnv(now: Timestamp, logsSent: Outcome, factory: Outcome,
                           copula: nat -> ChunkRun, sends: nat -> Outcome)

  /** How a task ended: its publications, the logger it kept adding to, how
      many chunks it ran, the defaults simulated since the last broadcast
      (never sent), and whether its generator ran to the end or raised. */
  datatype JobEnd = JobEnd(pubs: seq<Publication>, logger: Logger, chunks: nat, pending: Histogram, outcome: Outcome)

  /** The text of the `ZeroDivisionError` a zero frequency raises. */
  const ModuloByZero := "integer division or modulo by zero"

  /** The text of the `ValueError` a zero chunk size raises in `xrange`. */
  const ZeroStep := "xrange() arg 3 must not be zero"

  /** `broadcastResults`: the defaults as the histogram 'defaults', with
      progress `freq`, relabelled 'results'. */
  function ResultsBroadcast(p: Parameters, freq: int, defaults: Histogram): (r: Publication)
    ensures r.ResultsOut? && r.params == p.(cmd := Results) && r.progress == Some(Progress(freq))
    ensures r.distributions.histograms.Keys == {DefaultsEl}
    ensures forall x :: Count(r.distributions.histograms[DefaultsEl], x) == Count(defaults, x)
  {
    CombinedSpec(Distributions(map[]), DefaultsEl, defaults);
    ResultsOut(p.(cmd := Results), Combined(Distributions(map[]), DefaultsEl, defaults), Some(Progress(freq)))
  }

  /** `_errback(e, logger, params)` when `e` is raised, nothing otherwise:
      the logger gains the error and the whole log goes out. */
  function Report(raised: Option<string>, logger: Logger, p: Parameters, now: Timestamp): (r: (Logger, seq<Publication>))
    ensures raised.None? ==> r == (logger, [])
    ensures raised.Some? ==> |r.1| == 1 && r.1[0] == BroadcastLogs(r.0, Some(p), now)
                             && Messages(r.0, ErrorEl) == Messages(logger, ErrorEl) + [Text(raised.value)]
  {
    if raised.None? then (logger, [])
    else
      var eb := Errback(raised.value, Some(logger), Some(p), now);
      (eb.0, [eb.1])
  }

  /** One pass of the chunk loop, for chunk number `i`: what it published,
      the logger after it, the defaults it carries to the next chunk and
      the broadcast test (`None`: it raised). */
  datatype ChunkDone = ChunkDone(pubs: seq<Publication>, logger: Logger, carried: Histogram, test: Option<bool>)

  /** Run chunk `i`, adding into the running defaults, and report its
      exception; then, when the test says so, broadcast the defaults
      (reporting a failed broadcast) and clear them. */
  function RunChunk(rule: Rule, p: Parameters, cfg: Config, env: JobEnv, i: nat, defaults: Histogram, logger: Logger)
    : (r: ChunkDone)
  {
    var run := env.copula(i);
    var acc := Sum(defaults, run.added);
    var (l1, chunkLogs) := Report(run.raised, logger, p, env.now);
    var test := BroadcastTest(rule, i, cfg.chunk, cfg.broadcastFreq);
    if test == Some(true) then
      var sent := env.sends(i);
      var (l2, sendLogs) := Report(if sent.Failed? then Some(sent.reason) else None, l1, p.(cmd := Results), env.now);
      ChunkDone(chunkLogs + [ResultsBroadcast(p, cfg.broadcastFreq, acc)] + sendLogs, l2, map[], test)
    else
      ChunkDone(chunkLogs, l1, acc, test)
  }

  /** The chunk loop from chunk `i` of `n`; a test that raises ends the
      task, with the chunk's defaults never sent. */
  function Loop(rule: Rule, p: Parameters, cfg: Config, env: JobEnv, i: nat, n: nat,
                defaults: Histogram, logger: Logger): (r: JobEnd)
    decreases n - i
    ensures r.chunks <= if i < n then n - i else 0
  {
    if i >= n then JobEnd([], logger, 0, defaults, Succeeded)
    else
      var c := RunChunk(rule, p, cfg, env, i, defaults, logger);
      if c.test.None? then JobEnd(c.pubs, c.logger, 1, c.carried, Failed(ModuloByZero))
      else
        var rest := Loop(rule, p, cfg, env, i + 1, n, c.carried, c.logger);
        JobEnd(c.pubs + rest.pubs, rest.logger, 1 + rest.chunks, rest.pending, rest.outcome)
  }

  /** `onGotStartSimulation` for parameters `p` read from `item` (the
      logger it is given is still empty): a portfolio that cannot be read
      sends the log; a simulator that cannot be built goes to `_errback`;
      otherwise the chunk loop runs over `xrange(0, max_runs, chunk)`. */
  function StartJob(rule: Rule, p: Parameters, item: Element, cfg: Config, env: JobEnv): (r: JobEnd)
    ensures Portfolios.PortfolioFromElement(item).Err? ==> r.chunks == 0 && |r.pubs| <= 1
    ensures Portfolios.PortfolioFromElement(item).Err? && !Portfolios.PortfolioFromElement(item).error.ValueError? ==>
              r.pubs == [BroadcastLogs(r.logger, Some(p), env.now)] && r.outcome == env.logsSent
    ensures Portfolios.PortfolioFromElement(item).Ok? && env.factory.Failed? ==>
              r.chunks == 0 && |r.pubs| == 1 && r.pubs[0].LogsOut? && r.outcome == Succeeded
  {
    match Portfolios.GetPortfolio(item, EmptyLogger)
    case Err(e) => JobEnd([], EmptyLogger, 0, map[], Failed(e.text))
    case Ok((None, l)) => JobEnd([BroadcastLogs(l, Some(p), env.now)], l, 0, map[], env.logsSent)
    case Ok((Some(_), l)) =>
      if env.factory.Failed? then
        var eb := Errback(env.factory.reason, Some(l), Some(p), env.now);
        JobEnd([eb.1], eb.0, 0, map[], Succeeded)
      else if cfg.chunk == 0 then JobEnd([], l, 0, map[], Failed(ZeroStep))
      else Loop(rule, p, cfg, env, 0, NumChunks(cfg.maxRuns, cfg.chunk), map[], l)
  }

  // ---------------------------------------------------------------- what a task publishes

  /** A task publishes results for its run, relabelled 'results' and
      reporting `freq` trials, and logs under its run relabelled 'info'. */
  predicate FromTask(pub: Publication, p: Parameters, freq: int)
  {
    || (pub.ResultsOut? && pub.params == p.(cmd := Results) && pub.progress == Some(Progress(freq)))
    || (pub.LogsOut? && pub.params == p.(cmd := Info))
  }

  /** The number of results broadcasts among `pubs`. */
  function ResultsCount(pubs: seq<Publication>): nat
  {
    if pubs == [] then 0 else (if pubs[0].ResultsOut? then 1 else 0) + ResultsCount(pubs[1..])
  }

  /** The defaults at point `x` summed over the results broadcasts. */
  function ResultsTotal(pubs: seq<Publication>, x: int): int
  {
    if pubs == [] then 0
    else (if pubs[0].ResultsOut? then Count(HistogramOf(pubs[0].distributions.histograms, DefaultsEl), x) else 0)
         + ResultsTotal(pubs[1..], x)
  }

  /** The defaults at point `x` that chunks `i` to `j - 1` simulated. */
  function ChunksTotal(copula: nat -> ChunkRun, i: nat, j: nat, x: int): int
    decreases j - i
  {
    if i >= j then 0 else Count(copula(i).added, x) + ChunksTotal(copula, i + 1, j, x)
  }

  lemma {:induction false} ResultsAppend(a: seq<Publication>, b: seq<Publication>, x: int)
    ensures ResultsCount(a + b) == ResultsCount(a) + ResultsCount(b)
    ensures ResultsTotal(a + b, x) == ResultsTotal(a, x) + ResultsTotal(b, x)
  {
    if a == [] {
      assert a + b == b;
    } else {
      assert (a + b)[0] == a[0];
      assert (a + b)[1..] == a[1..] + b;
      ResultsAppend(a[1..], b, x);
    }
  }

  /** Logs are not results. */
  lemma NoResultsInLogs(pubs: seq<Publication>, x: int)
    requires |pubs| <= 1 && forall k :: 0 <= k < |pubs| ==> pubs[k].LogsOut?
    ensures ResultsCount(pubs) == 0 && ResultsTotal(pubs, x) == 0
  {
    if pubs != [] {
      assert pubs[1..] == [];
    }
  }

  /** One results broadcast counts once, with its defaults. */
  lemma OneResults(pub: Publication, x: int)
    requires pub.ResultsOut?
    ensures ResultsCount([pub]) == 1
    ensures ResultsTotal([pub], x) == Count(HistogramOf(pub.distributions.histograms, DefaultsEl), x)
  {
    assert [pub][1..] == [];
  }

  /** One chunk sends results exactly when its test says so, and what the
      broadcast carries plus what goes on to the next chunk is what came in
      plus what the chunk simulated. */
  lemma RunChunkSpec(rule: Rule, p: Parameters, cfg: Config, env: JobEnv, i: nat, defaults: Histogram, logger: Logger, x: int)
    ensures var c := RunChunk(rule, p, cfg, env, i, defaults, logger);
            c.test == BroadcastTest(rule, i, cfg.chunk, cfg.broadcastFreq)
            && ResultsCount(c.pubs) == (if c.test == Some(true) then 1 else 0)
            && ResultsTotal(c.pubs, x) + Count(c.carried, x) == Count(defaults, x) + Count(env.copula(i).added, x)
  {
    var run := env.copula(i);
    var acc := Sum(defaults, run.added);
    CountSum(defaults, run.added, x);
    var (l1, chunkLogs) := Report(run.raised, logger, p, env.now);
    NoResultsInLogs(chunkLogs, x);
    if BroadcastTest(rule, i, cfg.chunk, cfg.broadcastFreq) == Some(true) {
      var sent := env.sends(i);
      var (l2, sendLogs) := Report(if sent.Failed? then Some(sent.reason) else None, l1, p.(cmd := Results), env.now);
      BroadcastThenLogs(chunkLogs, ResultsBroadcast(p, cfg.broadcastFreq, acc), sendLogs, x);
    }
  }

  /** Logs, one results broadcast, logs: one broadcast and its defaults. */
  lemma BroadcastThenLogs(before: seq<Publication>, b: Publication, after: seq<Publication>, x: int)
    requires b.ResultsOut?
    requires |before| <= 1 && forall k :: 0 <= k < |before| ==> before[k].LogsOut?
    requires |after| <= 1 && forall k :: 0 <= k < |after| ==> after[k].LogsOut?
    ensures ResultsCount(before + [b] + after) == 1
    ensures ResultsTotal(before + [b] + after, x) == Count(HistogramOf(b.distributions.histograms, DefaultsEl), x)
  {
    NoResultsInLogs(before, x);
    NoResultsInLogs(after, x);
    OneResults(b, x);
    ResultsAppend(before, [b], x);
    ResultsAppend(before + [b], after, x);
  }

  /** All one chunk publishes is about its run. */
  lemma RunChunkPublishes(rule: Rule, p: Parameters, cfg: Config, env: JobEnv, i: nat, defaults: Histogram, logger: Logger)
    ensures var c := RunChunk(rule, p, cfg, env, i, defaults, logger);
            forall k :: 0 <= k < |c.pubs| ==> FromTask(c.pubs[k], p, cfg.broadcastFreq)
  {
  }

  /** How many results a task sends depends only on the schedule: not on
      what the chunks simulate, nor on which of them raise, nor on which
      broadcasts fail. */
  lemma {:induction false} LoopSchedule(rule: Rule, p: Parameters, cfg: Config, env: JobEnv, i: nat, n: nat,
                                        defaults: Histogram, logger: Logger)
    decreases n - i
    ensures ResultsCount(Loop(rule, p, cfg, env, i, n, defaults, logger).pubs) == Broadcasts(rule, i, n, cfg.chunk, cfg.broadcastFreq)
  {
    if i < n {
      var c := RunChunk(rule, p, cfg, env, i, defaults, logger);
      RunChunkSpec(rule, p, cfg, env, i, defaults, logger, 0);
      if c.test.Some? {
        var rest := Loop(rule, p, cfg, env, i + 1, n, c.carried, c.logger);
        LoopSchedule(rule, p, cfg, env, i + 1, n, c.carried, c.logger);
        ResultsAppend(c.pubs, rest.pubs, 0);
      }
    }
  }

  /** No simulated default is lost or sent twice: at every point, what the
      broadcasts carried plus what is still pending is what the run's task
      started with plus what its chunks simulated. */
  lemma {:induction false} LoopConserves(rule: Rule, p: Parameters, cfg: Config, env: JobEnv, i: nat, n: nat,
                                         defaults: Histogram, logger: Logger, x: int)
    decreases n - i
    ensures var r := Loop(rule, p, cfg, env, i, n, defaults, logger);
            ResultsTotal(r.pubs, x) + Count(r.pending, x) == Count(defaults, x) + ChunksTotal(env.copula, i, i + r.chunks, x)
  {
    if i < n {
      var c := RunChunk(rule, p, cfg, env, i, defaults, logger);
      RunChunkSpec(rule, p, cfg, env, i, defaults, logger, x);
      assert ChunksTotal(env.copula, i + 1, i + 1, x) == 0;
      if c.test.Some? {
        var rest := Loop(rule, p, cfg, env, i + 1, n, c.carried, c.logger);
        LoopConserves(rule, p, cfg, env, i + 1, n, c.carried, c.logger, x);
        ResultsAppend(c.pubs, rest.pubs, x);
      }
    }
  }

  /** A non-zero frequency lets a run's task run every chunk to the end; only
      the raising test can end it early. */
  lemma {:induction false} LoopRunsAll(rule: Rule, p: Parameters, cfg: Config, env: JobEnv, i: nat, n: nat,
                                       defaults: Histogram, logger: Logger)
    decreases n - i
    ensures var r := Loop(rule, p, cfg, env, i, n, defaults, logger);
            (r.outcome.Failed? ==> r.outcome.reason == ModuloByZero && cfg.broadcastFreq == 0)
            && (cfg.broadcastFreq != 0 && i <= n ==> r.chunks == n - i && r.outcome == Succeeded)
  {
    if i < n {
      var c := RunChunk(rule, p, cfg, env, i, defaults, logger);
      if c.test.Some? {
        LoopRunsAll(rule, p, cfg, env, i + 1, n, c.carried, c.logger);
      }
    }
  }

  /** Everything a task publishes is about its own run: results reporting
      `freq` trials, or its log. */
  lemma {:induction false} LoopPublishes(rule: Rule, p: Parameters, cfg: Config, env: JobEnv, i: nat, n: nat,
                                         defaults: Histogram, logger: Logger, k: nat)
    requires k < |Loop(rule, p, cfg, env, i, n, defaults, logger).pubs|
    decreases n - i
    ensures FromTask(Loop(rule, p, cfg, env, i, n, defaults, logger).pubs[k], p, cfg.broadcastFreq)
  {
    var c := RunChunk(rule, p, cfg, env, i, defaults, logger);
    RunChunkPublishes(rule, p, cfg, env, i, defaults, logger);
    if c.test.Some? && k >= |c.pubs| {
      var rest := Loop(rule, p, cfg, env, i + 1, n, c.carried, c.logger);
      LoopPublishes(rule, p, cfg, env, i + 1, n, c.carried, c.logger, k - |c.pubs|);
      assert (c.pubs + rest.pubs)[k] == rest.pubs[k - |c.pubs|];
    }
  }

  /** When the last chunk is followed by a broadcast, nothing simulated is
      left unsent. */
  lemma {:induction false} LastBroadcastFlushes(rule: Rule, p: Parameters, cfg: Config, env: JobEnv, i: nat, n: nat,
                                                defaults: Histogram, logger: Logger)
    requires i < n && cfg.broadcastFreq != 0
    requires BroadcastTest(rule, n - 1, cfg.chunk, cfg.broadcastFreq) == Some(true)
    decreases n - i
    ensures Loop(rule, p, cfg, env, i, n, defaults, logger).pending == map[]
  {
    var c := RunChunk(rule, p, cfg, env, i, defaults, logger);
    if i < n - 1 {
      LastBroadcastFlushes(rule, p, cfg, env, i + 1, n, c.carried, c.logger);
    }
  }

  /** With the corrected test, a chunk size that divides the frequency and
      a frequency that divides `max_runs`, the chunk loop runs every chunk
      and its broadcasts carry every default simulated, `freq` trials each. */
  lemma CorrectedLoopSendsAll(p: Parameters, cfg: Config, env: JobEnv, l: Logger, x: int)
    requires cfg.chunk > 0 && cfg.broadcastFreq > 0 && cfg.broadcastFreq % cfg.chunk == 0
    requires cfg.maxRuns > 0 && cfg.maxRuns % cfg.broadcastFreq == 0
    ensures var n := NumChunks(cfg.maxRuns, cfg.chunk);
            var r := Loop(Corrected, p, cfg, env, 0, n, map[], l);
            r.pending == map[] && r.chunks == n && r.outcome == Succeeded
            && ResultsCount(r.pubs) * cfg.broadcastFreq == cfg.maxRuns
            && ResultsTotal(r.pubs, x) == ChunksTotal(env.copula, 0, n, x)
  {
    var n := NumChunks(cfg.maxRuns, cfg.chunk);
    CorrectedScheduleReportsAll(cfg.maxRuns, cfg.chunk, cfg.broadcastFreq);
    LoopSchedule(Corrected, p, cfg, env, 0, n, map[], l);
    LoopRunsAll(Corrected, p, cfg, env, 0, n, map[], l);
    LoopConserves(Corrected, p, cfg, env, 0, n, map[], l, x);
    LastBroadcastFlushes(Corrected, p, cfg, env, 0, n, map[], l);
  }

  /** With the corrected test and the default settings, a task whose
      portfolio reads and whose simulator builds sends every default it
      simulates, in `max_runs / broadcast_freq` broadcasts. */
  lemma CorrectedTaskSendsAll(p: Parameters, item: Element, env: JobEnv, x: int)
    requires Portfolios.PortfolioFromElement(item).Ok? && env.factory.Succeeded?
    ensures var r := StartJob(Corrected, p, item, DefaultConfig, env);
            r.pending == map[] && r.chunks == NumChunks(DefaultMaxRuns, 100) && r.outcome == Succeeded
            && ResultsCount(r.pubs) * DefaultBroadcastFreq == DefaultMaxRuns
            && ResultsTotal(r.pubs, x) == ChunksTotal(env.copula, 0, r.chunks, x)
  {
    var l := Portfolios.GetPortfolio(item, EmptyLogger).value.1;
    var n := NumChunks(DefaultMaxRuns, 100);
    assert StartJob(Corrected, p, item, DefaultConfig, env) == Loop(Corrected, p, DefaultConfig, env, 0, n, map[], l);
    DefaultDivides();
    CorrectedLoopSendsAll(p, DefaultConfig, env, l, x);
  }

  /** The default chunk size divides the default frequency, which divides
      the default `max_runs`. */
  lemma DefaultDivides()
    ensures DefaultBroadcastFreq > 0 && DefaultBroadcastFreq % 100 == 0
    ensures DefaultMaxRuns > 0 && DefaultMaxRuns % DefaultBroadcastFreq == 0
  {
  }

  // ---------------------------------------------------------------- the node

  /** The runs with a task, each with the parameters that started it. */
  datatype SimState = SimState(tasks: map<string, Parameters>)

  const NoTasks := SimState(map[])

  /** One received item with the clock reading and how the stop broadcast
      it may cause ends. */
  datatype Arrival = Arrival(item: Element, now: Timestamp, stopSent: Outcome)

  /** `onGotStoppedSimulation`: a run with a task has it stopped (whatever
      state the run's task is in: the four `Task*` exceptions are swallowed) and
      forgotten, and a stop goes out; any other run is left alone. */
  function OnGotStoppedSimulation(s: SimState, p: Parameters, sent: Outcome): (r: Step<SimState>)
    ensures p.runId !in r.state.tasks
    ensures forall run :: run != p.runId ==> (run in r.state.tasks <==> run in s.tasks)
    ensures p.runId !in s.tasks <==> r == Step(s, [], Fired(Succeeded))
    ensures p.runId in s.tasks ==> r.pubs == [BroadcastStop(p)] && r.reply == Fired(sent)
  {
    if p.runId !in s.tasks then Step(s, [], Fired(Succeeded))
    else Step(SimState(s.tasks - {p.runId}), [BroadcastStop(p)], Fired(sent))
  }

  /** `onGotItem`: a start for a run without a task registers one (the
      task itself, `StartJob`, runs alongside the node's other work); a
      stop goes to `onGotStoppedSimulation`; everything else, and an item
      without parameters, is passed over. A malformed field escapes as the
      parser's `ValueError`. */
  function OnGotItem(s: SimState, a: Arrival): (r: Step<SimState>)
    ensures ParametersFromElement(a.item, a.now).Err? ==> r.state == s && r.pubs == []
    ensures ParametersFromElement(a.item, a.now).Err? ==>
              (r.reply.Raised? <==> ParametersFromElement(a.item, a.now).error.ValueError?)
  {
    match GetParameters(a.item, EmptyLogger, a.now)
    case Err(e) => Step(s, [], Raised(e.text))
    case Ok((params, _)) =>
      if params.None? then Step(s, [], Fired(Succeeded))
      else Handle(s, params.value, a.stopSent)
  }

  /** What `onGotItem` does with the parameters it read. */
  function Handle(s: SimState, p: Parameters, stopSent: Outcome): (r: Step<SimState>)
  {
    match p.cmd
    case Start =>
      var tasks := if p.runId in s.tasks then s.tasks else s.tasks[p.runId := p];
      Step(SimState(tasks), [], Fired(Succeeded))
    case Stop => OnGotStoppedSimulation(s, p, stopSent)
    case _ => Step(s, [], Fired(Succeeded))
  }

  /** An item carrying parameters `p` is handled by what they say. */
  lemma OnGotItemParsed(s: SimState, p: Parameters, now: Timestamp, sent: Outcome)
    ensures OnGotItem(s, Arrival(ParametersToElement(p), now, sent)) == Handle(s, p, sent)
  {
    ParametersRoundTrip(p, now);
  }

  /** A start registers exactly one task under its run, unless the run
      already has one, which it keeps; it publishes nothing. */
  lemma StartRegisters(s: SimState, p: Parameters, now: Timestamp, sent: Outcome)
    requires p.cmd == Start
    ensures var r := OnGotItem(s, Arrival(ParametersToElement(p), now, sent));
            r.pubs == [] && r.reply == Fired(Succeeded)
            && r.state.tasks.Keys == s.tasks.Keys + {p.runId}
            && r.state.tasks[p.runId] == (if p.runId in s.tasks then s.tasks[p.runId] else p)
            && forall run :: run in s.tasks ==> r.state.tasks[run] == s.tasks[run]
  {
    OnGotItemParsed(s, p, now, sent);
  }

  /** A second start for a run is ignored: it changes nothing. */
  lemma StartTwice(s: SimState, p: Parameters, p2: Parameters, now: Timestamp, now2: Timestamp, sent: Outcome, sent2: Outcome)
    requires p.cmd == Start && p2.cmd == Start && p2.runId == p.runId
    ensures var s1 := OnGotItem(s, Arrival(ParametersToElement(p), now, sent)).state;
            OnGotItem(s1, Arrival(ParametersToElement(p2), now2, sent2)) == Step(s1, [], Fired(Succeeded))
  {
    OnGotItemParsed(s, p, now, sent);
    var s1 := Handle(s, p, sent).state;
    OnGotItemParsed(s1, p2, now2, sent2);
  }

  /** Stopping a run without a task does nothing at all. */
  lemma StopUnknownRun(s: SimState, p: Parameters, now: Timestamp, sent: Outcome)
    requires p.cmd == Stop && p.runId !in s.tasks
    ensures OnGotItem(s, Arrival(ParametersToElement(p), now, sent)) == Step(s, [], Fired(Succeeded))
  {
    OnGotItemParsed(s, p, now, sent);
  }

  /** Only a stop removes a task: a run started, then stopped, sends one
      stop and can be started afresh; finishing its chunks does not. */
  lemma StartStopStart(p: Parameters, q: Parameters, p2: Parameters, now: Timestamp, sent: Outcome)
    requires p.cmd == Start && q.cmd == Stop && p2.cmd == Start && q.runId == p.runId && p2.runId == p.runId
    ensures var s1 := OnGotItem(NoTasks, Arrival(ParametersToElement(p), now, sent));
            var s2 := OnGotItem(s1.state, Arrival(ParametersToElement(q), now, sent));
            var s3 := OnGotItem(s2.state, Arrival(ParametersToElement(p2), now, sent));
            s2.pubs == [BroadcastStop(q)] && s2.reply == Fired(sent)
            && s2.state == NoTasks && s3.state.tasks == map[p.runId := p2]
  {
    OnGotItemParsed(NoTasks, p, now, sent);
    var s1 := SimState(map[p.runId := p]);
    assert Handle(NoTasks, p, sent).state == s1;
    OnGotItemParsed(s1, q, now, sent);
    StopKnownRun(s1, q, sent);
    OnGotItemParsed(NoTasks, p2, now, sent);
  }

  /** Stopping the one run with a task leaves no tasks and sends one stop. */
  lemma StopKnownRun(s: SimState, q: Parameters, sent: Outcome)
    requires q.cmd == Stop && s.tasks.Keys == {q.runId}
    ensures Handle(s, q, sent) == Step(NoTasks, [BroadcastStop(q)], Fired(sent))
  {
    assert s.tasks - {q.runId} == map[];
  }

  /** Items that are neither a start nor a stop never change the run tasks. */
  lemma OthersChangeNothing(s: SimState, a: Arrival)
    requires ParametersFromElement(a.item, a.now).Ok? ==> ParametersFromElement(a.item, a.now).value.cmd in {Info, Results}
    ensures OnGotItem(s, a).state == s && OnGotItem(s, a).pubs == []
  {
  }
}

=== FILE: distributions_manager.dfy ===
/** The node that collates the simulators' histograms per run and stops a
    run once enough trials are in (`distributionsManager.py`). Each
    publication's outcome is an input; the dictionary's iteration order
    over a message's histograms is an input too. */
module DistributionsManager {
  import opened Wrappers
  import opened Xml
  import opened Collections
  import opened Simulation
  import opened CollabNode

  /** The manager's bookkeeping: cumulative histograms and trial counts per
      run, and the runs whose final results and stop have gone out. */
  datatype State = State(distributions: map<string, Distributions>, checks: map<string, int>, stopped: set<string>)

  const Initial := State(map[], map[], {})

  /** A run's cumulative histograms (a `defaultdict`: none yet is empty). */
  function Cumulative(s: State, run: string): Distributions
  {
    if run in s.distributions then s.distributions[run] else Distributions(map[])
  }

  /** A run's trial count (a `defaultdict(int)`: none yet is 0). */
  function Checked(s: State, run: string): int
  {
    if run in s.checks then s.checks[run] else 0
  }

  /** `checkStopCondition`: the run's count grows by the trials reported,
      and the run is done once the count reaches its target. */
  function CheckStopCondition(s: State, p: Parameters, runs: int): (r: (State, bool))
    ensures Checked(r.0, p.runId) == Checked(s, p.runId) + runs
    ensures forall run :: run != p.runId ==> Checked(r.0, run) == Checked(s, run)
    ensures r.0.distributions == s.distributions && r.0.stopped == s.stopped
    ensures r.1 <==> Checked(r.0, p.runId) >= p.numberRuns
  {
    var count := Checked(s, p.runId) + runs;
    (s.(checks := s.checks[p.runId := count]), count >= p.numberRuns)
  }

  /** How the three broadcasts of `handleDistribution` end: the final
      results, the stop, and the progress report. */
  datatype Sends = Sends(results: Outcome, stop: Outcome, info: Outcome)

  const AllSent := Sends(Succeeded, Succeeded, Succeeded)

  /** What `_errback(err, params=p)` publishes for a failed broadcast. */
  function FailureLogs(o: Outcome, p: Parameters, now: Timestamp): (r: seq<Publication>)
    ensures o.Succeeded? <==> r == []
    ensures forall k :: 0 <= k < |r| ==> ToErrorNode(r[k])
  {
    if o.Succeeded? then [] else [Errback(o.reason, None, Some(p), now).1]
  }

  /** `handleDistribution`: histogram `h` named `name` is added into the
      run's cumulative histograms and the stop condition is checked. When
      it holds and the run has not been stopped, the cumulative results
      and a stop go out and the run is marked stopped, unless either of
      them fails, which unmarks it. A progress report goes out every time. */
  function HandleDistribution(s: State, p: Parameters, name: string, h: Histogram, progress: Progress, o: Sends, now: Timestamp)
    : (r: (State, seq<Publication>))
    ensures Cumulative(r.0, p.runId) == Combined(Cumulative(s, p.runId), name, h)
    ensures forall run :: run != p.runId ==> Cumulative(r.0, run) == Cumulative(s, run)
    ensures Checked(r.0, p.runId) == Checked(s, p.runId) + progress.runs
    ensures forall run :: run != p.runId ==> Checked(r.0, run) == Checked(s, run)
    ensures forall run :: run != p.runId ==> (run in r.0.stopped <==> run in s.stopped)
  {
    var merged := Combined(Cumulative(s, p.runId), name, h);
    var s1 := s.(distributions := s.distributions[p.runId := merged]);
    var (s2, done) := CheckStopCondition(s1, p, progress.runs);
    var info := [InfoOut(p.(cmd := Info), progress)] + FailureLogs(o.info, p, now);
    if done && p.runId !in s2.stopped then
      var sent := o.results.Succeeded? && o.stop.Succeeded?;
      var s3 := s2.(stopped := if sent then s2.stopped + {p.runId} else s2.stopped);
      var pubs := [ResultsOut(p.(cmd := Results), merged, None), StopOut(p.(cmd := Stop))]
                  + FailureLogs(o.results, p, now) + FailureLogs(o.stop, p, now) + info;
      (s3, pubs)
    else
      (s2, info)
  }

  /** The final results and the stop go out together, exactly when the
      run's count reaches its target and the run is not marked stopped;
      the run ends marked stopped when it was, or when both went out well.
      The progress report goes out every time. */
  lemma HandleDistributionSends(s: State, p: Parameters, name: string, h: Histogram, progress: Progress, o: Sends, now: Timestamp)
    ensures var r := HandleDistribution(s, p, name, h, progress, o, now);
            ((StopOut(p.(cmd := Stop)) in r.1) <==> Checked(r.0, p.runId) >= p.numberRuns && p.runId !in s.stopped)
            && ((ResultsOut(p.(cmd := Results), Cumulative(r.0, p.runId), None) in r.1) <==> StopOut(p.(cmd := Stop)) in r.1)
            && (p.runId in r.0.stopped <==> p.runId in s.stopped || (StopOut(p.(cmd := Stop)) in r.1 && o.results.Succeeded? && o.stop.Succeeded?))
            && InfoOut(p.(cmd := Info), progress) in r.1
  {
    var r := HandleDistribution(s, p, name, h, progress, o, now);
    var merged := Combined(Cumulative(s, p.runId), name, h);
    var info := [InfoOut(p.(cmd := Info), progress)] + FailureLogs(o.info, p, now);
    assert info[0] == InfoOut(p.(cmd := Info), progress);
    if Checked(r.0, p.runId) >= p.numberRuns && p.runId !in s.stopped {
      var pubs := [ResultsOut(p.(cmd := Results), merged, None), StopOut(p.(cmd := Stop))]
                  + FailureLogs(o.results, p, now) + FailureLogs(o.stop, p, now) + info;
      assert pubs[0] == ResultsOut(p.(cmd := Results), merged, None) && pubs[1] == StopOut(p.(cmd := Stop));
      assert pubs[|pubs| - |info|] == info[0];
    } else {
      assert r.1 == info;
    }
  }

  /** Once the final results and stop went out, later histograms for the
      run are still merged and counted but never send them again. */
  lemma StopSentOnce(s: State, p: Parameters, name: string, h: Histogram, progress: Progress, now: Timestamp,
                     p2: Parameters, name2: string, h2: Histogram, progress2: Progress, o2: Sends)
    requires p2.runId == p.runId
    requires StopOut(p.(cmd := Stop)) in HandleDistribution(s, p, name, h, progress, AllSent, now).1
    ensures var s1 := HandleDistribution(s, p, name, h, progress, AllSent, now).0;
            StopOut(p2.(cmd := Stop)) !in HandleDistribution(s1, p2, name2, h2, progress2, o2, now).1
  {
    HandleDistributionSends(s, p, name, h, progress, AllSent, now);
    var s1 := HandleDistribution(s, p, name, h, progress, AllSent, now).0;
    HandleDistributionSends(s1, p2, name2, h2, progress2, o2, now);
  }

  /** When sending the final results or the stop failed, the next
      histogram for the run (reporting no negative trial count) sends them
      again. */
  lemma RetryAfterFailedStop(s: State, p: Parameters, name: string, h: Histogram, progress: Progress, o: Sends, now: Timestamp,
                             name2: string, h2: Histogram, progress2: Progress, o2: Sends)
    requires StopOut(p.(cmd := Stop)) in HandleDistribution(s, p, name, h, progress, o, now).1
    requires o.results.Failed? || o.stop.Failed?
    requires progress2.runs >= 0
    ensures var s1 := HandleDistribution(s, p, name, h, progress, o, now).0;
            StopOut(p.(cmd := Stop)) in HandleDistribution(s1, p, name2, h2, progress2, o2, now).1
  {
    HandleDistributionSends(s, p, name, h, progress, o, now);
    var s1 := HandleDistribution(s, p, name, h, progress, o, now).0;
    HandleDistributionSends(s1, p, name2, h2, progress2, o2, now);
  }

  /** `onGotStoppedSimulation`: the run is forgotten everywhere. */
  function OnGotStoppedSimulation(s: State, run: string): (r: State)
    ensures run !in r.distributions && run !in r.checks && run !in r.stopped
    ensures forall other :: other != run ==> Cumulative(r, other) == Cumulative(s, other)
                                              && Checked(r, other) == Checked(s, other)
                                              && (other in r.stopped <==> other in s.stopped)
  {
    State(s.distributions - {run}, s.checks - {run}, s.stopped - {run})
  }

  /** Stopping a run the manager does not know changes nothing. */
  lemma StopUnknownRun(s: State, run: string)
    requires run !in s.distributions && run !in s.checks && run !in s.stopped
    ensures OnGotStoppedSimulation(s, run) == s
  {
    assert s.distributions - {run} == s.distributions;
    assert s.checks - {run} == s.checks;
    assert s.stopped - {run} == s.stopped;
  }

  /** After a stop the run starts over: its next histogram is counted
      from zero and merged into empty histograms. */
  lemma StoppedRunStartsOver(s: State, p: Parameters, name: string, h: Histogram, progress: Progress, o: Sends, now: Timestamp)
    ensures var r := HandleDistribution(OnGotStoppedSimulation(s, p.runId), p, name, h, progress, o, now).0;
            Checked(r, p.runId) == progress.runs && Cumulative(r, p.runId) == Combined(Distributions(map[]), name, h)
  {
  }

  /** The outcomes of the broadcasts for the k-th histogram; histograms
      past the list send everything successfully. */
  function SendsAt(sends: seq<Sends>, k: nat): Sends
  {
    if k < |sends| then sends[k] else AllSent
  }

  /** Every histogram of `d` named in `names`, handled in that order;
      `names` is the iteration order of the message's dictionary. */
  function HandleAll(s: State, p: Parameters, names: seq<string>, d: Distributions, progress: Progress,
                     sends: seq<Sends>, now: Timestamp): (r: (State, seq<Publication>))
    decreases |names|
  {
    if names == [] then (s, [])
    else
      var first := HandleDistribution(s, p, names[0], HistogramOf(d.histograms, names[0]), progress, SendsAt(sends, 0), now);
      var rest := HandleAll(first.0, p, names[1..], d, progress, if sends == [] then [] else sends[1..], now);
      (rest.0, first.1 + rest.1)
  }

  /** The histograms of `d` named in `names`, combined in that order. */
  function CombineAll(acc: Distributions, names: seq<string>, d: Distributions): Distributions
    decreases |names|
  {
    if names == [] then acc
    else CombineAll(Combined(acc, names[0], HistogramOf(d.histograms, names[0])), names[1..], d)
  }

  /** A message merges each of its histograms into its run, in order,
      even when the run has already been stopped. */
  lemma {:induction false} HandleAllMerges(s: State, p: Parameters, names: seq<string>, d: Distributions,
                                           progress: Progress, sends: seq<Sends>, now: Timestamp)
    decreases |names|
    ensures Cumulative(HandleAll(s, p, names, d, progress, sends, now).0, p.runId) == CombineAll(Cumulative(s, p.runId), names, d)
  {
    if names != [] {
      var first := HandleDistribution(s, p, names[0], HistogramOf(d.histograms, names[0]), progress, SendsAt(sends, 0), now);
      HandleAllMerges(first.0, p, names[1..], d, progress, if sends == [] then [] else sends[1..], now);
    }
  }

  /** A message counts its trials once per histogram it carries. */
  lemma {:induction false} HandleAllCounts(s: State, p: Parameters, names: seq<string>, d: Distributions,
                                           progress: Progress, sends: seq<Sends>, now: Timestamp)
    decreases |names|
    ensures Checked(HandleAll(s, p, names, d, progress, sends, now).0, p.runId) == Checked(s, p.runId) + |names| * progress.runs
  {
    if names != [] {
      var first := HandleDistribution(s, p, names[0], HistogramOf(d.histograms, names[0]), progress, SendsAt(sends, 0), now);
      HandleAllCounts(first.0, p, names[1..], d, progress, if sends == [] then [] else sends[1..], now);
      MultiplyStep(|names|, progress.runs);
    }
  }

  /** One more histogram adds one more count. */
  lemma MultiplyStep(n: nat, k: int)
    requires n > 0
    ensures n * k == k + (n - 1) * k
  {
  }

  /** Combining the histograms named in `names` (each named once) adds
      each of them, at every point, into the histogram of that name, and
      leaves the other histograms alone. */
  lemma {:induction false} CombineAllSpec(acc: Distributions, names: seq<string>, d: Distributions, n: string, x: int)
    requires Distinct(names)
    decreases |names|
    ensures Count(HistogramOf(CombineAll(acc, names, d).histograms, n), x)
            == Count(HistogramOf(acc.histograms, n), x) + (if n in names then Count(HistogramOf(d.histograms, n), x) else 0)
  {
    if names != [] {
      var next := Combined(acc, names[0], HistogramOf(d.histograms, names[0]));
      DistinctRest(names, n);
      CombinedSpec(acc, names[0], HistogramOf(d.histograms, names[0]));
      CombineAllSpec(next, names[1..], d, n, x);
    }
  }

  /** With the names taken in an iteration order of the message's
      dictionary, every histogram it carries is added into the run's
      cumulative histogram of the same name, and no other is touched. */
  lemma HandleAllMergesMessage(s: State, p: Parameters, order: seq<string>, d: Distributions,
                               progress: Progress, sends: seq<Sends>, now: Timestamp, n: string, x: int)
    requires IsOrder(order, d.histograms.Keys)
    ensures var r := HandleAll(s, p, order, d, progress, sends, now).0;
            Count(HistogramOf(Cumulative(r, p.runId).histograms, n), x)
            == Count(HistogramOf(Cumulative(s, p.runId).histograms, n), x) + Count(HistogramOf(d.histograms, n), x)
  {
    HandleAllMerges(s, p, order, d, progress, sends, now);
    CombineAllSpec(Cumulative(s, p.runId), order, d, n, x);
  }

  /** A message leaves every other run as it was. */
  lemma {:induction false} HandleAllOtherRuns(s: State, p: Parameters, names: seq<string>, d: Distributions,
                                              progress: Progress, sends: seq<Sends>, now: Timestamp, run: string)
    requires run != p.runId
    decreases |names|
    ensures Cumulative(HandleAll(s, p, names, d, progress, sends, now).0, run) == Cumulative(s, run)
    ensures Checked(HandleAll(s, p, names, d, progress, sends, now).0, run) == Checked(s, run)
    ensures run in HandleAll(s, p, names, d, progress, sends, now).0.stopped <==> run in s.stopped
  {
    if names != [] {
      var first := HandleDistribution(s, p, names[0], HistogramOf(d.histograms, names[0]), progress, SendsAt(sends, 0), now);
      HandleAllOtherRuns(first.0, p, names[1..], d, progress, if sends == [] then [] else sends[1..], now, run);
    }
  }

  /** What one received item brings besides the item itself: the clock,
      the iteration order of its histograms, how each histogram's
      broadcasts end, and how the log broadcast for a bad message ends. */
  datatype Env = Env(now: Timestamp, order: seq<string>, sends: seq<Sends>, logsSent: Outcome)

  /** `onGotDistribution`: with both the histograms and the progress
      found, every histogram is handled; otherwise the log of what was
      missing goes out and nothing is merged. Its Deferred always ends
      well, every broadcast failure going to `_errback`. */
  function OnGotDistribution(s: State, p: Parameters, item: Element, logger: Logger, env: Env): (r: Step<State>)
    ensures r.reply == Fired(Succeeded)
    ensures DistributionsFromElement(item).Err? || ProgressFromElement(item).Err? ==>
              r.state == s && |r.pubs| >= 1 && ToErrorNode(r.pubs[0])
  {
    var (dists, l1) := GetDistributions(item, logger);
    var (progress, l2) := GetProgress(item, l1);
    if dists.None? || progress.None? then
      var sent := BroadcastLogs(l2, Some(p), env.now);
      var failed := if env.logsSent.Failed? then [Errback(env.logsSent.reason, Some(l2), Some(p), env.now).1] else [];
      Step(s, [sent] + failed, Fired(Succeeded))
    else
      var r := HandleAll(s, p, env.order, dists.value, progress.value, env.sends, env.now);
      Step(r.0, r.1, Fired(Succeeded))
  }

  /** `onGotItem` as written: a command other than 'results' or 'stop'
      falls off the end of the method, which returns `None`. */
  function OnGotItemAsWritten(s: State, item: Element, env: Env): (r: Step<State>)
  {
    Dispatch(s, item, env, ReturnedNone)
  }

  /** `onGotItem` as evidently intended: other commands are ignored with
      a Deferred that has already succeeded, as for missing parameters. */
  function OnGotItem(s: State, item: Element, env: Env): (r: Step<State>)
  {
    Dispatch(s, item, env, Fired(Succeeded))
  }

  /** The dispatch of `onGotItem`; `other` is the reply for a command
      it does not handle. */
  function Dispatch(s: State, item: Element, env: Env, other: Reply): (r: Step<State>)
    ensures ParametersFromElement(item, env.now).Err? ==> r.state == s && r.pubs == []
    ensures ParametersFromElement(item, env.now).Err? && ParametersFromElement(item, env.now).error.ValueError? ==> Aborts(r.reply)
    ensures ParametersFromElement(item, env.now).Err? && !ParametersFromElement(item, env.now).error.ValueError? ==> r.reply == Fired(Succeeded)
    ensures ParametersFromElement(item, env.now).Ok? && ParametersFromElement(item, env.now).value.cmd == Stop ==>
              r == Step(OnGotStoppedSimulation(s, ParametersFromElement(item, env.now).value.runId), [], Fired(Succeeded))
    ensures ParametersFromElement(item, env.now).Ok? && ParametersFromElement(item, env.now).value.cmd in {Info, Start} ==>
              r == Step(s, [], other)
    ensures ParametersFromElement(item, env.now).Ok? && ParametersFromElement(item, env.now).value.cmd == Results ==>
              r == OnGotDistribution(s, ParametersFromElement(item, env.now).value, item, EmptyLogger, env)
  {
    match GetParameters(item, EmptyLogger, env.now)
    case Err(e) => Step(s, [], Raised(e.text))
    case Ok((params, logger)) =>
      if params.None? then Step(s, [], Fired(Succeeded))
      else
        var p := params.value;
        match p.cmd
        case Results => OnGotDistribution(s, p, item, logger, env)
        case Stop => Step(OnGotStoppedSimulation(s, p.runId), [], Fired(Succeeded))
        case _ => Step(s, [], other)
  }

  /** The corrected `onGotItem` only ends a batch on a malformed field
      (the `ValueError` its parser raises); every other item gives a
      Deferred that fires. */
  lemma OnGotItemOnlyRaises(s: State, item: Element, env: Env)
    ensures OnGotItem(s, item, env).reply.Fired?
            || (ParametersFromElement(item, env.now).Err? && ParametersFromElement(item, env.now).error.ValueError?)
  {
  }

  /** One received item with the environment it arrives in. */
  type Arrival = (Element, Env)

  function AsWrittenStep(s: State, x: Arrival): Step<State>
  {
    OnGotItemAsWritten(s, x.0, x.1)
  }

  function CorrectedStep(s: State, x: Arrival): Step<State>
  {
    OnGotItem(s, x.0, x.1)
  }

  /** As written, an 'info' or 'start' item (which the manager also
      receives, from the same node as the histograms) ends its batch with
      a failure: the items after it are never looked at. */
  lemma InfoItemAbortsBatch(s: State, p: Parameters, env: Env, rest: seq<Arrival>, now: Timestamp)
    requires p.cmd == Info || p.cmd == Start
    ensures ItemsReceived(s, [(ParametersToElement(p), env)] + rest, AsWrittenStep, now)
            == Batch(s, [], 1, Some(Failed(NoneHasNoErrback)))
  {
    ParametersRoundTrip(p, env.now);
    assert ([(ParametersToElement(p), env)] + rest)[0] == (ParametersToElement(p), env);
  }

  /** Corrected, such an item is passed over and the rest of the batch is
      handled exactly as if it had not been there. */
  lemma InfoItemSkipped(s: State, p: Parameters, env: Env, rest: seq<Arrival>, now: Timestamp)
    requires p.cmd == Info || p.cmd == Start
    ensures var b := ItemsReceived(s, rest, CorrectedStep, now);
            ItemsReceived(s, [(ParametersToElement(p), env)] + rest, CorrectedStep, now) == b.(handled := b.handled + 1)
  {
    InfoItemIgnored(s, p, env);
    ItemsReceivedSkip(s, (ParametersToElement(p), env), rest, CorrectedStep, now);
  }

  /** The corrected step on an 'info' or 'start' item changes nothing,
      publishes nothing and fires at once. */
  lemma InfoItemIgnored(s: State, p: Parameters, env: Env)
    requires p.cmd == Info || p.cmd == Start
    ensures CorrectedStep(s, (ParametersToElement(p), env)) == Step(s, [], Fired(Succeeded))
  {
    ParametersRoundTrip(p, env.now);
  }
}

=== FILE: nodes.dfy ===
/** The channel policy of collab's publish/subscribe input, output and
    error nodes, and the load balancer that never trips (`nodes.py`).
    Every pubsub request is reduced to what it asks for and the outcome
    it ended with, which is an input. */
module Nodes {
  import opened Wrappers
  import opened Collections
  import opened NumberText

  /** The pseudo-channel written to the local log and never published. */
  const LogChannel := "log"

  /** The affiliations of a JID as (node, affiliation) pairs, in the
      iteration order of the dictionary they come from. */
  type Affiliations = seq<(string, string)>

  // ---------------------------------------------------------------- channels

  /** The nodes the JID is a publisher of whose name contains "error"
      (`errors`) or does not (`!errors`), in order. */
  function Publishers(affs: Affiliations, errors: bool): seq<string>
  {
    if affs == [] then []
    else (if affs[0].1 == "publisher" && IsSubstring("error", affs[0].0) == errors then [affs[0].0] else [])
         + Publishers(affs[1..], errors)
  }

  /** `PSOutputNode.outputChannels`. */
  function OutputChannels(affs: Affiliations): seq<string>
  {
    [LogChannel] + Publishers(affs, false)
  }

  /** `PSErrorNode.errorChannels`. */
  function ErrorChannels(affs: Affiliations): seq<string>
  {
    [LogChannel] + Publishers(affs, true)
  }

  /** A node is listed exactly when the JID publishes to it and its name
      has "error" in it as asked. */
  lemma {:induction false} PublishersMembers(affs: Affiliations, errors: bool, n: string)
    ensures n in Publishers(affs, errors) <==> (n, "publisher") in affs && IsSubstring("error", n) == errors
  {
    if affs != [] {
      PublishersMembers(affs[1..], errors, n);
      assert (n, "publisher") in affs <==> affs[0] == (n, "publisher") || (n, "publisher") in affs[1..];
    }
  }

  /** The selection keeps the order of the affiliations. */
  lemma {:induction false} PublishersAppend(a: Affiliations, b: Affiliations, errors: bool)
    ensures Publishers(a + b, errors) == Publishers(a, errors) + Publishers(b, errors)
  {
    if a == [] {
      assert a + b == b;
    } else {
      assert (a + b)[1..] == a[1..] + b;
      PublishersAppend(a[1..], b, errors);
    }
  }

  /** Both lists start with the log channel; past it, the output and error
      channels are disjoint and together are the nodes the JID publishes to. */
  lemma ChannelsPartition(affs: Affiliations, n: string)
    ensures OutputChannels(affs)[0] == LogChannel && ErrorChannels(affs)[0] == LogChannel
    ensures n in OutputChannels(affs)[1..] <==> (n, "publisher") in affs && !IsSubstring("error", n)
    ensures n in ErrorChannels(affs)[1..] <==> (n, "publisher") in affs && IsSubstring("error", n)
    ensures !(n in OutputChannels(affs)[1..] && n in ErrorChannels(affs)[1..])
    ensures n in OutputChannels(affs)[1..] || n in ErrorChannels(affs)[1..] <==> (n, "publisher") in affs
  {
    assert OutputChannels(affs)[1..] == Publishers(affs, false);
    assert ErrorChannels(affs)[1..] == Publishers(affs, true);
    PublishersMembers(affs, false, n);
    PublishersMembers(affs, true, n);
  }

  // ---------------------------------------------------------------- routing

  /** What writing data to one channel does. */
  datatype Delivery = Logged | Published(channel: string)

  /** The delivery for one channel when nothing fails. */
  function Deliver(ch: string): Delivery
  {
    if ch == LogChannel then Logged else Published(ch)
  }

  function DeliverAll(chs: seq<string>): (r: seq<Delivery>)
    ensures |r| == |chs|
    ensures forall k :: 0 <= k < |chs| ==> r[k] == Deliver(chs[k])
  {
    if chs == [] then [] else [Deliver(chs[0])] + DeliverAll(chs[1..])
  }

  /** The number of publications the channels ask for. */
  function PublishCount(chs: seq<string>): nat
  {
    if chs == [] then 0 else (if chs[0] == LogChannel then 0 else 1) + PublishCount(chs[1..])
  }

  /** The outcome of the next publication; publications past the list succeed. */
  function Head(os: seq<Outcome>): Outcome
  {
    if os == [] then Succeeded else os[0]
  }

  function Tail(os: seq<Outcome>): seq<Outcome>
  {
    if os == [] then [] else os[1..]
  }

  /** The cooperative loop of `onOutput` and `onError` once the channels are
      known: each channel in order, the k-th publication ending with
      `os[k]`; a failed publication ends the loop, and the call, with a failure. */
  function Route(chs: seq<string>, os: seq<Outcome>): (r: (seq<Delivery>, Outcome))
  {
    if chs == [] then ([], Succeeded)
    else if chs[0] == LogChannel then
      var rest := Route(chs[1..], os);
      ([Logged] + rest.0, rest.1)
    else if Head(os).Failed? then ([Published(chs[0])], Head(os))
    else
      var rest := Route(chs[1..], Tail(os));
      ([Published(chs[0])] + rest.0, rest.1)
  }

  /** Some publication among the first `n` failed. */
  predicate AnyFailed(os: seq<Outcome>, n: nat)
  {
    exists k :: 0 <= k < n && k < |os| && os[k].Failed?
  }

  /** Routing writes a prefix of the channels, each once and in order (the
      log channel locally, every other one published); it writes them all
      and succeeds exactly when none of the publications it asks for fails. */
  lemma {:induction false} RouteSpec(chs: seq<string>, os: seq<Outcome>)
    ensures |Route(chs, os).0| <= |chs|
    ensures Route(chs, os).0 == DeliverAll(chs)[..|Route(chs, os).0|]
    ensures Route(chs, os).1.Failed? <==> AnyFailed(os, PublishCount(chs))
    ensures Route(chs, os).1.Succeeded? ==> Route(chs, os).0 == DeliverAll(chs)
  {
    if chs != [] {
      var r := Route(chs, os);
      if chs[0] == LogChannel {
        RouteSpec(chs[1..], os);
      } else if Head(os).Failed? {
        assert os[0].Failed?;
      } else {
        RouteSpec(chs[1..], Tail(os));
        var n := PublishCount(chs[1..]);
        if AnyFailed(Tail(os), n) {
          var k :| 0 <= k < n && k < |Tail(os)| && Tail(os)[k].Failed?;
          assert os[k + 1].Failed?;
        }
        if AnyFailed(os, n + 1) {
          var k :| 0 <= k < n + 1 && k < |os| && os[k].Failed?;
          assert Tail(os)[k - 1].Failed?;
        }
      }
    }
  }

  /** No delivery is a publication to the log channel. */
  lemma {:induction false} RouteNeverPublishesLog(chs: seq<string>, os: seq<Outcome>)
    ensures Published(LogChannel) !in Route(chs, os).0
  {
    if chs != [] {
      if chs[0] == LogChannel {
        RouteNeverPublishesLog(chs[1..], os);
      } else if Head(os).Succeeded? {
        RouteNeverPublishesLog(chs[1..], Tail(os));
      }
    }
  }

  /** `PSOutputNode.onOutput`: the affiliations are fetched first; when
      the fetch fails, so does the call, before any delivery. */
  function OnOutput(affs: Result<Affiliations, string>, os: seq<Outcome>): (r: (seq<Delivery>, Outcome))
    ensures affs.Err? ==> r == ([], Failed(affs.error))
    ensures Published(LogChannel) !in r.0
  {
    if affs.Err? then ([], Failed(affs.error))
    else
      RouteNeverPublishesLog(OutputChannels(affs.value), os);
      Route(OutputChannels(affs.value), os)
  }

  /** `PSErrorNode.onError`, likewise over the error channels. */
  function OnError(affs: Result<Affiliations, string>, os: seq<Outcome>): (r: (seq<Delivery>, Outcome))
    ensures affs.Err? ==> r == ([], Failed(affs.error))
    ensures Published(LogChannel) !in r.0
  {
    if affs.Err? then ([], Failed(affs.error))
    else
      RouteNeverPublishesLog(ErrorChannels(affs.value), os);
      Route(ErrorChannels(affs.value), os)
  }

  /** Output and error deliveries both begin by writing the local log. */
  lemma OutputAndErrorLogFirst(affs: Affiliations, os: seq<Outcome>)
    ensures OnOutput(Ok(affs), os).0 != [] && OnOutput(Ok(affs), os).0[0] == Logged
    ensures OnError(Ok(affs), os).0 != [] && OnError(Ok(affs), os).0[0] == Logged
  {
    assert OutputChannels(affs)[0] == LogChannel;
    assert ErrorChannels(affs)[0] == LogChannel;
  }

  // ---------------------------------------------------------------- input node

  /** A request to the pubsub service on behalf of the input node. */
  datatype Request = Subscribe(channel: string) | Unsubscribe(channel: string)

  /** `PSInputNode.addInput`: the current subscriptions are read first
      (when the read fails, so does the call); a subscription is
      requested only for a channel not already subscribed to, and the
      call then ends as that request does. */
  function AddInput(subs: Result<seq<string>, string>, ch: string, outcome: Outcome): (r: (Option<Request>, Outcome))
    ensures r.0.Some? <==> subs.Ok? && ch !in subs.value
    ensures r.0.Some? ==> r.0.value == Subscribe(ch) && r.1 == outcome
    ensures r.0.None? ==> r.1 == (if subs.Ok? then Succeeded else Failed(subs.error))
  {
    match subs
    case Err(e) => (None, Failed(e))
    case Ok(current) => if ch in current then (None, Succeeded) else (Some(Subscribe(ch)), outcome)
  }

  /** `PSInputNode.removeInput`: an unsubscription is requested only for a
      channel subscribed to. */
  function RemoveInput(subs: Result<seq<string>, string>, ch: string, outcome: Outcome): (r: (Option<Request>, Outcome))
    ensures r.0.Some? <==> subs.Ok? && ch in subs.value
    ensures r.0.Some? ==> r.0.value == Unsubscribe(ch) && r.1 == outcome
    ensures r.0.None? ==> r.1 == (if subs.Ok? then Succeeded else Failed(subs.error))
  {
    match subs
    case Err(e) => (None, Failed(e))
    case Ok(current) => if ch !in current then (None, Succeeded) else (Some(Unsubscribe(ch)), outcome)
  }

  /** The pubsub service's subscriptions after a request with its outcome. */
  function Serve(subs: seq<string>, req: Option<Request>, outcome: Outcome): seq<string>
  {
    if req.None? || outcome.Failed? then subs
    else match req.value
      case Subscribe(ch) => subs + [ch]
      case Unsubscribe(ch) => Without(subs, ch)
  }

  function Without(xs: seq<string>, x: string): (r: seq<string>)
    ensures forall y :: y in r <==> y in xs && y != x
  {
    if xs == [] then []
    else (if xs[0] == x then [] else [xs[0]]) + Without(xs[1..], x)
  }

  /** After a successful `addInput` the channel is subscribed to, and a
      second `addInput` asks for nothing more. */
  lemma AddInputIdempotent(subs: seq<string>, ch: string, o1: Outcome, o2: Outcome)
    requires AddInput(Ok(subs), ch, o1).1.Succeeded?
    ensures ch in Serve(subs, AddInput(Ok(subs), ch, o1).0, o1)
    ensures AddInput(Ok(Serve(subs, AddInput(Ok(subs), ch, o1).0, o1)), ch, o2) == (None, Succeeded)
  {
  }

  /** After a successful `removeInput` the channel is no longer subscribed
      to, and a second `removeInput` asks for nothing more. */
  lemma RemoveInputIdempotent(subs: seq<string>, ch: string, o1: Outcome, o2: Outcome)
    requires RemoveInput(Ok(subs), ch, o1).1.Succeeded?
    ensures ch !in Serve(subs, RemoveInput(Ok(subs), ch, o1).0, o1)
    ensures RemoveInput(Ok(Serve(subs, RemoveInput(Ok(subs), ch, o1).0, o1)), ch, o2) == (None, Succeeded)
  {
  }

  /** Adding then removing a channel not subscribed to, both succeeding,
      leaves the same set of subscriptions. */
  lemma AddThenRemove(subs: seq<string>, ch: string)
    requires ch !in subs
    ensures var added := Serve(subs, AddInput(Ok(subs), ch, Succeeded).0, Succeeded);
            forall y :: y in Serve(added, RemoveInput(Ok(added), ch, Succeeded).0, Succeeded) <==> y in subs
  {
  }

  // ---------------------------------------------------------------- load balancer

  /** `NonTrippingLoadBalancer.overloaded`: whatever the environment, never. */
  function NeverOverloaded<E>(env: E): (r: bool)
    ensures !r
  {
    false
  }

  /** The loop shared by `suspendAll` and `reloadAll`: each channel is tried
      in order, the k-th attempt ending with `os[k]`, and a channel whose
      attempt failed is dropped from `kept`. Dropping a channel no longer
      kept raises `KeyError` in the errback, which fails the loop with
      `str(KeyError(channel))`, the channel's `repr()`. */
  function Prune(chs: seq<string>, os: seq<Outcome>, kept: set<string>): (r: Result<set<string>, string>)
    ensures r.Ok? ==> r.value <= kept
    ensures r.Err? ==> exists c :: c in chs && r.error == Repr(c)
  {
    if chs == [] then Ok(kept)
    else if Head(os).Succeeded? then Prune(chs[1..], Tail(os), kept)
    else if chs[0] in kept then Prune(chs[1..], Tail(os), kept - {chs[0]})
    else Err(Repr(chs[0]))
  }

  /** The channels whose attempt failed. */
  function FailedOf(chs: seq<string>, os: seq<Outcome>): set<string>
  {
    set k | 0 <= k < |chs| && k < |os| && os[k].Failed? :: chs[k]
  }

  lemma FailedOfCons(chs: seq<string>, os: seq<Outcome>)
    requires chs != []
    ensures FailedOf(chs, os) == (if Head(os).Failed? then {chs[0]} else {}) + FailedOf(chs[1..], Tail(os))
  {
    var a := FailedOf(chs, os);
    var b := (if Head(os).Failed? then {chs[0]} else {}) + FailedOf(chs[1..], Tail(os));
    forall x | x in a ensures x in b {
      var k :| 0 <= k < |chs| && k < |os| && os[k].Failed? && chs[k] == x;
      if k > 0 {
        assert chs[1..][k - 1] == x && Tail(os)[k - 1].Failed?;
      }
    }
    forall x | x in b ensures x in a {
      if x in FailedOf(chs[1..], Tail(os)) {
        var k :| 0 <= k < |chs[1..]| && k < |Tail(os)| && Tail(os)[k].Failed? && chs[1..][k] == x;
        assert chs[k + 1] == x && os[k + 1].Failed?;
      } else {
        assert os[0].Failed?;
      }
    }
  }

  /** On channels without repeats, all kept, every attempt is made and the
      result is what was kept less the channels whose attempt failed. */
  lemma {:induction false} PruneSpec(chs: seq<string>, os: seq<Outcome>, kept: set<string>)
    requires Distinct(chs)
    requires forall k :: 0 <= k < |chs| ==> chs[k] in kept
    ensures Prune(chs, os, kept) == Ok(kept - FailedOf(chs, os))
  {
    if chs == [] {
      assert FailedOf(chs, os) == {};
      assert kept - {} == kept;
    } else {
      DistinctRest(chs, chs[0]);
      FailedOfCons(chs, os);
      var rest := chs[1..];
      assert forall k :: 0 <= k < |rest| ==> rest[k] == chs[k + 1] && rest[k] != chs[0];
      assert chs[0] !in rest;
      if Head(os).Succeeded? {
        PruneSpec(rest, Tail(os), kept);
        assert FailedOf(chs, os) == FailedOf(rest, Tail(os));
        assert Prune(chs, os, kept) == Prune(rest, Tail(os), kept);
      } else {
        assert chs[0] in kept;
        assert Prune(chs, os, kept) == Prune(rest, Tail(os), kept - {chs[0]});
        PruneSpec(rest, Tail(os), kept - {chs[0]});
        assert (kept - {chs[0]}) - FailedOf(rest, Tail(os)) == kept - ({chs[0]} + FailedOf(rest, Tail(os)));
      }
    }
  }

  /** `suspendAll`: the current input channels are read (a failed read
      fails the call), then every one is removed in turn; the result is the
      set of channels whose removal did not fail. */
  function SuspendAll(inputs: Result<seq<string>, string>, os: seq<Outcome>): (r: Result<set<string>, string>)
    ensures inputs.Err? ==> r == Err(inputs.error)
    ensures r.Ok? ==> forall x :: x in r.value ==> x in inputs.value
  {
    if inputs.Err? then Err(inputs.error) else Prune(inputs.value, os, set x | x in inputs.value)
  }

  /** For input channels without repeats, `suspendAll` returns the current
      inputs less those whose removal failed. */
  lemma SuspendAllSpec(inputs: seq<string>, os: seq<Outcome>)
    requires Distinct(inputs)
    ensures SuspendAll(Ok(inputs), os) == Ok((set x | x in inputs) - FailedOf(inputs, os))
  {
    PruneSpec(inputs, os, set x | x in inputs);
  }

  /** A channel listed twice whose removal fails both times makes the
      errback raise, and `suspendAll` fails. */
  lemma SuspendAllRepeatedFailure(e1: string, e2: string)
    ensures SuspendAll(Ok(["a", "a"]), [Failed(e1), Failed(e2)]) == Err("'a'")
  {
    var twice: seq<string> := ["a", "a"];
    assert (set x | x in twice) == {"a"};
    assert twice[1..] == ["a"] && Tail([Failed(e1), Failed(e2)]) == [Failed(e2)];
    assert Repr("a") == "'a'" by {
      assert ReprBody("a", '\'') == "a" by {
        assert ReprBody("a"[1..], '\'') == [];
      }
    }
    assert Prune(["a"], [Failed(e2)], {}) == Err("'a'");
    assert Prune(twice, [Failed(e1), Failed(e2)], {"a"}) == Prune(["a"], [Failed(e2)], {"a"} - {"a"});
  }

  /** `reloadAll`: every channel of `previous`, iterated in `order`, is added in
      turn; the result is `previous` less those whose addition failed. */
  function ReloadAll(previous: set<string>, order: seq<string>, os: seq<Outcome>): (r: set<string>)
    requires IsOrder(order, previous)
    ensures r == previous - FailedOf(order, os)
  {
    OrderMembers(order, previous);
    PruneSpec(order, os, previous);
    Prune(order, os, previous).value
  }
}

=== FILE: number_text.dfy ===
/** Decimal text for the numbers the source writes with `str()` and reads
    back with `int()` or `float()`.
    Integers are Python integers; floating-point values are kept as the
    decimal text they were written in. */
module NumberText {
  import opened Wrappers

  predicate IsDigit(c: char)
  {
    '0' <= c <= '9'
  }

  predicate AllDigits(s: string)
  {
    forall i :: 0 <= i < |s| ==> IsDigit(s[i])
  }

  /** The characters Python's `int()` and `float()` strip from both ends. */
  predicate IsSpace(c: char)
  {
    c == ' ' || c == '\t' || c == '\n' || c == '\r' || c == '\U{0B}' || c == '\U{0C}'
  }

  function DigitChar(d: nat): (c: char)
    requires d < 10
    ensures IsDigit(c)
  {
    (d + '0' as int) as char
  }

  function DigitValue(c: char): (d: nat)
    requires IsDigit(c)
    ensures d < 10
    ensures DigitChar(d) == c
  {
    (c as int) - ('0' as int)
  }

  function Pow10(k: nat): (r: nat)
    ensures r >= 1
  {
    if k == 0 then 1 else 10 * Pow10(k - 1)
  }

  /** The value of a digit string, most significant digit first. */
  function Val(ds: string): nat
    requires AllDigits(ds)
  {
    if ds == [] then 0 else Val(ds[..|ds| - 1]) * 10 + DigitValue(ds[|ds| - 1])
  }

  /** The shortest decimal digits of `n` (Python `str()` of a non-negative int). */
  function Digits(n: nat): (r: string)
    ensures AllDigits(r) && |r| >= 1
    ensures Val(r) == n
  {
    if n < 10 then [DigitChar(n)]
    else
      var r := Digits(n / 10) + [DigitChar(n % 10)];
      assert r[..|r| - 1] == Digits(n / 10);
      r
  }

  /** Python's `str.strip()` of whitespace. */
  function Strip(s: string): (r: string)
    ensures |r| <= |s|
    ensures r != [] ==> !IsSpace(r[0]) && !IsSpace(r[|r| - 1])
  {
    if s == [] then []
    else if IsSpace(s[0]) then Strip(s[1..])
    else if IsSpace(s[|s| - 1]) then Strip(s[..|s| - 1])
    else s
  }

  lemma StripNoSpace(s: string)
    requires s != [] && !IsSpace(s[0]) && !IsSpace(s[|s| - 1])
    ensures Strip(s) == s
  {
  }

  predicate AllSpace(s: string)
  {
    forall i :: 0 <= i < |s| ==> IsSpace(s[i])
  }

  /** C's skipping of leading whitespace: the rest of `s` from its first
      character that is not whitespace. */
  function LStrip(s: string): (r: string)
    ensures |r| <= |s|
    ensures r != [] ==> !IsSpace(r[0])
  {
    if s != [] && IsSpace(s[0]) then LStrip(s[1..]) else s
  }

  /** `LStrip` cuts only whitespace, and only from the front. */
  lemma {:induction false} LStripShape(s: string)
    decreases |s|
    ensures LStrip(s) == s[|s| - |LStrip(s)|..]
    ensures AllSpace(s[..|s| - |LStrip(s)|])
  {
    if s != [] && IsSpace(s[0]) {
      LStripShape(s[1..]);
      var k := |s| - |LStrip(s)|;
      assert s[1..][k - 1..] == s[k..];
      assert s[..k] == [s[0]] + s[1..][..k - 1];
    }
  }

  /** Python 2 `int(s)` in base 10: surrounding whitespace, an optional
      sign with whitespace allowed after it, then at least one digit.
      `None` is the `ValueError`. */
  function ParseInt(s: string): (r: Option<int>)
    ensures r.Some? ==> Strip(s) != []
  {
    ParseStripped(Strip(s))
  }

  /** `int()` on text already stripped of surrounding whitespace. */
  function ParseStripped(t: string): (r: Option<int>)
    ensures r.Some? ==> t != []
  {
    if t == [] then None
    else
      var body := if t[0] == '-' || t[0] == '+' then LStrip(t[1..]) else t;
      if body == [] || !AllDigits(body) then None
      else
        var v: int := Val(body);
        Some(if t[0] == '-' then -v else v)
  }

  /** Whitespace around a text that neither starts nor ends with
      whitespace is exactly what `strip()` removes. */
  lemma {:induction false} StripPadded(lead: string, x: string, trail: string)
    requires AllSpace(lead) && AllSpace(trail)
    requires x != [] && !IsSpace(x[0]) && !IsSpace(x[|x| - 1])
    decreases |lead| + |trail|
    ensures Strip(lead + x + trail) == x
  {
    var s := lead + x + trail;
    if lead != [] {
      assert s[0] == lead[0];
      assert s[1..] == lead[1..] + x + trail;
      StripPadded(lead[1..], x, trail);
    } else if trail != [] {
      assert s[0] == x[0];
      assert s[|s| - 1] == trail[|trail| - 1];
      assert s[..|s| - 1] == lead + x + trail[..|trail| - 1];
      StripPadded(lead, x, trail[..|trail| - 1]);
    } else {
      assert s == x;
      StripNoSpace(x);
    }
  }

  lemma SpaceCons(c: char, s: string)
    requires IsSpace(c) && AllSpace(s)
    ensures AllSpace([c] + s)
  {
  }

  lemma SpaceSnoc(s: string, c: char)
    requires IsSpace(c) && AllSpace(s)
    ensures AllSpace(s + [c])
  {
  }

  /** Positions in `s[1..]` shifted to `s`, a leading space added to
      the cut prefix. */
  lemma ShiftFront(s: string, i: nat, j: nat)
    requires s != [] && IsSpace(s[0]) && i <= j <= |s| - 1
    requires AllSpace(s[1..][..i]) && AllSpace(s[1..][j..])
    ensures s[1..][i..j] == s[i + 1..j + 1]
    ensures AllSpace(s[..i + 1]) && AllSpace(s[j + 1..])
  {
    assert s[..i + 1] == [s[0]] + s[1..][..i];
    SpaceCons(s[0], s[1..][..i]);
    assert s[1..][j..] == s[j + 1..];
  }

  /** Positions in `s` without its last character, a trailing space
      added to the cut suffix. */
  lemma ShiftBack(s: string, i: nat, j: nat)
    requires s != [] && IsSpace(s[|s| - 1]) && i <= j <= |s| - 1
    requires AllSpace(s[..|s| - 1][..i]) && AllSpace(s[..|s| - 1][j..])
    ensures s[..|s| - 1][i..j] == s[i..j]
    ensures AllSpace(s[..i]) && AllSpace(s[j..])
  {
    var t := s[..|s| - 1];
    assert t[..i] == s[..i];
    assert s[j..] == t[j..] + [s[|s| - 1]];
    SpaceSnoc(t[j..], s[|s| - 1]);
  }

  /** `strip()` leaves a middle part of its text, with only whitespace
      cut from either end. */
  lemma {:induction false} StripShape(s: string) returns (i: nat, j: nat)
    decreases |s|
    ensures i <= j <= |s| && Strip(s) == s[i..j]
    ensures AllSpace(s[..i]) && AllSpace(s[j..])
  {
    if s == [] {
      i, j := 0, 0;
    } else if IsSpace(s[0]) {
      var i1, j1 := StripShape(s[1..]);
      ShiftFront(s, i1, j1);
      i, j := i1 + 1, j1 + 1;
    } else if IsSpace(s[|s| - 1]) {
      i, j := StripShape(s[..|s| - 1]);
      ShiftBack(s, i, j);
    } else {
      i, j := 0, |s|;
      StripNoSpace(s);
      assert s[..0] == [] && s[|s|..] == [];
    }
  }

  /** Whitespace before a text that does not start with whitespace is
      exactly what `LStrip` removes. */
  lemma {:induction false} LStripPadded(gap: string, x: string)
    requires AllSpace(gap) && (x == [] || !IsSpace(x[0]))
    decreases |gap|
    ensures LStrip(gap + x) == x
  {
    if gap != [] {
      assert (gap + x)[1..] == gap[1..] + x;
      LStripPadded(gap[1..], x);
    } else {
      assert gap + x == x;
    }
  }

  /** The value of digits `ds` under sign `sign`. */
  function Signed(sign: string, ds: string): int
    requires AllDigits(ds)
  {
    if sign == "-" then -(Val(ds) as int) else Val(ds)
  }

  /** Whitespace around a text that neither starts nor ends with it
      does not change what `int()` reads. */
  lemma ParsePadded(lead: string, x: string, trail: string)
    requires AllSpace(lead) && AllSpace(trail)
    requires x != [] && !IsSpace(x[0]) && !IsSpace(x[|x| - 1])
    ensures ParseInt(lead + x + trail) == ParseStripped(x)
  {
    StripPadded(lead, x, trail);
  }

  /** A sign with whitespace after it, then digits, is read as the signed
      value of the digits. */
  lemma StrippedAccepts(sign: string, gap: string, ds: string)
    requires AllSpace(gap) && sign in {"", "+", "-"} && (sign == "" ==> gap == "")
    requires ds != [] && AllDigits(ds)
    ensures ParseStripped(sign + gap + ds) == Some(Signed(sign, ds))
  {
    var x := sign + gap + ds;
    if sign != "" {
      assert x[0] == sign[0];
      assert x[1..] == gap + ds;
      LStripPadded(gap, ds);
    } else {
      assert x == ds;
    }
  }

  /** Every text made of whitespace, an optional sign with whitespace
      after it, digits and whitespace is read as the signed value of its
      digits. */
  lemma ParseIntAccepts(lead: string, sign: string, gap: string, ds: string, trail: string)
    requires AllSpace(lead) && AllSpace(gap) && AllSpace(trail)
    requires sign in {"", "+", "-"} && (sign == "" ==> gap == "")
    requires ds != [] && AllDigits(ds)
    ensures ParseInt(lead + (sign + gap + ds) + trail) == Some(Signed(sign, ds))
  {
    var x := sign + gap + ds;
    assert x[|x| - 1] == ds[|ds| - 1];
    assert x[0] == if sign == "" then ds[0] else sign[0];
    ParsePadded(lead, x, trail);
    StrippedAccepts(sign, gap, ds);
  }

  /** Every text `int()` reads is made that way: whitespace, an optional
      sign with whitespace after it, digits and whitespace, and its value
      is the signed value of the digits. */
  lemma ParseIntShape(s: string) returns (lead: string, sign: string, gap: string, ds: string, trail: string)
    requires ParseInt(s).Some?
    ensures s == lead + (sign + gap + ds) + trail
    ensures AllSpace(lead) && AllSpace(gap) && AllSpace(trail)
    ensures sign in {"", "+", "-"} && (sign == "" ==> gap == "")
    ensures ds != [] && AllDigits(ds)
    ensures ParseInt(s) == Some(Signed(sign, ds))
  {
    var i, j := StripShape(s);
    var t := s[i..j];
    assert ParseInt(s) == ParseStripped(t);
    lead, trail := s[..i], s[j..];
    sign, gap, ds := StrippedShape(t);
    assert s == lead + t + trail;
  }

  /** The stripped text `int()` reads: an optional sign with whitespace
      after it, then digits. */
  lemma StrippedShape(t: string) returns (sign: string, gap: string, ds: string)
    requires ParseStripped(t).Some?
    ensures t == sign + gap + ds
    ensures AllSpace(gap) && sign in {"", "+", "-"} && (sign == "" ==> gap == "")
    ensures ds != [] && AllDigits(ds)
    ensures ParseStripped(t) == Some(Signed(sign, ds))
  {
    if t[0] == '-' || t[0] == '+' {
      sign := [t[0]];
      var u := t[1..];
      ds := LStrip(u);
      LStripShape(u);
      gap := u[..|u| - |ds|];
      assert u == gap + ds;
      assert t == sign + u;
    } else {
      sign, gap, ds := "", "", t;
    }
  }

  /** An integer written with `str()` and padded with whitespace reads back. */
  lemma ParsePaddedShowInt(lead: string, n: int, trail: string)
    requires AllSpace(lead) && AllSpace(trail)
    ensures ParseInt(lead + ShowInt(n) + trail) == Some(n)
  {
    ParsePadded(lead, ShowInt(n), trail);
    ParseShowInt(n);
    StripNoSpace(ShowInt(n));
  }

  // ---------------------------------------------------------------- error text

  function HexDigit(d: nat): char
    requires d < 16
  {
    "0123456789abcdef"[d]
  }

  /** The quote Python 2's `repr()` of a byte string uses: a double quote
      when the text holds a single quote and no double quote. */
  function ReprQuote(s: string): char
  {
    if '\'' in s && '"' !in s then '"' else '\''
  }

  /** One character as `repr()` writes it inside quotes `q`. */
  function ReprChar(c: char, q: char): string
  {
    if c == q || c == '\\' then ['\\', c]
    else if c == '\t' then "\\t"
    else if c == '\n' then "\\n"
    else if c == '\r' then "\\r"
    else if c < ' ' || c >= '\U{7F}' then
      var b := (c as int) % 256;
      "\\x" + [HexDigit(b / 16), HexDigit(b % 16)]
    else [c]
  }

  function ReprBody(s: string, q: char): string
  {
    if s == [] then [] else ReprChar(s[0], q) + ReprBody(s[1..], q)
  }

  /** Python 2's `repr()` of a byte string. */
  function Repr(s: string): (r: string)
    ensures |r| >= 2 && r[0] == ReprQuote(s) && r[|r| - 1] == ReprQuote(s)
  {
    [ReprQuote(s)] + ReprBody(s, ReprQuote(s)) + [ReprQuote(s)]
  }

  /** A character `repr()` writes as itself in either quoting. */
  predicate IsPlain(c: char)
  {
    ' ' <= c < '\U{7F}' && c != '\'' && c != '"' && c != '\\'
  }

  const IntErrorPrefix := "invalid literal for int() with base 10: "

  /** The text of the `ValueError` Python 2's `int()` raises on `s`: the
      `repr()` of the text after its leading whitespace, cut at 200
      characters. */
  function IntErrorText(s: string): string
  {
    var t := LStrip(s);
    IntErrorPrefix + Repr(if |t| <= 200 then t else t[..200])
  }

  /** Plain characters come out of `repr()` unchanged. */
  lemma {:induction false} ReprBodyPlain(s: string, q: char)
    requires q == '\'' || q == '"'
    requires forall i :: 0 <= i < |s| ==> IsPlain(s[i])
    decreases |s|
    ensures ReprBody(s, q) == s
  {
    if s != [] {
      ReprBodyPlain(s[1..], q);
      assert s == [s[0]] + s[1..];
    }
  }

  /** For a short text of plain characters that does not start with
      whitespace, the error quotes the text itself:
      `invalid literal for int() with base 10: 'x'`. */
  lemma IntErrorPlain(s: string)
    requires |s| <= 200 && (s == [] || !IsSpace(s[0]))
    requires forall i :: 0 <= i < |s| ==> IsPlain(s[i])
    ensures IntErrorText(s) == IntErrorPrefix + "'" + s + "'"
  {
    assert LStrip(s) == s;
    assert '\'' !in s by {
      forall i | 0 <= i < |s| ensures s[i] != '\'' {
        assert IsPlain(s[i]);
      }
    }
    assert ReprQuote(s) == '\'';
    ReprBodyPlain(s, '\'');
    assert Repr(s) == "'" + s + "'";
  }

  /** Python 2 `str()` of an integer. */
  function ShowInt(n: int): (r: string)
    ensures r != [] && !IsSpace(r[0]) && !IsSpace(r[|r| - 1])
  {
    if n < 0 then "-" + Digits(-n) else Digits(n)
  }

  lemma ParseShowInt(n: int)
    ensures ParseInt(ShowInt(n)) == Some(n)
  {
    StripNoSpace(ShowInt(n));
    if n < 0 {
      assert ShowInt(n)[1..] == Digits(-n);
    }
  }

  /** A floating-point value of the source, kept as the decimal text it
      was written in: a sign, the digits before the '.', and the digits
      after it. */
  datatype Decimal = Decimal(negative: bool, whole: string, frac: string) {
    predicate Valid()
    {
      AllDigits(whole) && AllDigits(frac) && |whole| + |frac| >= 1
    }

    function Value(): real
      requires Valid()
    {
      var magnitude := Val(whole) as real + Val(frac) as real / Pow10(|frac|) as real;
      if negative then -magnitude else magnitude
    }
  }

  /** The position of the first `c` in `s`, or `|s|` when there is none. */
  function IndexOf(s: string, c: char): (k: nat)
    ensures k <= |s|
    ensures k < |s| ==> s[k] == c
    ensures forall j :: 0 <= j < k ==> s[j] != c
  {
    if s == [] then 0
    else if s[0] == c then 0
    else 1 + IndexOf(s[1..], c)
  }

  /** Python `float(s)` for plain decimal notation: surrounding whitespace,
      an optional sign, digits with at most one '.', at least one digit.
      `None` is the `ValueError`. */
  function ParseDecimal(s: string): (r: Option<Decimal>)
    ensures r.Some? ==> r.value.Valid()
  {
    var t := Strip(s);
    if t == [] then None
    else if t[0] == '-' || t[0] == '+' then ParseUnsigned(t[0] == '-', t[1..])
    else ParseUnsigned(false, t)
  }

  /** The digits, '.' and digits after the sign of a decimal. */
  function ParseUnsigned(negative: bool, body: string): (r: Option<Decimal>)
    ensures r.Some? ==> r.value.Valid()
  {
    var k := IndexOf(body, '.');
    var d := Decimal(negative, body[..k], if k < |body| then body[k + 1..] else []);
    if d.Valid() then Some(d) else None
  }

  /** `str()` of a decimal: sign, integer digits, '.', fraction digits. */
  function ShowDecimal(d: Decimal): (r: string)
    ensures d.Valid() ==> r != [] && !IsSpace(r[0]) && !IsSpace(r[|r| - 1])
  {
    var body := d.whole + "." + d.frac;
    assert d.Valid() ==> (body[|body| - 1] == '.' || IsDigit(body[|body| - 1])) && (body[0] == '.' || IsDigit(body[0]));
    if d.negative then "-" + body else body
  }

  /** The '.' after a digit string is the first one. */
  lemma {:induction false} DotIndex(w: string, f: string)
    requires AllDigits(w)
    ensures IndexOf(w + "." + f, '.') == |w|
  {
    if w != [] {
      assert (w + "." + f)[1..] == w[1..] + "." + f;
      DotIndex(w[1..], f);
    }
  }

  lemma ParseUnsignedShown(d: Decimal)
    requires d.Valid()
    ensures ParseUnsigned(d.negative, d.whole + "." + d.frac) == Some(d)
  {
    var body := d.whole + "." + d.frac;
    DotIndex(d.whole, d.frac);
    assert body[..|d.whole|] == d.whole && body[|d.whole| + 1..] == d.frac;
  }

  /** Writing a decimal and reading it back gives the same decimal. */
  lemma ParseShowDecimal(d: Decimal)
    requires d.Valid()
    ensures ParseDecimal(ShowDecimal(d)) == Some(d)
  {
    var s := ShowDecimal(d);
    StripNoSpace(s);
    var body := d.whole + "." + d.frac;
    ParseUnsignedShown(d);
    if d.negative {
      assert s[1..] == body;
    } else {
      assert s == body;
      assert body[0] == '.' || IsDigit(body[0]);
    }
  }
}

=== FILE: page_manager.dfy ===
/** The page-index state machine that walks an ad-hoc command through
    its pages (`pageManager.py`). Pages are known only by position; what
    rendering page `k` yields is the input `render(k)`. */
module PageManager {
  import opened Wrappers
  import opened Xml
  import opened Commands

  /** The manager's state: the index and how many pages were added. */
  datatype PageState = PageState(index: int, pages: nat)

  /** `PageManagerError`s, the exception from indexing past the list,
      and a failed render. */
  datatype PageError =
    | NoHistory
    | NoPages
    | NoMorePages
    | IndexOutOfRange
    | RenderFailed(reason: string)
    | NoCommand
    | BadCommand(cause: CommandError)

  /** The message each manager error carries. */
  function Message(e: PageError): string
  {
    match e
    case NoHistory => "No more pages in history"
    case NoPages => "No pages loaded"
    case NoMorePages => "No more pages loaded"
    case IndexOutOfRange => "list index out of range"
    case RenderFailed(reason) => reason
    case NoCommand => "'NoneType' object has no attribute 'status'"
    case BadCommand(cause) => cause.reason
  }

  /** What a page operation gives back: a Deferred with the response iq,
      naming the page shown when one was; a Deferred that has failed
      (`Denied`); or an exception raised before any Deferred is returned
      (`Raised`), which the caller does not get to handle as a failure. */
  datatype PageReply =
    | Shown(page: nat, response: Element)
    | Replied(response: Element)
    | Denied(error: PageError)
    | Raised(error: PageError)

  /** The result of one operation: the new state and the reply. */
  datatype Turn = Turn(state: PageState, reply: PageReply)

  const Fresh := PageState(0, 0)

  /** The index stays between 0 and the number of pages. */
  predicate Valid(m: PageState)
  {
    0 <= m.index <= m.pages
  }

  /** `ready`: every page has been shown. */
  predicate Ready(m: PageState)
  {
    m.index == m.pages
  }

  /** `reset`: back to the first page; the pages stay. */
  function Reset(m: PageState): (r: PageState)
    ensures r.index == 0 && r.pages == m.pages
    ensures Valid(r)
    ensures Ready(r) <==> m.pages == 0
  {
    m.(index := 0)
  }

  /** `add_page`: one more page at the end. */
  function AddPage(m: PageState): (r: PageState)
    ensures r.index == m.index && r.pages == m.pages + 1
    ensures Valid(m) ==> Valid(r) && !Ready(r)
  {
    m.(pages := m.pages + 1)
  }

  /** Twisted's `toResponse(stanza, stanzaType)`: a stanza of the same
      name, addressed back to the sender, with the same id and, when one
      is given, the new type. */
  function ToResponse(iq: Element, stanzaType: Option<string>, children: seq<Node>): (r: Element)
    ensures r.name == iq.name && r.children == children
    ensures ("type" in r.attrs) == (stanzaType.Some? && stanzaType.value != "")
    ensures "type" in r.attrs ==> r.attrs["type"] == stanzaType.value
    ensures "from" in iq.attrs && iq.attrs["from"] != "" <==> "to" in r.attrs
    ensures "to" in r.attrs ==> r.attrs["to"] == iq.attrs["from"]
    ensures "to" in iq.attrs && iq.attrs["to"] != "" <==> "from" in r.attrs
    ensures "from" in r.attrs ==> r.attrs["from"] == iq.attrs["to"]
    ensures "id" in iq.attrs && iq.attrs["id"] != "" <==> "id" in r.attrs
    ensures "id" in r.attrs ==> r.attrs["id"] == iq.attrs["id"]
  {
    var to := if "from" in iq.attrs && iq.attrs["from"] != "" then map["to" := iq.attrs["from"]] else map[];
    var from := if "to" in iq.attrs && iq.attrs["to"] != "" then to["from" := iq.attrs["to"]] else to;
    var id := if "id" in iq.attrs && iq.attrs["id"] != "" then from["id" := iq.attrs["id"]] else from;
    var typed := if stanzaType.Some? && stanzaType.value != "" then id["type" := stanzaType.value] else id;
    Element("", iq.name, typed, children)
  }

  /** `toResponse(iq, 'result')`. */
  function Respond(iq: Element, children: seq<Node>): Element
  {
    ToResponse(iq, Some("result"), children)
  }

  /** A response holding one rendered page, or the render's failure. */
  function ShowPage(iq: Element, k: nat, rendered: Result<Element, string>): PageReply
  {
    match rendered
    case Ok(el) => Shown(k, Respond(iq, [Elem(el)]))
    case Err(reason) => Denied(RenderFailed(reason))
  }

  /** `next_page`: shows the page at the index and, once it has rendered,
      moves the index on by one. */
  function NextPage(m: PageState, iq: Element, render: nat -> Result<Element, string>): (r: Turn)
    ensures r.reply.Denied? && r.reply.error.NoPages? <==> m.pages == 0
    ensures r.reply.Denied? && r.reply.error.NoMorePages? <==> m.pages != 0 && m.index == m.pages
    ensures r.reply.Shown? <==> m.pages != 0 && m.index != m.pages && PyIndex(m.index, m.pages).Some?
                                && render(PyIndex(m.index, m.pages).value).Ok?
    ensures r.reply.Shown? ==> r.reply.page < m.pages && r.state == m.(index := m.index + 1)
    ensures r.reply.Shown? && m.index >= 0 ==> r.reply.page == m.index
    ensures r.reply.Shown? && m.index < 0 ==> r.reply.page == m.pages + m.index
    ensures !r.reply.Shown? ==> r.state == m
    ensures Valid(m) ==> Valid(r.state)
    ensures r.reply.Raised? <==> m.pages != 0 && (m.index < -(m.pages as int) || m.index > m.pages)
  {
    if m.pages == 0 then Turn(m, Denied(NoPages))
    else if m.index == m.pages then Turn(m, Denied(NoMorePages))
    else
      match PyIndex(m.index, m.pages)
      case None => Turn(m, Raised(IndexOutOfRange))
      case Some(k) =>
        var reply := ShowPage(iq, k, render(k));
        Turn(if reply.Shown? then m.(index := m.index + 1) else m, reply)
  }

  /** Python's `pages[i]`, a negative index counting from the end. */
  function PyIndex(i: int, n: nat): (r: Option<nat>)
    ensures r.Some? <==> -(n as int) <= i < n
    ensures r.Some? ==> r.value < n && (r.value == i || r.value == n + i)
  {
    if 0 <= i < n then Some(i) else if -(n as int) <= i < 0 then Some((n + i) as nat) else None
  }

  /** The page `prev_page` shows once the index has been moved back:
      as written, `pages[index - 1]`, which for index 0 is the LAST page;
      corrected, never before the first page. */
  function PrevTarget(rule: Rule, index: int, n: nat): Option<nat>
  {
    match rule
    case AsWritten => PyIndex(index - 1, n)
    case Corrected => if index <= 0 then PyIndex(0, n) else PyIndex(index - 1, n)
  }

  /** `prev_page`: moves the index back by one, then shows the page before
      the new index. The move stands even when the render fails. */
  function PrevPage(rule: Rule, m: PageState, iq: Element, render: nat -> Result<Element, string>): (r: Turn)
    ensures r.reply.Denied? && r.reply.error.NoHistory? <==> m.index <= 0
    ensures r.reply.Denied? && r.reply.error.NoPages? <==> m.index > 0 && m.pages == 0
    ensures m.index <= 0 || m.pages == 0 ==> r.state == m
    ensures m.index > 0 && m.pages != 0 ==> r.state == m.(index := m.index - 1)
    ensures r.reply.Shown? ==> r.reply.page < m.pages && render(r.reply.page).Ok?
    ensures Valid(m) ==> Valid(r.state)
    ensures r.reply.Raised? <==> m.pages != 0 && m.index > m.pages + 1
  {
    if m.index <= 0 then Turn(m, Denied(NoHistory))
    else if m.pages == 0 then Turn(m, Denied(NoPages))
    else
      var moved := m.(index := m.index - 1);
      match PrevTarget(rule, moved.index, m.pages)
      case None => Turn(moved, Raised(IndexOutOfRange))
      case Some(k) => Turn(moved, ShowPage(iq, k, render(k)))
  }

  /** `cancel_page`: back to the first page, answering with the request's
      command marked 'canceled'. A request without a command, or with one
      that does not parse, raises from `getCommand` or the status
      assignment: no Deferred is returned at all. */
  function CancelPage(m: PageState, iq: Element, order: seq<string>, now: string): (r: Turn)
    ensures r.state == Reset(m)
    ensures r.reply.Replied? <==> GetCommand(iq, now).Some? && GetCommand(iq, now).value.Ok?
    ensures r.reply.Replied? || r.reply.Raised?
    ensures GetCommand(iq, now).None? ==> r.reply == Raised(NoCommand)
    ensures GetCommand(iq, now).Some? && GetCommand(iq, now).value.Err? ==>
              r.reply.Raised? && Message(r.reply.error) == GetCommand(iq, now).value.error.reason
  {
    match GetCommand(iq, now)
    case None => Turn(Reset(m), Raised(NoCommand))
    case Some(Err(e)) => Turn(Reset(m), Raised(BadCommand(e)))
    case Some(Ok(c)) =>
      Turn(Reset(m), Replied(Respond(iq, [Elem(CommandToElement(c.(status := Some("canceled")), order))])))
  }

  /** The cancel response's command element says 'canceled' and keeps the
      request's node and session id. */
  lemma CancelResponse(m: PageState, iq: Element, order: seq<string>, now: string)
    requires GetCommand(iq, now).Some? && GetCommand(iq, now).value.Ok?
    ensures var c := GetCommand(iq, now).value.value;
            var el := CommandToElement(c.(status := Some("canceled")), order);
            && CancelPage(m, iq, order, now).reply.response.children == [Elem(el)]
            && el.attrs["status"] == "canceled"
            && el.attrs["node"] == c.node && el.attrs["sessionid"] == c.sessionid
  {
  }

  // ---------------------------------------------------------------- walks

  /** Every page renders. */
  ghost predicate AllRender(render: nat -> Result<Element, string>)
  {
    forall k: nat :: render(k).Ok?
  }

  /** `k` calls of `next_page` in a row. */
  function NextTimes(m: PageState, iq: Element, render: nat -> Result<Element, string>, k: nat): PageState
    decreases k
  {
    if k == 0 then m else NextTimes(NextPage(m, iq, render).state, iq, render, k - 1)
  }

  /** From a reset, `k` nexts with every page rendering reach index `k`
      (stopping at the last page), and the manager is ready exactly when
      every page has been shown. */
  lemma {:induction false} WalkForward(m: PageState, iq: Element, render: nat -> Result<Element, string>, k: nat)
    requires Valid(m) && AllRender(render)
    decreases k
    ensures NextTimes(m, iq, render, k).index == if m.index + k <= m.pages then m.index + k else m.pages
    ensures NextTimes(m, iq, render, k).pages == m.pages
    ensures Ready(NextTimes(m, iq, render, k)) <==> m.index + k >= m.pages
  {
    if k > 0 {
      var n := NextPage(m, iq, render).state;
      assert render(m.index).Ok? by { if m.index < m.pages { assert m.index >= 0; } }
      WalkForward(n, iq, render, k - 1);
    }
  }

  /** From a reset with `p` pages, exactly `p` rendered nexts make the
      manager ready, and fewer do not. */
  lemma ReadyAfterAllPages(p: nat, iq: Element, render: nat -> Result<Element, string>, k: nat)
    requires AllRender(render)
    ensures Ready(NextTimes(PageState(0, p), iq, render, k)) <==> k >= p
  {
    WalkForward(PageState(0, p), iq, render, k);
  }

  /** `prev_page` after a rendered `next_page` returns to the index before
      it and shows again the page that was on screen before it. */
  lemma PrevUndoesNext(rule: Rule, m: PageState, iq: Element, render: nat -> Result<Element, string>)
    requires Valid(m) && 1 <= m.index < m.pages && render(m.index).Ok? && render(m.index - 1).Ok?
    ensures var n := NextPage(m, iq, render).state;
            var back := PrevPage(rule, n, iq, render);
            back.state == m && back.reply == Shown(m.index - 1, Respond(iq, [Elem(render(m.index - 1).value)]))
  {
  }

  /** A rendered `prev_page` only shows pages already shown: one before
      the index it started from. */
  predicate ShowsVisited(m: PageState, r: Turn)
  {
    r.reply.Shown? ==> r.reply.page < m.index
  }

  /** Corrected, `prev_page` from a valid state shows only a page already
      shown. */
  lemma CorrectedPrevShowsVisited(m: PageState, iq: Element, render: nat -> Result<Element, string>)
    requires Valid(m)
    ensures ShowsVisited(m, PrevPage(Corrected, m, iq, render))
  {
  }

  /** As written, `prev_page` from the first page of three (index 1) moves
      to index 0 and shows page 2, the last page, which has not been
      shown yet. */
  lemma AsWrittenPrevShowsUnvisited(iq: Element, render: nat -> Result<Element, string>)
    requires render(2).Ok?
    ensures var r := PrevPage(AsWritten, PageState(1, 3), iq, render);
            r.state == PageState(0, 3) && r.reply.Shown? && r.reply.page == 2
            && !ShowsVisited(PageState(1, 3), r)
  {
  }

  /** The two rules differ only on `prev_page` from index 1. */
  lemma PrevRulesAgree(m: PageState, iq: Element, render: nat -> Result<Element, string>)
    requires Valid(m) && m.index != 1
    ensures PrevPage(AsWritten, m, iq, render) == PrevPage(Corrected, m, iq, render)
  {
  }
}

=== FILE: pages.dfy ===
/** The option filters of the channel configuration pages (`pages.py`):
    the publishers offered are the candidates who are not administrators,
    and the subscribers offered are those who are neither administrators
    nor chosen publishers. Options keep the candidates' order. */
module Pages {

  /** The candidates not in `excluded`, in their order. */
  function Exclude(candidates: seq<string>, excluded: set<string>): (r: seq<string>)
    ensures |r| <= |candidates|
    ensures forall i :: 0 <= i < |r| ==> r[i] !in excluded
  {
    if candidates == [] then []
    else (if candidates[0] in excluded then [] else [candidates[0]]) + Exclude(candidates[1..], excluded)
  }

  /** An option is offered exactly when it is a candidate and not excluded. */
  lemma {:induction false} ExcludeMembers(candidates: seq<string>, excluded: set<string>, x: string)
    decreases |candidates|
    ensures x in Exclude(candidates, excluded) <==> x in candidates && x !in excluded
  {
    if candidates != [] {
      ExcludeMembers(candidates[1..], excluded, x);
      assert x in candidates <==> x == candidates[0] || x in candidates[1..];
    }
  }

  /** Filtering keeps every candidate that is not excluded, each as often
      as it is listed: nothing is dropped but the excluded. */
  lemma {:induction false} ExcludeKeepsRest(candidates: seq<string>, excluded: set<string>)
    requires forall i :: 0 <= i < |candidates| ==> candidates[i] !in excluded
    decreases |candidates|
    ensures Exclude(candidates, excluded) == candidates
  {
    if candidates != [] {
      ExcludeKeepsRest(candidates[1..], excluded);
    }
  }

  /** `ConfigurePubsubNodePublishersPage._getOptions`. */
  function PublisherOptions(pubs: seq<string>, admins: set<string>): (r: seq<string>)
    ensures forall x :: x in r ==> x !in admins
  {
    Exclude(pubs, admins)
  }

  /** `ConfigurePubsubNodeSubscribersPage._getOptions`. */
  function SubscriberOptions(subs: seq<string>, pubs: set<string>, admins: set<string>): (r: seq<string>)
    ensures forall x :: x in r ==> x !in admins && x !in pubs
  {
    Exclude(subs, admins + pubs)
  }

  /** From one candidate list, the subscriber options are exactly the
      publisher options that are not chosen publishers. */
  lemma SubscribersExcludeChosen(cands: seq<string>, pubs: set<string>, admins: set<string>, x: string)
    ensures x in SubscriberOptions(cands, pubs, admins) <==> x in PublisherOptions(cands, admins) && x !in pubs
  {
    ExcludeMembers(cands, admins + pubs, x);
    ExcludeMembers(cands, admins, x);
  }
}

=== FILE: portfolio.dfy ===
/** Portfolios of assets, their issuers and the issuers' factors, with
    the clamping the constructors apply, the element form, and the maps
    the simulator derives from a portfolio (`portfolio.py`). */
module Portfolios {
  import opened Wrappers
  import opened Xml
  import opened NumberText
  import opened Collections
  import opened Collab
  import Simulation

  const One := Decimal(false, "1", "0")
  const Zero := Decimal(false, "0", "0")

  const DefaultDp := One
  const DefaultRecovery := One
  const DefaultNotional := Decimal(false, "100", "0")

  /** The exceptions the parsers raise: the four `PortfolioElementError`
      kinds, and Python's `ValueError` from `float()` on text that is not
      a number. */
  datatype PortfolioError =
    | InvalidAsset(reason: string)
    | InvalidIssuer(reason: string)
    | InvalidFactor(reason: string)
    | InvalidPortfolio(reason: string)
    | ValueError(text: string)

  /** A factor: a name and a weight. */
  datatype Factor = Factor(name: string, weight: Decimal)

  /** An issuer and its factors, listed in the order its set of factors
      is iterated. */
  datatype Issuer = Issuer(name: string, factors: seq<Factor>)

  /** An asset: default probability, recovery rate, notional and the
      issuer it belongs to, if any. */
  datatype Asset = Asset(name: string, dp: Decimal, recovery: Decimal, notional: Decimal, issuer: Option<Issuer>)

  /** A portfolio and its assets, listed in the order its set of assets
      is iterated. */
  datatype Portfolio = Portfolio(name: string, assets: seq<Asset>)

  // ---------------------------------------------------------------- construction

  /** A well-formed number in the closed interval [0, 1]. */
  predicate InUnit(d: Decimal)
  {
    d.Valid() && 0.0 <= d.Value() <= 1.0
  }

  lemma OneZero()
    ensures One.Valid() && One.Value() == 1.0
    ensures Zero.Valid() && Zero.Value() == 0.0
  {
    assert Val("1") == 1 && Val("0") == 0 && Pow10(1) == 10;
  }

  /** `max(min(x, 1.0), 0.0)`. Python's `min` and `max` keep their first
      argument on a tie, so a value already in [0, 1] is kept as written. */
  function Clamp(d: Decimal): (r: Decimal)
    requires d.Valid()
    ensures InUnit(r)
    ensures InUnit(d) ==> r == d
    ensures 1.0 < d.Value() ==> r.Value() == 1.0
    ensures d.Value() < 0.0 ==> r.Value() == 0.0
  {
    OneZero();
    if 1.0 < d.Value() then One else if d.Value() < 0.0 then Zero else d
  }

  /** Clamping twice is clamping once. */
  lemma ClampIdempotent(d: Decimal)
    requires d.Valid()
    ensures Clamp(Clamp(d)) == Clamp(d)
  {
  }

  /** Every factor the constructor can build. */
  predicate ValidFactor(f: Factor)
  {
    InUnit(f.weight)
  }

  predicate ValidIssuer(i: Issuer)
  {
    forall k :: 0 <= k < |i.factors| ==> ValidFactor(i.factors[k])
  }

  /** Every asset the constructor can build from well-formed numbers. */
  predicate ValidAsset(a: Asset)
  {
    InUnit(a.dp) && InUnit(a.recovery) && a.notional.Valid()
    && (a.issuer.Some? ==> ValidIssuer(a.issuer.value))
  }

  predicate ValidPortfolio(p: Portfolio)
  {
    forall k :: 0 <= k < |p.assets| ==> ValidAsset(p.assets[k])
  }

  /** The `Factor` constructor: the weight is clamped into [0, 1]. */
  function NewFactor(name: string, weight: Decimal): (f: Factor)
    requires weight.Valid()
    ensures ValidFactor(f) && f.name == name
    ensures InUnit(weight) ==> f.weight == weight
    ensures 1.0 < weight.Value() ==> f.weight.Value() == 1.0
    ensures weight.Value() < 0.0 ==> f.weight.Value() == 0.0
  {
    Factor(name, Clamp(weight))
  }

  /** The `Asset` constructor: dp and recovery are clamped into [0, 1],
      the notional is kept as given. */
  function NewAsset(name: string, dp: Decimal, recovery: Decimal, notional: Decimal, issuer: Option<Issuer>): (a: Asset)
    requires dp.Valid() && recovery.Valid() && notional.Valid()
    ensures InUnit(a.dp) && InUnit(a.recovery)
    ensures a.name == name && a.notional == notional && a.issuer == issuer
    ensures InUnit(dp) ==> a.dp == dp
    ensures InUnit(recovery) ==> a.recovery == recovery
  {
    Asset(name, Clamp(dp), Clamp(recovery), notional, issuer)
  }

  /** `Asset(name)` with every other argument defaulted. */
  function DefaultAsset(name: string): (a: Asset)
    ensures ValidAsset(a) && a.name == name && a.issuer.None?
    ensures a.dp.Value() == 1.0 && a.recovery.Value() == 1.0
  {
    OneZero();
    NewAsset(name, DefaultDp, DefaultRecovery, DefaultNotional, None)
  }

  // ---------------------------------------------------------------- factor comparison

  /** `Factor.__cmp__`: factors compare by name alone. */
  function FactorCompare(a: Factor, b: Factor): (r: int)
    ensures r == 0 <==> a.name == b.name
    ensures r == -1 <==> LexLess(a.name, b.name)
    ensures r == 1 <==> LexLess(b.name, a.name)
  {
    LexTrichotomy(a.name, b.name);
    if a.name == b.name then 0
    else if LexLess(a.name, b.name) then -1
    else 1
  }

  /** Comparison is antisymmetric and ignores the weights. */
  lemma FactorCompareSwap(a: Factor, b: Factor, w: Decimal)
    ensures FactorCompare(b, a) == -FactorCompare(a, b)
    ensures FactorCompare(a.(weight := w), b) == FactorCompare(a, b)
  {
    LexTrichotomy(a.name, b.name);
  }

  // ---------------------------------------------------------------- element form

  function FactorFields(f: Factor): seq<Element>
  {
    [TextElement(CollabNs, "name", f.name), TextElement(CollabNs, "weight", ShowDecimal(f.weight))]
  }

  /** `Factor.toElement`. */
  function FactorElement(f: Factor): Element
  {
    Element(CollabNs, "factor", map[], Wrap(FactorFields(f)))
  }

  function FactorElements(fs: seq<Factor>): seq<Element>
  {
    if fs == [] then [] else [FactorElement(fs[0])] + FactorElements(fs[1..])
  }

  function IssuerFields(i: Issuer): seq<Element>
  {
    [TextElement(CollabNs, "name", i.name), Element(CollabNs, "factors", map[], Wrap(FactorElements(i.factors)))]
  }

  /** `Issuer.toElement`: the name, then a factors element holding one
      element per factor. */
  function IssuerElement(i: Issuer): Element
  {
    Element(CollabNs, "issuer", map[], Wrap(IssuerFields(i)))
  }

  function AssetFields(a: Asset): seq<Element>
  {
    [TextElement(CollabNs, "name", a.name),
     TextElement(CollabNs, "dp", ShowDecimal(a.dp)),
     TextElement(CollabNs, "recovery", ShowDecimal(a.recovery)),
     TextElement(CollabNs, "notional", ShowDecimal(a.notional))]
    + (if a.issuer.Some? then [IssuerElement(a.issuer.value)] else [])
  }

  /** `Asset.toElement`: the issuer element is written only when there is one. */
  function AssetElement(a: Asset): Element
  {
    Element(CollabNs, "asset", map[], Wrap(AssetFields(a)))
  }

  function AssetElements(as_: seq<Asset>): seq<Element>
  {
    if as_ == [] then [] else [AssetElement(as_[0])] + AssetElements(as_[1..])
  }

  function PortfolioFields(p: Portfolio): seq<Element>
  {
    [TextElement(CollabNs, "name", p.name), Element(CollabNs, "assets", map[], Wrap(AssetElements(p.assets)))]
  }

  /** `Portfolio.toElement`. */
  function PortfolioElement(p: Portfolio): Element
  {
    Element(CollabNs, "portfolio", map[], Wrap(PortfolioFields(p)))
  }

  // ---------------------------------------------------------------- reading

  /** Python `float(text)`. */
  function ReadFloat(text: string): (r: Result<Decimal, PortfolioError>)
    ensures r.Ok? <==> ParseDecimal(text).Some?
    ensures r.Ok? ==> r.value.Valid() && r.value == ParseDecimal(text).value
    ensures r.Err? ==> r.error == ValueError(text)
  {
    match ParseDecimal(text)
    case None => Err(ValueError(text))
    case Some(d) => Ok(d)
  }

  /** The number in child `child` of an element named `parent`, or the
      default when there is no such child. */
  function OptionalFloat(e: Element, parent: string, child: string, default: Decimal): (r: Result<Decimal, PortfolioError>)
    requires default.Valid()
    ensures r.Ok? ==> r.value.Valid()
    ensures r.Err? ==> r.error.ValueError?
  {
    if Matches(e, CollabNs, parent, [child]) then ReadFloat(QueryString(e, CollabNs, parent, [child]))
    else Ok(default)
  }

  /** The first element reached by a one-step path that matches. */
  function FirstReached(e: Element, parent: string, child: string): Element
    requires Matches(e, CollabNs, parent, [child])
  {
    QueryNodes(e, CollabNs, parent, [child])[0]
  }

  /** `Factor.fromElement`: a name and a weight are both required. */
  function FactorFromElement(e: Element): (r: Result<Factor, PortfolioError>)
    ensures r.Ok? ==> ValidFactor(r.value)
    ensures r.Err? ==> r.error in {InvalidFactor("no name"), InvalidFactor("no weighting")} || r.error.ValueError?
    ensures !Matches(e, CollabNs, "factor", ["name"]) <==> r == Err(InvalidFactor("no name"))
  {
    if !Matches(e, CollabNs, "factor", ["name"]) then Err(InvalidFactor("no name"))
    else if !Matches(e, CollabNs, "factor", ["weight"]) then Err(InvalidFactor("no weighting"))
    else
      match ReadFloat(QueryString(e, CollabNs, "factor", ["weight"]))
      case Err(x) => Err(x)
      case Ok(w) => Ok(NewFactor(QueryString(e, CollabNs, "factor", ["name"]), w))
  }

  /** Reading each element as a factor, stopping at the first error. */
  function ReadFactors(es: seq<Element>): (r: Result<seq<Factor>, PortfolioError>)
    ensures r.Ok? ==> |r.value| == |es| && forall k :: 0 <= k < |es| ==> FactorFromElement(es[k]) == Ok(r.value[k])
    ensures r.Ok? ==> forall k :: 0 <= k < |es| ==> ValidFactor(r.value[k])
    ensures r.Err? ==> exists k :: 0 <= k < |es| && FactorFromElement(es[k]) == Err(r.error)
    ensures r.Err? ==> !(forall k :: 0 <= k < |es| ==> FactorFromElement(es[k]).Ok?)
  {
    if es == [] then Ok([])
    else
      match FactorFromElement(es[0])
      case Err(x) => Err(x)
      case Ok(f) =>
        match ReadFactors(es[1..])
        case Err(x) => Err(x)
        case Ok(fs) => Ok([f] + fs)
  }

  /** `Issuer.fromElement`: a name and a factors element are both
      required; every child element of the factors element is read as a
      factor. */
  function IssuerFromElement(e: Element): (r: Result<Issuer, PortfolioError>)
    ensures r.Ok? ==> ValidIssuer(r.value)
    ensures r.Err? ==> r.error in {InvalidIssuer("no name"), InvalidIssuer("no factors")}
                       || r.error.InvalidFactor? || r.error.ValueError?
    ensures !Matches(e, CollabNs, "issuer", ["name"]) <==> r == Err(InvalidIssuer("no name"))
  {
    if !Matches(e, CollabNs, "issuer", ["name"]) then Err(InvalidIssuer("no name"))
    else if !Matches(e, CollabNs, "issuer", ["factors"]) then Err(InvalidIssuer("no factors"))
    else
      match ReadFactors(Elements(FirstReached(e, "issuer", "factors")))
      case Err(x) =>
        assert x.InvalidFactor? || x.ValueError?;
        Err(x)
      case Ok(fs) => Ok(Issuer(QueryString(e, CollabNs, "issuer", ["name"]), fs))
  }

  /** The issuer of an asset element, read from its first issuer child. */
  function OptionalIssuer(e: Element): (r: Result<Option<Issuer>, PortfolioError>)
    ensures r.Ok? && r.value.Some? ==> ValidIssuer(r.value.value)
    ensures r.Err? ==> r.error.InvalidIssuer? || r.error.InvalidFactor? || r.error.ValueError?
  {
    if Matches(e, CollabNs, "asset", ["issuer"]) then
      match IssuerFromElement(FirstReached(e, "asset", "issuer"))
      case Err(x) => Err(x)
      case Ok(i) => Ok(Some(i))
    else Ok(None)
  }

  /** `Asset.fromElement`: only the name is required; dp, recovery and
      notional default when absent, and are then clamped as by the
      constructor. */
  function AssetFromElement(e: Element): (r: Result<Asset, PortfolioError>)
    ensures r.Ok? ==> ValidAsset(r.value)
    ensures r.Err? ==> r.error == InvalidAsset("No asset name") || r.error.InvalidIssuer?
                       || r.error.InvalidFactor? || r.error.ValueError?
    ensures !Matches(e, CollabNs, "asset", ["name"]) <==> r == Err(InvalidAsset("No asset name"))
  {
    OneZero();
    if !Matches(e, CollabNs, "asset", ["name"]) then Err(InvalidAsset("No asset name"))
    else
      var name := QueryString(e, CollabNs, "asset", ["name"]);
      var dp := OptionalFloat(e, "asset", "dp", DefaultDp);
      if dp.Err? then Err(dp.error)
      else
        var recovery := OptionalFloat(e, "asset", "recovery", DefaultRecovery);
        if recovery.Err? then Err(recovery.error)
        else
          var notional := OptionalFloat(e, "asset", "notional", DefaultNotional);
          if notional.Err? then Err(notional.error)
          else
            var issuer := OptionalIssuer(e);
            if issuer.Err? then Err(issuer.error)
            else Ok(NewAsset(name, dp.value, recovery.value, notional.value, issuer.value))
  }

  function ReadAssets(es: seq<Element>): (r: Result<seq<Asset>, PortfolioError>)
    ensures r.Ok? ==> |r.value| == |es| && forall k :: 0 <= k < |es| ==> AssetFromElement(es[k]) == Ok(r.value[k])
    ensures r.Ok? ==> forall k :: 0 <= k < |es| ==> ValidAsset(r.value[k])
    ensures r.Err? ==> exists k :: 0 <= k < |es| && AssetFromElement(es[k]) == Err(r.error)
  {
    if es == [] then Ok([])
    else
      match AssetFromElement(es[0])
      case Err(x) => Err(x)
      case Ok(a) =>
        match ReadAssets(es[1..])
        case Err(x) => Err(x)
        case Ok(as_) => Ok([a] + as_)
  }

  /** `Portfolio.fromElement`: the first portfolio element anywhere in
      `item`, which needs a name and an assets element; every child
      element of the assets element is read as an asset. */
  function PortfolioFromElement(item: Element): (r: Result<Portfolio, PortfolioError>)
    ensures r.Ok? ==> ValidPortfolio(r.value)
    ensures FindFirst(item, CollabNs, "portfolio", None).None? <==> r == Err(InvalidPortfolio("Not a portfolio"))
    ensures r.Err? ==> r.error.InvalidPortfolio? || r.error.InvalidAsset? || r.error.InvalidIssuer?
                       || r.error.InvalidFactor? || r.error.ValueError?
  {
    match FindFirst(item, CollabNs, "portfolio", None)
    case None => Err(InvalidPortfolio("Not a portfolio"))
    case Some(el) =>
      if !Matches(el, CollabNs, "portfolio", ["name"]) then Err(InvalidPortfolio("no name"))
      else if !Matches(el, CollabNs, "portfolio", ["assets"]) then Err(InvalidPortfolio("no assets"))
      else
        match ReadAssets(Elements(FirstReached(el, "portfolio", "assets")))
        case Err(x) =>
          assert x != InvalidPortfolio("Not a portfolio");
          Err(x)
        case Ok(as_) => Ok(Portfolio(QueryString(el, CollabNs, "portfolio", ["name"]), as_))
  }

  /** `getPortfolio`: a `PortfolioElementError` is logged under the error
      severity and gives no portfolio; a `ValueError` is not caught. */
  function GetPortfolio(item: Element, logs: Simulation.Logger): (r: Result<(Option<Portfolio>, Simulation.Logger), PortfolioError>)
    ensures r.Err? <==> PortfolioFromElement(item).Err? && PortfolioFromElement(item).error.ValueError?
    ensures r.Ok? && r.value.0.Some? ==> PortfolioFromElement(item) == Ok(r.value.0.value) && r.value.1 == logs
    ensures r.Ok? && r.value.0.None? ==>
              PortfolioFromElement(item).Err? && r.value.1 == Simulation.LogError(logs, PortfolioFromElement(item).error.reason)
  {
    match PortfolioFromElement(item)
    case Ok(p) => Ok((Some(p), logs))
    case Err(e) => if e.ValueError? then Err(e) else Ok((None, Simulation.LogError(logs, e.reason)))
  }

  // ---------------------------------------------------------------- round trips

  /** A number written as a uniquely named child reads back unchanged. */
  lemma WrittenNumber(parent: string, cs: seq<Element>, k: nat, d: Decimal, default: Decimal)
    requires k < |cs| && DistinctNames(cs) && d.Valid() && default.Valid()
    requires cs[k] == TextElement(CollabNs, cs[k].name, ShowDecimal(d))
    ensures OptionalFloat(Element(CollabNs, parent, map[], Wrap(cs)), parent, cs[k].name, default) == Ok(d)
  {
    WrittenChild(CollabNs, parent, cs, k);
    ParseShowDecimal(d);
  }

  lemma FactorFieldNames(f: Factor)
    ensures DistinctNames(FactorFields(f))
  {
  }

  /** Writing a factor and reading it back gives the same factor. */
  lemma FactorRoundTrip(f: Factor)
    requires ValidFactor(f)
    ensures FactorFromElement(FactorElement(f)) == Ok(f)
  {
    var fields := FactorFields(f);
    FactorFieldNames(f);
    WrittenChild(CollabNs, "factor", fields, 0);
    WrittenChild(CollabNs, "factor", fields, 1);
    ParseShowDecimal(f.weight);
  }

  lemma {:induction false} ReadWrittenFactors(fs: seq<Factor>)
    requires forall k :: 0 <= k < |fs| ==> ValidFactor(fs[k])
    ensures ReadFactors(FactorElements(fs)) == Ok(fs)
  {
    if fs != [] {
      FactorRoundTrip(fs[0]);
      ReadWrittenFactors(fs[1..]);
      ReadFactorsCons(FactorElement(fs[0]), FactorElements(fs[1..]), fs[0], fs[1..]);
      assert fs == [fs[0]] + fs[1..];
    }
  }

  lemma ReadFactorsCons(e: Element, es: seq<Element>, f: Factor, fs: seq<Factor>)
    requires FactorFromElement(e) == Ok(f) && ReadFactors(es) == Ok(fs)
    ensures ReadFactors([e] + es) == Ok([f] + fs)
  {
    assert ([e] + es)[1..] == es;
  }

  lemma IssuerFieldNames(i: Issuer)
    ensures DistinctNames(IssuerFields(i))
  {
  }

  /** Writing an issuer and reading it back gives the same issuer, its
      factors in the order they were written; in particular an issuer
      with no factors reads back with none. */
  lemma IssuerRoundTrip(i: Issuer)
    requires ValidIssuer(i)
    ensures IssuerFromElement(IssuerElement(i)) == Ok(i)
  {
    var fields := IssuerFields(i);
    IssuerFieldNames(i);
    WrittenChild(CollabNs, "issuer", fields, 0);
    WrittenChild(CollabNs, "issuer", fields, 1);
    ElementsOfWrapped(FactorElements(i.factors));
    ReadWrittenFactors(i.factors);
  }

  lemma AssetFieldNames(a: Asset)
    ensures DistinctNames(AssetFields(a))
    ensures a.issuer.None? ==> forall k :: 0 <= k < |AssetFields(a)| ==> AssetFields(a)[k].name != "issuer"
  {
  }

  /** The issuer of a written asset reads back unchanged. */
  lemma WrittenIssuer(a: Asset)
    requires ValidAsset(a)
    ensures OptionalIssuer(AssetElement(a)) == Ok(a.issuer)
  {
    var fields := AssetFields(a);
    AssetFieldNames(a);
    if a.issuer.Some? {
      WrittenChild(CollabNs, "asset", fields, 4);
      IssuerRoundTrip(a.issuer.value);
    } else {
      WrittenNoChild(CollabNs, "asset", fields, "issuer");
    }
  }

  /** An asset element whose parts all read successfully reads as the
      asset built from them. */
  lemma AssetFromParts(e: Element, dp: Decimal, recovery: Decimal, notional: Decimal, issuer: Option<Issuer>)
    requires Matches(e, CollabNs, "asset", ["name"])
    requires OptionalFloat(e, "asset", "dp", DefaultDp) == Ok(dp)
    requires OptionalFloat(e, "asset", "recovery", DefaultRecovery) == Ok(recovery)
    requires OptionalFloat(e, "asset", "notional", DefaultNotional) == Ok(notional)
    requires OptionalIssuer(e) == Ok(issuer)
    ensures dp.Valid() && recovery.Valid() && notional.Valid()
    ensures AssetFromElement(e) == Ok(NewAsset(QueryString(e, CollabNs, "asset", ["name"]), dp, recovery, notional, issuer))
  {
    OneZero();
  }

  /** The name of a written asset reads back unchanged. */
  lemma WrittenAssetName(a: Asset)
    ensures Matches(AssetElement(a), CollabNs, "asset", ["name"])
    ensures QueryString(AssetElement(a), CollabNs, "asset", ["name"]) == a.name
  {
    AssetFieldNames(a);
    WrittenChild(CollabNs, "asset", AssetFields(a), 0);
  }

  /** The dp, recovery and notional of a written asset read back unchanged. */
  lemma WrittenAssetDp(a: Asset)
    requires ValidAsset(a)
    ensures OptionalFloat(AssetElement(a), "asset", "dp", DefaultDp) == Ok(a.dp)
  {
    OneZero();
    AssetFieldNames(a);
    WrittenNumber("asset", AssetFields(a), 1, a.dp, DefaultDp);
  }

  lemma WrittenAssetRecovery(a: Asset)
    requires ValidAsset(a)
    ensures OptionalFloat(AssetElement(a), "asset", "recovery", DefaultRecovery) == Ok(a.recovery)
  {
    OneZero();
    AssetFieldNames(a);
    WrittenNumber("asset", AssetFields(a), 2, a.recovery, DefaultRecovery);
  }

  lemma WrittenAssetNotional(a: Asset)
    requires ValidAsset(a)
    ensures OptionalFloat(AssetElement(a), "asset", "notional", DefaultNotional) == Ok(a.notional)
  {
    OneZero();
    AssetFieldNames(a);
    WrittenNumber("asset", AssetFields(a), 3, a.notional, DefaultNotional);
  }

  /** Writing an asset and reading it back gives the same asset: name,
      dp, recovery, notional and issuer with its factors. */
  lemma AssetRoundTrip(a: Asset)
    requires ValidAsset(a)
    ensures AssetFromElement(AssetElement(a)) == Ok(a)
  {
    OneZero();
    WrittenAssetName(a);
    WrittenAssetDp(a);
    WrittenAssetRecovery(a);
    WrittenAssetNotional(a);
    WrittenIssuer(a);
    AssetFromParts(AssetElement(a), a.dp, a.recovery, a.notional, a.issuer);
  }

  lemma {:induction false} ReadWrittenAssets(as_: seq<Asset>)
    requires forall k :: 0 <= k < |as_| ==> ValidAsset(as_[k])
    ensures ReadAssets(AssetElements(as_)) == Ok(as_)
  {
    if as_ != [] {
      AssetRoundTrip(as_[0]);
      ReadWrittenAssets(as_[1..]);
      ReadAssetsCons(AssetElement(as_[0]), AssetElements(as_[1..]), as_[0], as_[1..]);
      assert as_ == [as_[0]] + as_[1..];
    }
  }

  lemma ReadAssetsCons(e: Element, es: seq<Element>, a: Asset, as_: seq<Asset>)
    requires AssetFromElement(e) == Ok(a) && ReadAssets(es) == Ok(as_)
    ensures ReadAssets([e] + es) == Ok([a] + as_)
  {
    assert ([e] + es)[1..] == es;
  }

  lemma PortfolioFieldNames(p: Portfolio)
    ensures DistinctNames(PortfolioFields(p))
  {
  }

  /** Writing a portfolio and reading it back gives the same portfolio. */
  lemma PortfolioRoundTrip(p: Portfolio)
    requires ValidPortfolio(p)
    ensures PortfolioFromElement(PortfolioElement(p)) == Ok(p)
  {
    var fields := PortfolioFields(p);
    PortfolioFieldNames(p);
    WrittenChild(CollabNs, "portfolio", fields, 0);
    WrittenChild(CollabNs, "portfolio", fields, 1);
    ElementsOfWrapped(AssetElements(p.assets));
    ReadWrittenAssets(p.assets);
  }

  /** `getPortfolio` on a written portfolio returns it and logs nothing. */
  lemma GetWrittenPortfolio(p: Portfolio, logs: Simulation.Logger)
    requires ValidPortfolio(p)
    ensures GetPortfolio(PortfolioElement(p), logs) == Ok((Some(p), logs))
  {
    PortfolioRoundTrip(p);
  }

  // ---------------------------------------------------------------- derived views

  /** The assets that have an issuer, in order. */
  function WithIssuer(as_: seq<Asset>): seq<Asset>
  {
    if as_ == [] then [] else (if as_[0].issuer.Some? then [as_[0]] else []) + WithIssuer(as_[1..])
  }

  lemma {:induction false} WithIssuerMembers(as_: seq<Asset>, a: Asset)
    ensures a in WithIssuer(as_) <==> a in as_ && a.issuer.Some?
  {
    if as_ != [] {
      WithIssuerMembers(as_[1..], a);
      assert a in as_ <==> a == as_[0] || a in as_[1..];
    }
  }

  /** `issuers()`: the issuer of every asset that has one. */
  function Issuers(p: Portfolio): seq<Issuer>
  {
    var w := WithIssuer(p.assets);
    seq(|w|, k requires 0 <= k < |w| => if w[k].issuer.Some? then w[k].issuer.value else Issuer("", []))
  }

  /** An issuer is listed exactly when some asset of the portfolio has it. */
  lemma IssuersSpec(p: Portfolio, i: Issuer)
    ensures i in Issuers(p) <==> exists a :: a in p.assets && a.issuer == Some(i)
  {
    var w := WithIssuer(p.assets);
    if i in Issuers(p) {
      var k :| 0 <= k < |w| && Issuers(p)[k] == i;
      WithIssuerMembers(p.assets, w[k]);
    }
    if exists a :: a in p.assets && a.issuer == Some(i) {
      var a :| a in p.assets && a.issuer == Some(i);
      WithIssuerMembers(p.assets, a);
      var k :| 0 <= k < |w| && w[k] == a;
      assert Issuers(p)[k] == i;
    }
  }

  /** `all_factors()`: the factors of every issuer, in asset order. */
  function AllFactors(as_: seq<Asset>): seq<Factor>
  {
    if as_ == [] then []
    else (if as_[0].issuer.Some? then as_[0].issuer.value.factors else []) + AllFactors(as_[1..])
  }

  lemma {:induction false} AllFactorsSpec(as_: seq<Asset>, f: Factor)
    ensures f in AllFactors(as_) <==> exists a :: a in as_ && a.issuer.Some? && f in a.issuer.value.factors
  {
    if as_ != [] {
      AllFactorsSpec(as_[1..], f);
      if f in AllFactors(as_) && !(f in AllFactors(as_[1..])) {
        assert as_[0] in as_;
      }
      if exists a :: a in as_ && a.issuer.Some? && f in a.issuer.value.factors {
        var a :| a in as_ && a.issuer.Some? && f in a.issuer.value.factors;
        if a != as_[0] {
          assert a in as_[1..];
        }
      }
    }
  }

  /** The names of a list of factors. */
  predicate HasFactorNamed(fs: seq<Factor>, n: string)
  {
    exists k :: 0 <= k < |fs| && fs[k].name == n
  }

  /** The first factor of a list with a given name, if any. */
  function FirstNamed(fs: seq<Factor>, n: string): Option<Factor>
  {
    if fs == [] then None else if fs[0].name == n then Some(fs[0]) else FirstNamed(fs[1..], n)
  }

  /** The loop of `factors()`: keep a factor when its name has not been
      seen, and mark its name seen. */
  function FirstPerName(fs: seq<Factor>, seen: set<string>): seq<Factor>
  {
    if fs == [] then []
    else if fs[0].name in seen then FirstPerName(fs[1..], seen)
    else [fs[0]] + FirstPerName(fs[1..], seen + {fs[0].name})
  }

  /** `factors()`: the first factor of each name, over all issuers' factors. */
  function Factors(p: Portfolio): seq<Factor>
  {
    FirstPerName(AllFactors(p.assets), {})
  }

  /** The kept factors have unseen names, no name twice, and each is the
      first factor of its name. */
  lemma {:induction false} FirstPerNameSpec(fs: seq<Factor>, seen: set<string>)
    ensures forall i, j :: 0 <= i < j < |FirstPerName(fs, seen)| ==> FirstPerName(fs, seen)[i].name != FirstPerName(fs, seen)[j].name
    ensures forall i :: 0 <= i < |FirstPerName(fs, seen)| ==>
              FirstPerName(fs, seen)[i].name !in seen && FirstNamed(fs, FirstPerName(fs, seen)[i].name) == Some(FirstPerName(fs, seen)[i])
  {
    if fs != [] {
      var rest := FirstPerName(fs[1..], if fs[0].name in seen then seen else seen + {fs[0].name});
      FirstPerNameSpec(fs[1..], if fs[0].name in seen then seen else seen + {fs[0].name});
      if fs[0].name !in seen {
        var r := FirstPerName(fs, seen);
        assert r == [fs[0]] + rest;
        forall i | 1 <= i < |r|
          ensures r[i].name != fs[0].name
          ensures FirstNamed(fs, r[i].name) == Some(r[i])
        {
          assert r[i] == rest[i - 1];
        }
      }
    }
  }

  /** A nonempty list has a factor of a name when its head or its tail does. */
  lemma HasFactorNamedSplit(fs: seq<Factor>, n: string)
    requires fs != []
    ensures HasFactorNamed(fs, n) <==> fs[0].name == n || HasFactorNamed(fs[1..], n)
  {
    if HasFactorNamed(fs[1..], n) {
      var k :| 0 <= k < |fs[1..]| && fs[1..][k].name == n;
      assert fs[k + 1].name == n;
    }
    if HasFactorNamed(fs, n) && fs[0].name != n {
      var k :| 0 <= k < |fs| && fs[k].name == n;
      assert fs[1..][k - 1].name == n;
    }
  }

  /** Every name among the factors and not yet seen is kept. */
  lemma {:induction false} FirstPerNameCovers(fs: seq<Factor>, seen: set<string>, n: string)
    ensures HasFactorNamed(FirstPerName(fs, seen), n) <==> HasFactorNamed(fs, n) && n !in seen
  {
    if fs != [] {
      var seen' := if fs[0].name in seen then seen else seen + {fs[0].name};
      FirstPerNameCovers(fs[1..], seen', n);
      HasFactorNamedSplit(fs, n);
      if fs[0].name !in seen {
        var r := FirstPerName(fs, seen);
        assert r[1..] == FirstPerName(fs[1..], seen');
        HasFactorNamedSplit(r, n);
      }
    }
  }

  /** `factors()` holds one factor per name: the first of that name, and
      exactly the names of all the issuers' factors. */
  lemma FactorsSpec(p: Portfolio, n: string)
    ensures forall i, j :: 0 <= i < j < |Factors(p)| ==> Factors(p)[i].name != Factors(p)[j].name
    ensures forall i :: 0 <= i < |Factors(p)| ==> FirstNamed(AllFactors(p.assets), Factors(p)[i].name) == Some(Factors(p)[i])
    ensures HasFactorNamed(Factors(p), n) <==> HasFactorNamed(AllFactors(p.assets), n)
  {
    FirstPerNameSpec(AllFactors(p.assets), {});
    FirstPerNameCovers(AllFactors(p.assets), {}, n);
  }

  /** Python `dict((x, i) for i, x in enumerate(names))`. */
  function Indices(names: seq<string>): map<string, int>
  {
    DictOf(seq(|names|, i requires 0 <= i < |names| => (names[i], i)))
  }

  /** The last position of a name in a list that holds it. */
  lemma {:induction false} LastIndex(names: seq<string>, n: string) returns (i: nat)
    requires n in names
    ensures i < |names| && names[i] == n
    ensures forall j :: i < j < |names| ==> names[j] != n
  {
    if names[|names| - 1] == n {
      i := |names| - 1;
    } else {
      var front := names[..|names| - 1];
      assert n in front by {
        var k :| 0 <= k < |names| && names[k] == n;
        assert front[k] == n;
      }
      i := LastIndex(front, n);
      assert names[i] == front[i];
    }
  }

  /** Each name is indexed by the position of its last occurrence, and
      only the names of the list are indexed. */
  lemma IndicesSpec(names: seq<string>, n: string)
    ensures n in Indices(names) <==> n in names
    ensures n in names ==> 0 <= Indices(names)[n] < |names| && names[Indices(names)[n]] == n
                           && forall j :: Indices(names)[n] < j < |names| ==> names[j] != n
  {
    var ps := seq(|names|, i requires 0 <= i < |names| => (names[i], i));
    DictOfKeys(ps, n);
    if n in names {
      var i := LastIndex(names, n);
      DictOfLast(ps, i);
    }
  }

  function AssetNames(as_: seq<Asset>): seq<string>
  {
    seq(|as_|, i requires 0 <= i < |as_| => as_[i].name)
  }

  /** `asset_indices()`. */
  function AssetIndices(p: Portfolio): map<string, int>
  {
    Indices(AssetNames(p.assets))
  }

  /** The set `issuers()` returns: each shared issuer once. */
  ghost function IssuerSet(p: Portfolio): set<Issuer>
  {
    set i | i in Issuers(p)
  }

  /** `issuer_indices()`: `issuers()` is a set, so the issuers are numbered
      in its iteration order `order`, each once. */
  function IssuerIndices(p: Portfolio, order: seq<Issuer>): map<string, int>
    requires IsOrder(order, IssuerSet(p))
  {
    Indices(seq(|order|, i requires 0 <= i < |order| => order[i].name))
  }

  /** A name is indexed exactly when some asset has an issuer of that name;
      its index is a position of the iteration order holding an issuer of
      that name, so every index is below the number of distinct issuers. */
  lemma IssuerIndicesSpec(p: Portfolio, order: seq<Issuer>, n: string)
    requires IsOrder(order, IssuerSet(p))
    ensures n in IssuerIndices(p, order) <==> exists a :: a in p.assets && a.issuer.Some? && a.issuer.value.name == n
    ensures n in IssuerIndices(p, order) ==>
              var k := IssuerIndices(p, order)[n];
              && 0 <= k < |order| == |IssuerSet(p)|
              && order[k].name == n
              && exists a :: a in p.assets && a.issuer == Some(order[k])
  {
    var names := seq(|order|, i requires 0 <= i < |order| => order[i].name);
    IndicesSpec(names, n);
    OrderLength(order, IssuerSet(p));
    if exists a :: a in p.assets && a.issuer.Some? && a.issuer.value.name == n {
      var a :| a in p.assets && a.issuer.Some? && a.issuer.value.name == n;
      IssuersSpec(p, a.issuer.value);
      assert a.issuer.value in IssuerSet(p);
      var k :| 0 <= k < |order| && order[k] == a.issuer.value;
      assert names[k] == n;
    }
    if n in names {
      var k := Indices(names)[n];
      assert order[k] in IssuerSet(p);
      IssuersSpec(p, order[k]);
    }
  }

  /** `factor_indices()`. */
  function FactorIndices(p: Portfolio): map<string, int>
  {
    var fs := Factors(p);
    Indices(seq(|fs|, i requires 0 <= i < |fs| => fs[i].name))
  }

  /** Factor names are unique in `factors()`, so each factor is indexed
      by its own position. */
  lemma FactorIndicesSpec(p: Portfolio, i: nat)
    requires i < |Factors(p)|
    ensures Factors(p)[i].name in FactorIndices(p)
    ensures FactorIndices(p)[Factors(p)[i].name] == i
  {
    var fs := Factors(p);
    var names := seq(|fs|, k requires 0 <= k < |fs| => fs[k].name);
    FactorsSpec(p, fs[i].name);
    assert names[i] == fs[i].name;
    IndicesSpec(names, fs[i].name);
  }

  /** `defaultProbabilities()`: asset name to dp, for assets with an issuer. */
  function DefaultProbabilities(p: Portfolio): map<string, Decimal>
  {
    var w := WithIssuer(p.assets);
    DictOf(seq(|w|, i requires 0 <= i < |w| => (w[i].name, w[i].dp)))
  }

  /** `asset_issuer_map()`: asset name to issuer, for assets with an issuer. */
  function AssetIssuerMap(p: Portfolio): map<string, Issuer>
  {
    var w := WithIssuer(p.assets);
    DictOf(seq(|w|, i requires 0 <= i < |w| => (w[i].name, if w[i].issuer.Some? then w[i].issuer.value else Issuer("", []))))
  }

  /** Some asset of the list with this name has an issuer. */
  predicate HasIssuedAsset(as_: seq<Asset>, n: string)
  {
    exists a :: a in as_ && a.issuer.Some? && a.name == n
  }

  lemma IssuedAssetIn(as_: seq<Asset>, n: string)
    ensures HasIssuedAsset(as_, n) <==> exists i :: 0 <= i < |WithIssuer(as_)| && WithIssuer(as_)[i].name == n
  {
    var w := WithIssuer(as_);
    if HasIssuedAsset(as_, n) {
      var a :| a in as_ && a.issuer.Some? && a.name == n;
      WithIssuerMembers(as_, a);
      var i :| 0 <= i < |w| && w[i] == a;
    }
    if exists i :: 0 <= i < |w| && w[i].name == n {
      var i :| 0 <= i < |w| && w[i].name == n;
      WithIssuerMembers(as_, w[i]);
    }
  }

  /** `defaultProbabilities()` and `asset_issuer_map()` hold exactly the
      names of the assets that have an issuer. */
  lemma AssetMapsKeys(p: Portfolio, n: string)
    ensures n in DefaultProbabilities(p) ==> HasIssuedAsset(p.assets, n)
    ensures HasIssuedAsset(p.assets, n) ==> n in DefaultProbabilities(p)
    ensures n in AssetIssuerMap(p) ==> HasIssuedAsset(p.assets, n)
    ensures HasIssuedAsset(p.assets, n) ==> n in AssetIssuerMap(p)
  {
    IssuedAssetIn(p.assets, n);
    var w := WithIssuer(p.assets);
    var dps := seq(|w|, i requires 0 <= i < |w| => (w[i].name, w[i].dp));
    var ips := seq(|w|, i requires 0 <= i < |w| => (w[i].name, if w[i].issuer.Some? then w[i].issuer.value else Issuer("", [])));
    assert DefaultProbabilities(p) == DictOf(dps);
    assert AssetIssuerMap(p) == DictOf(ips);
    if HasIssuedAsset(p.assets, n) {
      var i :| 0 <= i < |w| && w[i].name == n;
      assert dps[i].0 == n && ips[i].0 == n;
    }
    DictOfKeys(dps, n);
    DictOfKeys(ips, n);
    if n in DictOf(dps) || n in DictOf(ips) {
      var i :| 0 <= i < |w| && w[i].name == n;
      assert w[i] in w;
      WithIssuerMembers(p.assets, w[i]);
    }
  }

  /** The value kept for a name is that of the last asset with an issuer
      carrying the name. */
  lemma AssetMapsValues(p: Portfolio, i: nat)
    requires i < |WithIssuer(p.assets)|
    requires forall j :: i < j < |WithIssuer(p.assets)| ==> WithIssuer(p.assets)[j].name != WithIssuer(p.assets)[i].name
    ensures WithIssuer(p.assets)[i].name in DefaultProbabilities(p)
    ensures DefaultProbabilities(p)[WithIssuer(p.assets)[i].name] == WithIssuer(p.assets)[i].dp
    ensures WithIssuer(p.assets)[i].issuer.Some?
    ensures WithIssuer(p.assets)[i].name in AssetIssuerMap(p)
    ensures Some(AssetIssuerMap(p)[WithIssuer(p.assets)[i].name]) == WithIssuer(p.assets)[i].issuer
  {
    var w := WithIssuer(p.assets);
    var dps := seq(|w|, k requires 0 <= k < |w| => (w[k].name, w[k].dp));
    var ips := seq(|w|, k requires 0 <= k < |w| => (w[k].name, if w[k].issuer.Some? then w[k].issuer.value else Issuer("", [])));
    assert w[i] in w;
    WithIssuerMembers(p.assets, w[i]);
    DictOfLast(dps, i);
    DictOfLast(ips, i);
  }

  /** The assets of the list whose issuer has the given name, in order. */
  function AssetsOf(as_: seq<Asset>, n: string): seq<Asset>
  {
    if as_ == [] then []
    else (if as_[0].issuer.Some? && as_[0].issuer.value.name == n then [as_[0]] else []) + AssetsOf(as_[1..], n)
  }

  /** `issuer_asset_map()`: issuer name to its assets, appended in order. */
  function IssuerAssetMap(as_: seq<Asset>): map<string, seq<Asset>>
  {
    if as_ == [] then map[]
    else
      var m := IssuerAssetMap(as_[..|as_| - 1]);
      var last := as_[|as_| - 1];
      if last.issuer.None? then m
      else
        var n := last.issuer.value.name;
        m[n := (if n in m then m[n] else []) + [last]]
  }

  lemma {:induction false} AssetsOfAppend(as_: seq<Asset>, a: Asset, n: string)
    ensures AssetsOf(as_ + [a], n) == AssetsOf(as_, n) + AssetsOf([a], n)
  {
    if as_ != [] {
      assert (as_ + [a])[1..] == as_[1..] + [a];
      AssetsOfAppend(as_[1..], a, n);
    } else {
      assert as_ + [a] == [a];
    }
  }

  /** Each issuer name maps to exactly the assets of that issuer, in
      order, and only issuers with an asset appear. */
  lemma {:induction false} IssuerAssetMapSpec(as_: seq<Asset>, n: string)
    ensures n in IssuerAssetMap(as_) <==> AssetsOf(as_, n) != []
    ensures n in IssuerAssetMap(as_) ==> IssuerAssetMap(as_)[n] == AssetsOf(as_, n)
  {
    if as_ != [] {
      var front := as_[..|as_| - 1];
      var last := as_[|as_| - 1];
      assert as_ == front + [last];
      IssuerAssetMapSpec(front, n);
      AssetsOfAppend(front, last, n);
      assert [last][1..] == [];
    }
  }
}

=== FILE: pubsub_request_with_affiliations.dfy ===
/** The affiliation and subscription payloads of publish-subscribe
    requests (`pubsubRequestWithAffiliations.py`): the lists an entity
    receives for itself (sections 5.6 and 5.7 of XEP-0060,
    Publish-Subscribe) and those an owner manages for a node (sections
    8.8 and 8.9). Parsing reads the child elements of the verb element in
    document order and raises BadRequest, here an `Err` with its text. */
module PubSubRequest {
  import opened Wrappers
  import opened Xml
  import opened Collab
  import opened Collections

  const PubsubOwnerNs := "http://jabber.org/protocol/pubsub#owner"

  const MissingNode := "Missing node attribute"
  const MultipleAffiliations := "Multiple affiliations for an node"
  const MissingAffiliation := "Missing affiliation attribute"
  const MissingJid := "Missing jid attribute"
  const MissingSubscription := "Missing subscription attribute"

  /** An attribute's value, "" when absent. */
  function Field(e: Element, name: string): string
  {
    if name in e.attrs then e.attrs[name] else ""
  }

  // ------------------------------------------------------------ affiliations

  /** Only `affiliation` children in the publish-subscribe namespace count. */
  predicate IsAffiliation(e: Element)
  {
    e.uri == PubsubNs && e.name == "affiliation"
  }

  /** What `_parse_affiliationsForJid` accepts on top of the affiliations
      `acc` already read: every counted child names a node and an
      affiliation, no node already read, and no node twice. */
  predicate AffiliationsAccepted(cs: seq<Element>, acc: map<string, string>)
  {
    && (forall i :: 0 <= i < |cs| && IsAffiliation(cs[i]) ==>
          "node" in cs[i].attrs && "affiliation" in cs[i].attrs && cs[i].attrs["node"] !in acc)
    && (forall i, j :: 0 <= i < j < |cs| && IsAffiliation(cs[i]) && IsAffiliation(cs[j]) ==>
          Field(cs[i], "node") != Field(cs[j], "node"))
  }

  /** `_parse_affiliationsForJid`: node to affiliation for the entity
      itself; BadRequest for a missing attribute or a repeated node. */
  function ParseAffiliationsForJid(verb: Element): (r: Result<map<string, string>, string>)
    ensures r.Err? ==> r.error in {MissingNode, MultipleAffiliations, MissingAffiliation}
  {
    ReadAffiliations(Elements(verb), map[])
  }

  function ReadAffiliations(cs: seq<Element>, acc: map<string, string>): (r: Result<map<string, string>, string>)
    ensures r.Err? ==> r.error in {MissingNode, MultipleAffiliations, MissingAffiliation}
    decreases |cs|
  {
    if cs == [] then Ok(acc)
    else
      var e := cs[0];
      if !IsAffiliation(e) then ReadAffiliations(cs[1..], acc)
      else if "node" !in e.attrs then Err(MissingNode)
      else if e.attrs["node"] in acc then Err(MultipleAffiliations)
      else if "affiliation" !in e.attrs then Err(MissingAffiliation)
      else ReadAffiliations(cs[1..], acc[e.attrs["node"] := e.attrs["affiliation"]])
  }

  /** The tail of an accepted list is accepted once the head's pair is read. */
  lemma AcceptedStep(cs: seq<Element>, acc: map<string, string>)
    requires cs != []
    ensures var e := cs[0];
            AffiliationsAccepted(cs, acc) <==>
              if !IsAffiliation(e) then AffiliationsAccepted(cs[1..], acc)
              else "node" in e.attrs && e.attrs["node"] !in acc && "affiliation" in e.attrs
                   && AffiliationsAccepted(cs[1..], acc[e.attrs["node"] := e.attrs["affiliation"]])
  {
    var e := cs[0];
    var rest := cs[1..];
    if IsAffiliation(e) && "node" in e.attrs && e.attrs["node"] !in acc && "affiliation" in e.attrs {
      var acc' := acc[e.attrs["node"] := e.attrs["affiliation"]];
      if AffiliationsAccepted(rest, acc') {
        forall i | 0 <= i < |cs| && IsAffiliation(cs[i])
          ensures "node" in cs[i].attrs && "affiliation" in cs[i].attrs && cs[i].attrs["node"] !in acc
        {
          if i > 0 { assert cs[i] == rest[i - 1]; }
        }
        forall i, j | 0 <= i < j < |cs| && IsAffiliation(cs[i]) && IsAffiliation(cs[j])
          ensures Field(cs[i], "node") != Field(cs[j], "node")
        {
          assert cs[j] == rest[j - 1];
          if i > 0 { assert cs[i] == rest[i - 1]; }
        }
      }
      if AffiliationsAccepted(cs, acc) {
        forall i | 0 <= i < |rest| && IsAffiliation(rest[i])
          ensures "node" in rest[i].attrs && "affiliation" in rest[i].attrs && rest[i].attrs["node"] !in acc'
        {
          assert rest[i] == cs[i + 1];
        }
        forall i, j | 0 <= i < j < |rest| && IsAffiliation(rest[i]) && IsAffiliation(rest[j])
          ensures Field(rest[i], "node") != Field(rest[j], "node")
        {
          assert rest[i] == cs[i + 1] && rest[j] == cs[j + 1];
        }
      }
    } else if !IsAffiliation(e) {
      if AffiliationsAccepted(rest, acc) {
        forall i, j | 0 <= i < j < |cs| && IsAffiliation(cs[i]) && IsAffiliation(cs[j])
          ensures Field(cs[i], "node") != Field(cs[j], "node")
        {
          assert cs[i] == rest[i - 1] && cs[j] == rest[j - 1];
        }
      }
      if AffiliationsAccepted(cs, acc) {
        forall i, j | 0 <= i < j < |rest| && IsAffiliation(rest[i]) && IsAffiliation(rest[j])
          ensures Field(rest[i], "node") != Field(rest[j], "node")
        {
          assert rest[i] == cs[i + 1] && rest[j] == cs[j + 1];
        }
      }
    }
  }

  /** Parsing succeeds exactly on accepted lists. */
  lemma {:induction false} ReadAffiliationsOk(cs: seq<Element>, acc: map<string, string>)
    decreases |cs|
    ensures ReadAffiliations(cs, acc).Ok? <==> AffiliationsAccepted(cs, acc)
  {
    if cs != [] {
      AcceptedStep(cs, acc);
      var e := cs[0];
      if !IsAffiliation(e) {
        ReadAffiliationsOk(cs[1..], acc);
      } else if "node" in e.attrs && e.attrs["node"] !in acc && "affiliation" in e.attrs {
        ReadAffiliationsOk(cs[1..], acc[e.attrs["node"] := e.attrs["affiliation"]]);
      }
    }
  }

  /** A successful parse keeps what was read and binds each counted
      child's node to its affiliation, and holds nothing else. */
  lemma {:induction false} ReadAffiliationsContents(cs: seq<Element>, acc: map<string, string>)
    requires ReadAffiliations(cs, acc).Ok?
    decreases |cs|
    ensures var r := ReadAffiliations(cs, acc).value;
            && (forall k :: k in acc ==> k in r && r[k] == acc[k])
            && (forall i :: 0 <= i < |cs| && IsAffiliation(cs[i]) ==>
                  Field(cs[i], "node") in r && r[Field(cs[i], "node")] == Field(cs[i], "affiliation"))
            && (forall k :: k in r ==> k in acc || exists i :: 0 <= i < |cs| && IsAffiliation(cs[i]) && Field(cs[i], "node") == k)
  {
    if cs != [] {
      var e := cs[0];
      var rest := cs[1..];
      var acc' := if IsAffiliation(e) then acc[e.attrs["node"] := e.attrs["affiliation"]] else acc;
      ReadAffiliationsContents(rest, acc');
      var r := ReadAffiliations(cs, acc).value;
      assert r == ReadAffiliations(rest, acc').value;
      forall i | 0 <= i < |cs| && IsAffiliation(cs[i])
        ensures Field(cs[i], "node") in r && r[Field(cs[i], "node")] == Field(cs[i], "affiliation")
      {
        if i > 0 { assert cs[i] == rest[i - 1]; }
      }
      forall k | k in r ensures k in acc || exists i :: 0 <= i < |cs| && IsAffiliation(cs[i]) && Field(cs[i], "node") == k {
        if k !in acc' {
          var i :| 0 <= i < |rest| && IsAffiliation(rest[i]) && Field(rest[i], "node") == k;
          assert cs[i + 1] == rest[i];
        } else if k !in acc {
          assert IsAffiliation(cs[0]) && Field(cs[0], "node") == k;
        }
      }
    }
  }

  /** The element `_render_affiliationsForJid` adds for one pair; it
      inherits the verb element's namespace. */
  function AffiliationElement(uri: string, key: string, node: string, affiliation: string): Element
  {
    Element(uri, "affiliation", map[key := node, "affiliation" := affiliation], [])
  }

  function AffiliationElements(uri: string, key: string, affs: map<string, string>, order: seq<string>): (r: seq<Element>)
    requires forall k :: k in order ==> k in affs
    ensures |r| == |order|
    ensures forall i :: 0 <= i < |order| ==> r[i] == AffiliationElement(uri, key, order[i], affs[order[i]])
  {
    if order == [] then []
    else [AffiliationElement(uri, key, order[0], affs[order[0]])] + AffiliationElements(uri, key, affs, order[1..])
  }

  /** `_render_affiliationsForJid`: one child per pair, in the map's
      iteration order `order`, after the verb's own children. */
  function RenderAffiliationsForJid(verb: Element, affs: map<string, string>, order: seq<string>): (r: Element)
    requires IsOrder(order, affs.Keys)
    ensures r.uri == verb.uri && r.name == verb.name && r.attrs == verb.attrs
    ensures |order| == |affs| && |r.children| == |verb.children| + |order|
    ensures r.children[..|verb.children|] == verb.children
    ensures forall i :: 0 <= i < |order| ==>
              r.children[|verb.children| + i] == Elem(AffiliationElement(verb.uri, "node", order[i], affs[order[i]]))
  {
    OrderLength(order, affs.Keys);
    verb.(children := verb.children + Wrap(AffiliationElements(verb.uri, "node", affs, order)))
  }

  /** `_render_affiliations`: the same for an owner's list keyed by entity. */
  function RenderAffiliations(verb: Element, affs: map<string, string>, order: seq<string>): (r: Element)
    requires IsOrder(order, affs.Keys)
    ensures r.uri == verb.uri && r.name == verb.name && r.attrs == verb.attrs
    ensures |order| == |affs| && |r.children| == |verb.children| + |order|
    ensures r.children[..|verb.children|] == verb.children
    ensures forall i :: 0 <= i < |order| ==>
              r.children[|verb.children| + i] == Elem(AffiliationElement(verb.uri, "jid", order[i], affs[order[i]]))
  {
    OrderLength(order, affs.Keys);
    verb.(children := verb.children + Wrap(AffiliationElements(verb.uri, "jid", affs, order)))
  }

  /** The rendered children of a map are accepted, and each names the
      node at its place in the iteration order. */
  lemma RenderedAccepted(uri: string, affs: map<string, string>, order: seq<string>)
    requires uri == PubsubNs && IsOrder(order, affs.Keys)
    ensures var cs := AffiliationElements(uri, "node", affs, order);
            && (forall i :: 0 <= i < |cs| ==> IsAffiliation(cs[i]) && Field(cs[i], "node") == order[i]
                                               && Field(cs[i], "affiliation") == affs[order[i]])
            && AffiliationsAccepted(cs, map[])
  {
    var cs := AffiliationElements(uri, "node", affs, order);
    forall i | 0 <= i < |cs|
      ensures IsAffiliation(cs[i]) && Field(cs[i], "node") == order[i] && Field(cs[i], "affiliation") == affs[order[i]]
    {
      assert cs[i].attrs == map["node" := order[i], "affiliation" := affs[order[i]]];
    }
  }

  /** Rendering an entity's affiliations into an empty publish-subscribe
      verb element and parsing them back gives the same map. */
  lemma AffiliationsRoundTrip(verb: Element, affs: map<string, string>, order: seq<string>)
    requires verb.uri == PubsubNs && verb.children == []
    requires IsOrder(order, affs.Keys)
    ensures ParseAffiliationsForJid(RenderAffiliationsForJid(verb, affs, order)) == Ok(affs)
  {
    var cs := AffiliationElements(verb.uri, "node", affs, order);
    var rendered := RenderAffiliationsForJid(verb, affs, order);
    assert rendered.children == Wrap(cs) by {
      assert rendered.children == [] + Wrap(cs);
    }
    ElementsOfWrapped(cs);
    assert ParseAffiliationsForJid(rendered) == ReadAffiliations(cs, map[]);
    RenderedAccepted(verb.uri, affs, order);
    ReadAffiliationsOk(cs, map[]);
    assert RenderedList(cs, affs, order);
    ParsedMap(cs, affs, order);
  }

  /** Parsing a list whose counted children follow an iteration order of
      a map, each carrying that key's value, gives the map. */
  lemma ParsedMap(cs: seq<Element>, affs: map<string, string>, order: seq<string>)
    requires RenderedList(cs, affs, order)
    requires ReadAffiliations(cs, map[]).Ok?
    ensures ReadAffiliations(cs, map[]).value == affs
  {
    var r := ReadAffiliations(cs, map[]).value;
    forall k ensures k in r <==> k in affs {
      ParsedKey(cs, affs, order, k);
    }
    forall k | k in affs ensures r[k] == affs[k] {
      ParsedKey(cs, affs, order, k);
    }
    SameMap(r, affs);
  }

  /** The children rendered for `affs` in the order `order`. */
  ghost predicate RenderedList(cs: seq<Element>, affs: map<string, string>, order: seq<string>)
  {
    && IsOrder(order, affs.Keys) && |cs| == |order|
    && forall i :: 0 <= i < |cs| ==> IsAffiliation(cs[i]) && Field(cs[i], "node") == order[i]
                                      && Field(cs[i], "affiliation") == affs[order[i]]
  }

  lemma ParsedKey(cs: seq<Element>, affs: map<string, string>, order: seq<string>, k: string)
    requires RenderedList(cs, affs, order)
    requires ReadAffiliations(cs, map[]).Ok?
    ensures var r := ReadAffiliations(cs, map[]).value;
            (k in r <==> k in affs) && (k in affs ==> r[k] == affs[k])
  {
    ReadAffiliationsContents(cs, map[]);
    var r := ReadAffiliations(cs, map[]).value;
    if k in r {
      var i :| 0 <= i < |cs| && IsAffiliation(cs[i]) && Field(cs[i], "node") == k;
      assert order[i] == k;
    }
    if k in affs {
      assert k in order;
      var i :| 0 <= i < |order| && order[i] == k;
      assert IsAffiliation(cs[i]);
    }
  }

  // ----------------------------------------------------------- subscriptions

  /** A subscription: the node (None in an owner's list for one node), the
      subscriber's bare address, the state and the optional identifier. */
  datatype Subscription = Subscription(node: Option<string>, subscriber: string, state: string, subid: Option<string>)

  /** `userhostJID`: the address without its resource, everything before
      the first '/'. */
  function UserHost(j: string): (r: string)
    ensures '/' !in r && |r| <= |j| && r == j[..|r|]
    ensures |r| < |j| ==> j[|r|] == '/'
  {
    if j == [] || j[0] == '/' then [] else [j[0]] + UserHost(j[1..])
  }

  /** The counted children: `subscription` in the publish-subscribe
      namespace for an entity's own list, in the owner namespace for a
      node's list. */
  predicate IsSubscription(e: Element, forJid: bool)
  {
    e.uri == (if forJid then PubsubNs else PubsubOwnerNs) && e.name == "subscription"
  }

  /** The BadRequest a counted child raises, checked in the source's
      order: node (own list only), then jid, then subscription. */
  function Missing(e: Element, forJid: bool): (r: Option<string>)
    ensures r.None? <==> (forJid ==> "node" in e.attrs) && "jid" in e.attrs && "subscription" in e.attrs
    ensures r.Some? ==> r.value in {MissingNode, MissingJid, MissingSubscription}
    ensures r == Some(MissingNode) <==> forJid && "node" !in e.attrs
  {
    if forJid && "node" !in e.attrs then Some(MissingNode)
    else if "jid" !in e.attrs then Some(MissingJid)
    else if "subscription" !in e.attrs then Some(MissingSubscription)
    else None
  }

  /** The subscription a complete counted child stands for. */
  function SubscriptionOf(e: Element, forJid: bool): (s: Subscription)
    ensures s.node.Some? <==> forJid
    ensures '/' !in s.subscriber
    ensures s.subid.Some? <==> "subid" in e.attrs
  {
    Subscription(if forJid then Some(Field(e, "node")) else None, UserHost(Field(e, "jid")),
                 Field(e, "subscription"), if "subid" in e.attrs then Some(e.attrs["subid"]) else None)
  }

  /** `_parse_subscriptions` (`forJid` false) and
      `_parse_subscriptionsForJid` (`forJid` true): the set of
      subscriptions, or the first counted child's BadRequest. */
  function ParseSubscriptions(verb: Element, forJid: bool): (r: Result<set<Subscription>, string>)
    ensures r.Ok? ==> forall s :: s in r.value ==> (s.node.Some? <==> forJid)
  {
    ReadSubscriptions(Elements(verb), forJid, {})
  }

  function ReadSubscriptions(cs: seq<Element>, forJid: bool, acc: set<Subscription>): (r: Result<set<Subscription>, string>)
    ensures r.Ok? ==> acc <= r.value
    ensures r.Ok? && (forall s :: s in acc ==> (s.node.Some? <==> forJid)) ==>
              forall s :: s in r.value ==> (s.node.Some? <==> forJid)
    decreases |cs|
  {
    if cs == [] then Ok(acc)
    else if !IsSubscription(cs[0], forJid) then ReadSubscriptions(cs[1..], forJid, acc)
    else match Missing(cs[0], forJid)
      case Some(m) => Err(m)
      case None => ReadSubscriptions(cs[1..], forJid, acc + {SubscriptionOf(cs[0], forJid)})
  }

  /** Every counted child carries the attributes its list needs. */
  predicate Complete(cs: seq<Element>, forJid: bool)
  {
    forall i :: 0 <= i < |cs| && IsSubscription(cs[i], forJid) ==> Missing(cs[i], forJid).None?
  }

  /** The subscriptions the counted children stand for. */
  function Counted(cs: seq<Element>, forJid: bool): set<Subscription>
  {
    set i | 0 <= i < |cs| && IsSubscription(cs[i], forJid) :: SubscriptionOf(cs[i], forJid)
  }

  lemma CountedCons(cs: seq<Element>, forJid: bool)
    requires cs != []
    ensures Counted(cs, forJid) == (if IsSubscription(cs[0], forJid) then {SubscriptionOf(cs[0], forJid)} else {})
                                   + Counted(cs[1..], forJid)
    ensures Complete(cs, forJid) <==> (IsSubscription(cs[0], forJid) ==> Missing(cs[0], forJid).None?)
                                      && Complete(cs[1..], forJid)
  {
    var rest := cs[1..];
    forall s | s in Counted(cs, forJid)
      ensures s in (if IsSubscription(cs[0], forJid) then {SubscriptionOf(cs[0], forJid)} else {}) + Counted(rest, forJid)
    {
      var i :| 0 <= i < |cs| && IsSubscription(cs[i], forJid) && s == SubscriptionOf(cs[i], forJid);
      if i > 0 { assert cs[i] == rest[i - 1]; }
    }
    forall s | s in Counted(rest, forJid) ensures s in Counted(cs, forJid) {
      var i :| 0 <= i < |rest| && IsSubscription(rest[i], forJid) && s == SubscriptionOf(rest[i], forJid);
      assert cs[i + 1] == rest[i];
    }
    if IsSubscription(cs[0], forJid) {
      assert SubscriptionOf(cs[0], forJid) in Counted(cs, forJid);
    }
    if Complete(cs, forJid) {
      forall i | 0 <= i < |rest| && IsSubscription(rest[i], forJid) ensures Missing(rest[i], forJid).None? {
        assert cs[i + 1] == rest[i];
      }
    }
    if (IsSubscription(cs[0], forJid) ==> Missing(cs[0], forJid).None?) && Complete(rest, forJid) {
      forall i | 0 <= i < |cs| && IsSubscription(cs[i], forJid) ensures Missing(cs[i], forJid).None? {
        if i > 0 { assert cs[i] == rest[i - 1]; }
      }
    }
  }

  /** Parsing succeeds exactly when every counted child is complete, and
      then collects one subscription per counted child and nothing else. */
  lemma {:induction false} ReadSubscriptionsOk(cs: seq<Element>, forJid: bool, acc: set<Subscription>)
    decreases |cs|
    ensures ReadSubscriptions(cs, forJid, acc).Ok? <==> Complete(cs, forJid)
    ensures ReadSubscriptions(cs, forJid, acc).Ok? ==> ReadSubscriptions(cs, forJid, acc).value == acc + Counted(cs, forJid)
  {
    if cs != [] {
      CountedCons(cs, forJid);
      var acc' := if IsSubscription(cs[0], forJid) then acc + {SubscriptionOf(cs[0], forJid)} else acc;
      ReadSubscriptionsOk(cs[1..], forJid, acc');
    } else {
      assert Counted(cs, forJid) == {};
    }
  }

  /** A failed parse reports the first incomplete counted child. */
  lemma {:induction false} ReadSubscriptionsError(cs: seq<Element>, forJid: bool, acc: set<Subscription>)
    requires ReadSubscriptions(cs, forJid, acc).Err?
    decreases |cs|
    ensures exists i :: 0 <= i < |cs| && IsSubscription(cs[i], forJid)
                        && Missing(cs[i], forJid) == Some(ReadSubscriptions(cs, forJid, acc).error)
                        && Complete(cs[..i], forJid)
  {
    var rest := cs[1..];
    var err := ReadSubscriptions(cs, forJid, acc).error;
    if IsSubscription(cs[0], forJid) && Missing(cs[0], forJid).Some? {
      assert Complete(cs[..0], forJid);
    } else {
      var acc' := if IsSubscription(cs[0], forJid) then acc + {SubscriptionOf(cs[0], forJid)} else acc;
      ReadSubscriptionsError(rest, forJid, acc');
      var i :| 0 <= i < |rest| && IsSubscription(rest[i], forJid) && Missing(rest[i], forJid) == Some(err)
               && Complete(rest[..i], forJid);
      assert cs[i + 1] == rest[i];
      CountedCons(cs[..i + 1], forJid);
      assert cs[..i + 1][1..] == rest[..i];
    }
  }
}

=== FILE: simulation.dfy ===
/** The records nodes exchange about a simulation run: its parameters,
    named histograms of results, a progress count and a log, each with
    its element form (`simulation.py`). */
module Simulation {
  import opened Wrappers
  import opened Xml
  import opened NumberText
  import opened Collections
  import opened Collab

  const DefaultRunId := "0"
  const DefaultOutput := ""
  const DefaultRunCount := 1000000

  /** The closed command set `Parameters.cmds`. */
  datatype Command = Info | Start | Stop | Results

  function CommandText(c: Command): string
  {
    match c
    case Info => "info"
    case Start => "start"
    case Stop => "stop"
    case Results => "results"
  }

  /** Membership of a command text in the command set. */
  function ParseCommand(s: string): (r: Option<Command>)
    ensures r.Some? ==> CommandText(r.value) == s
    ensures r.None? ==> forall c :: CommandText(c) != s
  {
    if s == "info" then Some(Info)
    else if s == "start" then Some(Start)
    else if s == "stop" then Some(Stop)
    else if s == "results" then Some(Results)
    else None
  }

  lemma ParseCommandText(c: Command)
    ensures ParseCommand(CommandText(c)) == Some(c)
  {
  }

  /** An instant, kept as the text `str(datetime)` renders it. */
  datatype Timestamp = Timestamp(text: string)

  datatype Parameters = Parameters(runId: string, output: string, numberRuns: nat, cmd: Command, timestamp: Timestamp)

  /** The exceptions the parsers raise. `ValueError` is Python's, raised by
      `int()` on text that is not an integer. */
  datatype SimulationError =
    | InvalidParameters(reason: string)
    | InvalidDistributions(reason: string)
    | InvalidProgress(reason: string)
    | InvalidLogger(reason: string)
    | ValueError(text: string)

  /** Python's `abs`. */
  function Abs(n: int): nat
  {
    if n < 0 then -n else n
  }

  /** The `Parameters` constructor; `now` is the clock reading used when
      no timestamp is given. */
  function NewParameters(runId: string, output: string, numberRuns: int, cmd: string,
                         timestamp: Option<Timestamp>, now: Timestamp): (r: Result<Parameters, SimulationError>)
    ensures r.Err? <==> ParseCommand(cmd).None?
    ensures r.Err? ==> r.error == InvalidParameters("Invalid command " + cmd)
    ensures r.Ok? ==> CommandText(r.value.cmd) == cmd && r.value.runId == runId && r.value.output == output
    ensures r.Ok? ==> r.value.numberRuns == numberRuns || r.value.numberRuns == -numberRuns
    ensures r.Ok? ==> r.value.timestamp == (if timestamp.Some? then timestamp.value else now)
  {
    match ParseCommand(cmd)
    case None => Err(InvalidParameters("Invalid command " + cmd))
    case Some(c) =>
      var runs := Abs(numberRuns);
      var stamp := if timestamp.Some? then timestamp.value else now;
      Ok(Parameters(runId, output, runs, c, stamp))
  }

  /** `Parameters()` with every argument defaulted. */
  function DefaultParameters(now: Timestamp): (p: Parameters)
    ensures NewParameters(DefaultRunId, DefaultOutput, DefaultRunCount, "info", None, now) == Ok(p)
  {
    Parameters(DefaultRunId, DefaultOutput, DefaultRunCount, Info, now)
  }

  /** `Parameters.setCommand`. */
  function SetCommand(p: Parameters, cmd: string): (r: Result<Parameters, SimulationError>)
    ensures r.Err? <==> ParseCommand(cmd).None?
    ensures r.Err? ==> r.error == InvalidParameters("Invalid command " + cmd)
    ensures r.Ok? ==> CommandText(r.value.cmd) == cmd && r.value == p.(cmd := r.value.cmd)
  {
    match ParseCommand(cmd)
    case None => Err(InvalidParameters("Invalid command " + cmd))
    case Some(c) => Ok(p.(cmd := c))
  }

  // ---------------------------------------------------------------- parameters element

  function ParameterFields(p: Parameters): seq<Element>
  {
    [TextElement(CollabNs, "run_id", p.runId),
     TextElement(CollabNs, "output", p.output),
     TextElement(CollabNs, "number_runs", ShowInt(p.numberRuns)),
     TextElement(CollabNs, "command", CommandText(p.cmd)),
     TextElement(CollabNs, "timestamp", p.timestamp.text)]
  }

  /** A simulation element holding one parameters element with the given fields. */
  function SimulationElement(fields: seq<Element>): Element
  {
    Element(CollabNs, "simulation", map[], [Elem(Element(CollabNs, "parameters", map[], Wrap(fields)))])
  }

  /** `Parameters.toElement`. */
  function ParametersToElement(p: Parameters): Element
  {
    SimulationElement(ParameterFields(p))
  }

  /** The text of parameter field `name` under the simulation element `el`,
      when the field is present. */
  function Field(el: Element, name: string): Option<string>
  {
    if Matches(el, CollabNs, "simulation", ["parameters", name])
    then Some(QueryString(el, CollabNs, "simulation", ["parameters", name]))
    else None
  }

  function FieldOr(el: Element, name: string, default: string): string
  {
    var f := Field(el, name);
    if f.Some? then f.value else default
  }

  /** `Parameters.fromElement`: the first simulation element with a
      parameters child, read field by field with the defaults for absent
      fields. A non-integer number_runs raises `ValueError`; an invalid
      command raises `InvalidParametersError`. */
  function ParametersFromElement(item: Element, now: Timestamp): (r: Result<Parameters, SimulationError>)
    ensures (FindFirst(item, CollabNs, "simulation", Some("parameters")).None?
             <==> r == Err(InvalidParameters("Cannot find parameters")))
    ensures r.Err? ==> r.error.InvalidParameters? || r.error.ValueError?
    // a number_runs field that is not an integer raises first
    ensures var found := FindFirst(item, CollabNs, "simulation", Some("parameters"));
            found.Some? ==>
              var runs := Field(found.value, "number_runs");
              (r.Err? && r.error.ValueError? <==> runs.Some? && ParseInt(runs.value).None?)
              && (runs.Some? && ParseInt(runs.value).None? ==> r.error == ValueError(IntErrorText(runs.value)))
    // then a command outside `cmds`, an absent one reading as 'info'
    ensures var found := FindFirst(item, CollabNs, "simulation", Some("parameters"));
            found.Some? && r.Err? && r.error.InvalidParameters? ==>
              var cmd := FieldOr(found.value, "command", "info");
              ParseCommand(cmd).None? && r.error.reason == "Invalid command " + cmd
    ensures var found := FindFirst(item, CollabNs, "simulation", Some("parameters"));
            var runs := if found.Some? then Field(found.value, "number_runs") else None;
            (found.Some? && (runs.None? || ParseInt(runs.value).Some?)
             && ParseCommand(FieldOr(found.value, "command", "info")).None?)
            ==> r.Err? && r.error.InvalidParameters?
    // otherwise every field is read, absent ones at their defaults
    ensures r.Ok? ==>
              var el := FindFirst(item, CollabNs, "simulation", Some("parameters")).value;
              var runs := Field(el, "number_runs");
              var stamp := Field(el, "timestamp");
              && r.value.runId == FieldOr(el, "run_id", DefaultRunId)
              && r.value.output == FieldOr(el, "output", DefaultOutput)
              && CommandText(r.value.cmd) == FieldOr(el, "command", "info")
              && (runs.None? ==> r.value.numberRuns == DefaultRunCount)
              && (runs.Some? ==> ParseInt(runs.value).Some? && r.value.numberRuns == Abs(ParseInt(runs.value).value))
              && r.value.timestamp == (if stamp.Some? then Timestamp(stamp.value) else now)
  {
    match FindFirst(item, CollabNs, "simulation", Some("parameters"))
    case None => Err(InvalidParameters("Cannot find parameters"))
    case Some(el) =>
      var runs := Field(el, "number_runs");
      var parsed := if runs.Some? then ParseInt(runs.value) else Some(DefaultRunCount);
      if parsed.None? then Err(ValueError(IntErrorText(runs.value)))
      else
        var stamp := Field(el, "timestamp");
        var r := NewParameters(FieldOr(el, "run_id", DefaultRunId), FieldOr(el, "output", DefaultOutput),
                               parsed.value, FieldOr(el, "command", "info"),
                               if stamp.Some? then Some(Timestamp(stamp.value)) else None, now);
        assert r.Err? ==> r.error.reason[0] == 'I';
        r
  }

  /** A simulation element holding one parameters element reads field
      `name` as the first text of the one field element of that name. */
  lemma FieldOfWritten(fields: seq<Element>, name: string, c: Element)
    requires Named(fields, name) == [c]
    ensures Field(SimulationElement(fields), name) == Some(FirstText(c.children))
  {
    var pe := Element(CollabNs, "parameters", map[], Wrap(fields));
    var root := SimulationElement(fields);
    assert Elements(root) == [pe];
    NamedOnly(Elements(root), "parameters", 0);
    ElementsOfWrapped(fields);
    ReachGrandchild(root, "parameters", name, pe);
    ConcatOne(c);
  }

  /** The written element is its own first simulation element with parameters. */
  lemma SimulationFound(fields: seq<Element>)
    ensures FindFirst(SimulationElement(fields), CollabNs, "simulation", Some("parameters")) == Some(SimulationElement(fields))
  {
    var pe := Element(CollabNs, "parameters", map[], Wrap(fields));
    assert Elements(SimulationElement(fields)) == [pe];
    NamedOnly(Elements(SimulationElement(fields)), "parameters", 0);
  }

  lemma ParameterFieldNames(p: Parameters)
    ensures DistinctNames(ParameterFields(p))
  {
  }

  /** Every field written by `ParametersToElement` reads back unchanged. */
  lemma WrittenFields(p: Parameters)
    ensures Field(ParametersToElement(p), "run_id") == Some(p.runId)
    ensures Field(ParametersToElement(p), "output") == Some(p.output)
    ensures Field(ParametersToElement(p), "number_runs") == Some(ShowInt(p.numberRuns))
    ensures Field(ParametersToElement(p), "command") == Some(CommandText(p.cmd))
    ensures Field(ParametersToElement(p), "timestamp") == Some(p.timestamp.text)
  {
    var fields := ParameterFields(p);
    ParameterFieldNames(p);
    WrittenField(fields, 0);
    WrittenField(fields, 1);
    WrittenField(fields, 2);
    WrittenField(fields, 3);
    WrittenField(fields, 4);
  }

  lemma WrittenField(fields: seq<Element>, k: nat)
    requires k < |fields| && DistinctNames(fields)
    ensures Field(SimulationElement(fields), fields[k].name) == Some(FirstText(fields[k].children))
  {
    NamedDistinct(fields, k);
    FieldOfWritten(fields, fields[k].name, fields[k]);
  }

  /** Writing parameters out and reading them back gives them again. */
  lemma ParametersRoundTrip(p: Parameters, now: Timestamp)
    ensures ParametersFromElement(ParametersToElement(p), now) == Ok(p)
  {
    SimulationFound(ParameterFields(p));
    WrittenFields(p);
    ParseShowInt(p.numberRuns);
    ParseCommandText(p.cmd);
    assert NewParameters(p.runId, p.output, p.numberRuns, CommandText(p.cmd), Some(p.timestamp), now) == Ok(p);
  }

  // ---------------------------------------------------------------- distributions

  /** A histogram: point to count; an absent point counts as 0. */
  type Histogram = map<int, int>

  datatype Distributions = Distributions(histograms: map<string, Histogram>)

  function Count(h: Histogram, p: int): int
  {
    if p in h then h[p] else 0
  }

  function HistogramOf(hs: map<string, Histogram>, name: string): Histogram
  {
    if name in hs then hs[name] else map[]
  }

  /** The pointwise sum of two histograms: the meaning of combining. */
  function Sum(h: Histogram, delta: Histogram): Histogram
  {
    map p | p in h.Keys + delta.Keys :: Count(h, p) + Count(delta, p)
  }

  /** The distributions after `combine(name, delta)`. */
  function Combined(d: Distributions, name: string, delta: Histogram): Distributions
  {
    Distributions(d.histograms[name := Sum(HistogramOf(d.histograms, name), delta)])
  }

  lemma CountSum(h: Histogram, delta: Histogram, p: int)
    ensures Sum(h, delta).Keys == h.Keys + delta.Keys
    ensures Count(Sum(h, delta), p) == Count(h, p) + Count(delta, p)
  {
  }

  /** Histograms with the same points and the same counts are equal. */
  lemma SameHistogram(x: Histogram, y: Histogram)
    requires x.Keys == y.Keys
    requires forall p :: Count(x, p) == Count(y, p)
    ensures x == y
  {
    forall p | p in x
      ensures x[p] == y[p]
    {
      assert Count(x, p) == Count(y, p);
    }
  }

  /** A histogram with the points of both and the counts of both added is their sum. */
  lemma IsSum(h: Histogram, delta: Histogram, s: Histogram)
    requires s.Keys == h.Keys + delta.Keys
    requires forall p :: Count(s, p) == Count(h, p) + (if p in delta then delta[p] else 0)
    ensures s == Sum(h, delta)
  {
    forall p | true
      ensures Count(s, p) == Count(Sum(h, delta), p)
    {
      CountSum(h, delta, p);
    }
    CountSum(h, delta, 0);
    SameHistogram(s, Sum(h, delta));
  }

  /** `Distributions.combine`: add each point of `delta` into histogram
      `name`, one point at a time, in the order `order` in which the
      dictionary is iterated. */
  method Combine(d: Distributions, name: string, delta: Histogram, order: seq<int>) returns (r: Distributions)
    requires IsOrder(order, delta.Keys)
    ensures r == Combined(d, name, delta)
  {
    OrderMembers(order, delta.Keys);
    var start := HistogramOf(d.histograms, name);
    var h := start;
    var i := 0;
    ghost var done: set<int> := {};
    while i < |order|
      invariant 0 <= i <= |order|
      invariant forall j :: 0 <= j < i ==> order[j] in done
      invariant forall j :: i <= j < |order| ==> order[j] !in done
      invariant done <= delta.Keys
      invariant h.Keys == start.Keys + done
      invariant forall p :: Count(h, p) == Count(start, p) + (if p in done then delta[p] else 0)
    {
      var p := order[i];
      h := h[p := Count(h, p) + delta[p]];
      done := done + {p};
      i := i + 1;
    }
    assert done == delta.Keys;
    IsSum(start, delta, h);
    r := Distributions(d.histograms[name := h]);
  }

  /** `combine(n, delta)` leaves histogram `n` holding the old count plus
      the delta at every point and changes no other histogram. */
  lemma CombinedSpec(d: Distributions, name: string, delta: Histogram)
    ensures Combined(d, name, delta).histograms.Keys == d.histograms.Keys + {name}
    ensures forall p :: Count(HistogramOf(Combined(d, name, delta).histograms, name), p)
                         == Count(HistogramOf(d.histograms, name), p) + Count(delta, p)
    ensures forall n :: n != name ==> HistogramOf(Combined(d, name, delta).histograms, n) == HistogramOf(d.histograms, n)
  {
  }

  /** Adding two deltas one after the other adds both at every point. */
  lemma SumTwice(h: Histogram, a: Histogram, b: Histogram, p: int)
    ensures Sum(Sum(h, a), b).Keys == h.Keys + a.Keys + b.Keys
    ensures Count(Sum(Sum(h, a), b), p) == Count(h, p) + Count(a, p) + Count(b, p)
  {
    CountSum(h, a, p);
    CountSum(Sum(h, a), b, p);
  }

  /** Combining into a name twice is one update of that name, to the
      sum of the histogram and both deltas. */
  lemma CombinedTwice(d: Distributions, name: string, a: Histogram, b: Histogram)
    ensures Combined(Combined(d, name, a), name, b)
            == Distributions(d.histograms[name := Sum(Sum(HistogramOf(d.histograms, name), a), b)])
  {
    var h := HistogramOf(d.histograms, name);
    assert HistogramOf(Combined(d, name, a).histograms, name) == Sum(h, a);
    SameMap(Combined(Combined(d, name, a), name, b).histograms, d.histograms[name := Sum(Sum(h, a), b)]);
  }

  lemma SumCommutes(h: Histogram, a: Histogram, b: Histogram)
    ensures Sum(Sum(h, a), b) == Sum(Sum(h, b), a)
  {
    forall p | true
      ensures Count(Sum(Sum(h, a), b), p) == Count(Sum(Sum(h, b), a), p)
    {
      SumTwice(h, a, b, p);
      SumTwice(h, b, a, p);
    }
    SumTwice(h, a, b, 0);
    SumTwice(h, b, a, 0);
    SameHistogram(Sum(Sum(h, a), b), Sum(Sum(h, b), a));
  }

  lemma SumAssociates(h: Histogram, a: Histogram, b: Histogram)
    ensures Sum(Sum(h, a), b) == Sum(h, Sum(a, b))
  {
    forall p | true
      ensures Count(Sum(Sum(h, a), b), p) == Count(Sum(h, Sum(a, b)), p)
    {
      SumTwice(h, a, b, p);
      CountSum(a, b, p);
      CountSum(h, Sum(a, b), p);
    }
    SumTwice(h, a, b, 0);
    CountSum(a, b, 0);
    CountSum(h, Sum(a, b), 0);
    SameHistogram(Sum(Sum(h, a), b), Sum(h, Sum(a, b)));
  }

  /** Combining two deltas into one name gives the same result in either order. */
  lemma CombineCommutes(d: Distributions, name: string, a: Histogram, b: Histogram)
    ensures Combined(Combined(d, name, a), name, b) == Combined(Combined(d, name, b), name, a)
  {
    CombinedTwice(d, name, a, b);
    CombinedTwice(d, name, b, a);
    SumCommutes(HistogramOf(d.histograms, name), a, b);
  }

  /** Combining two deltas one after the other is combining their sum. */
  lemma CombineAssociates(d: Distributions, name: string, a: Histogram, b: Histogram)
    ensures Combined(Combined(d, name, a), name, b) == Combined(d, name, Sum(a, b))
  {
    CombinedTwice(d, name, a, b);
    SumAssociates(HistogramOf(d.histograms, name), a, b);
  }

  // ---------------------------------------------------------------- distributions element

  function DataElement(p: int, v: int): Element
  {
    Element(CollabNs, "data", map["point" := ShowInt(p), "value" := ShowInt(v)], [])
  }

  function DataElements(h: Histogram, points: seq<int>): (r: seq<Element>)
    requires forall i :: 0 <= i < |points| ==> points[i] in h
    ensures |r| == |points|
    ensures forall i :: 0 <= i < |points| ==> r[i] == DataElement(points[i], h[points[i]])
  {
    if points == [] then [] else [DataElement(points[0], h[points[0]])] + DataElements(h, points[1..])
  }

  /** A histogram element with its data in the order `pts`. */
  function HistogramElement(name: string, h: Histogram, pts: seq<int>): Element
    requires forall i :: 0 <= i < |pts| ==> pts[i] in h
  {
    Element(CollabNs, "histogram", map["name" := name], Wrap(DataElements(h, pts)))
  }

  /** The order in which each histogram's points are written: every point once. */
  ghost predicate PointOrders(d: Distributions, points: map<string, seq<int>>)
  {
    forall n :: n in d.histograms ==> n in points && IsOrder(points[n], d.histograms[n].Keys)
  }

  function HistogramElements(d: Distributions, names: seq<string>, points: map<string, seq<int>>): (r: seq<Element>)
    requires forall i :: 0 <= i < |names| ==> names[i] in d.histograms
    requires PointOrders(d, points)
    ensures |r| == |names|
    ensures forall i :: 0 <= i < |r| ==> r[i].name == "histogram"
  {
    if names == [] then []
    else
      PointsOf(d, points, names[0]);
      [HistogramElement(names[0], d.histograms[names[0]], points[names[0]])] + HistogramElements(d, names[1..], points)
  }

  /** The points written for a histogram are points of it. */
  lemma PointsOf(d: Distributions, points: map<string, seq<int>>, n: string)
    requires PointOrders(d, points) && n in d.histograms
    ensures n in points && forall i :: 0 <= i < |points[n]| ==> points[n][i] in d.histograms[n]
  {
  }

  /** `Distributions.toElement`, with the histogram names iterated in the
      order `names` and the points of histogram `n` in the order `points[n]`. */
  function DistributionsToElement(d: Distributions, names: seq<string>, points: map<string, seq<int>>): Element
    requires IsOrder(names, d.histograms.Keys) && PointOrders(d, points)
  {
    Element(CollabNs, "distributions", map[], Wrap(HistogramElements(d, names, points)))
  }

  /** `str()` of the `KeyError` a missing attribute raises: the `repr()`
      of its name. */
  function KeyErrorText(key: string): string
  {
    Repr(key)
  }

  /** The message of a missing attribute. */
  function BadStructure(key: string): string
  {
    "Bad data structure: " + KeyErrorText(key)
  }

  /** The message of an attribute that is not an integer. */
  function BadValue(text: string): string
  {
    "Bad data: " + IntErrorText(text)
  }

  /** One data element's point and value, read as the source reads them,
      `int(data['point'])` before `int(data['value'])`: a missing
      attribute is a bad structure, a non-integer a bad value, each
      message carrying the text of the Python exception. */
  function ReadDatum(e: Element): (r: Result<(int, int), SimulationError>)
    ensures r.Ok? <==> "point" in e.attrs && "value" in e.attrs
                       && ParseInt(e.attrs["point"]).Some? && ParseInt(e.attrs["value"]).Some?
    ensures r.Ok? ==> r.value == (ParseInt(e.attrs["point"]).value, ParseInt(e.attrs["value"]).value)
    ensures "point" !in e.attrs ==> r == Err(InvalidDistributions(BadStructure("point")))
    ensures "point" in e.attrs && ParseInt(e.attrs["point"]).None? ==>
              r == Err(InvalidDistributions(BadValue(e.attrs["point"])))
    ensures "point" in e.attrs && ParseInt(e.attrs["point"]).Some? && "value" !in e.attrs ==>
              r == Err(InvalidDistributions(BadStructure("value")))
    ensures "point" in e.attrs && ParseInt(e.attrs["point"]).Some? && "value" in e.attrs && ParseInt(e.attrs["value"]).None? ==>
              r == Err(InvalidDistributions(BadValue(e.attrs["value"])))
  {
    if "point" !in e.attrs then Err(InvalidDistributions(BadStructure("point")))
    else
      var p := ParseInt(e.attrs["point"]);
      if p.None? then Err(InvalidDistributions(BadValue(e.attrs["point"])))
      else if "value" !in e.attrs then Err(InvalidDistributions(BadStructure("value")))
      else
        var v := ParseInt(e.attrs["value"]);
        if v.None? then Err(InvalidDistributions(BadValue(e.attrs["value"])))
        else Ok((p.value, v.value))
  }

  /** For a key of plain characters the message quotes the key itself. */
  lemma BadStructurePlain(key: string)
    requires forall i :: 0 <= i < |key| ==> IsPlain(key[i])
    ensures BadStructure(key) == "Bad data structure: '" + key + "'"
  {
    assert '\'' !in key by {
      forall i | 0 <= i < |key| ensures key[i] != '\'' {
        assert IsPlain(key[i]);
      }
    }
    ReprBodyPlain(key, '\'');
  }

  /** A missing point reads "Bad data structure: 'point'". */
  lemma MissingPointMessage(e: Element)
    requires "point" !in e.attrs
    ensures ReadDatum(e) == Err(InvalidDistributions("Bad data structure: " + "'point'"))
  {
    assert '\'' !in "point";
    ReprBodyPlain("point", '\'');
    assert Repr("point") == "'point'";
  }

  /** A point "x" reads
      "Bad data: invalid literal for int() with base 10: 'x'". */
  lemma NonIntegerPointMessage(e: Element)
    requires "point" in e.attrs && e.attrs["point"] == "x"
    ensures ReadDatum(e) == Err(InvalidDistributions("Bad data: " + (IntErrorPrefix + "'x'")))
  {
    StripNoSpace("x");
    assert ParseInt("x").None?;
    IntErrorPlain("x");
    assert IntErrorPrefix + "'" + "x" + "'" == IntErrorPrefix + "'x'";
  }

  predicate IsGoodData(e: Element)
  {
    e.name == "data" ==> ReadDatum(e).Ok?
  }

  /** The points of the data elements of a list. */
  function DataPoints(ds: seq<Element>): set<int>
  {
    if ds == [] then {}
    else (if ds[0].name == "data" && ReadDatum(ds[0]).Ok? then {ReadDatum(ds[0]).value.0} else {}) + DataPoints(ds[1..])
  }

  /** The sum of the values the data elements of a list give point `p`. */
  function DataTally(ds: seq<Element>, p: int): int
  {
    if ds == [] then 0
    else
      (if ds[0].name == "data" && ReadDatum(ds[0]).Ok? && ReadDatum(ds[0]).value.0 == p
       then ReadDatum(ds[0]).value.1 else 0) + DataTally(ds[1..], p)
  }

  /** The position of the first bad data element, or `|ds|` when there is none. */
  function FirstBad(ds: seq<Element>): (i: nat)
    ensures i <= |ds|
    ensures forall j :: 0 <= j < i ==> IsGoodData(ds[j])
    ensures i < |ds| ==> !IsGoodData(ds[i])
  {
    if ds == [] then 0
    else if !IsGoodData(ds[0]) then 0
    else
      var k := FirstBad(ds[1..]);
      assert forall j :: 1 <= j < k + 1 ==> ds[j] == ds[1..][j - 1];
      k + 1
  }

  /** The data loop of `Distributions.fromElement`: skip non-data
      children, add each datum into the histogram. It stops at the first
      bad data element, with that element's error. */
  function ReadData(ds: seq<Element>, h: Histogram): (r: Result<Histogram, SimulationError>)
    ensures r.Ok? <==> forall i :: 0 <= i < |ds| ==> IsGoodData(ds[i])
    ensures r.Err? ==> r.error.InvalidDistributions?
    ensures r.Err? ==> FirstBad(ds) < |ds| && r.error == ReadDatum(ds[FirstBad(ds)]).error
    ensures r.Ok? ==> r.value.Keys == h.Keys + DataPoints(ds)
    ensures r.Ok? ==> forall p :: Count(r.value, p) == Count(h, p) + DataTally(ds, p)
  {
    if ds == [] then Ok(h)
    else if ds[0].name != "data" then ReadData(ds[1..], h)
    else
      var datum := ReadDatum(ds[0]);
      if datum.Err? then Err(datum.error)
      else
        var r := ReadData(ds[1..], h[datum.value.0 := Count(h, datum.value.0) + datum.value.1]);
        assert forall i :: 1 <= i < |ds| ==> ds[i] == ds[1..][i - 1];
        r
  }

  function NameOf(e: Element): string
  {
    if "name" in e.attrs then e.attrs["name"] else ""
  }

  predicate WellFormedHistogram(e: Element)
  {
    NameOf(e) != "" && forall i :: 0 <= i < |Elements(e)| ==> IsGoodData(Elements(e)[i])
  }

  function HistNames(hs: seq<Element>): set<string>
  {
    if hs == [] then {} else {NameOf(hs[0])} + HistNames(hs[1..])
  }

  /** The points given under histogram name `n` by a list of histogram elements. */
  function HistPoints(hs: seq<Element>, n: string): set<int>
  {
    if hs == [] then {}
    else (if NameOf(hs[0]) == n then DataPoints(Elements(hs[0])) else {}) + HistPoints(hs[1..], n)
  }

  /** The total count given to point `p` under histogram name `n`. */
  function HistTally(hs: seq<Element>, n: string, p: int): int
  {
    if hs == [] then 0
    else (if NameOf(hs[0]) == n then DataTally(Elements(hs[0]), p) else 0) + HistTally(hs[1..], n, p)
  }

  /** The histogram loop of `Distributions.fromElement`: same-named
      histograms accumulate into one. */
  function ReadHistograms(hs: seq<Element>, acc: map<string, Histogram>): (r: Result<map<string, Histogram>, SimulationError>)
    ensures r.Ok? <==> forall i :: 0 <= i < |hs| ==> WellFormedHistogram(hs[i])
    ensures r.Err? ==> r.error.InvalidDistributions?
  {
    if hs == [] then Ok(acc)
    else
      var name := NameOf(hs[0]);
      if name == "" then Err(InvalidDistributions("Distribution has no name"))
      else
        var h := ReadData(Elements(hs[0]), HistogramOf(acc, name));
        if h.Err? then Err(h.error)
        else
          var r := ReadHistograms(hs[1..], acc[name := h.value]);
          assert forall i :: 1 <= i < |hs| ==> hs[i] == hs[1..][i - 1];
          r
  }

  /** What the histogram loop accumulates: the names, the points under
      each name and the count of each point, added onto `acc`. */
  lemma ReadHistogramsSpec(hs: seq<Element>, acc: map<string, Histogram>)
    requires ReadHistograms(hs, acc).Ok?
    ensures ReadHistograms(hs, acc).value.Keys == acc.Keys + HistNames(hs)
    ensures forall n :: n in ReadHistograms(hs, acc).value ==>
              ReadHistograms(hs, acc).value[n].Keys == HistogramOf(acc, n).Keys + HistPoints(hs, n)
    ensures forall n, p :: n in ReadHistograms(hs, acc).value ==>
              Count(ReadHistograms(hs, acc).value[n], p) == Count(HistogramOf(acc, n), p) + HistTally(hs, n, p)
  {
    var r := ReadHistograms(hs, acc).value;
    forall n | true
      ensures n in r <==> n in acc.Keys + HistNames(hs)
    {
      ReadHistogramsNames(hs, acc, n);
    }
    forall n, x | n in r
      ensures x in r[n] <==> x in HistogramOf(acc, n).Keys + HistPoints(hs, n)
    {
      ReadHistogramsPoints(hs, acc, n, x);
    }
    forall n, p | n in r
      ensures Count(r[n], p) == Count(HistogramOf(acc, n), p) + HistTally(hs, n, p)
    {
      ReadHistogramsTally(hs, acc, n, p);
    }
  }

  lemma {:induction false} ReadHistogramsNames(hs: seq<Element>, acc: map<string, Histogram>, n: string)
    requires ReadHistograms(hs, acc).Ok?
    ensures n in ReadHistograms(hs, acc).value <==> n in acc || n in HistNames(hs)
  {
    if hs != [] {
      var name := NameOf(hs[0]);
      var h := ReadData(Elements(hs[0]), HistogramOf(acc, name));
      ReadHistogramsNames(hs[1..], acc[name := h.value], n);
    }
  }

  lemma {:induction false} ReadHistogramsPoints(hs: seq<Element>, acc: map<string, Histogram>, n: string, x: int)
    requires ReadHistograms(hs, acc).Ok?
    requires n in ReadHistograms(hs, acc).value
    ensures x in ReadHistograms(hs, acc).value[n] <==> x in HistogramOf(acc, n) || x in HistPoints(hs, n)
  {
    if hs != [] {
      var name := NameOf(hs[0]);
      var h := ReadData(Elements(hs[0]), HistogramOf(acc, name));
      ReadHistogramsPoints(hs[1..], acc[name := h.value], n, x);
    }
  }

  lemma {:induction false} ReadHistogramsTally(hs: seq<Element>, acc: map<string, Histogram>, n: string, p: int)
    requires ReadHistograms(hs, acc).Ok?
    requires n in ReadHistograms(hs, acc).value
    ensures Count(ReadHistograms(hs, acc).value[n], p) == Count(HistogramOf(acc, n), p) + HistTally(hs, n, p)
  {
    if hs != [] {
      var name := NameOf(hs[0]);
      var h := ReadData(Elements(hs[0]), HistogramOf(acc, name));
      ReadHistogramsTally(hs[1..], acc[name := h.value], n, p);
    }
  }

  /** `Distributions.fromElement`: the first distributions element, whose
      histogram children all need a name and well-formed data. */
  function DistributionsFromElement(item: Element): (r: Result<Distributions, SimulationError>)
    ensures FindFirst(item, CollabNs, "distributions", None).None? ==> r == Err(InvalidDistributions("No distributions found"))
    ensures r.Err? ==> r.error.InvalidDistributions?
    ensures (r.Ok? <==> (FindFirst(item, CollabNs, "distributions", None).Some?
                         && var hs := Named(Elements(FindFirst(item, CollabNs, "distributions", None).value), "histogram");
                            forall i :: 0 <= i < |hs| ==> WellFormedHistogram(hs[i])))
    ensures r.Ok? ==> var hs := Named(Elements(FindFirst(item, CollabNs, "distributions", None).value), "histogram");
                      r.value.histograms.Keys == HistNames(hs)
                      && (forall n :: n in r.value.histograms ==> r.value.histograms[n].Keys == HistPoints(hs, n))
                      && forall n, p :: n in r.value.histograms ==> Count(r.value.histograms[n], p) == HistTally(hs, n, p)
  {
    match FindFirst(item, CollabNs, "distributions", None)
    case None => Err(InvalidDistributions("No distributions found"))
    case Some(el) =>
      ReachChild(el, "histogram");
      var hs := QueryNodes(el, CollabNs, "distributions", ["histogram"]);
      var r := ReadHistograms(hs, map[]);
      if r.Err? then Err(r.error)
      else
        ReadHistogramsSpec(hs, map[]);
        Ok(Distributions(r.value))
  }

  lemma ReadDatumData(p: int, v: int)
    ensures ReadDatum(DataElement(p, v)) == Ok((p, v))
  {
    ParseShowInt(p);
    ParseShowInt(v);
  }

  lemma DataElementsGood(h: Histogram, points: seq<int>)
    requires forall i :: 0 <= i < |points| ==> points[i] in h
    ensures forall i :: 0 <= i < |points| ==> IsGoodData(DataElements(h, points)[i])
  {
    forall i | 0 <= i < |points|
      ensures IsGoodData(DataElements(h, points)[i])
    {
      ReadDatumData(points[i], h[points[i]]);
    }
  }

  lemma {:induction false} DataElementsPoints(h: Histogram, points: seq<int>, x: int)
    requires forall i :: 0 <= i < |points| ==> points[i] in h
    ensures x in DataPoints(DataElements(h, points)) <==> x in points
  {
    if points != [] {
      var ds := DataElements(h, points);
      ReadDatumData(points[0], h[points[0]]);
      assert ds[1..] == DataElements(h, points[1..]);
      DataElementsPoints(h, points[1..], x);
      assert x in points <==> x == points[0] || x in points[1..];
    }
  }

  lemma {:induction false} DataElementsTally(h: Histogram, points: seq<int>, p: int)
    requires forall i :: 0 <= i < |points| ==> points[i] in h
    requires Distinct(points)
    ensures DataTally(DataElements(h, points), p) == if p in points then h[p] else 0
  {
    if points != [] {
      var ds := DataElements(h, points);
      ReadDatumData(points[0], h[points[0]]);
      assert ds[1..] == DataElements(h, points[1..]);
      DistinctRest(points, p);
      DataElementsTally(h, points[1..], p);
    }
  }

  /** Reading back the data of a written histogram. */
  lemma HistogramElementData(name: string, h: Histogram, pts: seq<int>)
    requires forall i :: 0 <= i < |pts| ==> pts[i] in h
    ensures Elements(HistogramElement(name, h, pts)) == DataElements(h, pts)
    ensures NameOf(HistogramElement(name, h, pts)) == name
  {
    ElementsOfWrapped(DataElements(h, pts));
  }

  /** Element `e` reads back as histogram `h` under name `name`: good data
      only, with the points of `h` and the count of each. */
  ghost predicate Describes(e: Element, name: string, h: Histogram)
  {
    && NameOf(e) == name
    && (forall k :: 0 <= k < |Elements(e)| ==> IsGoodData(Elements(e)[k]))
    && DataPoints(Elements(e)) == h.Keys
    && forall p :: DataTally(Elements(e), p) == Count(h, p)
  }

  /** The elements `hs` read back, in order, as the histograms of `d` under `names`. */
  ghost predicate DescribesAll(hs: seq<Element>, d: Distributions, names: seq<string>)
  {
    && |hs| == |names|
    && forall i :: 0 <= i < |hs| ==> names[i] in d.histograms && Describes(hs[i], names[i], d.histograms[names[i]])
  }

  /** Data elements written for every point of `h`, once each, read back as `h`. */
  lemma DataElementsDescribe(h: Histogram, pts: seq<int>)
    requires IsOrder(pts, h.Keys)
    ensures forall k :: 0 <= k < |pts| ==> IsGoodData(DataElements(h, pts)[k])
    ensures DataPoints(DataElements(h, pts)) == h.Keys
    ensures forall p :: DataTally(DataElements(h, pts), p) == Count(h, p)
  {
    OrderMembers(pts, h.Keys);
    DataElementsGood(h, pts);
    DataElementsAllPoints(h, pts);
    DataElementsAllTallies(h, pts);
  }

  lemma DataElementsAllPoints(h: Histogram, pts: seq<int>)
    requires IsOrder(pts, h.Keys)
    requires forall i :: 0 <= i < |pts| ==> pts[i] in h
    ensures DataPoints(DataElements(h, pts)) == h.Keys
  {
    forall x | true
      ensures x in DataPoints(DataElements(h, pts)) <==> x in h.Keys
    {
      DataElementsPoints(h, pts, x);
    }
  }

  lemma DataElementsAllTallies(h: Histogram, pts: seq<int>)
    requires IsOrder(pts, h.Keys)
    requires forall i :: 0 <= i < |pts| ==> pts[i] in h
    ensures forall p :: DataTally(DataElements(h, pts), p) == Count(h, p)
  {
    forall p | true
      ensures DataTally(DataElements(h, pts), p) == Count(h, p)
    {
      DataElementsTally(h, pts, p);
    }
  }

  /** A written histogram element reads back as the histogram written. */
  lemma HistogramElementDescribes(name: string, h: Histogram, pts: seq<int>)
    requires IsOrder(pts, h.Keys)
    ensures Describes(HistogramElement(name, h, pts), name, h)
  {
    HistogramElementData(name, h, pts);
    DataElementsDescribe(h, pts);
  }

  lemma {:induction false} HistogramElementsDescribe(d: Distributions, names: seq<string>, points: map<string, seq<int>>)
    requires forall i :: 0 <= i < |names| ==> names[i] in d.histograms
    requires PointOrders(d, points)
    ensures DescribesAll(HistogramElements(d, names, points), d, names)
  {
    if names != [] {
      var hs := HistogramElements(d, names, points);
      HistogramElementsDescribe(d, names[1..], points);
      HistogramElementDescribes(names[0], d.histograms[names[0]], points[names[0]]);
      assert hs[1..] == HistogramElements(d, names[1..], points);
      forall i | 1 <= i < |hs|
        ensures names[i] in d.histograms && Describes(hs[i], names[i], d.histograms[names[i]])
      {
        assert hs[i] == hs[1..][i - 1] && names[i] == names[1..][i - 1];
      }
    }
  }

  lemma DescribesTail(hs: seq<Element>, d: Distributions, names: seq<string>)
    requires hs != [] && DescribesAll(hs, d, names)
    ensures DescribesAll(hs[1..], d, names[1..])
  {
    forall i | 0 <= i < |hs| - 1
      ensures names[1..][i] in d.histograms && Describes(hs[1..][i], names[1..][i], d.histograms[names[1..][i]])
    {
      assert hs[1..][i] == hs[i + 1] && names[1..][i] == names[i + 1];
    }
  }

  lemma {:induction false} DescribedNames(hs: seq<Element>, d: Distributions, names: seq<string>, n: string)
    requires DescribesAll(hs, d, names)
    ensures n in HistNames(hs) <==> n in names
  {
    if hs != [] {
      DescribesTail(hs, d, names);
      DescribedNames(hs[1..], d, names[1..], n);
      assert n in names <==> n == names[0] || n in names[1..];
    }
  }

  lemma {:induction false} DescribedPoints(hs: seq<Element>, d: Distributions, names: seq<string>, n: string, x: int)
    requires DescribesAll(hs, d, names) && Distinct(names)
    ensures x in HistPoints(hs, n) <==> n in names && x in d.histograms[n]
  {
    if hs != [] {
      DescribesTail(hs, d, names);
      DistinctRest(names, n);
      DescribedPoints(hs[1..], d, names[1..], n, x);
    }
  }

  lemma {:induction false} DescribedTally(hs: seq<Element>, d: Distributions, names: seq<string>, n: string, p: int)
    requires DescribesAll(hs, d, names) && Distinct(names)
    ensures HistTally(hs, n, p) == if n in names then Count(d.histograms[n], p) else 0
  {
    if hs != [] {
      DescribesTail(hs, d, names);
      DistinctRest(names, n);
      DescribedTally(hs[1..], d, names[1..], n, p);
    }
  }

  lemma {:induction false} NamedAll(cs: seq<Element>, name: string)
    requires forall i :: 0 <= i < |cs| ==> cs[i].name == name
    ensures Named(cs, name) == cs
  {
    if cs != [] {
      NamedAll(cs[1..], name);
    }
  }

  /** Writing distributions out and reading them back gives them again,
      when no histogram has the empty name. */
  lemma DistributionsRoundTrip(d: Distributions, names: seq<string>, points: map<string, seq<int>>)
    requires "" !in d.histograms
    requires IsOrder(names, d.histograms.Keys) && PointOrders(d, points)
    ensures DistributionsFromElement(DistributionsToElement(d, names, points)) == Ok(d)
  {
    WrittenDistributions(d, names, points);
    HistogramElementsDescribe(d, names, points);
    ReadWritten(DistributionsToElement(d, names, points), d, names, HistogramElements(d, names, points));
  }

  /** The written element is its own first distributions element, and its
      histogram children are the histograms in the order written. */
  lemma WrittenDistributions(d: Distributions, names: seq<string>, points: map<string, seq<int>>)
    requires IsOrder(names, d.histograms.Keys) && PointOrders(d, points)
    ensures FindFirst(DistributionsToElement(d, names, points), CollabNs, "distributions", None)
            == Some(DistributionsToElement(d, names, points))
    ensures Named(Elements(DistributionsToElement(d, names, points)), "histogram") == HistogramElements(d, names, points)
  {
    var hs := HistogramElements(d, names, points);
    ElementsOfWrapped(hs);
    NamedAll(hs, "histogram");
  }

  /** An element whose first distributions element holds histogram
      elements that read back as every histogram of `d`, once each, reads
      as `d`. */
  lemma ReadWritten(item: Element, d: Distributions, names: seq<string>, hs: seq<Element>)
    requires "" !in d.histograms
    requires IsOrder(names, d.histograms.Keys)
    requires DescribesAll(hs, d, names)
    requires FindFirst(item, CollabNs, "distributions", None).Some?
    requires Named(Elements(FindFirst(item, CollabNs, "distributions", None).value), "histogram") == hs
    ensures DistributionsFromElement(item) == Ok(d)
  {
    var r := DistributionsFromElement(item);
    assert r.Ok? by {
      assert forall i :: 0 <= i < |hs| ==> WellFormedHistogram(hs[i]);
    }
    HistogramsReadBack(d, names, hs, r.value.histograms);
  }

  /** Histograms whose names, points and counts are those read from
      elements describing `d` are those of `d`. */
  lemma HistogramsReadBack(d: Distributions, names: seq<string>, hs: seq<Element>, got: map<string, Histogram>)
    requires IsOrder(names, d.histograms.Keys)
    requires DescribesAll(hs, d, names)
    requires got.Keys == HistNames(hs)
    requires forall n :: n in got ==> got[n].Keys == HistPoints(hs, n)
    requires forall n, p :: n in got ==> Count(got[n], p) == HistTally(hs, n, p)
    ensures got == d.histograms
  {
    forall n | true
      ensures n in got <==> n in d.histograms
    {
      DescribedNames(hs, d, names, n);
    }
    forall n | n in d.histograms
      ensures got[n] == d.histograms[n]
    {
      forall x | true
        ensures x in got[n] <==> x in d.histograms[n]
      {
        DescribedPoints(hs, d, names, n, x);
      }
      forall p | true
        ensures Count(got[n], p) == Count(d.histograms[n], p)
      {
        DescribedTally(hs, d, names, n, p);
      }
      SameHistogram(got[n], d.histograms[n]);
    }
    SameMap(got, d.histograms);
  }

  // ---------------------------------------------------------------- progress

  datatype Progress = Progress(runs: int)

  function ProgressToElement(p: Progress): Element
  {
    Element(CollabNs, "progress", map[], [Elem(TextElement(CollabNs, "runs", ShowInt(p.runs)))])
  }

  /** `Progress.fromElement`: the first progress element; a runs text that
      is missing or not an integer counts as 0. */
  function ProgressFromElement(item: Element): (r: Result<Progress, SimulationError>)
    ensures r.Err? <==> FindFirst(item, CollabNs, "progress", None).None?
    ensures r.Err? ==> r.error == InvalidProgress("No progress")
    ensures r.Ok? && Named(Elements(FindFirst(item, CollabNs, "progress", None).value), "runs") == [] ==> r.value.runs == 0
    ensures r.Ok? && ParseInt(RunsText(FindFirst(item, CollabNs, "progress", None).value)).Some? ==>
              r.value.runs == ParseInt(RunsText(FindFirst(item, CollabNs, "progress", None).value)).value
    ensures r.Ok? && ParseInt(RunsText(FindFirst(item, CollabNs, "progress", None).value)).None? ==> r.value.runs == 0
  {
    match FindFirst(item, CollabNs, "progress", None)
    case None => Err(InvalidProgress("No progress"))
    case Some(el) =>
      ReachChild(el, "runs");
      var runs := ParseInt(RunsText(el));
      Ok(Progress(if runs.Some? then runs.value else 0))
  }

  /** The text of the runs children of a progress element, as
      `queryForString` gathers it. */
  function RunsText(el: Element): string
  {
    QueryString(el, CollabNs, "progress", ["runs"])
  }

  lemma ProgressRoundTrip(p: Progress)
    ensures ProgressFromElement(ProgressToElement(p)) == Ok(p)
  {
    var root := ProgressToElement(p);
    assert FindFirst(root, CollabNs, "progress", None) == Some(root);
    ReachChild(root, "runs");
    assert Elements(root) == [TextElement(CollabNs, "runs", ShowInt(p.runs))];
    NamedOnly(Elements(root), "runs", 0);
    ConcatOne(Elements(root)[0]);
    ParseShowInt(p.runs);
  }

  // ---------------------------------------------------------------- logger

  /** A log: for each severity, its messages in the order they were added.
      A message read back from an element is that element's first child,
      which need not be text. */
  datatype Logger = Logger(logs: map<string, seq<Node>>)

  const EmptyLogger := Logger(map[])

  function Messages(l: Logger, severity: string): seq<Node>
  {
    if severity in l.logs then l.logs[severity] else []
  }

  /** `Logger.addLog`. */
  function AddLog(l: Logger, severity: string, msg: Node): (r: Logger)
    ensures r.logs.Keys == l.logs.Keys + {severity}
    ensures Messages(r, severity) == Messages(l, severity) + [msg]
    ensures forall s :: s != severity ==> Messages(r, s) == Messages(l, s)
  {
    Logger(l.logs[severity := Messages(l, severity) + [msg]])
  }

  /** Log one text message under the error severity. */
  function LogError(l: Logger, msg: string): Logger
  {
    AddLog(l, ErrorEl, Text(msg))
  }

  /** `Logger.hasSeverity`. */
  predicate HasSeverity(l: Logger, severity: string)
  {
    severity in l.logs
  }

  /** Adding a list of (severity, message) entries in order. */
  function AddLogs(l: Logger, entries: seq<(string, Node)>): Logger
    decreases |entries|
  {
    if entries == [] then l else AddLogs(AddLog(l, entries[0].0, entries[0].1), entries[1..])
  }

  /** The messages of the entries logged under severity `s`, in order. */
  function LoggedUnder(entries: seq<(string, Node)>, s: string): seq<Node>
  {
    if entries == [] then []
    else (if entries[0].0 == s then [entries[0].1] else []) + LoggedUnder(entries[1..], s)
  }

  /** Logging appends in order per severity, and a severity is present
      exactly when something was logged under it. */
  lemma {:induction false} AddLogsSpec(l: Logger, entries: seq<(string, Node)>, s: string)
    decreases |entries|
    ensures Messages(AddLogs(l, entries), s) == Messages(l, s) + LoggedUnder(entries, s)
    ensures HasSeverity(AddLogs(l, entries), s) <==> HasSeverity(l, s) || LoggedUnder(entries, s) != []
  {
    if entries != [] {
      AddLogsSpec(AddLog(l, entries[0].0, entries[0].1), entries[1..], s);
    }
  }

  /** The (severity, first child) entries of the children that have content. */
  function LogEntries(cs: seq<Element>): seq<(string, Node)>
  {
    if cs == [] then []
    else (if cs[0].children == [] then [] else [(cs[0].name, cs[0].children[0])]) + LogEntries(cs[1..])
  }

  /** `Logger.fromElement`: the first logger element; each child with
      content logs its first child under the child's name. */
  function LoggerFromElement(item: Element): (r: Result<Logger, SimulationError>)
    ensures r.Err? <==> FindFirst(item, CollabNs, LoggerEl, None).None?
    ensures r.Err? ==> r.error == InvalidLogger("Not a log")
    ensures r.Ok? ==> forall s :: Messages(r.value, s) == LoggedUnder(LogEntries(Elements(FindFirst(item, CollabNs, LoggerEl, None).value)), s)
    ensures r.Ok? ==> forall s :: HasSeverity(r.value, s) <==> Messages(r.value, s) != []
  {
    match FindFirst(item, CollabNs, LoggerEl, None)
    case None => Err(InvalidLogger("Not a log"))
    case Some(el) =>
      var entries := LogEntries(Elements(el));
      var r := AddLogs(EmptyLogger, entries);
      forall s | true
        ensures Messages(r, s) == LoggedUnder(entries, s)
        ensures HasSeverity(r, s) <==> Messages(r, s) != []
      {
        AddLogsSpec(EmptyLogger, entries, s);
      }
      Ok(r)
  }

  /** The element a message is written as: `addElement(severity, content=m)`. */
  function MessageElement(severity: string, m: Node): Element
  {
    match m
    case Text(t) => TextElement(CollabNs, severity, t)
    case Elem(e) => Element(CollabNs, severity, map[], [Elem(e)])
  }

  function MessageElements(severity: string, ms: seq<Node>): (r: seq<Element>)
    ensures |r| == |ms|
  {
    if ms == [] then [] else [MessageElement(severity, ms[0])] + MessageElements(severity, ms[1..])
  }

  function LogElements(l: Logger, severities: seq<string>): seq<Element>
  {
    if severities == [] then []
    else MessageElements(severities[0], Messages(l, severities[0])) + LogElements(l, severities[1..])
  }

  /** `Logger.toElement`, with the severities iterated in the order `severities`. */
  function LoggerToElement(l: Logger, severities: seq<string>): Element
    requires IsOrder(severities, l.logs.Keys)
  {
    Element(CollabNs, LoggerEl, map[], Wrap(LogElements(l, severities)))
  }

  /** A logger that survives the element form: every severity holds a
      message, and no message is empty text (which domish would drop). */
  predicate WritableLogger(l: Logger)
  {
    forall s :: s in l.logs ==> l.logs[s] != [] && Text("") !in l.logs[s]
  }

  lemma {:induction false} LogEntriesAppend(a: seq<Element>, b: seq<Element>)
    ensures LogEntries(a + b) == LogEntries(a) + LogEntries(b)
  {
    if a == [] {
      assert a + b == b;
    } else {
      assert (a + b)[1..] == a[1..] + b;
      LogEntriesAppend(a[1..], b);
    }
  }

  lemma {:induction false} LoggedUnderAppend(a: seq<(string, Node)>, b: seq<(string, Node)>, s: string)
    ensures LoggedUnder(a + b, s) == LoggedUnder(a, s) + LoggedUnder(b, s)
  {
    if a == [] {
      assert a + b == b;
    } else {
      var h := if a[0].0 == s then [a[0].1] else [];
      assert (a + b)[0] == a[0] && (a + b)[1..] == a[1..] + b;
      assert LoggedUnder(a + b, s) == h + LoggedUnder(a[1..] + b, s);
      LoggedUnderAppend(a[1..], b, s);
      assert LoggedUnder(a, s) == h + LoggedUnder(a[1..], s);
    }
  }

  lemma {:induction false} MessageElementsEntries(severity: string, ms: seq<Node>, s: string)
    requires Text("") !in ms
    ensures LoggedUnder(LogEntries(MessageElements(severity, ms)), s) == if s == severity then ms else []
  {
    if ms != [] {
      var es := MessageElements(severity, ms);
      assert es[1..] == MessageElements(severity, ms[1..]);
      assert es[0].children == [ms[0]] && es[0].name == severity;
      assert LogEntries(es) == [(severity, ms[0])] + LogEntries(es[1..]);
      MessageElementsEntries(severity, ms[1..], s);
    }
  }

  lemma {:induction false} LogElementsEntries(l: Logger, severities: seq<string>, s: string)
    requires WritableLogger(l)
    requires Distinct(severities)
    ensures LoggedUnder(LogEntries(LogElements(l, severities)), s) == if s in severities then Messages(l, s) else []
  {
    if severities != [] {
      var s0 := severities[0];
      var first := MessageElements(s0, Messages(l, s0));
      LogEntriesAppend(first, LogElements(l, severities[1..]));
      LoggedUnderAppend(LogEntries(first), LogEntries(LogElements(l, severities[1..])), s);
      MessageElementsEntries(s0, Messages(l, s0), s);
      LogElementsEntries(l, severities[1..], s);
      if s in severities[1..] {
        var k :| 0 <= k < |severities[1..]| && severities[1..][k] == s;
        assert s0 != s;
      }
    }
  }

  /** Writing a logger out and reading it back gives it again. */
  lemma LoggerRoundTrip(l: Logger, severities: seq<string>)
    requires WritableLogger(l)
    requires IsOrder(severities, l.logs.Keys)
    ensures LoggerFromElement(LoggerToElement(l, severities)) == Ok(l)
  {
    WrittenLogger(l, severities);
    ReadLogWritten(LoggerToElement(l, severities), l, severities);
  }

  /** The written element is its own first logger element, and its
      children are the messages in the order written. */
  lemma WrittenLogger(l: Logger, severities: seq<string>)
    requires IsOrder(severities, l.logs.Keys)
    ensures FindFirst(LoggerToElement(l, severities), CollabNs, LoggerEl, None) == Some(LoggerToElement(l, severities))
    ensures Elements(LoggerToElement(l, severities)) == LogElements(l, severities)
  {
    ElementsOfWrapped(LogElements(l, severities));
  }

  /** An element whose first logger element holds the message elements of
      every severity of `l`, once each, reads as `l`. */
  lemma ReadLogWritten(item: Element, l: Logger, sevs: seq<string>)
    requires WritableLogger(l)
    requires IsOrder(sevs, l.logs.Keys)
    requires FindFirst(item, CollabNs, LoggerEl, None).Some?
    requires Elements(FindFirst(item, CollabNs, LoggerEl, None).value) == LogElements(l, sevs)
    ensures LoggerFromElement(item) == Ok(l)
  {
    var got := LoggerFromElement(item).value;
    forall s | true
      ensures Messages(got, s) == Messages(l, s)
    {
      LogElementsEntries(l, sevs, s);
    }
    forall s | true
      ensures s in got.logs <==> s in l.logs
    {
      assert HasSeverity(got, s) <==> Messages(got, s) != [];
    }
    forall s | s in got.logs
      ensures got.logs[s] == l.logs[s]
    {
      assert Messages(got, s) == Messages(l, s);
    }
    SameMap(got.logs, l.logs);
  }

  // ---------------------------------------------------------------- get* helpers

  /** `getParameters`: an `InvalidParametersError` is logged and gives no
      parameters; a `ValueError` is not caught and escapes. */
  function GetParameters(item: Element, logs: Logger, now: Timestamp): (r: Result<(Option<Parameters>, Logger), SimulationError>)
    ensures r.Err? <==> ParametersFromElement(item, now).Err? && ParametersFromElement(item, now).error.ValueError?
    ensures r.Ok? && r.value.0.Some? ==> ParametersFromElement(item, now) == Ok(r.value.0.value) && r.value.1 == logs
    ensures r.Ok? && r.value.0.None? ==>
              ParametersFromElement(item, now).Err? && r.value.1 == LogError(logs, ParametersFromElement(item, now).error.reason)
  {
    match ParametersFromElement(item, now)
    case Ok(p) => Ok((Some(p), logs))
    case Err(e) =>
      if e.ValueError? then Err(e) else Ok((None, LogError(logs, e.reason)))
  }

  /** `getDistributions`: every parse error is logged and gives none. */
  function GetDistributions(item: Element, logs: Logger): (r: (Option<Distributions>, Logger))
    ensures r.0.Some? <==> DistributionsFromElement(item).Ok?
    ensures r.0.Some? ==> r.0.value == DistributionsFromElement(item).value && r.1 == logs
    ensures r.0.None? ==> r.1 == LogError(logs, DistributionsFromElement(item).error.reason)
  {
    match DistributionsFromElement(item)
    case Ok(d) => (Some(d), logs)
    case Err(e) => (None, LogError(logs, e.reason))
  }

  /** Written parameters are got back and nothing is logged. */
  lemma GetWrittenParameters(p: Parameters, logs: Logger, now: Timestamp)
    ensures GetParameters(ParametersToElement(p), logs, now) == Ok((Some(p), logs))
  {
    ParametersRoundTrip(p, now);
  }

  /** Written distributions are got back and nothing is logged. */
  lemma GetWrittenDistributions(d: Distributions, names: seq<string>, points: map<string, seq<int>>, logs: Logger)
    requires "" !in d.histograms
    requires IsOrder(names, d.histograms.Keys) && PointOrders(d, points)
    ensures GetDistributions(DistributionsToElement(d, names, points), logs) == (Some(d), logs)
  {
    DistributionsRoundTrip(d, names, points);
  }

  /** A written progress is got back and nothing is logged. */
  lemma GetWrittenProgress(p: Progress, logs: Logger)
    ensures GetProgress(ProgressToElement(p), logs) == (Some(p), logs)
  {
    ProgressRoundTrip(p);
  }

  /** `getProgress`: a missing progress element is logged and gives none. */
  function GetProgress(item: Element, logs: Logger): (r: (Option<Progress>, Logger))
    ensures r.0.Some? <==> FindFirst(item, CollabNs, "progress", None).Some?
    ensures r.0.Some? ==> r.0.value == ProgressFromElement(item).value && r.1 == logs
    ensures r.0.None? ==> r.1 == LogError(logs, "No progress")
  {
    match ProgressFromElement(item)
    case Ok(p) => (Some(p), logs)
    case Err(e) => (None, LogError(logs, e.reason))
  }
}

=== FILE: state_manager.dfy ===
/** State handling for the ad-hoc command wizards (`stateManager.py`):
    the state changers that collect required fields, the merger that
    keeps a history of form states, the manager that commits the latest
    state, the affiliation lists a pubsub node is given, and the naming
    loop that creates a node. */
module StateManager {
  import opened Wrappers
  import opened Collab
  import opened Collections
  import opened NumberText

  /** A form field value: one text or a list of texts. */
  datatype Value = Single(text: string) | Multi(texts: seq<string>)

  /** A form state: field name to value. */
  type State = map<string, Value>

  // ---------------------------------------------------------------- state changers

  /** `StateChangerBase`: the fields a commit needs and the values
      collected for them so far. */
  datatype Changer = Changer(required: seq<string>, data: State)

  function NewChanger(required: seq<string>): Changer
  {
    Changer(required, map[])
  }

  /** Only required fields are ever stored. */
  predicate OnlyRequired(c: Changer)
  {
    forall k :: k in c.data ==> k in c.required
  }

  /** `isValid`: walks the required fields, failing at the first missing one. */
  function IsValid(c: Changer): bool
  {
    AllPresent(c.required, c.data)
  }

  function AllPresent(fields: seq<string>, data: State): bool
  {
    fields == [] || (fields[0] in data && AllPresent(fields[1..], data))
  }

  /** A changer is valid exactly when every required field has a value. */
  lemma {:induction false} AllPresentSpec(fields: seq<string>, data: State)
    ensures AllPresent(fields, data) <==> forall i :: 0 <= i < |fields| ==> fields[i] in data
  {
    if fields != [] {
      AllPresentSpec(fields[1..], data);
      assert forall i :: 1 <= i < |fields| ==> fields[i] == fields[1..][i - 1];
    }
  }

  lemma IsValidSpec(c: Changer)
    ensures IsValid(c) <==> forall i :: 0 <= i < |c.required| ==> c.required[i] in c.data
  {
    AllPresentSpec(c.required, c.data);
  }

  /** `add`: a required field takes the new value, overwriting any
      earlier one; any other field is ignored. */
  function Add(c: Changer, field: string, v: Value): (r: Changer)
    ensures r.required == c.required
    ensures field in c.required ==> field in r.data && r.data[field] == v
    ensures field !in c.required ==> r == c
    ensures forall k :: k != field ==> (k in r.data <==> k in c.data)
    ensures forall k :: k != field && k in c.data ==> r.data[k] == c.data[k]
  {
    if field in c.required then c.(data := c.data[field := v]) else c
  }

  /** `reset`: the collected values are dropped. */
  function Reset(c: Changer): (r: Changer)
    ensures r.required == c.required && r.data == map[]
    ensures OnlyRequired(r) && (IsValid(r) <==> c.required == [])
  {
    Changer(c.required, map[])
  }

  lemma AddKeepsOnlyRequired(c: Changer, field: string, v: Value)
    requires OnlyRequired(c)
    ensures OnlyRequired(Add(c, field, v))
  {
  }

  /** Adding a value never makes a valid changer invalid. */
  lemma AddKeepsValid(c: Changer, field: string, v: Value)
    requires IsValid(c)
    ensures IsValid(Add(c, field, v))
  {
    IsValidSpec(c);
    IsValidSpec(Add(c, field, v));
  }

  /** The fields of a state fed to a changer one by one, in the
      iteration order `order` of the state's keys. */
  function AddAll(c: Changer, s: State, order: seq<string>): (r: Changer)
    requires forall i :: 0 <= i < |order| ==> order[i] in s
    decreases |order|
    ensures r.required == c.required
  {
    if order == [] then c else AddAll(Add(c, order[0], s[order[0]]), s, order[1..])
  }

  /** What feeding state `s` leaves in the changer: its required fields
      override the values held before. */
  function Fed(c: Changer, s: State): State
  {
    map k | k in c.data.Keys + s.Keys && (k in c.data || k in c.required) ::
      if k in s && k in c.required then s[k] else c.data[k]
  }

  /** Whatever order the state's fields come in, the changer ends up
      holding the same values. */
  lemma {:induction false} AddAllSpec(c: Changer, s: State, order: seq<string>)
    requires IsOrder(order, s.Keys)
    decreases |order|
    ensures AddAll(c, s, order).data == Fed(c, s)
  {
    if order == [] {
      assert s.Keys == {};
      SameMap(c.data, Fed(c, s));
    } else {
      var x := order[0];
      var rest := s - {x};
      forall y ensures y in order[1..] <==> y in rest.Keys {
        DistinctRest(order, y);
      }
      DistinctRest(order, x);
      var c1 := Add(c, x, s[x]);
      AddAllSpec(c1, rest, order[1..]);
      AddAllOther(c1, s, rest, order[1..]);
      SameMap(AddAll(c, s, order).data, Fed(c, s));
    }
  }

  /** Feeding from `s` or from `s` without fields `order` never names
      gives the same changer. */
  lemma {:induction false} AddAllOther(c: Changer, s: State, t: State, order: seq<string>)
    requires forall i :: 0 <= i < |order| ==> order[i] in t && order[i] in s && t[order[i]] == s[order[i]]
    decreases |order|
    ensures AddAll(c, s, order) == AddAll(c, t, order)
  {
    if order != [] {
      AddAllOther(Add(c, order[0], s[order[0]]), s, t, order[1..]);
    }
  }

  // ---------------------------------------------------------------- the merger

  /** `StateMerger`: the snapshots taken so far and the merged data. */
  datatype Merger = Merger(states: seq<State>, data: State)

  const EmptyMerger := Merger([], map[])

  /** `merge`: the state's fields override the merged data, and a
      snapshot of the result is appended to the history. */
  function Merge(m: Merger, s: State): (r: Merger)
    ensures r.data.Keys == m.data.Keys + s.Keys
    ensures forall k :: k in s ==> r.data[k] == s[k]
    ensures forall k :: k in m.data && k !in s ==> r.data[k] == m.data[k]
    ensures r.states == m.states + [r.data]
  {
    var d := m.data + s;
    Merger(m.states + [d], d)
  }

  // ---------------------------------------------------------------- the manager

  datatype StateError = EmptyHistory(reason: string) | InvalidState(reason: string)

  /** `StateManager`: a changer and a merger. */
  datatype Manager = Manager(changer: Changer, merger: Merger)

  function NewManager(changer: Changer): Manager
  {
    Manager(changer, EmptyMerger)
  }

  /** `reset`: history and collected values are both dropped. */
  function ResetManager(m: Manager): (r: Manager)
    ensures r.merger == EmptyMerger && r.changer == Reset(m.changer)
  {
    Manager(Reset(m.changer), EmptyMerger)
  }

  /** `head`: the latest snapshot; with none, `EmptyStateManagerError`. */
  function Head(m: Manager): (r: Result<State, StateError>)
    ensures r.Err? <==> m.merger.states == []
    ensures r.Err? ==> r.error == EmptyHistory("No more data history")
    ensures r.Ok? ==> r.value == m.merger.states[|m.merger.states| - 1]
  {
    if m.merger.states == [] then Err(EmptyHistory("No more data history"))
    else Ok(m.merger.states[|m.merger.states| - 1])
  }

  /** `push`. */
  function Push(m: Manager, s: State): Manager
  {
    m.(merger := Merge(m.merger, s))
  }

  /** After a push the head is the merged data, holding the pushed fields. */
  lemma PushThenHead(m: Manager, s: State)
    ensures Head(Push(m, s)) == Ok(Push(m, s).merger.data)
    ensures forall k :: k in s ==> k in Push(m, s).merger.data && Push(m, s).merger.data[k] == s[k]
  {
  }

  /** `penultimateState`: with fewer than two snapshots it raises and
      changes nothing; otherwise the last two are removed and the earlier
      of them is returned. The merged data is left as it was. */
  function Penultimate(m: Manager): (r: (Manager, Result<State, StateError>))
    ensures |m.merger.states| <= 1 <==> r.1.Err?
    ensures r.1.Err? ==> r.0 == m && r.1.error == EmptyHistory("No penultimate data history")
    ensures r.1.Ok? ==> r.1.value == m.merger.states[|m.merger.states| - 2]
                        && r.0.merger.states == m.merger.states[..|m.merger.states| - 2]
                        && r.0.merger.data == m.merger.data && r.0.changer == m.changer
  {
    var n := |m.merger.states|;
    if n <= 1 then (m, Err(EmptyHistory("No penultimate data history")))
    else (m.(merger := m.merger.(states := m.merger.states[..n - 2])), Ok(m.merger.states[n - 2]))
  }

  /** Going back after two pushes returns the snapshot of the first and
      restores the history from before both. */
  lemma PushPushPenultimate(m: Manager, a: State, b: State)
    ensures var r := Penultimate(Push(Push(m, a), b));
            r.1 == Ok(m.merger.data + a) && r.0.merger.states == m.merger.states
  {
    var m2 := Push(Push(m, a), b);
    assert m2.merger.states == m.merger.states + [m.merger.data + a] + [m.merger.data + a + b];
    assert m2.merger.states[..|m2.merger.states| - 2] == m.merger.states;
  }

  /** How a changer's own `commit()` ends: it returns a Deferred that
      ends with `outcome`; it raises at once, as the changers that run
      `float()`, `int()` or `jid.JID` on a form value do on bad text; or
      it returns `None`, as `StateChangerBase` and `NullStateChanger` do. */
  datatype ChangerCommit = Returns(outcome: Outcome) | RaisesNow(reason: string) | ReturnsNone

  /** How `commit` ends: it raised before the changer was touched, the
      changer was refused as invalid (its commit not called), or the
      changer's commit was called and ended as `call`. */
  datatype CommitEnd = Raised(error: StateError) | Refused(error: StateError) | Committed(call: ChangerCommit)

  /** `commit`: the head's fields are fed to the changer (in whatever
      order: see `CommitInAnyOrder`); an invalid changer refuses with
      `InvalidStateError`, a valid one's commit is called and ends as
      `sent`. */
  function Commit(m: Manager, sent: ChangerCommit): (r: (Manager, CommitEnd))
    ensures Head(m).Err? ==> r == (m, Raised(Head(m).error))
    ensures r.1.Committed? ==> r.1.call == sent && IsValid(r.0.changer)
    ensures r.1.Refused? ==> !IsValid(r.0.changer) && r.1.error == InvalidState("Cannot commit with invalid data")
    ensures r.0.merger == m.merger
  {
    match Head(m)
    case Err(e) => (m, Raised(e))
    case Ok(s) =>
      var c := m.changer.(data := Fed(m.changer, s));
      if !IsValid(c) then (m.(changer := c), Refused(InvalidState("Cannot commit with invalid data")))
      else (m.(changer := c), Committed(sent))
  }

  /** Feeding the head's fields one by one, in any iteration order of
      the snapshot, leaves the changer as `commit` does. */
  lemma CommitInAnyOrder(m: Manager, order: seq<string>, sent: ChangerCommit)
    requires Head(m).Ok? && IsOrder(order, Head(m).value.Keys)
    ensures Commit(m, sent).0.changer == AddAll(m.changer, Head(m).value, order)
  {
    AddAllSpec(m.changer, Head(m).value, order);
  }

  /** A commit reaches the changer exactly when there is a snapshot and
      every required field is held before or supplied by it. */
  lemma CommitSpec(m: Manager, sent: ChangerCommit)
    ensures Commit(m, sent).1.Committed? <==>
              Head(m).Ok? && forall i :: 0 <= i < |m.changer.required| ==>
                               m.changer.required[i] in m.changer.data || m.changer.required[i] in Head(m).value
  {
    if Head(m).Ok? {
      var s := Head(m).value;
      var c := m.changer.(data := Fed(m.changer, s));
      IsValidSpec(c);
      forall i | 0 <= i < |m.changer.required|
        ensures m.changer.required[i] in c.data <==> m.changer.required[i] in m.changer.data || m.changer.required[i] in s
      {
        var k := m.changer.required[i];
        assert k in Fed(m.changer, s) <==> k in m.changer.data || k in s;
      }
    }
  }

  // ---------------------------------------------------------------- affiliations

  const NoneAffiliation := "none"
  const PublisherAffiliation := "publisher"
  const OwnerAffiliation := "owner"

  /** Each listed jid outside `specials` set to `aff`, in list order. */
  function SetAll(m: map<string, string>, js: seq<string>, aff: string, specials: set<string>): map<string, string>
    decreases |js|
  {
    if js == [] then m
    else SetAll(if js[0] in specials then m else m[js[0] := aff], js[1..], aff, specials)
  }

  lemma {:induction false} SetAllSpec(m: map<string, string>, js: seq<string>, aff: string, specials: set<string>, j: string)
    decreases |js|
    ensures j in SetAll(m, js, aff, specials) <==> j in m || (j in js && j !in specials)
    ensures j in js && j !in specials ==> SetAll(m, js, aff, specials)[j] == aff
    ensures j in m && (j !in js || j in specials) ==> SetAll(m, js, aff, specials)[j] == m[j]
  {
    if js != [] {
      SetAllSpec(if js[0] in specials then m else m[js[0] := aff], js[1..], aff, specials, j);
      assert j in js <==> j == js[0] || j in js[1..];
    }
  }

  /** The affiliations granted: publishers, then owners overriding them,
      both without the specials; the administrator as owner on request. */
  function Grants(pubs: seq<string>, admins: seq<string>, specials: set<string>, includeAdmin: bool): map<string, string>
  {
    var m := SetAll(SetAll(map[], pubs, PublisherAffiliation, specials), admins, OwnerAffiliation, specials);
    if includeAdmin then m[AdminJid := OwnerAffiliation] else m
  }

  /** Who is granted what: an owner is a listed admin or the requested
      administrator; every other grantee is a listed publisher. */
  lemma GrantsSpec(pubs: seq<string>, admins: seq<string>, specials: set<string>, includeAdmin: bool, j: string)
    ensures var g := Grants(pubs, admins, specials, includeAdmin);
            && (j in g <==> ((j in pubs || j in admins) && j !in specials) || (includeAdmin && j == AdminJid))
            && (j in g ==> (g[j] == OwnerAffiliation <==> (j in admins && j !in specials) || (includeAdmin && j == AdminJid)))
            && (j in g && g[j] != OwnerAffiliation ==> g[j] == PublisherAffiliation && j in pubs)
  {
    var p := SetAll(map[], pubs, PublisherAffiliation, specials);
    SetAllSpec(map[], pubs, PublisherAffiliation, specials, j);
    SetAllSpec(p, admins, OwnerAffiliation, specials, j);
  }

  /** The first request: every current affiliate outside `specials`
      set to 'none'. */
  function ResetMap(affs: map<string, string>, specials: set<string>): (r: map<string, string>)
    ensures r.Keys == affs.Keys - specials
    ensures forall j :: j in r ==> r[j] == NoneAffiliation
  {
    map j | j in affs.Keys && j !in specials :: NoneAffiliation
  }

  /** The makeAffiliations requests sent and how the whole ended. */
  datatype AffiliationCalls = AffiliationCalls(calls: seq<map<string, string>>, outcome: Outcome)

  /** `manageAffiliations`: every current affiliate other than the sender and
      the administrator is reset to 'none', then the grants are made. A
      request is only sent for a non-empty map; a failure (reading the current
      affiliations or either request) ends the sequence. */
  function ManageAffiliations(sender: string, pubs: seq<string>, admins: seq<string>,
                              current: Result<map<string, string>, string>, includeAdmin: bool,
                              resetSent: Outcome, grantSent: Outcome): (r: AffiliationCalls)
    ensures |r.calls| <= 2
    ensures forall i :: 0 <= i < |r.calls| ==> r.calls[i] != map[]
    ensures current.Err? ==> r == AffiliationCalls([], Failed(current.error))
    ensures current.Ok? && r.calls == [] ==> r.outcome == Succeeded
    ensures current.Ok? && |r.calls| == 2 ==> r.outcome == grantSent
    // the reset goes first, and is sent exactly when someone is to be reset
    ensures current.Ok? ==>
              var reset := ResetMap(current.value, {sender, AdminJid});
              (reset != map[] <==> r.calls != [] && r.calls[0] == reset)
    // a failed reset ends the sequence before any grant
    ensures current.Ok? && ResetMap(current.value, {sender, AdminJid}) != map[] && resetSent.Failed? ==>
              r == AffiliationCalls([ResetMap(current.value, {sender, AdminJid})], resetSent)
    // otherwise the grants go last, exactly when there is something to grant
    ensures current.Ok? && !(ResetMap(current.value, {sender, AdminJid}) != map[] && resetSent.Failed?) ==>
              var grants := Grants(pubs, admins, {sender, AdminJid}, includeAdmin);
              && (grants != map[] <==> r.calls != [] && r.calls[|r.calls| - 1] == grants && r.outcome == grantSent)
              && (grants == map[] ==> r.outcome == Succeeded)
  {
    match current
    case Err(e) => AffiliationCalls([], Failed(e))
    case Ok(affs) =>
      var specials := {sender, AdminJid};
      var reset := ResetMap(affs, specials);
      var first := if reset != map[] then [reset] else [];
      if first != [] && resetSent.Failed? then AffiliationCalls(first, resetSent)
      else
        var grants := Grants(pubs, admins, specials, includeAdmin);
        if grants != map[] then AffiliationCalls(first + [grants], grantSent)
        else AffiliationCalls(first, Succeeded)
  }

  /** The sender and the administrator are never reset, and the sender is
      only ever granted anything when it is the administrator. */
  lemma SpecialsKept(sender: string, pubs: seq<string>, admins: seq<string>, current: Result<map<string, string>, string>,
                     includeAdmin: bool, resetSent: Outcome, grantSent: Outcome, i: nat)
    requires i < |ManageAffiliations(sender, pubs, admins, current, includeAdmin, resetSent, grantSent).calls|
    ensures var call := ManageAffiliations(sender, pubs, admins, current, includeAdmin, resetSent, grantSent).calls[i];
            sender in call ==> sender == AdminJid && includeAdmin && call[sender] == OwnerAffiliation
  {
    var call := ManageAffiliations(sender, pubs, admins, current, includeAdmin, resetSent, grantSent).calls[i];
    GrantsSpec(pubs, admins, {sender, AdminJid}, includeAdmin, sender);
  }

  // ---------------------------------------------------------------- naming a node

  /** What a node-creation request answered. */
  datatype CreateReply = Created | StanzaError(condition: string) | OtherFailure(reason: string)

  /** How `makePSNode` ended, with the number of requests made; or that
      it was still retrying when `fuel` iterations had been followed. */
  datatype NodeEnd = Named(name: string, attempts: nat) | GaveUp(reason: string, attempts: nat)
                   | Aborted(reason: string, attempts: nat) | StillTrying(attempts: nat)

  const DefaultMaxTries := 100
  const Conflict := "conflict"

  /** The name tried once `i` conflicts have been met: the suggestion,
      then the suggestion followed by 0, 1, 2, ... */
  function NameAt(suggested: string, i: nat): string
  {
    if i == 0 then suggested else suggested + ShowInt(i - 1)
  }

  function GiveUpMessage(suggested: string, maxTries: int): string
  {
    "Cannot create node " + suggested + " after " + ShowInt(maxTries) + " tries, quitting"
  }

  /** `makePSNode`'s loop from `i` conflicts and `k` requests made, with
      `replies(k)` answering request number `k`. As written, a stanza error
      other than a conflict changes neither the name nor the count, and
      the same request is made again; corrected, it is raised. */
  function MakeNodeFrom(rule: Rule, suggested: string, maxTries: int, replies: nat -> CreateReply,
                        i: nat, k: nat, fuel: nat): (r: NodeEnd)
    decreases fuel
    ensures r.GaveUp? ==> r.reason == GiveUpMessage(suggested, maxTries)
    ensures r.attempts >= k && (r.StillTrying? ==> r.attempts == k + fuel)
  {
    if i >= maxTries then GaveUp(GiveUpMessage(suggested, maxTries), k)
    else if fuel == 0 then StillTrying(k)
    else match replies(k)
      case Created => Named(NameAt(suggested, i), k + 1)
      case StanzaError(c) =>
        if c == Conflict then MakeNodeFrom(rule, suggested, maxTries, replies, i + 1, k + 1, fuel - 1)
        else if rule.Corrected? then Aborted(c, k + 1)
        else MakeNodeFrom(rule, suggested, maxTries, replies, i, k + 1, fuel - 1)
      case OtherFailure(e) => Aborted(e, k + 1)
  }

  function MakeNode(rule: Rule, suggested: string, maxTries: int, replies: nat -> CreateReply, fuel: nat): NodeEnd
  {
    MakeNodeFrom(rule, suggested, maxTries, replies, 0, 0, fuel)
  }

  /** Conflicts move on to the next name: after `n` conflicts a success
      yields the `n`th alternative name. */
  lemma {:induction false} ConflictsThenCreated(rule: Rule, suggested: string, maxTries: int, replies: nat -> CreateReply,
                                                i: nat, n: nat, fuel: nat)
    requires i <= n < maxTries && fuel > n - i
    requires forall j :: i <= j < n ==> replies(j) == StanzaError(Conflict)
    requires replies(n) == Created
    ensures MakeNodeFrom(rule, suggested, maxTries, replies, i, i, fuel) == Named(NameAt(suggested, n), n + 1)
    decreases n - i
  {
    if i < n {
      ConflictsThenCreated(rule, suggested, maxTries, replies, i + 1, n, fuel - 1);
    }
  }

  /** Conflicts on every try give up after `maxTries` requests. */
  lemma {:induction false} AllConflicts(rule: Rule, suggested: string, maxTries: int, replies: nat -> CreateReply,
                                        i: nat, fuel: nat)
    requires i <= maxTries && fuel >= maxTries - i
    requires forall j :: i <= j < maxTries ==> replies(j) == StanzaError(Conflict)
    ensures MakeNodeFrom(rule, suggested, maxTries, replies, i, i, fuel) == GaveUp(GiveUpMessage(suggested, maxTries), maxTries)
    decreases maxTries - i
  {
    if i < maxTries {
      AllConflicts(rule, suggested, maxTries, replies, i + 1, fuel - 1);
    }
  }

  /** As written, a node service that keeps answering with some other
      stanza error is asked again for ever: however many iterations are
      followed, the loop is still running and `max_tries` never stops it. */
  lemma {:induction false} AsWrittenRetriesForever(suggested: string, maxTries: int, replies: nat -> CreateReply,
                                                   i: nat, k: nat, fuel: nat)
    requires i < maxTries
    requires forall j :: replies(j).StanzaError? && replies(j).condition != Conflict
    ensures MakeNodeFrom(AsWritten, suggested, maxTries, replies, i, k, fuel) == StillTrying(k + fuel)
    decreases fuel
  {
    if fuel > 0 {
      AsWrittenRetriesForever(suggested, maxTries, replies, i, k + 1, fuel - 1);
    }
  }

  /** A concrete case: one try allowed and a 'forbidden' answer. */
  lemma AsWrittenForbiddenExample(fuel: nat)
    ensures MakeNode(AsWritten, "node", 1, (j: nat) => StanzaError("forbidden"), fuel) == StillTrying(fuel)
  {
    AsWrittenRetriesForever("node", 1, (j: nat) => StanzaError("forbidden"), 0, 0, fuel);
  }

  /** Corrected, the loop always ends within `maxTries` requests. */
  lemma {:induction false} CorrectedEnds(suggested: string, maxTries: int, replies: nat -> CreateReply,
                                         i: nat, k: nat, fuel: nat)
    requires fuel >= maxTries - i
    ensures var r := MakeNodeFrom(Corrected, suggested, maxTries, replies, i, k, fuel);
            !r.StillTrying? && r.attempts <= k + (if maxTries > i then maxTries - i else 0)
    decreases fuel
  {
    if i < maxTries && fuel > 0 && replies(k) == StanzaError(Conflict) {
      CorrectedEnds(suggested, maxTries, replies, i + 1, k + 1, fuel - 1);
    }
  }
}

=== FILE: wizards.dfy ===
/** How the command wizards are wired (`wizards.py`): each wizard adds a
    command node to the menu and four (or three) handlers to the command
    chain; and how the host list read over XML-RPC becomes host names. */
module Wizards {
  import opened Wrappers
  import opened Xml
  import opened Commands
  import opened Collab
  import opened MenuSystem
  import opened CommandSystem

  const Automation := "automation"
  const CommandList := "command-list"

  /** A wizard factory as far as wiring goes: the command name and
      whether the wizard offers going back a page. */
  datatype WizardSpec = WizardSpec(name: string, withPrev: bool)

  /** The command node's identifier: the sub-menu's, an underscore, the name. */
  function CommandNodeId(subTop: string, name: string): string
  {
    subTop + "_" + name
  }

  /** `_addHandlers`: after the previous handler come start, cancel,
      prev when the wizard has it, and the node handler last. */
  function HandlersFor(node: string, withPrev: bool): (r: seq<Link>)
    ensures |r| == if withPrev then 4 else 3
    ensures r[0] == Handler(Start, node) && r[1] == Handler(Cancel, node) && r[|r| - 1] == Handler(NodeStep, node)
    ensures withPrev ==> r[2] == Handler(Prev, node)
    ensures forall i :: 0 <= i < |r| ==> r[i].Handler? && r[i].node == node
  {
    [Handler(Start, node), Handler(Cancel, node)] + (if withPrev then [Handler(Prev, node)] else []) + [Handler(NodeStep, node)]
  }

  /** `addCommand`: the command node under the sub-menu, then its
      handlers after the chain's last link (the handler passed in). The
      node handler, now last, is what the next wizard links after. */
  function AddCommand(menu: Menu, chain: seq<Link>, jid: string, subTop: string, w: WizardSpec): (r: Result<(Menu, seq<Link>), string>)
    ensures r.Err? <==> AddSubMenu(menu, jid, CommandNodeId(subTop, w.name), subTop, Automation, CommandNode, w.name).Err?
    ensures r.Ok? ==> r.value.1 == chain + HandlersFor(CommandNodeId(subTop, w.name), w.withPrev)
    ensures r.Ok? ==> var id := CommandNodeId(subTop, w.name);
                      && id in r.value.0.menus
                      && r.value.0.menus[id].parent == Some(if subTop != "" then subTop else menu.top)
                      && CommandNs in r.value.0.menus[id].info.features
  {
    var id := CommandNodeId(subTop, w.name);
    match AddSubMenu(menu, jid, id, subTop, Automation, CommandNode, w.name)
    case Err(e) => Err(e)
    case Ok(m) => Ok((m, chain + HandlersFor(id, w.withPrev)))
  }

  /** `makeSubSystemCommands`: the sub-menu under the top, then each
      wizard in turn (`cmds` in the dictionary's iteration order). */
  function MakeSubSystemCommands(menu: Menu, chain: seq<Link>, jid: string, name: string, subTop: string,
                                 cmds: seq<WizardSpec>): (r: Result<(Menu, seq<Link>), string>)
  {
    match AddSubMenu(menu, jid, subTop, menu.top, Automation, CommandList, name)
    case Err(e) => Err(e)
    case Ok(m) => AddCommands(m, chain, jid, subTop, cmds)
  }

  function AddCommands(menu: Menu, chain: seq<Link>, jid: string, subTop: string, cmds: seq<WizardSpec>): (r: Result<(Menu, seq<Link>), string>)
    decreases |cmds|
  {
    if cmds == [] then Ok((menu, chain))
    else
      match AddCommand(menu, chain, jid, subTop, cmds[0])
      case Err(e) => Err(e)
      case Ok((m, c)) => AddCommands(m, c, jid, subTop, cmds[1..])
  }

  lemma AppendAssoc<T>(a: seq<T>, b: seq<T>, c: seq<T>)
    ensures a + b + c == a + (b + c)
  {
  }

  /** Added wizards put their handlers after the chain, in the wizards' order. */
  lemma {:induction false} AddCommandsWiring(menu: Menu, chain: seq<Link>, jid: string, subTop: string, cmds: seq<WizardSpec>)
    requires AddCommands(menu, chain, jid, subTop, cmds).Ok?
    decreases |cmds|
    ensures AddCommands(menu, chain, jid, subTop, cmds).value.1 == chain + Wiring(subTop, cmds)
  {
    if cmds != [] {
      var (m, c) := AddCommand(menu, chain, jid, subTop, cmds[0]).value;
      AddCommandsWiring(m, c, jid, subTop, cmds[1..]);
      AppendAssoc(chain, HandlersFor(CommandNodeId(subTop, cmds[0].name), cmds[0].withPrev), Wiring(subTop, cmds[1..]));
    }
  }

  /** Added wizards keep the menu's nodes and its top. */
  lemma {:induction false} AddCommandsKeeps(menu: Menu, chain: seq<Link>, jid: string, subTop: string, cmds: seq<WizardSpec>)
    requires AddCommands(menu, chain, jid, subTop, cmds).Ok?
    decreases |cmds|
    ensures var r := AddCommands(menu, chain, jid, subTop, cmds).value;
            r.0.top == menu.top && menu.menus.Keys <= r.0.menus.Keys
  {
    if cmds != [] {
      var (m, c) := AddCommand(menu, chain, jid, subTop, cmds[0]).value;
      AddCommandsKeeps(m, c, jid, subTop, cmds[1..]);
    }
  }

  /** Every added wizard's command node is in the menu. */
  lemma {:induction false} AddCommandsNodes(menu: Menu, chain: seq<Link>, jid: string, subTop: string, cmds: seq<WizardSpec>, i: nat)
    requires AddCommands(menu, chain, jid, subTop, cmds).Ok? && i < |cmds|
    decreases |cmds|
    ensures CommandNodeId(subTop, cmds[i].name) in AddCommands(menu, chain, jid, subTop, cmds).value.0.menus
  {
    var (m, c) := AddCommand(menu, chain, jid, subTop, cmds[0]).value;
    if i == 0 {
      AddCommandsKeeps(m, c, jid, subTop, cmds[1..]);
    } else {
      AddCommandsNodes(m, c, jid, subTop, cmds[1..], i - 1);
    }
  }

  /** The identifiers of the wizards' command nodes. */
  function NodeIds(subTop: string, cmds: seq<WizardSpec>): set<string>
  {
    if cmds == [] then {} else {CommandNodeId(subTop, cmds[0].name)} + NodeIds(subTop, cmds[1..])
  }

  /** Different names under one sub-menu give different identifiers. */
  lemma CommandNodeIdInjective(subTop: string, a: string, b: string)
    requires CommandNodeId(subTop, a) == CommandNodeId(subTop, b)
    ensures a == b
  {
    var n := |subTop + "_"|;
    assert a == CommandNodeId(subTop, a)[n..];
    assert b == CommandNodeId(subTop, b)[n..];
  }

  lemma {:induction false} NotInNodeIds(subTop: string, cmds: seq<WizardSpec>, x: string)
    requires forall i :: 0 <= i < |cmds| ==> CommandNodeId(subTop, cmds[i].name) != x
    decreases |cmds|
    ensures x !in NodeIds(subTop, cmds)
  {
    if cmds != [] {
      assert CommandNodeId(subTop, cmds[0].name) != x;
      forall i | 0 <= i < |cmds[1..]| ensures CommandNodeId(subTop, cmds[1..][i].name) != x {
        assert cmds[1..][i] == cmds[i + 1];
      }
      NotInNodeIds(subTop, cmds[1..], x);
    }
  }

  lemma {:induction false} InNodeIds(subTop: string, cmds: seq<WizardSpec>, i: nat)
    requires i < |cmds|
    decreases |cmds|
    ensures CommandNodeId(subTop, cmds[i].name) in NodeIds(subTop, cmds)
  {
    if i > 0 {
      InNodeIds(subTop, cmds[1..], i - 1);
    }
  }

  /** Wizards with distinct names whose nodes are not yet in the menu,
      under a present sub-menu, are all added: the menu gains exactly
      their command nodes. */
  lemma {:induction false} AddCommandsSucceed(menu: Menu, chain: seq<Link>, jid: string, subTop: string, cmds: seq<WizardSpec>)
    requires subTop != "" && subTop in menu.menus
    requires forall i :: 0 <= i < |cmds| ==> CommandNodeId(subTop, cmds[i].name) !in menu.menus
    requires forall i, j :: 0 <= i < j < |cmds| ==> cmds[i].name != cmds[j].name
    decreases |cmds|
    ensures var r := AddCommands(menu, chain, jid, subTop, cmds);
            r.Ok? && r.value.0.menus.Keys == menu.menus.Keys + NodeIds(subTop, cmds) && r.value.0.top == menu.top
  {
    if cmds != [] {
      var id := CommandNodeId(subTop, cmds[0].name);
      var m := AddSubMenu(menu, jid, id, subTop, Automation, CommandNode, cmds[0].name).value;
      var c := chain + HandlersFor(id, cmds[0].withPrev);
      assert AddCommand(menu, chain, jid, subTop, cmds[0]) == Ok((m, c));
      forall i | 0 <= i < |cmds[1..]| ensures CommandNodeId(subTop, cmds[1..][i].name) !in m.menus {
        assert cmds[1..][i] == cmds[i + 1];
        if CommandNodeId(subTop, cmds[i + 1].name) == id {
          CommandNodeIdInjective(subTop, cmds[i + 1].name, cmds[0].name);
        }
      }
      forall i, j | 0 <= i < j < |cmds[1..]| ensures cmds[1..][i].name != cmds[1..][j].name {
        assert cmds[1..][i] == cmds[i + 1] && cmds[1..][j] == cmds[j + 1];
      }
      AddCommandsSucceed(m, c, jid, subTop, cmds[1..]);
    }
  }

  /** The handlers the wizards add, in order. */
  function Wiring(subTop: string, cmds: seq<WizardSpec>): seq<Link>
  {
    if cmds == [] then [] else HandlersFor(CommandNodeId(subTop, cmds[0].name), cmds[0].withPrev) + Wiring(subTop, cmds[1..])
  }

  // ---------------------------------------------------------------- routing

  /** Links for another node never take an iq whose command names this node. */
  lemma OtherNodeIgnores(iq: Element, node: string, l: Link)
    requires GetCommandElement(iq).Some? && HasValue(GetCommandElement(iq).value, "node", node)
    requires l.Handler? && l.node != node
    ensures !CanProcess(l, iq)
  {
  }

  /** An iq whose command names `node`, where nothing before the
      wizard's handlers is for `node`: with no session id it goes to the
      wizard's start handler, whatever its action. */
  lemma NoSessionStarts(before: seq<Link>, after: seq<Link>, node: string, withPrev: bool, iq: Element)
    requires GetCommandElement(iq).Some? && HasValue(GetCommandElement(iq).value, "node", node)
    requires "sessionid" !in GetCommandElement(iq).value.attrs
    requires forall j :: 0 <= j < |before| ==> before[j].PassThrough? || before[j].node != node
    ensures Dispatch(before + HandlersFor(node, withPrev) + after, iq) == Some(|before|)
  {
    var chain := before + HandlersFor(node, withPrev) + after;
    assert chain[|before|] == Handler(Start, node);
    forall j | 0 <= j < |before| ensures !CanProcess(chain[j], iq) {
      assert chain[j] == before[j];
    }
    DispatchFirst(chain, iq, |before|);
  }

  /** In particular a cancel without a session id is taken by the start
      handler, which precedes the cancel handler. */
  lemma CancelWithoutSessionStarts(before: seq<Link>, after: seq<Link>, node: string, withPrev: bool, iq: Element)
    requires GetCommandElement(iq).Some? && HasValue(GetCommandElement(iq).value, "node", node)
    requires HasValue(GetCommandElement(iq).value, "action", "cancel")
    requires "sessionid" !in GetCommandElement(iq).value.attrs
    requires forall j :: 0 <= j < |before| ==> before[j].PassThrough? || before[j].node != node
    ensures var chain := before + HandlersFor(node, withPrev) + after;
            Dispatch(chain, iq) == Some(|before|) && chain[|before|].kind == Start
  {
    NoSessionStarts(before, after, node, withPrev, iq);
  }

  /** Within a session, a cancel goes to the cancel handler. */
  lemma SessionCancelCancels(before: seq<Link>, after: seq<Link>, node: string, withPrev: bool, iq: Element)
    requires GetCommandElement(iq).Some? && HasValue(GetCommandElement(iq).value, "node", node)
    requires HasValue(GetCommandElement(iq).value, "action", "cancel")
    requires "sessionid" in GetCommandElement(iq).value.attrs
    requires forall j :: 0 <= j < |before| ==> before[j].PassThrough? || before[j].node != node
    ensures var chain := before + HandlersFor(node, withPrev) + after;
            Dispatch(chain, iq) == Some(|before| + 1) && chain[|before| + 1].kind == Cancel
  {
    var chain := before + HandlersFor(node, withPrev) + after;
    assert chain[|before|] == Handler(Start, node);
    assert chain[|before| + 1] == Handler(Cancel, node);
    forall j | 0 <= j < |before| ensures !CanProcess(chain[j], iq) {
      assert chain[j] == before[j];
    }
    DispatchFirst(chain, iq, |before| + 1);
  }

  /** Within a session, an iq that neither cancels nor goes back goes to
      the node handler, last of the wizard's handlers. */
  lemma SessionStepsNode(before: seq<Link>, after: seq<Link>, node: string, withPrev: bool, iq: Element)
    requires GetCommandElement(iq).Some? && HasValue(GetCommandElement(iq).value, "node", node)
    requires !HasValue(GetCommandElement(iq).value, "action", "cancel")
    requires !HasValue(GetCommandElement(iq).value, "action", "prev")
    requires "sessionid" in GetCommandElement(iq).value.attrs
    requires forall j :: 0 <= j < |before| ==> before[j].PassThrough? || before[j].node != node
    ensures var chain := before + HandlersFor(node, withPrev) + after;
            var k := |before| + |HandlersFor(node, withPrev)| - 1;
            Dispatch(chain, iq) == Some(k) && chain[k].kind == NodeStep
  {
    var hs := HandlersFor(node, withPrev);
    var chain := before + hs + after;
    var k := |before| + |hs| - 1;
    assert chain[k] == hs[|hs| - 1];
    forall j | 0 <= j < k ensures !CanProcess(chain[j], iq) {
      if j < |before| { assert chain[j] == before[j]; }
      else { assert chain[j] == hs[j - |before|]; }
    }
    DispatchFirst(chain, iq, k);
  }

  /** A wizard without prev takes no prev iq: it falls through its handlers. */
  lemma NoPrevFallsThrough(before: seq<Link>, after: seq<Link>, node: string, iq: Element)
    requires GetCommandElement(iq).Some? && HasValue(GetCommandElement(iq).value, "action", "prev")
    requires "sessionid" in GetCommandElement(iq).value.attrs
    ensures forall l :: l in HandlersFor(node, false) ==> !CanProcess(l, iq)
  {
  }

  // ---------------------------------------------------------------- hosts

  /** A host-list entry: one XML-RPC struct. */
  type HostEntry = map<string, string>

  /** `makeHosts`: the 'host' of each entry under 'hosts', in order,
      skipping entries without one; no 'hosts' at all gives none. */
  function MakeHosts(reply: map<string, seq<HostEntry>>): (r: seq<string>)
    ensures "hosts" !in reply ==> r == []
    ensures "hosts" in reply ==> r == HostNames(reply["hosts"])
  {
    if "hosts" !in reply then [] else HostNames(reply["hosts"])
  }

  function HostNames(es: seq<HostEntry>): (r: seq<string>)
    ensures |r| <= |es|
  {
    if es == [] then [] else (if "host" in es[0] then [es[0]["host"]] else []) + HostNames(es[1..])
  }

  /** Host names of two lists one after the other are the names of each, in turn. */
  lemma {:induction false} HostNamesAppend(a: seq<HostEntry>, b: seq<HostEntry>)
    decreases |a|
    ensures HostNames(a + b) == HostNames(a) + HostNames(b)
  {
    if a == [] {
      assert a + b == b;
    } else {
      assert (a + b)[0] == a[0];
      assert (a + b)[1..] == a[1..] + b;
      HostNamesAppend(a[1..], b);
    }
  }

  /** When every entry names a host, the names are those hosts, in order. */
  lemma {:induction false} HostNamesAll(es: seq<HostEntry>)
    requires forall i :: 0 <= i < |es| ==> "host" in es[i]
    decreases |es|
    ensures |HostNames(es)| == |es|
    ensures forall i :: 0 <= i < |es| ==> HostNames(es)[i] == es[i]["host"]
  {
    if es != [] {
      HostNamesAll(es[1..]);
      assert forall i :: 1 <= i < |es| ==> HostNames(es)[i] == HostNames(es[1..])[i - 1];
    }
  }

  /** Every name comes from an entry. */
  lemma {:induction false} HostNamesFromEntries(es: seq<HostEntry>, x: string)
    decreases |es|
    ensures x in HostNames(es) <==> exists i :: 0 <= i < |es| && "host" in es[i] && es[i]["host"] == x
  {
    if es != [] {
      HostNamesFromEntries(es[1..], x);
      if exists i :: 0 <= i < |es[1..]| && "host" in es[1..][i] && es[1..][i]["host"] == x {
        var i :| 0 <= i < |es[1..]| && "host" in es[1..][i] && es[1..][i]["host"] == x;
        assert es[i + 1] == es[1..][i];
      }
      if exists i :: 0 <= i < |es| && "host" in es[i] && es[i]["host"] == x {
        var i :| 0 <= i < |es| && "host" in es[i] && es[i]["host"] == x;
        if i > 0 { assert es[1..][i - 1] == es[i]; }
      }
    }
  }
}

=== FILE: wrappers.dfy ===
/** Option/Result values shared by the whole model.
    Python's `None` returns and raised exceptions become `None`/`Err` values here. */
module Wrappers {

  datatype Option<+T> = None | Some(value: T)

  datatype Result<+T, +E> = Ok(value: T) | Err(error: E)

  /** The way an asynchronous operation (a Twisted Deferred) ended:
      it fired with a result, or it fired with a failure whose `str` is
      `reason`. */
  datatype Outcome = Succeeded | Failed(reason: string)

  /** Whether a member behaves as its source is written or with a
      finding corrected. */
  datatype Rule = AsWritten | Corrected

}

=== FILE: xml.dfy ===
/** An abstract element tree standing in for Twisted's domish elements,
    and the handful of XPath shapes the source uses to read them. */
module Xml {
  import opened Wrappers

  /** A child of an element: a nested element or a piece of character data. */
  datatype Node = Elem(el: Element) | Text(text: string)

  /** An element: namespace URI, local name, attributes and ordered children. */
  datatype Element = Element(uri: string, name: string, attrs: map<string, string>, children: seq<Node>)

  /** domish `addElement(name, content=text)`: an element with no
      attributes holding the text, or no children at all when the text is
      empty (domish only adds content that is truthy). */
  function TextElement(uri: string, name: string, text: string): (r: Element)
    ensures FirstText(r.children) == text
    ensures Elements(r) == []
  {
    Element(uri, name, map[], if text == "" then [] else [Text(text)])
  }

  /** The child elements of a node list, in document order (domish `elements()`). */
  function ElementsOf(ns: seq<Node>): (r: seq<Element>)
    ensures |r| <= |ns|
  {
    if ns == [] then []
    else (if ns[0].Elem? then [ns[0].el] else []) + ElementsOf(ns[1..])
  }

  /** The child elements are exactly the element children, text dropped. */
  lemma {:induction false} ElementsOfMembers(ns: seq<Node>, c: Element)
    ensures c in ElementsOf(ns) <==> Elem(c) in ns
  {
    if ns != [] {
      ElementsOfMembers(ns[1..], c);
      assert Elem(c) in ns <==> ns[0] == Elem(c) || Elem(c) in ns[1..];
    }
  }

  function Elements(e: Element): seq<Element>
  {
    ElementsOf(e.children)
  }

  /** domish `firstChildElement`: the first child that is an element, if any. */
  function FirstChildElement(e: Element): Option<Element>
  {
    if Elements(e) == [] then None else Some(Elements(e)[0])
  }

  /** Wrapping every element of a list as a child node and reading the
      child elements back gives the list itself. */
  lemma {:induction false} ElementsOfWrapped(cs: seq<Element>)
    ensures ElementsOf(Wrap(cs)) == cs
  {
    if cs != [] {
      assert Wrap(cs)[1..] == Wrap(cs[1..]);
      ElementsOfWrapped(cs[1..]);
    }
  }

  function Wrap(cs: seq<Element>): (r: seq<Node>)
    ensures |r| == |cs|
    ensures forall i :: 0 <= i < |cs| ==> r[i] == Elem(cs[i])
  {
    if cs == [] then [] else [Elem(cs[0])] + Wrap(cs[1..])
  }

  /** domish `str(element)`: the first character-data child, or "" when there is none. */
  function FirstText(ns: seq<Node>): string
  {
    if ns == [] then ""
    else if ns[0].Text? then ns[0].text
    else FirstText(ns[1..])
  }

  /** The child elements with the given local name. */
  function Named(cs: seq<Element>, name: string): seq<Element>
  {
    if cs == [] then []
    else (if cs[0].name == name then [cs[0]] else []) + Named(cs[1..], name)
  }

  /** Selecting by name keeps exactly the elements of that name. */
  lemma {:induction false} NamedMembers(cs: seq<Element>, name: string, c: Element)
    ensures c in Named(cs, name) <==> c in cs && c.name == name
  {
    if cs != [] {
      NamedMembers(cs[1..], name, c);
      assert c in cs <==> cs[0] == c || c in cs[1..];
    }
  }

  /** The XPath `/a[@xmlns=uri]` step: name and namespace of `e` itself. */
  predicate IsA(e: Element, uri: string, name: string)
  {
    e.name == name && e.uri == uri
  }

  /** The elements reached from `e` by following the child names of
      `path` in turn (the trailing steps of an XPath location), in
      document order; `e` itself when the path is empty. */
  function Reach(e: Element, path: seq<string>): seq<Element>
    decreases |path|, 0
  {
    if path == [] then [e] else ReachAll(Named(Elements(e), path[0]), path[1..])
  }

  function ReachAll(cs: seq<Element>, path: seq<string>): seq<Element>
    decreases |path|, 1, |cs|
  {
    if cs == [] then [] else Reach(cs[0], path) + ReachAll(cs[1..], path)
  }

  /** XPath `/a[@xmlns=uri]/p1/.../pn` `matches(e)`. */
  predicate Matches(e: Element, uri: string, name: string, path: seq<string>)
  {
    IsA(e, uri, name) && Reach(e, path) != []
  }

  /** XPath `/a[@xmlns=uri]/p1/.../pn` `queryForNodes(e)`. */
  function QueryNodes(e: Element, uri: string, name: string, path: seq<string>): seq<Element>
  {
    if IsA(e, uri, name) then Reach(e, path) else []
  }

  /** XPath `/a[@xmlns=uri]/p1/.../pn` `queryForString(e)`: the
      concatenated first text of every element reached ("" when nothing
      is). */
  function QueryString(e: Element, uri: string, name: string, path: seq<string>): string
  {
    Concat(QueryNodes(e, uri, name, path))
  }

  lemma {:induction false} ReachAllEmpty(cs: seq<Element>)
    ensures ReachAll(cs, []) == cs
  {
    if cs != [] {
      ReachAllEmpty(cs[1..]);
    }
  }

  /** A one-step path reaches the children of that name. */
  lemma ReachChild(e: Element, child: string)
    ensures Reach(e, [child]) == Named(Elements(e), child)
  {
    assert [child][1..] == [];
    ReachAllEmpty(Named(Elements(e), child));
  }

  function Concat(cs: seq<Element>): string
  {
    if cs == [] then "" else FirstText(cs[0].children) + Concat(cs[1..])
  }

  /** The root-match test of XPath `//a[@xmlns=uri]` (no child step) or
      `//a[@xmlns=uri]/child` (with one). */
  predicate IsRootMatch(e: Element, uri: string, name: string, child: Option<string>)
  {
    IsA(e, uri, name) && (child.None? || Named(Elements(e), child.value) != [])
  }

  /** XPath `//a[@xmlns=uri]...` `queryForNodes(e)[0]`: the first root
      match in document (pre-)order, `e` itself included. */
  function FindFirst(e: Element, uri: string, name: string, child: Option<string>): (r: Option<Element>)
    decreases e, 1, 0
    ensures IsRootMatch(e, uri, name, child) ==> r == Some(e)
    ensures r.Some? ==> IsRootMatch(r.value, uri, name, child)
  {
    if IsRootMatch(e, uri, name, child) then Some(e)
    else FindFirstFrom(e, 0, uri, name, child)
  }

  function FindFirstFrom(e: Element, i: nat, uri: string, name: string, child: Option<string>): (r: Option<Element>)
    requires i <= |e.children|
    decreases e, 0, |e.children| - i
    ensures r.Some? ==> IsRootMatch(r.value, uri, name, child)
  {
    if i == |e.children| then None
    else match e.children[i]
      case Text(_) => FindFirstFrom(e, i + 1, uri, name, child)
      case Elem(c) =>
        var found := FindFirst(c, uri, name, child);
        if found.Some? then found else FindFirstFrom(e, i + 1, uri, name, child)
  }

  /** A search from child `i` on finds nothing when no later child holds a match. */
  lemma {:induction false} FindFirstFromNone(e: Element, i: nat, uri: string, name: string, child: Option<string>)
    requires i <= |e.children|
    requires forall j :: i <= j < |e.children| ==> e.children[j].Text? || FindFirst(e.children[j].el, uri, name, child).None?
    ensures FindFirstFrom(e, i, uri, name, child).None?
    decreases |e.children| - i
  {
    if i < |e.children| {
      FindFirstFromNone(e, i + 1, uri, name, child);
    }
  }

  /** A text-only element of another name holds no match. */
  lemma TextElementNoMatch(uri: string, n: string, text: string, u: string, name: string, child: Option<string>)
    requires n != name
    ensures FindFirst(TextElement(uri, n, text), u, name, child).None?
  {
    FindFirstFromNone(TextElement(uri, n, text), 0, u, name, child);
  }

  /** When exactly one element of a list has a given name, selecting by
      that name gives just that element. */
  lemma {:induction false} NamedOnly(cs: seq<Element>, name: string, k: nat)
    requires k < |cs| && cs[k].name == name
    requires forall j :: 0 <= j < |cs| && j != k ==> cs[j].name != name
    ensures Named(cs, name) == [cs[k]]
  {
    if k == 0 {
      NamedNone(cs[1..], name);
    } else {
      assert cs[0].name != name;
      NamedOnly(cs[1..], name, k - 1);
    }
  }

  /** No two elements of the list share a name. */
  predicate DistinctNames(cs: seq<Element>)
  {
    forall i, j :: 0 <= i < j < |cs| ==> cs[i].name != cs[j].name
  }

  /** Selecting by the name of an element of a list without shared names
      gives just that element. */
  lemma NamedDistinct(cs: seq<Element>, k: nat)
    requires k < |cs| && DistinctNames(cs)
    ensures Named(cs, cs[k].name) == [cs[k]]
  {
    NamedOnly(cs, cs[k].name, k);
  }

  lemma {:induction false} NamedNone(cs: seq<Element>, name: string)
    requires forall j :: 0 <= j < |cs| ==> cs[j].name != name
    ensures Named(cs, name) == []
  {
    if cs != [] {
      NamedNone(cs[1..], name);
    }
  }

  /** A two-step path through an element with exactly one child of the
      first name reaches that child's children of the second name. */
  lemma ReachGrandchild(e: Element, a: string, b: string, c: Element)
    requires Named(Elements(e), a) == [c]
    ensures Reach(e, [a, b]) == Named(Elements(c), b)
  {
    assert [a, b][1..] == [b];
    ReachChild(c, b);
    assert ReachAll([c], [b]) == Reach(c, [b]) + ReachAll([], [b]);
  }

  lemma ConcatOne(c: Element)
    ensures Concat([c]) == FirstText(c.children)
  {
    assert [c][1..] == [];
  }

  /** An element with exactly one child of a given name matches the
      one-step path to it, reaches just that child and reads its text. */
  lemma OnlyChild(e: Element, uri: string, name: string, child: string, c: Element)
    requires IsA(e, uri, name)
    requires Named(Elements(e), child) == [c]
    ensures Matches(e, uri, name, [child])
    ensures QueryNodes(e, uri, name, [child]) == [c]
    ensures QueryString(e, uri, name, [child]) == FirstText(c.children)
  {
    ReachChild(e, child);
    ConcatOne(c);
  }

  /** An element without a child of a given name does not match the path to it. */
  lemma NoChild(e: Element, uri: string, name: string, child: string)
    requires Named(Elements(e), child) == []
    ensures !Matches(e, uri, name, [child])
  {
    ReachChild(e, child);
  }

  /** In an element written with uniquely named children, each child is
      found by its name. */
  lemma WrittenChild(uri: string, name: string, cs: seq<Element>, k: nat)
    requires k < |cs| && DistinctNames(cs)
    ensures Matches(Element(uri, name, map[], Wrap(cs)), uri, name, [cs[k].name])
    ensures QueryNodes(Element(uri, name, map[], Wrap(cs)), uri, name, [cs[k].name]) == [cs[k]]
    ensures QueryString(Element(uri, name, map[], Wrap(cs)), uri, name, [cs[k].name]) == FirstText(cs[k].children)
  {
    ElementsOfWrapped(cs);
    NamedDistinct(cs, k);
    OnlyChild(Element(uri, name, map[], Wrap(cs)), uri, name, cs[k].name, cs[k]);
  }

  /** In an element written without a child of a given name, the path to it does not match. */
  lemma WrittenNoChild(uri: string, name: string, cs: seq<Element>, child: string)
    requires forall i :: 0 <= i < |cs| ==> cs[i].name != child
    ensures !Matches(Element(uri, name, map[], Wrap(cs)), uri, name, [child])
  {
    ElementsOfWrapped(cs);
    NamedNone(cs, child);
    NoChild(Element(uri, name, map[], Wrap(cs)), uri, name, child);
  }
}

=== FILE: xmpp_command_system.dfy ===
/** The chain of responsibility that answers ad-hoc command iqs
    (`xmppCommandSystem.py`): each handler decides from the command
    element alone whether it takes the iq; the one that does parses it,
    updates the state manager, asks the page manager for the next
    response and commits once the last page has been shown. */
module CommandSystem {
  import opened Wrappers
  import opened Xml
  import opened Collab
  import opened Commands
  import opened PageManager
  import SM = StateManager

  /** The four handler kinds. */
  datatype Kind = Cancel | Prev | NodeStep | Start

  /** A link of the chain: `PassThroughHandler`, or a command handler of
      some kind for one command node. */
  datatype Link = PassThrough | Handler(kind: Kind, node: string)

  /** domish `compareAttribute`: the attribute is present with this value. */
  predicate HasValue(e: Element, attr: string, value: string)
  {
    attr in e.attrs && e.attrs[attr] == value
  }

  /** `can_process` of each link, on the iq's command element. */
  predicate CanProcess(l: Link, iq: Element)
  {
    match l
    case PassThrough => false
    case Handler(kind, node) =>
      match GetCommandElement(iq)
      case None => false
      case Some(cmd) =>
        match kind
        case Cancel => HasValue(cmd, "action", "cancel") && HasValue(cmd, "node", node)
        case Prev => HasValue(cmd, "action", "prev") && HasValue(cmd, "node", node)
        case NodeStep =>
          !HasValue(cmd, "action", "prev") && !HasValue(cmd, "action", "cancel")
          && "sessionid" in cmd.attrs && HasValue(cmd, "node", node)
        case Start => "sessionid" !in cmd.attrs && HasValue(cmd, "node", node)
  }

  /** `process_iq` along a chain, each link's successor the next one:
      the position of the link that handles the iq, or None when the
      chain ends without one. */
  function Dispatch(chain: seq<Link>, iq: Element): (r: Option<nat>)
    ensures r.Some? ==> r.value < |chain| && CanProcess(chain[r.value], iq)
    ensures r.Some? ==> forall j :: 0 <= j < r.value ==> !CanProcess(chain[j], iq)
  {
    if chain == [] then None
    else if CanProcess(chain[0], iq) then Some(0)
    else match Dispatch(chain[1..], iq)
      case None => None
      case Some(i) => Some(i + 1)
  }

  /** The iq goes unhandled exactly when no link can process it. */
  lemma {:induction false} DispatchNone(chain: seq<Link>, iq: Element)
    ensures Dispatch(chain, iq).None? <==> forall j :: 0 <= j < |chain| ==> !CanProcess(chain[j], iq)
  {
    if chain != [] {
      DispatchNone(chain[1..], iq);
      if Dispatch(chain, iq).None? {
        forall j | 0 <= j < |chain| ensures !CanProcess(chain[j], iq) {
          if j > 0 { assert chain[j] == chain[1..][j - 1]; }
        }
      }
    }
  }

  /** The handling link is the first that can process the iq. */
  lemma DispatchFirst(chain: seq<Link>, iq: Element, i: nat)
    requires i < |chain| && CanProcess(chain[i], iq)
    requires forall j :: 0 <= j < i ==> !CanProcess(chain[j], iq)
    ensures Dispatch(chain, iq) == Some(i)
  {
    DispatchNone(chain, iq);
    var k := Dispatch(chain, iq).value;
    assert !(k < i) && !(i < k);
  }

  /** A pass-through link never handles an iq. */
  lemma PassThroughDelegates(chain: seq<Link>, iq: Element)
    ensures Dispatch([PassThrough] + chain, iq) == (match Dispatch(chain, iq) case None => None case Some(i) => Some(i + 1))
  {
    assert ([PassThrough] + chain)[1..] == chain;
  }

  /** Start takes only iqs without a session id and the node handler only
      iqs with one, so they never both can process an iq. */
  lemma StartNodeExclusive(iq: Element, n: string, n2: string)
    ensures !(CanProcess(Handler(Start, n), iq) && CanProcess(Handler(NodeStep, n2), iq))
  {
  }

  /** A cancel iq is never taken by the prev or node handler, and a prev
      iq never by the cancel or node handler. */
  lemma ActionHandlersExclusive(iq: Element, n: string, n2: string)
    ensures CanProcess(Handler(Cancel, n), iq) ==> !CanProcess(Handler(Prev, n2), iq) && !CanProcess(Handler(NodeStep, n2), iq)
    ensures CanProcess(Handler(Prev, n), iq) ==> !CanProcess(Handler(NodeStep, n2), iq)
  {
  }

  // ---------------------------------------------------------------- processing

  /** A handler's managers. */
  datatype Session = Session(state: SM.Manager, pages: PageState)

  /** What the world supplies to one `_process`: the values of the
      request's collab data form, if it has one; what rendering page `k`
      with state `s` yields; how the changer's own commit ends and whether
      the failure of its Deferred is a `StanzaError`; the clock reading. */
  datatype Env = Env(form: Option<SM.State>, render: (nat, SM.State) -> Result<Element, string>,
                     sent: SM.ChangerCommit, stanzaError: bool, actionOrder: seq<string>, now: string)

  /** The response sent back, the failure the returned Deferred carries,
      or the exception `_process` raises instead of returning a Deferred. */
  datatype Reply = Answer(response: Element) | Failure(reason: string) | Raised(reason: string)

  datatype Handled = Handled(session: Session, reply: Reply)

  const NoCollabForms := "No Collab forms"

  /** The `AttributeError` of calling `addCallback` on `None`, as on
      what a changer's commit or an unhandled `process_iq` returns. */
  const NoneAddCallback := "'NoneType' object has no attribute 'addCallback'"

  /** `str(error.StanzaError)`: the text of the trapped exception class. */
  const StanzaErrorClass := "<class 'twisted.words.protocols.jabber.error.StanzaError'>"

  /** `_parse_iq`: the state the handler reads, and the state manager
      after reading it. */
  function ParseIq(kind: Kind, m: SM.Manager, env: Env): (r: Result<(SM.State, SM.Manager), string>)
    ensures kind == NodeStep && env.form.None? ==> r == Err(NoCollabForms)
    ensures kind == Prev ==> (r.Err? <==> |m.merger.states| <= 1)
    ensures kind != Prev && r.Ok? ==> r.value.1 == m
  {
    match kind
    case Cancel => Ok((map[], m))
    case Start => Ok((map[], m))
    case Prev =>
      var (m1, s) := SM.Penultimate(m);
      if s.Err? then Err(s.error.reason) else Ok((s.value, m1))
    case NodeStep =>
      if env.form.None? then Err(NoCollabForms) else Ok((env.form.value, m))
  }

  /** `_manage_state`: cancel resets the state manager; prev and node
      push the state and go on with the head, the merged state; start
      does nothing. */
  function ManageState(kind: Kind, m: SM.Manager, s: SM.State): (r: (SM.State, SM.Manager))
    ensures kind == Cancel ==> r == (map[], SM.ResetManager(m))
    ensures kind == Start ==> r == (map[], m)
    ensures kind in {Prev, NodeStep} ==> r.1 == SM.Push(m, s) && SM.Head(r.1) == Ok(r.0)
    ensures kind in {Prev, NodeStep} ==> forall k :: k in s ==> k in r.0 && r.0[k] == s[k]
  {
    match kind
    case Cancel => (map[], SM.ResetManager(m))
    case Start => (map[], m)
    case _ =>
      SM.PushThenHead(m, s);
      (SM.Push(m, s).merger.data, SM.Push(m, s))
  }

  /** `_make_next_iq`: cancel, previous or next page. Cancel always ends
      on the first page and either answers or raises; on a valid page
      state the others never raise, a next page moves on past the page it
      shows and a previous page moves back by one. */
  function MakeNextIq(rule: Rule, kind: Kind, pages: PageState, iq: Element, s: SM.State, env: Env): (r: Turn)
    ensures kind == Cancel ==> r.state == PageManager.Reset(pages) && (r.reply.Replied? || r.reply.Raised?)
    ensures kind != Cancel && Valid(pages) ==> Valid(r.state) && !r.reply.Raised?
    ensures kind in {NodeStep, Start} && r.reply.Shown? ==>
              && r.state.index == pages.index + 1
              && r.reply.page == (if pages.index >= 0 then pages.index else pages.pages + pages.index)
    ensures kind == Prev && pages.index > 0 && pages.pages != 0 ==> r.state.index == pages.index - 1
  {
    var render := (k: nat) => env.render(k, s);
    match kind
    case Cancel => CancelPage(pages, iq, env.actionOrder, env.now)
    case Prev => PrevPage(rule, pages, iq, render)
    case _ => NextPage(pages, iq, render)
  }

  /** The status the error response gives its command: 'complete' as
      written, which is not a status of section 6 of XEP-0050;
      'completed' corrected. */
  function ErrorStatus(rule: Rule): string
  {
    match rule
    case AsWritten => "complete"
    case Corrected => "completed"
  }

  /** The error response of `reset(e)`: the request's command element
      reduced to node and session id, with the error status and one
      error note carrying the message. */
  function ErrorCommand(rule: Rule, cmd: Element, reason: string): (r: Element)
    ensures r.uri == CommandNs && r.name == "command"
    ensures "status" in r.attrs && r.attrs["status"] == ErrorStatus(rule)
    ensures r.attrs.Keys == (cmd.attrs.Keys * {"sessionid", "node"}) + {"status"}
    ensures r.children == [Elem(NoteToElement(Note(Text(reason), "error")))]
  {
    var copy := CopyCommandElement(cmd);
    copy.(attrs := copy.attrs["status" := ErrorStatus(rule)], children := [Elem(NoteToElement(Note(Text(reason), "error")))])
  }

  /** `reset(e)`: both managers reset, and the error response (without a
      stanza type) carrying the command. */
  function ResetWith(rule: Rule, ses: Session, iq: Element, cmd: Element, reason: string): (r: Handled)
    ensures r.session == Session(SM.ResetManager(ses.state), PageManager.Reset(ses.pages))
    ensures r.reply.Answer? && r.reply.response.children == [Elem(ErrorCommand(rule, cmd, reason))]
  {
    Handled(Session(SM.ResetManager(ses.state), PageManager.Reset(ses.pages)),
            Answer(ToResponse(iq, None, [Elem(ErrorCommand(rule, cmd, reason))])))
  }

  /** The first child node that is an element, with `c` appended to its
      children (`firstChildElement().addChild(c)`). */
  function AppendToFirstElement(ns: seq<Node>, c: Element): (r: Option<seq<Node>>)
    ensures r.Some? <==> exists i :: 0 <= i < |ns| && ns[i].Elem?
    ensures r.Some? ==> |r.value| == |ns|
  {
    if ns == [] then None
    else if ns[0].Elem? then Some([Elem(ns[0].el.(children := ns[0].el.children + [Elem(c)]))] + ns[1..])
    else match AppendToFirstElement(ns[1..], c)
      case None => None
      case Some(rest) => Some([ns[0]] + rest)
  }

  /** Only the first element child gains `c`, at the end of its own
      children; every other child is kept where it was. */
  lemma {:induction false} AppendToFirstElementSpec(ns: seq<Node>, c: Element, i: nat)
    requires i < |ns| && ns[i].Elem? && forall j :: 0 <= j < i ==> !ns[j].Elem?
    decreases i
    ensures AppendToFirstElement(ns, c)
            == Some(ns[..i] + [Elem(ns[i].el.(children := ns[i].el.children + [Elem(c)]))] + ns[i + 1..])
  {
    var x := Elem(ns[i].el.(children := ns[i].el.children + [Elem(c)]));
    if i == 0 {
      assert ns[..0] + [x] + ns[1..] == [x] + ns[1..];
    } else {
      var rest := ns[1..];
      forall j | 0 <= j < i - 1 ensures !rest[j].Elem? {
        assert rest[j] == ns[j + 1];
      }
      AppendToFirstElementSpec(rest, c, i - 1);
      assert rest[i - 1] == ns[i];
      assert [ns[0]] + rest[..i - 1] == ns[..i];
      assert rest[i..] == ns[i + 1..];
      assert [ns[0]] + (rest[..i - 1] + [x] + rest[i..]) == ns[..i] + [x] + ns[i + 1..];
    }
  }

  /** The text of the note a `StanzaError` commit failure adds: as
      written the trapped exception class, corrected the error itself. */
  function CommitNoteText(rule: Rule, reason: string): string
  {
    match rule
    case AsWritten => StanzaErrorClass
    case Corrected => reason
  }

  /** The `commit` callback: before the last page the response goes out
      as it is. After it the state manager commits. A commit that raises,
      in `head()` or in the changer's own `commit()`, fails the Deferred
      before the resets, so both managers stay as they are. Otherwise both
      managers reset: a changer returning `None` then fails on
      `addCallback`, a `StanzaError` from the changer's Deferred becomes an
      error note on the response's command, and any other failure
      propagates. */
  function CommitStep(rule: Rule, m: SM.Manager, pages: PageState, response: Element, env: Env): (r: Handled)
    ensures !Ready(pages) ==> r == Handled(Session(m, pages), Answer(response))
    ensures Ready(pages) && SM.Head(m).Err? ==> r == Handled(Session(m, pages), Failure(SM.Head(m).error.reason))
    ensures Ready(pages) && SM.Commit(m, env.sent).1 == SM.Committed(env.sent) && env.sent.RaisesNow? ==>
              r == Handled(Session(SM.Commit(m, env.sent).0, pages), Failure(env.sent.reason))
    ensures Ready(pages) && SM.Head(m).Ok? && SM.Commit(m, env.sent).1 != SM.Committed(env.sent) ==>
              r.session == Session(SM.ResetManager(m), PageManager.Reset(pages)) && r.reply.Failure?
    ensures Ready(pages) && SM.Head(m).Ok? && !env.sent.RaisesNow? ==>
              r.session.pages == PageManager.Reset(pages) && r.session.state == SM.ResetManager(m)
    ensures Ready(pages) && SM.Commit(m, env.sent).1 == SM.Committed(SM.ReturnsNone) ==> r.reply == Failure(NoneAddCallback)
    ensures Ready(pages) && SM.Commit(m, env.sent).1 == SM.Committed(SM.Returns(Succeeded)) ==> r.reply == Answer(response)
  {
    if !Ready(pages) then Handled(Session(m, pages), Answer(response))
    else
      var (m1, end) := SM.Commit(m, env.sent);
      var cleared := Session(SM.ResetManager(m1), PageManager.Reset(pages));
      match end
      case Raised(e) => Handled(Session(m1, pages), Failure(e.reason))
      case Refused(e) => Handled(cleared, Failure(e.reason))
      case Committed(RaisesNow(reason)) => Handled(Session(m1, pages), Failure(reason))
      case Committed(ReturnsNone) => Handled(cleared, Failure(NoneAddCallback))
      case Committed(Returns(Succeeded)) => Handled(cleared, Answer(response))
      case Committed(Returns(Failed(reason))) =>
        if !env.stanzaError then Handled(cleared, Failure(reason))
        else
          var note := NoteToElement(Note(Text(CommitNoteText(rule, reason)), "error"));
          match AppendToFirstElement(response.children, note)
          case None => Handled(cleared, Failure("'NoneType' object has no attribute 'addChild'"))
          case Some(children) => Handled(cleared, Answer(response.(children := children)))
  }

  /** `_process` for a handler that can process the iq: a parse failure
      and a failed page Deferred are answered by `reset`; an exception the
      page manager raises synchronously (from `_make_next_iq`, outside the
      `try`) escapes. A cancel leaves both managers reset whatever happens,
      and on a valid page state only a cancel can raise. */
  function Process(rule: Rule, kind: Kind, node: string, ses: Session, iq: Element, env: Env): (r: Handled)
    requires CanProcess(Handler(kind, node), iq)
    ensures kind == Cancel ==> r.session == Session(SM.ResetManager(ses.state), PageManager.Reset(ses.pages))
    ensures Valid(ses.pages) ==> Valid(r.session.pages)
    ensures Valid(ses.pages) && r.reply.Raised? ==> kind == Cancel
  {
    var cmd := GetCommandElement(iq).value;
    match ParseIq(kind, ses.state, env)
    case Err(reason) => ResetWith(rule, ses, iq, cmd, reason)
    case Ok((s, m1)) =>
      var (s2, m2) := ManageState(kind, m1, s);
      var turn := MakeNextIq(rule, kind, ses.pages, iq, s2, env);
      match turn.reply
      case Denied(e) => ResetWith(rule, Session(m2, turn.state), iq, cmd, Message(e))
      case Raised(e) => Handled(Session(m2, turn.state), Reply.Raised(Message(e)))
      case Shown(_, response) => CommitStep(rule, m2, turn.state, response, env)
      case Replied(response) => CommitStep(rule, m2, turn.state, response, env)
  }

  // ---------------------------------------------------------------- properties

  /** When `_parse_iq` raises, `reset(e)` answers: both managers reset and
      the request's command comes back with the error status and one
      error note holding the message; no page is asked for. */
  lemma ParseFailureResets(rule: Rule, kind: Kind, node: string, ses: Session, iq: Element, env: Env)
    requires CanProcess(Handler(kind, node), iq)
    requires ParseIq(kind, ses.state, env).Err?
    ensures var r := Process(rule, kind, node, ses, iq, env);
            && r.session == Session(SM.ResetManager(ses.state), PageManager.Reset(ses.pages))
            && r.reply.Answer?
            && r.reply.response.children == [Elem(ErrorCommand(rule, GetCommandElement(iq).value, ParseIq(kind, ses.state, env).error))]
  {
  }

  /** A cancel whose command does not read makes `cancel_page` raise: the
      exception leaves `_process`, so no answer and no error command are
      sent, although both managers have already been reset. */
  lemma BadCancelRaises(rule: Rule, node: string, ses: Session, iq: Element, env: Env)
    requires CanProcess(Handler(Cancel, node), iq)
    requires GetCommand(iq, env.now).Some? && GetCommand(iq, env.now).value.Err?
    ensures var r := Process(rule, Cancel, node, ses, iq, env);
            && r.reply == Reply.Raised(GetCommand(iq, env.now).value.error.reason)
            && r.session == Session(SM.ResetManager(ses.state), PageManager.Reset(ses.pages))
  {
  }

  /** A cancel whose command reads, with pages loaded, answers with the
      request's command marked 'canceled'. */
  lemma CancelAnswers(rule: Rule, node: string, ses: Session, iq: Element, env: Env)
    requires CanProcess(Handler(Cancel, node), iq) && ses.pages.pages != 0
    requires GetCommand(iq, env.now).Some? && GetCommand(iq, env.now).value.Ok?
    ensures var c := GetCommand(iq, env.now).value.value;
            Process(rule, Cancel, node, ses, iq, env).reply
            == Answer(Respond(iq, [Elem(CommandToElement(c.(status := Some("canceled")), env.actionOrder))]))
  {
  }

  /** A node step before the last page pushes the form's values, shows the
      next page rendered with the merged state, and commits nothing. */
  lemma StepBeforeLastPage(rule: Rule, node: string, ses: Session, iq: Element, env: Env)
    requires CanProcess(Handler(NodeStep, node), iq)
    requires env.form.Some? && Valid(ses.pages) && ses.pages.index + 1 < ses.pages.pages
    requires env.render(ses.pages.index, SM.Push(ses.state, env.form.value).merger.data).Ok?
    ensures var r := Process(rule, NodeStep, node, ses, iq, env);
            var shown := env.render(ses.pages.index, SM.Push(ses.state, env.form.value).merger.data).value;
            && r.session == Session(SM.Push(ses.state, env.form.value), ses.pages.(index := ses.pages.index + 1))
            && r.reply == Answer(Respond(iq, [Elem(shown)]))
  {
  }

  /** A node step showing the last page commits. Afterwards both managers
      start over, unless the changer's own commit raised: then the pages
      stay past the end and the state manager keeps its history, so the
      next step of the session commits again. */
  lemma LastPageCommits(rule: Rule, node: string, ses: Session, iq: Element, env: Env)
    requires CanProcess(Handler(NodeStep, node), iq)
    requires env.form.Some? && Valid(ses.pages) && ses.pages.index + 1 == ses.pages.pages
    requires env.render(ses.pages.index, SM.Push(ses.state, env.form.value).merger.data).Ok?
    ensures var r := Process(rule, NodeStep, node, ses, iq, env);
            var m := SM.Push(ses.state, env.form.value);
            var end := SM.Commit(m, env.sent);
            if end.1 == SM.Committed(env.sent) && env.sent.RaisesNow? then
              r == Handled(Session(end.0, PageState(ses.pages.pages, ses.pages.pages)), Failure(env.sent.reason))
            else
              && r.session.pages == PageState(0, ses.pages.pages)
              && r.session.state == SM.ResetManager(end.0)
              && (end.1 == SM.Committed(SM.Returns(Succeeded)) ==> r.reply.Answer?)
  {
    var m := SM.Push(ses.state, env.form.value);
    SM.PushThenHead(ses.state, env.form.value);
  }

  /** A changer whose commit raises at once, on a valid state after the
      last page, leaves both managers un-reset: the page index stays at
      the end, so the manager is still ready, and the history is kept. */
  lemma RaisingCommitKeepsManagers(rule: Rule, m: SM.Manager, pages: PageState, response: Element, env: Env)
    requires Ready(pages) && env.sent.RaisesNow?
    requires SM.Head(m).Ok? && SM.IsValid(SM.Commit(m, env.sent).0.changer)
    ensures var r := CommitStep(rule, m, pages, response, env);
            && r.session.pages == pages && Ready(r.session.pages)
            && r.session.state.merger == m.merger
            && r.reply == Failure(env.sent.reason)
  {
  }

  /** As written, the error response's command carries status 'complete',
      which the `Command` reader itself rejects. */
  lemma AsWrittenErrorUnreadable(cmd: Element, reason: string, now: string)
    requires "node" in cmd.attrs
    ensures CommandFromElement(ErrorCommand(AsWritten, cmd, reason), now) == Err(InvalidStatus("Invalid status complete"))
  {
    var e := ErrorCommand(AsWritten, cmd, reason);
    assert Attr(e, "status") == Some("complete");
    assert Attr(e, "action") == None;
    assert "complete" != AllowedStatus[1] by { assert |"complete"| != |AllowedStatus[1]|; }
    assert "complete" !in AllowedStatus;
    assert "Invalid status " + "complete" == "Invalid status complete";
  }

  /** Corrected, the error response's command reads back: status
      'completed', the request's node, and the one error note. */
  lemma CorrectedErrorReadable(cmd: Element, reason: string, now: string)
    requires "node" in cmd.attrs
    ensures var r := CommandFromElement(ErrorCommand(Corrected, cmd, reason), now);
            && r.Ok?
            && r.value.status == Some("completed") && r.value.action == None
            && r.value.node == cmd.attrs["node"]
            && r.value.notes == [Note(Text(reason), "error")]
  {
    var e := ErrorCommand(Corrected, cmd, reason);
    assert Attr(e, "status") == Some("completed");
    assert Attr(e, "action") == None;
    var note := NoteToElement(Note(Text(reason), "error"));
    assert Elements(e) == [note];
    var c := NewCommand(e.attrs["node"], Attr(e, "status"), Attr(e, "sessionid"), None, now).value;
    ReadNoteStep(c, Note(Text(reason), "error"), []);
  }

  /** A commit failing with a `StanzaError` after the last page answers
      with the response, its first element child given an error note. */
  lemma StanzaErrorNoted(rule: Rule, m: SM.Manager, pages: PageState, iq: Element, el: Element, env: Env, reason: string)
    requires Ready(pages) && env.stanzaError
    requires SM.Commit(m, env.sent).1 == SM.Committed(SM.Returns(Failed(reason)))
    ensures var note := NoteToElement(Note(Text(CommitNoteText(rule, reason)), "error"));
            CommitStep(rule, m, pages, Respond(iq, [Elem(el)]), env).reply
            == Answer(Respond(iq, [Elem(el.(children := el.children + [Elem(note)]))]))
  {
  }

  /** As written, the note carries the exception class, so two commits
      failing for different reasons answer identically. */
  lemma AsWrittenNoteLosesReason(m: SM.Manager, pages: PageState, response: Element, env: Env, r1: string, r2: string)
    requires Ready(pages) && env.stanzaError
    ensures var e1 := env.(sent := SM.Returns(Failed(r1)));
            var e2 := env.(sent := SM.Returns(Failed(r2)));
            CommitStep(AsWritten, m, pages, response, e1) == CommitStep(AsWritten, m, pages, response, e2)
  {
  }

  /** Corrected, the note carries the failure's own message. */
  lemma CorrectedNoteKeepsReason(m: SM.Manager, pages: PageState, iq: Element, el: Element, env: Env, r1: string, r2: string)
    requires Ready(pages) && env.stanzaError && r1 != r2
    requires SM.Commit(m, SM.Returns(Failed(r1))).1.Committed?
    ensures CommitStep(Corrected, m, pages, Respond(iq, [Elem(el)]), env.(sent := SM.Returns(Failed(r1))))
            != CommitStep(Corrected, m, pages, Respond(iq, [Elem(el)]), env.(sent := SM.Returns(Failed(r2))))
  {
    var n1 := NoteToElement(Note(Text(r1), "error"));
    var n2 := NoteToElement(Note(Text(r2), "error"));
    StanzaErrorNoted(Corrected, m, pages, iq, el, env.(sent := SM.Returns(Failed(r1))), r1);
    StanzaErrorNoted(Corrected, m, pages, iq, el, env.(sent := SM.Returns(Failed(r2))), r2);
    var c1 := el.children + [Elem(n1)];
    var c2 := el.children + [Elem(n2)];
    assert c1[|el.children|] != c2[|el.children|];
  }
}

=== FILE: xmpp_menu_system.dfy ===
/** The service-discovery menu of ad-hoc commands (`xmppMenuSystem.py`):
    a tree of nodes, each with the identity and features section 3 of
    XEP-0030 (Service Discovery) reports for it and the item section 4
    lists for it under its parent. */
module MenuSystem {
  import opened Wrappers
  import opened Collab
  import opened Collections

  const DiscoInfoNs := "http://jabber.org/protocol/disco#info"
  const DiscoItemsNs := "http://jabber.org/protocol/disco#items"
  const CommandNode := "command-node"

  datatype Identity = Identity(category: string, idType: string, name: string)

  /** A node's disco#info: its identifier, one identity and the features. */
  datatype Info = Info(node: string, identity: Identity, features: seq<string>)

  /** A node's disco#items entry. */
  datatype Item = Item(entity: string, node: string, name: string)

  /** What the menu holds for a node: info, item and parent (None for the top). */
  datatype Entry = Entry(info: Info, item: Item, parent: Option<string>)

  datatype Menu = Menu(menus: map<string, Entry>, top: string)

  /** `_addTriple`'s entry: every node supports info and items; a
      command node also supports ad-hoc commands. */
  function MakeEntry(entity: string, node: string, category: string, idType: string, name: string,
                     parent: Option<string>): (r: Entry)
    ensures r.info.node == node && r.item.node == node && r.parent == parent
    ensures DiscoInfoNs in r.info.features && DiscoItemsNs in r.info.features
    ensures CommandNs in r.info.features <==> idType == CommandNode
    ensures r.item == Item(entity, node, name) && r.info.identity == Identity(category, idType, name)
  {
    var features := [DiscoInfoNs, DiscoItemsNs] + (if idType == CommandNode then [CommandNs] else []);
    Entry(Info(node, Identity(category, idType, name), features), Item(entity, node, name), parent)
  }

  /** The `XmppMenuSystem` constructor: only the top node. */
  function NewMenu(entity: string, node: string, category: string, idType: string, name: string): (r: Menu)
    ensures r.menus.Keys == {node} && r.top == node && r.menus[node].parent == None
    ensures WellFormed(r)
  {
    Menu(map[node := MakeEntry(entity, node, category, idType, name, None)], node)
  }

  /** Each entry is filed under its own identifier, the top is present
      without a parent, and every other node's parent is present. */
  predicate WellFormed(m: Menu)
  {
    && m.top in m.menus && m.menus[m.top].parent == None
    && (forall k :: k in m.menus ==> m.menus[k].info.node == k && m.menus[k].item.node == k)
    && (forall k :: k in m.menus && k != m.top ==> m.menus[k].parent.Some? && m.menus[k].parent.value in m.menus)
  }

  /** `addSubMenu`: a new identifier under a present parent (the top
      when none is named); otherwise a `KeyError`, the menu unchanged. */
  function AddSubMenu(m: Menu, entity: string, node: string, parentNode: string, category: string, idType: string,
                      name: string): (r: Result<Menu, string>)
    ensures r.Err? <==> node in m.menus || (if parentNode != "" then parentNode else m.top) !in m.menus
    ensures node in m.menus ==> r == Err("nodeIdentifier " + node + " already present")
    ensures r.Ok? ==> r.value.top == m.top && r.value.menus.Keys == m.menus.Keys + {node}
    ensures r.Ok? ==> forall k :: k in m.menus ==> r.value.menus[k] == m.menus[k]
    ensures r.Ok? ==> r.value.menus[node].parent == Some(if parentNode != "" then parentNode else m.top)
    ensures r.Ok? && WellFormed(m) ==> WellFormed(r.value)
  {
    if node in m.menus then Err("nodeIdentifier " + node + " already present")
    else
      var parent := if parentNode != "" then parentNode else m.top;
      if parent !in m.menus then Err("parent " + parent + " not present")
      else Ok(m.(menus := m.menus[node := MakeEntry(entity, node, category, idType, name, Some(parent))]))
  }

  /** `getChildItems`: the items of the nodes whose parent is `parent`,
      in the iteration order `order` of the menu's identifiers. */
  function ChildItems(m: Menu, parent: string, order: seq<string>): (r: Result<seq<Item>, string>)
    ensures r.Err? <==> parent !in m.menus
    ensures r.Err? ==> r.error == "parent " + parent + " not present"
  {
    if parent !in m.menus then Err("parent " + parent + " not present")
    else Ok(ChildrenIn(m, parent, order))
  }

  function ChildrenIn(m: Menu, parent: string, order: seq<string>): (r: seq<Item>)
    ensures |r| <= |order|
  {
    if order == [] then []
    else
      var k := order[0];
      (if k in m.menus && m.menus[k].parent == Some(parent) then [m.menus[k].item] else [])
      + ChildrenIn(m, parent, order[1..])
  }

  lemma {:induction false} ChildrenInMembers(m: Menu, parent: string, order: seq<string>, x: Item)
    ensures x in ChildrenIn(m, parent, order) <==>
              exists i :: 0 <= i < |order| && order[i] in m.menus && m.menus[order[i]].parent == Some(parent)
                          && m.menus[order[i]].item == x
  {
    if order != [] {
      ChildrenInMembers(m, parent, order[1..], x);
      if exists i :: 0 <= i < |order[1..]| && order[1..][i] in m.menus && m.menus[order[1..][i]].parent == Some(parent)
                     && m.menus[order[1..][i]].item == x {
        var i :| 0 <= i < |order[1..]| && order[1..][i] in m.menus && m.menus[order[1..][i]].parent == Some(parent)
                 && m.menus[order[1..][i]].item == x;
        assert order[i + 1] == order[1..][i];
      }
      if exists i :: 0 <= i < |order| && order[i] in m.menus && m.menus[order[i]].parent == Some(parent)
                     && m.menus[order[i]].item == x {
        var i :| 0 <= i < |order| && order[i] in m.menus && m.menus[order[i]].parent == Some(parent)
                 && m.menus[order[i]].item == x;
        if i > 0 { assert order[1..][i - 1] == order[i]; }
      }
    }
  }

  /** A node's item is listed under `parent` exactly when `parent` is
      its parent. */
  lemma ChildItemsSpec(m: Menu, parent: string, order: seq<string>, k: string)
    requires WellFormed(m) && parent in m.menus && IsOrder(order, m.menus.Keys) && k in m.menus
    ensures m.menus[k].item in ChildItems(m, parent, order).value <==> m.menus[k].parent == Some(parent)
  {
    ChildrenInMembers(m, parent, order, m.menus[k].item);
    if m.menus[k].parent == Some(parent) {
      var i :| 0 <= i < |order| && order[i] == k;
    }
  }

  /** Every listed item belongs to a node whose parent is `parent`. */
  lemma ChildItemsOnlyChildren(m: Menu, parent: string, order: seq<string>, x: Item)
    requires WellFormed(m) && parent in m.menus
    requires x in ChildItems(m, parent, order).value
    ensures x.node in m.menus && m.menus[x.node].parent == Some(parent) && m.menus[x.node].item == x
  {
    ChildrenInMembers(m, parent, order, x);
  }

  /** `__len__`: every node, the top included. */
  function Size(m: Menu): (n: nat)
    ensures WellFormed(m) ==> n >= 1
  {
    |m.menus|
  }

  /** `__getitem__`: a node's entry; `KeyError` when absent. */
  function Lookup(m: Menu, k: string): (r: Option<Entry>)
    ensures r.Some? <==> k in m.menus
    ensures r.Some? ==> r.value == m.menus[k]
  {
    if k in m.menus then Some(m.menus[k]) else None
  }

  /** `__delitem__`: removal; an absent key is ignored. */
  function Delete(m: Menu, k: string): (r: Menu)
    ensures r.menus.Keys == m.menus.Keys - {k} && r.top == m.top
    ensures forall j :: j in r.menus ==> r.menus[j] == m.menus[j]
    ensures k !in m.menus ==> r == m
  {
    if k in m.menus then m.(menus := m.menus - {k}) else m
  }

  /** Adding a node grows the menu by one; deleting it again restores it. */
  lemma AddThenDelete(m: Menu, entity: string, node: string, parentNode: string, category: string, idType: string,
                      name: string)
    requires AddSubMenu(m, entity, node, parentNode, category, idType, name).Ok?
    ensures var r := AddSubMenu(m, entity, node, parentNode, category, idType, name).value;
            Size(r) == Size(m) + 1 && Delete(r, node) == m
  {
    var r := AddSubMenu(m, entity, node, parentNode, category, idType, name).value;
    SameMap(Delete(r, node).menus, m.menus);
  }
}
